=== FILE: README.md ===
# TrguiNG core model

TrguiNG is a desktop and web front end for the Transmission BitTorrent
daemon. A Tauri (Rust) backend sits beside a React (TypeScript) interface.
This project models the logic of both halves in Dafny and proves what that
logic promises.

**Backend**

- `torrent_cache.dfy`: the completion inspector. It compares every
  `torrent-get` reply with the snapshot stored for its origin. It reports
  torrents that moved from downloading to seeding. On a partial update it
  carries forward the torrents the reply left out.
- `ipc.dfy`: the local control server. It covers:
  - CORS header synthesis;
  - the content-type gate and the route table;
  - the `url=` query of the proxy and the outcome of a proxied call;
  - validation of the IP list for geo-IP lookups;
  - the single-permit gate that hands a second instance's arguments to the
    running one.
- `poller.dfy`: the background poller. It covers the registry of polled
  servers, the classification of a poll's outcome, and one polling cycle
  with Transmission's 409 session-token retry.
- `create_torrent.dfy`: the registry of torrent-creation requests, with its
  `add`, `check`, `cancel` and `save` transitions and the announce-list
  normalisation.
- `commands.dfy`: window-label ids, tracker-tier flattening, the size guard
  of `read_file`, and the `.torrent` guard of `remove_file`.

**Front end**

- `file_tree.dfy`: the cached file tree of a torrent, as a class. It covers
  lookup, aggregate recomputation, parsing, renaming, wanted and selection
  propagation, and file-index collection.
- `trutil.dfy` and `util.dfy`: path delimiters, path mapping between server
  and client, list reordering, magnet links, tracker-tier merging, safe file
  names, the duration string and the progress-bar style.
- `filters.dfy`: the status filters, the label and tracker counts, and the
  expanded-directory reducer. It also covers the directory tree: building,
  single-child squashing and preorder flattening.
- `server_view.dfy`: the selected-torrent reducer, the filter reducer, the
  search filter and the effect that recomputes the listed torrents.
- `table_common.dfy`: the standard selection reducer, the row-click rule,
  column-order sanitisation and column visibility.
- `torrent_table.dfy`: the fields requested for the visible columns, and
  the ETA, status and tracker-status cells.
- `file_tree_table.dfy`: search terms, the recursive search filter, the
  selection reducer and the file ids sent for the selected rows.
- `edit_trackers.dfy`: tracker-list cleaning, the add and remove lists for
  old daemons, and the default trackers.
- `daemon.dfy`: the "hh:mm" time inputs and the weekday bitmask.
- `settings.dfy`: the server list buttons, path-mapping lines, and the name
  and URL validation.
- `pieces_canvas.dfy`: the wanted pieces, the have-bit test (BEP 3
  bitfield), the cell colour and the drawing loop.
- `torrent_rpc.dfy`: the torrent error, the tracker state, the main
  tracker, the seed and peer totals, and the peer-flag decoding.
- `config.dfy`: recent save directories, open-tab sanitisation and the
  server getters.
- `server_tabs.dfy`: opening, closing and cycling tabs, following the
  servers when they change, and the background poller configs.
- `i18n.dfy`: mapping a locale to a supported language (primary subtag,
  section 2.1 of RFC 5646) and the check made before a language switch.
- `i18n_coverage.dfy`: the translation coverage script. It covers key
  extraction, nested lookup, the missing, extra and empty keys, and the
  exit status.

**Shared code**

- `common.dfy` holds the shared vocabulary: `Option`, `Result`, the
  Transmission status codes, and the JavaScript and Rust string and
  sequence operations the code relies on.

**How the code is written in Dafny**

- Code that changes objects in place becomes classes with `modifies`
  clauses: the cache, the control server's gate, the poller, the creation
  registry, the file tree, the configuration and the settings server list.
  Each method is proved against a specification function, and the
  properties are proved about that function.
- Loops in the source stay loops, with their invariants.
- Pure code becomes functions and lemmas.
- JavaScript `Map`s and `Set`s keep insertion order, so they are
  sequences.
- Rust `HashMap`s are maps. Where the source iterates over one, the model
  picks the next key with `:|`, in no fixed order, and the contracts hold
  whatever order is picked.

**Behaviour worth noting**

- A zero-length wanted file marks the piece that holds its start offset
  (src/components/piecescanvas.tsx:45-50), although it shares no byte
  with it.
  `PiecesCanvas.EmptyFileMarksItsPiece` states this; the overlap of a file
  with a piece is proved for files of positive length.
- `getNestedValue` (scripts/check-i18n-coverage.js:67-71) also indexes
  arrays, by a numeral key.
- The coverage script exits 1 not only for incomplete translations in
  strict mode but also when the locales directory or the source file is
  missing, or when the source file does not parse.
- src/config.ts:183 `setOpenTabs` takes one argument and the app config
  has no `lastTab`, yet src/components/servertabs.tsx:47,51 calls
  `config.setOpenTabs(tabs, current)` and reads `app.lastTab`. Only the tab
  logic is modelled.

## Model

| member | source | states |
|---|---|---|
| TorrentCache.PayloadMapLastWins | src-tauri/src/torrentcache.rs:133-137 | every payload torrent is in the id map, and an id maps to the name and status of its last occurrence |
| TorrentCache.PayloadMapKeys | src-tauri/src/torrentcache.rs:133-137 | the id map holds exactly the ids the payload carries |
| TorrentCache.NextSnapshot | src-tauri/src/torrentcache.rs:131-175 | every payload torrent is stored as sent; on a partial update (at most one torrent) each stored torrent the payload does not mention is carried forward unchanged; nothing else is stored, so a full update drops absent torrents |
| TorrentCache.EmptyPayloadKeepsSnapshot | src-tauri/src/torrentcache.rs:131-168 | a payload without torrents leaves the stored snapshot as it was |
| TorrentCache.ContentEncoding | src-tauri/src/torrentcache.rs:72-94 | deflate exactly when the lower-cased Content-Encoding is "deflate", gzip exactly when it is "gzip", otherwise the body is used raw |
| TorrentCache.Cache.constructor | src-tauri/src/torrentcache.rs:49-52 | the cache starts with no snapshot for any origin |
| TorrentCache.Cache.ProcessTorrents | src-tauri/src/torrentcache.rs:122-176 | the origin's snapshot becomes NextSnapshot and no other origin's changes; with no stored snapshot nothing is notified and no sound plays; otherwise the sound is requested exactly when `sound` is set and some torrent completed (same name, old status 4, new status above 4), and with `toast` each completing id is notified once |
| TorrentCache.Cache.ProcessResponse | src-tauri/src/torrentcache.rs:57-120 | the reply is rebuilt from the original status, version, headers and undecoded body; the cache changes only when the decoded body parses with `arguments`, whatever `result` says, and then as ProcessTorrents does |
| IpcServer.CorsAllowOrigin | src-tauri/src/ipc.rs:88-99 | after CORS the response's allow-origin values are exactly the request Origin when it is one of the allowed origins, and none otherwise; earlier allow-origin values are removed |
| IpcServer.CorsAllowHeaders | src-tauri/src/ipc.rs:100-101 | "*" is appended to whatever allow-headers values the response had |
| IpcServer.CorsExposeHeaders | src-tauri/src/ipc.rs:102-107 | the session-id header is exposed exactly when the response exposed nothing; existing expose values are kept |
| IpcServer.CorsAllowMethods | src-tauri/src/ipc.rs:108-111 | "POST, OPTIONS" is appended to the allow-methods values |
| IpcServer.CorsOtherHeaders | src-tauri/src/ipc.rs:88-112 | no header outside the four CORS names changes |
| IpcServer.RouteOf | src-tauri/src/ipc.rs:123-158 | a non-OPTIONS request whose Content-Type is not "application/json" is refused; OPTIONS on any path is the preflight; POST /args, /post, /torrentget and /iplookup route to their handlers; everything else is not found (each both ways) |
| IpcServer.FindUrl | src-tauri/src/ipc.rs:217-223 | none exactly when no query segment has the key `url`; otherwise the value of the first segment that does |
| IpcServer.ForwardRequest | src-tauri/src/ipc.rs:227-244 | the forwarded request goes to the decoded url with the same body, a JSON content type, and the session-id and authorization headers of the incoming request when present |
| IpcServer.ProxyFetch | src-tauri/src/ipc.rs:207-288 | no query gives "no query parameters", no `url` segment gives "no url query parameter"; otherwise exactly `ForwardRequest` of the decoded first `url` value, the incoming headers and the body is sent, the reply is exactly `SentResponse` of the send outcome, and the reply is inspected for completions exactly on /torrentget when the status is 2xx and the body was read, with the toast and sound flags from the request headers |
| IpcServer.SentResponseCors | src-tauri/src/ipc.rs:246-280 | every proxied reply carries CORS headers except a send failure that is not a timeout |
| IpcServer.IpErrorLines | src-tauri/src/ipc.rs:171-182 | empty exactly when every entry parses as an IP address; each bad entry gives a line "entry: error", and every line comes from a bad entry |
| IpcServer.IpErrorLinesConcat | src-tauri/src/ipc.rs:171-182 | the lines of two lists one after the other are the lines of the first followed by those of the second, so the lines follow input order |
| IpcServer.IpErrorLinesSingle | src-tauri/src/ipc.rs:171-182 | one entry gives the line "entry: error" when it is not an address and no line when it is |
| IpcServer.ParsedIps | src-tauri/src/ipc.rs:187 | when every entry parses, the addresses are the parse results, one per entry in order |
| IpcServer.GeoipLookup | src-tauri/src/ipc.rs:161-205 | a body that is not a JSON array of strings gives "Can not parse json: …"; a lookup happens exactly when every entry is an address, of exactly the parsed addresses in order, and answers 200 with CORS and the lookup's JSON, or "Error serializing response" when that fails; otherwise the reply names every bad entry, one per line |
| IpcServer.Handle | src-tauri/src/ipc.rs:118-158 | the whole handler: content-type refusal, /args delivers the body and answers "TrguiNG OK", preflight answers 200 with CORS, unknown routes answer 404; the proxy routes answer exactly what ProxyFetch gives (inspecting replies only on /torrentget) and /iplookup exactly what GeoipLookup gives |
| IpcServer.Ipc.constructor | src-tauri/src/ipc.rs:380-388 | not listening, no listener, no stop signal, permit not held |
| IpcServer.Ipc.Init | src-tauri/src/ipc.rs:390-397 | the permit is taken; listening and the listener are set exactly when binding succeeded |
| IpcServer.Ipc.Listen | src-tauri/src/ipc.rs:399-416 | not listening gives Err("No TCP listener") and changes nothing; otherwise the listener is handed to the server and a stop signal is kept |
| IpcServer.Ipc.Start | src-tauri/src/ipc.rs:418-420 | the permit is released; nothing else changes |
| IpcServer.Ipc.Pause | src-tauri/src/ipc.rs:422-426 | the permit is held afterwards, taken only if it was not held |
| IpcServer.Ipc.Stop | src-tauri/src/ipc.rs:428-434 | a held stop signal is fired once; afterwards nothing listens and no listener or signal is kept |
| IpcServer.Ipc.Send | src-tauri/src/ipc.rs:436-471 | the process exits after sending exactly when this instance is not listening |
| IpcServer.Ipc.HandleArgs | src-tauri/src/ipc.rs:133-146 | the /args payload is delivered exactly when the front end has released the permit; the permit count is restored afterwards |
| Poller.RegistryKeys | src-tauri/src/poller.rs:73-93 | a name is registered exactly when some config in the list carries it |
| Poller.RegistryLastWins | src-tauri/src/poller.rs:86-93 | a name is registered under the last config carrying it |
| Poller.Poller.constructor | src-tauri/src/poller.rs:52-57 | no configs, both flags off, no app handle, no task spawned or aborted |
| Poller.Poller.SetAppHandle | src-tauri/src/poller.rs:60-62 | the app handle is set; nothing else changes |
| Poller.Poller.AddConfig | src-tauri/src/poller.rs:78-95 | with an app handle the config is registered under its name with a fresh task and no session token, replacing an older entry; without one nothing changes |
| Poller.Poller.SetConfigs | src-tauri/src/poller.rs:64-76 | the flags are stored, every task registered before is aborted, and the registry holds exactly the new configs by name (later wins), each with no token and a task spawned now; with no app handle the registry is empty |
| Poller.Poller.Cycle | src-tauri/src/poller.rs:111-142 | the first request carries the stored token; a 409 triggers exactly one retry carrying the token the 409 sent; the stored token is replaced only on a successful reply, and by that reply's token |
| Poller.HeaderText | src-tauri/src/poller.rs:201-203 | a header value is read as itself exactly when it is visible ASCII or tabs, and as "" otherwise |
| Poller.Classify | src-tauri/src/poller.rs:187-222 | a 2xx reply is inspected and gives its token; a 409 gives its token as a retry hint; any other status or a transport error gives no token (each both ways) |
| Poller.CycleTokenOnSuccess | src-tauri/src/poller.rs:122-141 | a token is stored exactly when the first request succeeded, or it got 409 and the retry succeeded, and it is the succeeding reply's token |
| Poller.RequestHeaders | src-tauri/src/poller.rs:162-180 | the poll request accepts gzip and deflate, carries the stored token when there is one, and carries Basic credentials exactly when the username or password is non-empty |
| Poller.InspectedHeaders | src-tauri/src/poller.rs:192-195 | the reply reaches the inspector with the polled URL appended as X-Original-URL |
| CreateTorrent.SplitOnEmpty | src-tauri/src/createtorrent.rs:80-82 | splitting the announce lines on empty lines gives at least one part, and no part holds an empty line |
| CreateTorrent.JoinSplitOnEmpty | src-tauri/src/createtorrent.rs:80-82 | joining the parts again with one empty line between them gives the original lines back |
| CreateTorrent.FlattenSplitOnEmpty | src-tauri/src/createtorrent.rs:80-82 | the parts hold exactly the non-empty lines, in order |
| CreateTorrent.FlattenDropsEmptyTiers | src-tauri/src/createtorrent.rs:83 | dropping empty tiers loses no tracker |
| CreateTorrent.SplitOnEmptyJoin | src-tauri/src/createtorrent.rs:80-82 | splitting on empty lines inverts joining with one empty line, for parts free of empty lines |
| CreateTorrent.AnnounceTiers | src-tauri/src/createtorrent.rs:80-85 | every announce tier is non-empty and holds no empty line, and the tiers are the parts between empty lines with the empty parts dropped |
| CreateTorrent.AnnounceTiersOfJoined | src-tauri/src/createtorrent.rs:80-85 | non-empty tiers written with one empty line between them come back as exactly those tiers, so tier boundaries fall at the empty lines |
| CreateTorrent.AnnounceTiersLines | src-tauri/src/createtorrent.rs:80-85 | the announce tiers hold exactly the non-empty announce lines, in order |
| CreateTorrent.Spec | src-tauri/src/createtorrent.rs:72-122 | the builder gets the name, path and piece length of the request, the first announce line as announce, the tiers exactly when the announce list is non-empty (the parts between empty lines with the empty parts dropped, which hold exactly the non-empty announce lines, in order), the non-empty web seeds exactly when there is one, a comment and a source exactly when they are non-empty, the private flag, "TrguiNG <version>" as creator and the current time |
| CreateTorrent.Settle | src-tauri/src/createtorrent.rs:135-143 | collecting a finished build changes only the id's entry, keeps the key set, and leaves no finished build behind as building |
| CreateTorrent.SettleOnce | src-tauri/src/createtorrent.rs:135-143 | collecting twice is the same as collecting once |
| CreateTorrent.CreationRequests.constructor | src-tauri/src/createtorrent.rs:63-66 | no requests |
| CreateTorrent.CreationRequests.Add | src-tauri/src/createtorrent.rs:72-132 | a refused build changes nothing and returns the builder's error; otherwise the new build takes the id's slot and a build it displaces is cancelled |
| CreateTorrent.CreationRequests.Check | src-tauri/src/createtorrent.rs:134-156 | a finished build is first collected into its result; the reply is progress, the info hash, the error or not-found, according to the entry |
| CreateTorrent.CreationRequests.Cancel | src-tauri/src/createtorrent.rs:158-167 | the id's entry is removed and cancelled if still building; an unknown id gives "Torrent build request not found" |
| CreateTorrent.CreationRequests.Save | src-tauri/src/createtorrent.rs:169-175 | the id's entry is removed whatever it holds; the file is written only from a successful result, otherwise "Torrent build request not found" |
| Commands.ParseI32 | src-tauri/src/commands.rs:149-151 | a parsed id is a 32-bit integer written as an optional sign and digits; "", "+" and "-" do not parse |
| Commands.ParseIntToString | src-tauri/src/commands.rs:149-151 | every 32-bit integer written in decimal parses back to itself |
| Commands.WindowId | src-tauri/src/commands.rs:143-151 | a label gives an id exactly when it has one "-" and the part after it is a 32-bit integer, and the id is that part's value as `parse::<i32>` reads it ("w-007" gives 7); every failure is "Incorrect window label" |
| Commands.WindowIdOfLabel | src-tauri/src/commands.rs:143-151 | "<prefix>-<n>" with a dash-free prefix gives n for n >= 0, and is refused for negative n, whose minus sign is a second dash |
| Commands.CreateTorrentCommand | src-tauri/src/commands.rs:137-157 | a bad label changes nothing; otherwise the request is added under the label's id |
| Commands.CheckCreateTorrentCommand | src-tauri/src/commands.rs:159-177 | a bad label changes nothing; otherwise the id is checked as CreationRequests.Check does |
| Commands.CancelCreateTorrentCommand | src-tauri/src/commands.rs:179-197 | a bad label changes nothing; otherwise the id is cancelled |
| Commands.SaveCreateTorrentCommand | src-tauri/src/commands.rs:199-218 | a bad label changes nothing; otherwise the id's torrent is saved |
| Commands.Trackers | src-tauri/src/commands.rs:67-78 | the tracker lines are the tiers with one empty line before every tier that follows written lines, else the announce URL, else none |
| Commands.TierLinesJoin | src-tauri/src/commands.rs:69-75 | for non-empty tiers the lines are the tiers joined by single empty lines |
| Commands.SplitJoinTiers | src-tauri/src/createtorrent.rs:80-82 | splitting joined tiers without empty lines gives the tiers back |
| Commands.TierLinesRoundTrip | src-tauri/src/commands.rs:69-75 | reading a file's tiers as lines and building announce tiers from those lines gives the same tiers back |
| Commands.ReadFile | src-tauri/src/commands.rs:46-98 | an unreadable file gives "Failed to read file", one above 10 MiB gives "File is too large", one that does not parse gives "Failed to parse torrent"; success happens exactly otherwise, with the path, the base64 metadata, name, length, hash, files and tracker lines |
| Commands.TorrentPathAnyCase | src-tauri/src/commands.rs:102 | a path ending in ".torrent" in any letter case is deleted |
| Commands.RemoveFile | src-tauri/src/commands.rs:100-105 | deletion is attempted exactly for paths ending in ".torrent" in any letter case, and a failure is reported only for an attempted deletion |
| TrUtil.EnsurePathDelimiter | src/trutil.ts:83-91 | "" stays ""; otherwise the result ends with the path's delimiter (a backslash once the path holds one, else "/"), appended only when missing |
| TrUtil.EnsurePathDelimiterIdempotent | src/trutil.ts:83-91 | adding the delimiter twice is adding it once |
| TrUtil.SwapElements | src/trutil.ts:98-102 | in place: two distinct in-range indexes swap their elements and nothing else changes; otherwise the array is unchanged; always a permutation |
| TrUtil.SpliceIndex | src/trutil.ts:104-110 | an index is clamped into the list the way `splice` reads it, a negative one counting from the end |
| TrUtil.ReorderElements | src/trutil.ts:104-110 | a permutation of the list in which the element at the start index sits at the end index, and taking it out of both leaves the same list |
| TrUtil.MapPath | src/trutil.ts:116-138 | the loop over the mappings stops at the first that applies, and the result is its target followed by the rest of the path; no mapping leaves the path as it was |
| TrUtil.NormalizePath | src/trutil.ts:112-114 | each backslash becomes a slash and every other character stays where it is |
| TrUtil.PathMapFromServer | src/trutil.ts:116-126 | server to client mapping: the first mapping whose non-empty `from` prefixes the normalised path |
| TrUtil.PathMapToServer | src/trutil.ts:128-138 | client to server mapping: the first mapping whose non-empty `to` prefixes the normalised path |
| TrUtil.PathMapRoundTrip | src/trutil.ts:116-138 | with one mapping, a server path under `from` mapped to the client and back is the original path |
| TrUtil.ParseParam | src/trutil.ts:150-153 | a parameter is cut at its first "=", the key holding none; without "=" the key is empty and the value is the whole parameter |
| TrUtil.MagnetParams | src/trutil.ts:150 | the text after the eight-character prefix splits into at least one parameter |
| TrUtil.ParamsOf | src/trutil.ts:150-153 | each '&'-separated piece is parsed on its own, in order |
| TrUtil.DecodeMagnetLink | src/trutil.ts:149-167 | the hash is that of the first `xt` parameter, lower-cased, when it starts "urn:btih:", else ""; the trackers are the non-empty `tr` values, decoded, in order |
| TrUtil.DecodeValues | src/trutil.ts:161 | one decoded value per parameter, in order |
| TrUtil.SplitJoin | src/trutil.ts:150 | splitting parts joined by a separator that none holds gives the parts back |
| TrUtil.MagnetLinkParams | src/trutil.ts:150-153 | the parameters of a built link are the hash parameter and one per tracker |
| TrUtil.MagnetRoundTrip | src/trutil.ts:149-167 | decoding the magnet link of a lower-case hash and non-empty trackers gives back that hash and those trackers |
| TrUtil.TrackerSetPush | src/trutil.ts:170-171 | the trackers of a tier list grow by exactly the trackers of an appended tier |
| TrUtil.MergeTrackerLists | src/trutil.ts:169-192 | existing tiers only grow, tiers past the new list stay as they were, added tiers are non-empty, the result holds exactly the trackers of both lists, no tracker that was present is added again, and a tracker added to an existing tier comes from the new tier of the same index |
| TrUtil.AddTier | src/trutil.ts:176-181 | a new tier past the existing ones is added only when some of its trackers are not yet present, and holds exactly those |
| TrUtil.ExtendTier | src/trutil.ts:182-188 | an existing tier gets the new tier's trackers that are not yet present appended; no other tier changes |
| TrUtil.FileSystemSafeName | src/trutil.ts:197-201 | each of < > : " \ / \| ? * becomes "_", every other character stays, and no bad character is left |
| TrUtil.FileSystemSafeNameIdempotent | src/trutil.ts:197-201 | making a safe name safe again changes nothing |
| TrUtil.DurationTenDays | src/trutil.ts:52-69 | ten days or more show only the days |
| TrUtil.DurationDays | src/trutil.ts:52-69 | one to nine days show the days and the hours, nothing finer |
| TrUtil.DurationHours | src/trutil.ts:52-69 | under a day but at least an hour shows hours and minutes, no seconds |
| TrUtil.DurationMinutes | src/trutil.ts:52-69 | under an hour shows minutes and seconds, and zero shows nothing |
| TrUtil.TorrentProgressbarStyle | src/trutil.ts:207-233 | animated exactly when enabled and the torrent moves data; with colours on, an error gives red, a stopped non-empty torrent dark green when complete and yellow otherwise, seeding green, queued grey; with colours off the default (each both ways) |
| Util.NormalizePath | src/util.ts:95-99 | backslashes become slashes; a path that then starts with a drive letter, ":" and "/" is lower-cased as a whole, and any other path is left as the plain normalisation gives it |
| Util.NormalizePathIdempotent | src/util.ts:95-99 | normalising twice is normalising once |
| Util.NormalizeDriveIgnoresCase | src/util.ts:95-99 | two drive paths differing only in letter case normalise alike |
| Util.DriveMappingIgnoresCase | src/util.ts:101-123 | on a drive path, a mapping whose prefix matches up to letter case applies |
| Util.PathMapFromServer | src/util.ts:101-111 | server to client mapping with the case-folding normalisation: the first applicable mapping wins |
| Util.PathMapToServer | src/util.ts:113-123 | client to server mapping with the case-folding normalisation: the first applicable mapping wins |
| Util.DrivePathMapRoundTrip | src/util.ts:101-123 | with one mapping between two drive paths, a server path under `from` mapped to the client and back is the original path |
| FileTree.SubdirIndex | src/cachedfiletree.ts:95-96 | the position of the sub-directory with the given name, or -1 when none has it, as a Map lookup by name finds it |
| FileTree.FileIndex | src/cachedfiletree.ts:97-98 | the position of the file entry with the given name, or -1 when none has it |
| FileTree.CachedFileTree.constructor | src/cachedfiletree.ts:63-88 | the hash and id are stored; the tree is the empty root (wanted, priority 0), with no files, no path index and not initialised |
| FileTree.CachedFileTree.Reset | src/cachedfiletree.ts:69-88 | the tree, files, path index and initialised flag return to their first state; hash and id stay |
| FileTree.CachedFileTree.FindEntry | src/cachedfiletree.ts:90-104 | the loop gives the entry Lookup defines: a first component equal to the root's path is skipped, a sub-directory is entered, a file of that name is the answer at once, anything else is a miss |
| FileTree.CachedFileTree.RecalcTree | src/cachedfiletree.ts:106-130 | the tree becomes its bottom-up recomputation; nothing else changes |
| FileTree.AllFilesHolds | src/cachedfiletree.ts:106-130 | a file is among the files collected from a subtree exactly when the subtree holds it |
| FileTree.RecalcSums | src/cachedfiletree.ts:106-127 | after recomputation a directory's size and done are the sums over every file below it |
| FileTree.Agreed | src/cachedfiletree.ts:112-129 | the common value when every child agrees (a set of one element), otherwise none |
| FileTree.RecalcWant | src/cachedfiletree.ts:118-128 | a directory that comes out wanted (or unwanted) has every file below it wanted (or unwanted) |
| FileTree.RecalcPriority | src/cachedfiletree.ts:119-129 | a directory that comes out with a priority has every file below it at that priority |
| FileTree.RecalcIdempotent | src/cachedfiletree.ts:106-130 | recomputing twice changes nothing more |
| FileTree.WalkRecalc | src/cachedfiletree.ts:106-130 | recomputation keeps every path leading where it led |
| FileTree.AllFilesRecalc | src/cachedfiletree.ts:106-130 | recomputation leaves the files alone |
| FileTree.CachedFileTree.Parse | src/cachedfiletree.ts:132-209 | the hash is taken from the torrent and the tree is initialised; tree, file array and path index become what Parsed gives from the previous tree and array |
| FileTree.ParsedFilesFound | src/cachedfiletree.ts:132-209 | parsing into a tree without directories, when no file path runs through another, gives every file its own path and finds it at that path, as the array element of its index |
| FileTree.CachedFileTree.InsertFiles | src/cachedfiletree.ts:168-204 | the loop over the sorted (path, index) pairs inserts each file, gives every file its level and records every path's index |
| FileTree.BaseName | src/cachedfiletree.ts:140 | the name holds no slash, ends the path, and is the whole path or follows its last slash |
| FileTree.SortPairs | src/cachedfiletree.ts:160-166 | the (path, index) pairs sorted by path, comparing characters one by one, a permutation of them |
| FileTree.SortedUnique | src/cachedfiletree.ts:160-166 | only one sorted arrangement of the pairs exists, so the result does not depend on the sort algorithm |
| FileTree.FilePathToIndexSpec | src/cachedfiletree.ts:168-171 | every file's path is recorded, with the largest index among the files of that path, and every recorded index is a file of that path |
| FileTree.InsertFinds | src/cachedfiletree.ts:172-201 | after inserting a file, its path leads to it unless a directory already stands there |
| FileTree.InsertPathFinds | src/cachedfiletree.ts:170-204 | the file of the pair just inserted is found at its path below the root, unless a directory already stands there |
| FileTree.WithLevels | src/cachedfiletree.ts:203 | each file's level is the number of directories above it |
| FileTree.DetachKeepsFiles | src/cachedfiletree.ts:135-151 | entries kept from the previous tree no longer share the new file array and keep their contents |
| FileTree.CachedFileTree.UpdatePath | src/cachedfiletree.ts:235-252 | renaming the root throws; otherwise the tree becomes RenameEntry's, and an unknown path changes nothing |
| FileTree.RenameEntry | src/cachedfiletree.ts:235-252 | an unknown path changes nothing; only renaming the root (which has no parent) fails |
| FileTree.RenamedPathParts | src/cachedfiletree.ts:239-243 | the new full path is the old one with only its last component replaced by the name |
| FileTree.RenameFindsDir | src/cachedfiletree.ts:245-247 | a renamed directory is found under the new name in its old parent |
| FileTree.RenameFindsFile | src/cachedfiletree.ts:248-251 | a renamed file is found under the new name in its old parent unless a directory of that name is there |
| FileTree.RenameMiss | src/cachedfiletree.ts:236-237 | renaming an unknown path changes nothing |
| FileTree.CachedFileTree.SetWanted | src/cachedfiletree.ts:254-278 | tree and array become what SetWantedIn gives; nothing else changes |
| FileTree.SetWantedEffect | src/cachedfiletree.ts:254-278 | afterwards every file at or below the path has the new wanted and updating flags |
| FileTree.MarkSubtreeMarksAll | src/cachedfiletree.ts:258-325 | marking a subtree, with the array elements it shares, marks every file below it |
| FileTree.WalkModifyAt | src/cachedfiletree.ts:270-275 | after marking, the entry at the path is the marked entry |
| FileTree.ChildFilesIndexes | src/cachedfiletree.ts:280-298 | an unknown path gives nothing, a file its own index, a directory exactly the indexes of the files below it |
| FileTree.GetUnwanted | src/cachedfiletree.ts:300-315 | exactly the indexes of the tree's files that are not wanted |
| FileTree.GetWantedSize | src/cachedfiletree.ts:317-319 | the total size when every file is wanted, zero when none is |
| FileTree.WantedSizeSplit | src/cachedfiletree.ts:317-319 | the wanted size plus the size of the unwanted files is the total size |
| FileTree.CachedFileTree.SelectAction | src/cachedfiletree.ts:327-351 | tree and array become what SelectActionIn gives; nothing else changes |
| FileTree.SelectOneEffect | src/cachedfiletree.ts:331-350 | a toggle of a selected entry deselects it, anything else selects it |
| FileTree.SelectionCleared | src/cachedfiletree.ts:321-367 | after clearing a subtree nothing in it is reported as selected |
| FileTree.SetClearsSelection | src/cachedfiletree.ts:328-367 | the "set" verb first leaves nothing selected in the whole tree |
| FileTree.SelectedListsMarked | src/cachedfiletree.ts:353-367 | `getSelected` lists a path exactly when the directory, a file of it or an entry below it is selected with that path |
| FileTree.SetDir | src/cachedfiletree.ts:195 | storing a directory under its name makes the name find it |
| Filters.StatusFilter | src/components/filters.tsx:47-107 | the "Completed" row accepts exactly the seeding torrents and those with a positive size whose verified bytes reach it; "Waiting" accepts exactly the verifying and queued states (1 to 3) |
| Filters.StatusFiltersRelated | src/components/filters.tsx:55-107 | running and stopped split every torrent; waiting is exactly the states between stopped and downloading; a magnetizing torrent is downloading; a downloading torrent is running and not waiting; with non-negative rates, inactive is exactly running and not active |
| Filters.DirFilter | src/components/filters.tsx:220-225 | a directory row accepts a torrent exactly when its download directory starts with the row's path, or equals that path without its trailing "/" |
| Filters.CountLabels | src/components/filters.tsx:390-398 | the label counts hold exactly the preconfigured labels and every label some torrent carries, each counted once per occurrence on a torrent (zero for an unused preconfigured label) |
| Filters.AddLabels | src/components/filters.tsx:395-398 | one torrent's labels counted in: the keys gain its labels, each count grows by its number of occurrences, a new label starting from zero |
| Filters.CountTrackers | src/components/filters.tsx:400-403 | the tracker counts hold exactly the main trackers of the torrents, each with the number of torrents the matching tracker filter accepts |
| Filters.CountLabelsAsWrittenAgrees | src/components/filters.tsx:390-398 | the plain-object counting as written gives exactly the counts `CountLabels` states when no label is a name inherited from Object.prototype |
| Filters.CountTrackersAsWrittenAgrees | src/components/filters.tsx:400-403 | the plain-object counting as written gives exactly the counts `CountTrackers` states when no main tracker is a name inherited from Object.prototype |
| Filters.InheritedLabelsAsWritten | src/components/filters.tsx:390-398 | as written, a label "constructor" gets the text of the inherited `Object` function plus "1" as its count, and a label "__proto__" gets no row, carried or preconfigured, though each is carried once |
| Filters.InheritedTrackerAsWritten | src/components/filters.tsx:400-403 | as written, a main tracker "toString" gets the text of the inherited function plus "1" as its count, though one torrent has it |
| Filters.LabelCountMatchesFilter | src/components/filters.tsx:395-398 | when no torrent repeats a label, a label's count is the number of torrents that carry it |
| Filters.ExpandedReduce | src/components/filters.tsx:367-379 | "add" appends the path; "remove" of a listed path deletes its first occurrence and nothing else; "remove" of an unlisted path (indexOf -1) gives the list without its last element followed by the whole list |
| Filters.ExpandThenCollapse | src/components/filters.tsx:367-379 | expanding a collapsed directory and collapsing it again restores the expanded-directories list |
| Filters.BuildDirTree | src/components/filters.tsx:295-321 | the loop over paths builds the tree DirTree defines, compacted when the compact-directories option is on |
| Filters.DirTreeWellFormed | src/components/filters.tsx:295-318 | in the uncompacted tree every directory below the root is one level below its parent, has a non-empty name, a path ending in its name and "/" that begins some download directory followed by "/", and is expanded exactly when its path is listed; the root is at level -1 with count 0 and an empty path |
| Filters.DirTreeCounts | src/components/filters.tsx:300-316 | the count of the directory named by a list of components is the number of paths that pass through it |
| Filters.DirTreeNodes | src/components/filters.tsx:300-316 | a directory exists exactly when some path passes through it; its count is the number of such paths, its level one less than the number of components, its name the last component, its path ends in that name and "/" and begins some listed path followed by "/", and it is expanded exactly when its path is listed |
| Filters.Squash | src/components/filters.tsx:335-348 | squashing follows the chain of lone children that have their parent's count to its end and yields that directory (its path, children and expanded flag) at the parent's level, named by every name on the chain joined by "/"; the count is kept, the result cannot be squashed further, and a directory that cannot be squashed is unchanged |
| Filters.SquashOneChild | src/components/filters.tsx:338-344 | a directory whose lone same-count child cannot be squashed further becomes that child, renamed "parent/child", at the parent's level |
| Filters.CompactAt | src/components/filters.tsx:323-333 | compaction keeps the count, puts the directory at the given level, and yields a tree in which no directory can be squashed and every child is one level below its parent |
| Filters.Compact | src/components/filters.tsx:323-333 | compacting the root keeps its count and level, leaves no directory that can be squashed, puts every child one level below its parent, and keeps the leaf directories with their paths and counts in the same order |
| Filters.LeavesCompact | src/components/filters.tsx:323-348 | compaction at any level keeps the leaf directories, in order, with their paths and counts: squashing only removes intermediate directories |
| Filters.CompactIdempotent | src/components/filters.tsx:323-348 | compacting an already compact tree with consistent levels changes nothing |
| Filters.FlattenPreorder | src/components/filters.tsx:350-360 | the listed rows are a preorder walk of the expanded part of the tree: an expanded directory with children is followed by its first child, any other by a row no deeper, and the walk starts with the first directory |
| Filters.FlattenTree | src/components/filters.tsx:350-360 | the rows shown for a tree with consistent levels form such a preorder walk, starting with the root's first child; the rows at the top level are exactly the root's children in order; and every expanded row is followed by all its children, in order, before any other row one level below it |
| Filters.FlattenTopRows | src/components/filters.tsx:352-356 | the rows listed at the directories' own level are exactly those directories in order, so no child is dropped or repeated |
| Filters.FlattenChildrenFollow | src/components/filters.tsx:352-356 | every expanded row is followed by all of its children, in order, ahead of any other row at their level |
| ServerView.ToggleAll | src/components/server.tsx:51-54 | after toggling each id of the list in turn, an id's membership has flipped exactly when it occurs an odd number of times in the list |
| ServerView.Reduced | src/components/server.tsx:38-57 | "set" selects exactly the ids; "add" gives the union with the old selection; "filter" keeps exactly the selected ids that are listed and adds none; "toggle" flips the ids occurring an odd number of times |
| ServerView.ToggleTwice | src/components/server.tsx:51-54 | toggling the same ids twice restores the selection |
| ServerView.SelectedTorrentsReducer | src/components/server.tsx:38-57 | the loops over the ids compute the selection Reduced defines for each verb |
| ServerView.WithoutId | src/components/server.tsx:107 | the filters kept are exactly those whose id differs, never more than before |
| ServerView.CurrentFiltersReduce | src/components/server.tsx:102-112 | "set" leaves only the given filter; "toggle" of an id already present removes every filter with that id and keeps the rest; "toggle" of a new id appends the filter |
| ServerView.ToggleFilterTwice | src/components/server.tsx:102-112 | toggling the same filter twice restores a list that lacked its id |
| ServerView.SearchFilter | src/components/server.tsx:117-124 | a torrent passes the search exactly when every term occurs in its lower-cased name |
| ServerView.Visible | src/components/server.tsx:163-165 | the listed torrents are exactly those every current filter and the search accept, and equal Common's order-keeping `Filter` of the full list by that test |
| ServerView.VisibleInOrder | src/components/server.tsx:163-165 | listing distributes over concatenation, so the listed torrents keep the order and the repeats of the full list |
| ServerView.Ids | src/components/server.tsx:167 | the ids of the listed torrents, position by position |
| ServerView.Refresh | src/components/server.tsx:160-171 | the effect lists the accepted torrents, as `Visible` gives them in list order, narrows the selection to the listed ids, and keeps the current torrent exactly when some torrent has its id, clearing it otherwise |
| TableCommon.Insert | src/components/tables/common.tsx:216 | a Set add: the id is present afterwards, nothing else is added, a present id leaves the list as it was, and a duplicate-free list stays duplicate-free |
| TableCommon.Delete | src/components/tables/common.tsx:209-210 | a Set delete: on a duplicate-free list the result holds exactly the other ids and stays duplicate-free |
| TableCommon.Dedup | src/components/tables/common.tsx:208-215 | `Array.from(new Set(old))`: a duplicate-free list of exactly the old ids |
| TableCommon.DedupDistinct | src/components/tables/common.tsx:208-215 | a list without repeats is its own Set |
| TableCommon.ToggleIds | src/components/tables/common.tsx:207-213 | toggling each id in turn: an id is selected afterwards exactly when its old membership differs from whether it occurs an odd number of times; no repeats arise |
| TableCommon.AddIds | src/components/tables/common.tsx:214-218 | adding each id in turn: exactly the old and the new ids, the old ones first and in their order, without repeats |
| TableCommon.StandardSelect | src/components/tables/common.tsx:203-222 | "set" yields the ids as given; "add" the union, the old selection first; "toggle" flips the ids occurring an odd number of times; "add" and "toggle" yield no repeats |
| TableCommon.StandardSelectReducer | src/components/tables/common.tsx:203-222 | the loops compute the selection StandardSelect defines |
| TableCommon.RowRange | src/components/tables/common.tsx:141-149 | the ids of the rows from the lower to the higher of the clicked row and the anchor, both included, in row order |
| TableCommon.RowRangeSymmetric | src/components/tables/common.tsx:141-149 | the range does not depend on which end is the anchor and holds both ends |
| TableCommon.GenIds | src/components/tables/common.tsx:141-149 | the loop collects the range RowRange defines |
| TableCommon.OnRowClick | src/components/tables/common.tsx:136-171 | the anchor moves to the clicked row exactly when shift is not held, the clicked row becomes current, and no selection action is dispatched exactly for a plain right click on a row already selected; a stale anchor matters only to a shift-click |
| TableCommon.ClickSelection | src/components/tables/common.tsx:151-161 | shift-click selects exactly the range (with a modifier, adds it to the selection); a modifier click flips only the clicked row; any other click selects only that row, except a right click on a selected row, which keeps the selection |
| TableCommon.AppendMissing | src/components/tables/common.tsx:317-319 | each missing id is appended in turn: the old order is kept as a prefix, the result holds exactly the old and the new ids, and no repeats arise |
| TableCommon.SanitizedColumns | src/components/tables/common.tsx:312-320 | the repaired column order holds exactly the current columns, keeps the stored order of the known ones as a prefix, and is a permutation of the columns when neither list repeats an id |
| TableCommon.SanitizedLength | src/components/tables/common.tsx:316-319 | the repaired order is at least as long as the column list, so the dragged column's index lies within it |
| TableCommon.SanitizeOrder | src/components/tables/common.tsx:316-319 | the filter and the loop give the order Sanitized defines |
| TableCommon.OnDragEnd | src/components/tables/common.tsx:312-324 | a drop outside the list changes nothing; otherwise the new order is the repaired order with the dragged column moved to the drop position, a permutation of the repaired order |
| TableCommon.ToggleColumn | src/components/tables/common.tsx:306-351 | a menu click flips whether a column other than "name" is shown, leaves "name" alone, and leaves every other column's entry as it was |
| TableCommon.ToggleColumnTwice | src/components/tables/common.tsx:306-351 | two clicks on a column restore whether it is shown; a click never changes whether "name" is shown |
| TorrentTable.Requirement | src/components/tables/torrenttable.tsx:262-267 | a column's id is its column id when it has one, else its field name, and it needs its listed fields, else only its own field |
| TorrentTable.CollectShown | src/components/tables/torrenttable.tsx:269-276 | the reduce over the columns gathers a field exactly when some column that is not hidden needs it |
| TorrentTable.CollectRequired | src/components/tables/torrenttable.tsx:268-279 | the set holds exactly the minimum fields and the fields of every column the visibility map does not hide |
| TorrentTable.SortSet | src/components/tables/torrenttable.tsx:281 | `Array.from(set).sort()`: a sorted list of exactly the set's fields |
| TorrentTable.GetRequiredFields | src/components/tables/torrenttable.tsx:268-282 | the requested fields are sorted, without repeats, and are exactly the minimum fields plus what the shown columns need |
| TorrentTable.SortedUnique | src/components/tables/torrenttable.tsx:281 | two sorted lists with the same elements are equal, so the request depends only on the set of fields |
| TorrentTable.RequiredFieldsDetermined | src/components/tables/torrenttable.tsx:268-282 | any two sorted lists of the required fields for one visibility map are the same list |
| TorrentTable.AllHiddenMinimum | src/components/tables/torrenttable.tsx:268-282 | with every column hidden, exactly the minimum fields are requested |
| TorrentTable.TrackerStatsAlwaysRequired | src/components/tables/torrenttable.tsx:105-112 | the tracker statistics are requested whatever the visibility |
| TorrentTable.EtaText | src/components/tables/torrenttable.tsx:164-169 | a non-negative ETA is shown as a duration, -1 as nothing, any other negative value as "Unknown" |
| TorrentTable.StatusText | src/components/tables/torrenttable.tsx:201-205 | the downloading status with sequential download on shows "Downloading sequentially"; any other known status shows its name; an unknown status shows "undefined" |
| TorrentTable.TrackerStatusColumn | src/components/tables/torrenttable.tsx:176-180 | the tracker status cell is the cached tracker status: empty for a stopped torrent or one without trackers |
| FileTreeTable.SearchedPath | src/components/tables/filetreetable.tsx:175 | the searched text is the lower-cased path after its first "/", or the whole lower-cased path when it has none |
| FileTreeTable.EntryMatches | src/components/tables/filetreetable.tsx:174-177 | a row matches exactly when every term occurs in its searched text |
| FileTreeTable.Searched | src/components/tables/filetreetable.tsx:361-375 | the kept rows are never more than the rows, none is kept exactly when no row or row below it matches, and their paths are the paths of the surviving rows, in order |
| FileTreeTable.KeptSurvivor | src/components/tables/filetreetable.tsx:364-372 | a row that survives the search is kept once, with its sub-rows searched in turn; any other row is dropped |
| FileTreeTable.Kept | src/components/tables/filetreetable.tsx:364-372 | a row is kept, once and with its path, exactly when it or some row below it matches; a directory is kept as a copy holding its kept sub-rows |
| FileTreeTable.SearchedNoTerms | src/components/tables/filetreetable.tsx:359-375 | without terms the filter would keep every row as it is |
| FileTreeTable.KeptRowsJustified | src/components/tables/filetreetable.tsx:364-372 | every kept row matches or still holds kept sub-rows |
| FileTreeTable.SearchData | src/components/tables/filetreetable.tsx:358-378 | without terms the table shows its rows unchanged; with terms, the filtered rows |
| FileTreeTable.SearchFilter | src/components/tables/filetreetable.tsx:361-375 | the loop with its recursive calls keeps the rows Searched defines |
| FileTreeTable.FilterRow | src/components/tables/filetreetable.tsx:363-371 | one row is kept as `Kept` says: a leaf when it matches, a directory with its kept sub-rows when some are kept or it matches |
| FileTreeTable.ParseTerms | src/components/tables/filetreetable.tsx:261-267 | the input split on spaces, each piece trimmed and lower-cased, empty pieces dropped: a text is a term exactly when it is such a non-empty piece, every term holds no space, and there are no more terms than pieces |
| FileTreeTable.ParseTermsRoundTrip | src/components/tables/filetreetable.tsx:261-267 | trimmed lower-case terms without spaces, joined by single spaces, parse back to themselves |
| FileTreeTable.SelectedReducer | src/components/tables/filetreetable.tsx:188-196 | the selection becomes the new list, and the previous array is kept exactly when the two are equal element by element |
| FileTreeTable.DeriveSelection | src/components/tables/filetreetable.tsx:199-213 | every path derived is selected, or selecting all is asked for; and every row that is taken (selected or all, and a leaf or a match) has its path derived |
| FileTreeTable.Derived | src/components/tables/filetreetable.tsx:201-209 | a row that is taken (selected or all, and a leaf or a match) gives exactly its own path; otherwise its sub-rows are tried; every path derived is selected or all are |
| FileTreeTable.DeriveSelectionCovers | src/components/tables/filetreetable.tsx:198-212 | every selected file below the rows is sent: its path or the path of a taken row above it is derived |
| FileTreeTable.SelectAllTopRows | src/components/tables/filetreetable.tsx:199-228 | selecting all without a search takes exactly the top rows' paths, in order |
| FileTreeTable.SelectedFileIds | src/components/tables/filetreetable.tsx:454-486 | the ids sent are exactly the file indexes below some selected path, each once |
| EditTrackers.Deduped | src/components/modals/edittrackers.tsx:66-72 | the cleaned list never starts with a blank line, never holds two blank lines in a row, and holds only lines of the edited list |
| EditTrackers.Trackers | src/components/modals/edittrackers.tsx:76 | the non-blank lines, exactly |
| EditTrackers.DedupedTrackers | src/components/modals/edittrackers.tsx:66-72 | the trackers of the cleaned list are the first occurrence of each tracker of the edited list, in order |
| EditTrackers.DedupedDistinct | src/components/modals/edittrackers.tsx:68 | no tracker is kept twice |
| EditTrackers.Dedup | src/components/modals/edittrackers.tsx:66-72 | the loop with its three skip rules gives the list Deduped defines |
| EditTrackers.OldDaemonChanges | src/components/modals/edittrackers.tsx:75-86 | the trackers to add are exactly the listed ones the torrent does not announce to, the ids to remove exactly those of its trackers no longer listed; each is absent exactly when it would be empty |
| EditTrackers.ChangesReachList | src/components/modals/edittrackers.tsx:75-86 | with distinct tracker ids, applying the changes leaves the torrent announcing to exactly the listed trackers |
| EditTrackers.OnSave | src/components/modals/edittrackers.tsx:64-107 | nothing is sent before the torrent's details are loaded; otherwise the cleaned list, joined by newlines, goes to every selected torrent, with additions and removals only for daemons before RPC version 17 |
| EditTrackers.EditedTorrent | src/components/modals/edittrackers.tsx:40-45 | the current torrent when it is selected, else the first selected one, and none only when nothing is selected |
| EditTrackers.AddDefaultTrackers | src/components/modals/edittrackers.tsx:109-114 | the edited text is kept as a prefix and the default trackers, joined by newlines, end the text |
| EditTrackers.DefaultTrackerLines | src/components/modals/edittrackers.tsx:109-114 | the lines afterwards are the edited lines (less an empty last line) followed by the default trackers, one per line |
| EditTrackers.DefaultTrackersSaved | src/components/modals/edittrackers.tsx:64-114 | saving after adding the defaults keeps every non-blank default tracker |
| Daemon.ParseDigits | src/components/modals/daemon.tsx:371-379 | `parseInt` of a run of decimal digits is its value, leading zeros included |
| Daemon.ParseNegative | src/components/modals/daemon.tsx:371-379 | `parseInt` of a minus sign followed by digits is the negated value |
| Daemon.ParseNaN | src/components/modals/daemon.tsx:371-380 | text that, after leading white space, starts with neither a digit nor a sign is NaN |
| Daemon.Pad2 | src/components/modals/daemon.tsx:372 | `padStart(2, "0")`: at least two characters, ending in the original text, with only "0" in front of it |
| Daemon.ToTimeStr | src/components/modals/daemon.tsx:370-373 | "NaN:NaN" when the field holds no number; otherwise the floored hours and the remainder with JavaScript's sign, each padded to two characters, around ":" |
| Daemon.FromTimeStr | src/components/modals/daemon.tsx:375-382 | exactly one ":" with a number on each side gives h * 60 + m as decimal text; the result is empty exactly otherwise |
| Daemon.TimeStrOf | src/components/modals/daemon.tsx:370-373 | a non-negative minute count shows as its hours and remaining minutes, each padded |
| Daemon.TimeStrShape | src/components/modals/daemon.tsx:370-373 | a minute of the day shows as two digits, ":", two digits |
| Daemon.TimeRoundTrip | src/components/modals/daemon.tsx:370-382 | reading back what the formatter shows for a minute of the day gives that minute |
| Daemon.SetDay | src/components/modals/daemon.tsx:398-404 | checking a day's box sets its bit and unchecking clears it, so the box then shows what was chosen |
| Daemon.SetDayOtherDays | src/components/modals/daemon.tsx:398-404 | the other days' boxes are unchanged |
| Daemon.SetDayOtherBits | src/components/modals/daemon.tsx:403 | every bit outside the day's own bit is left as it was |
| Daemon.SetDayIdempotent | src/components/modals/daemon.tsx:398-404 | setting a box to what it already shows leaves the mask unchanged |
| Settings.RemoveItem | src/components/modals/settings.tsx:90 | removing a list item drops exactly the item at the index; an index outside the list removes nothing |
| Settings.ReorderItem | src/components/modals/settings.tsx:97-106 | moving an item keeps the list's length and elements and puts the moved item at its target index |
| Settings.ReorderAdjacent | src/components/modals/settings.tsx:97-106 | moving an item one place up or down swaps it with its neighbour |
| Settings.AddServer | src/components/modals/settings.tsx:71-82 | the plus button appends the "new" entry and makes it current |
| Settings.RemoveServerAsWritten | src/components/modals/settings.tsx:86-91 | the minus button as written: the current entry is removed, and when it was the last (or the list is empty) the index becomes length - 2 |
| Settings.RemoveOnEmptyList | src/components/modals/settings.tsx:86-91 | on an empty list (index -1) the minus button leaves the index at -2, which is neither the empty placeholder nor an entry |
| Settings.RemoveServer | src/components/modals/settings.tsx:86-91 | the minus button as intended: an empty list is left alone, otherwise as written |
| Settings.MoveUp | src/components/modals/settings.tsx:94-100 | the up arrow swaps the current entry with the one above and follows it; at the top nothing changes |
| Settings.MoveDown | src/components/modals/settings.tsx:103-109 | the down arrow swaps the current entry with the one below and follows it; at the bottom nothing changes |
| Settings.ButtonsKeepValid | src/components/modals/settings.tsx:70-111 | every button, with the corrected minus, keeps the index on an entry, or at -1 exactly when the list is empty |
| Settings.RemoveDropsCurrent | src/components/modals/settings.tsx:86-91 | removing drops exactly the current entry |
| Settings.MoveKeepsEntries | src/components/modals/settings.tsx:94-109 | moving keeps the entries and keeps the same entry shown |
| Settings.MoveUpDown | src/components/modals/settings.tsx:94-109 | moving up and then down restores the list and the index |
| Settings.ServerListForm.constructor | src/components/modals/settings.tsx:303-310 | opening the dialog shows the configured servers with the first one current, or -1 when there is none |
| Settings.ServerListForm.Add | src/components/modals/settings.tsx:71-82 | the form's list and index become those AddServer gives |
| Settings.ServerListForm.Remove | src/components/modals/settings.tsx:86-91 | the form's list and index become those RemoveServer gives |
| Settings.ServerListForm.Up | src/components/modals/settings.tsx:94-100 | the form's list and index become those MoveUp gives |
| Settings.ServerListForm.Down | src/components/modals/settings.tsx:103-109 | the form's list and index become those MoveDown gives |
| Settings.ParseMapping | src/components/modals/settings.tsx:163-169 | a line splits at its first "=" into a remote part without "=" and the rest; a line without "=" maps from "" to the whole line |
| Settings.FormatMapping | src/components/modals/settings.tsx:127 | a mapping shows as its remote path, "=", its local path, the "=" standing right after the remote path |
| Settings.MappingRoundTrip | src/components/modals/settings.tsx:127-169 | a mapping whose remote path has no "=" reads back from its line unchanged |
| Settings.ParseMappings | src/components/modals/settings.tsx:162-169 | one mapping per line of the text box, each read from its line |
| Settings.MappingsRoundTrip | src/components/modals/settings.tsx:127-169 | the mappings shown in the text box read back unchanged when no remote path holds "=" and no path holds a line break |
| Settings.NameError | src/components/modals/settings.tsx:273-281 | the name check fails, with "Server names must be unique", exactly when another entry has the same name |
| Settings.UrlError | src/components/modals/settings.tsx:283-293 | the URL check passes exactly for the "http:" and "https:" protocols; an unparsable URL gives "Invalid URL" and any other protocol "Only http/https URLs are supported" |
| Settings.OnSave | src/components/modals/settings.tsx:313-322 | the servers are handed on, unchanged, exactly when every entry passes both checks |
| Settings.DuplicateNamesNotSaved | src/components/modals/settings.tsx:273-322 | two entries with the same name both fail the name check, so the list is not saved |
| Settings.DistinctNamesPass | src/components/modals/settings.tsx:273-281 | with distinct names every entry passes the name check |
| PiecesCanvas.StartMonotone | src/components/piecescanvas.tsx:44-45 | the running byte total only grows: a later file starts no earlier |
| PiecesCanvas.TouchRange | src/components/piecescanvas.tsx:46-51 | the pieces one file's walk writes, from the cursor at its start to where the inner loop stops, are exactly the pieces it touches |
| PiecesCanvas.WantedPieces | src/components/piecescanvas.tsx:33-56 | the walk with a byte total and a piece cursor gives, for every piece, whether some wanted file starting inside the torrent touches it |
| PiecesCanvas.WantedMeansOverlap | src/components/piecescanvas.tsx:33-56 | when every wanted file has bytes, a piece is wanted exactly when a wanted file shares a byte with it |
| PiecesCanvas.EmptyFileMarksItsPiece | src/components/piecescanvas.tsx:45-50 | a wanted file without bytes still marks the piece holding its start offset |
| PiecesCanvas.HaveMsbFirst | src/components/piecescanvas.tsx:127 | the daemon's bitfield is read most significant bit first: piece 8k + j is bit j from the top of byte k |
| PiecesCanvas.PieceColour | src/components/piecescanvas.tsx:128 | a had piece is steel blue, a wanted one not had is pale turquoise, any other silver |
| PiecesCanvas.Draw | src/components/piecescanvas.tsx:117-134 | one cell per piece, row by row, until the grid is full or the pieces run out; cell i sits at row i / cols, column i % cols, with the colour of piece i |
| PiecesCanvas.CellPosition | src/components/piecescanvas.tsx:125 | the index r * cols + c of a cell within its row gives back its row and column |
| TorrentRpc.FirstError | src/rpc/torrent.ts:41-54 | no tracker error exactly when every tracker is healthy (no failed announce, or one reporting "Success"); otherwise the error of the first unhealthy tracker |
| TorrentRpc.TorrentError | src/rpc/torrent.ts:36-61 | with some healthy tracker, or a stopped torrent, the daemon's error string, blanked when it equals the first tracker error; otherwise the first tracker error behind "Tracker: ", or nothing |
| TorrentRpc.NoTrackersNoError | src/rpc/torrent.ts:36-61 | a running torrent without trackers shows no error, whatever the daemon's error string |
| TorrentRpc.AnnounceState | src/rpc/torrent.ts:63-71 | "Updating" while announcing; after an announce "Working" when it succeeded or reported "Success", otherwise its result; "" before any announce |
| TorrentRpc.AnnounceStateShowsError | src/rpc/torrent.ts:41-71 | outside an announce a healthy tracker shows "" or "Working", any other shows the same error the torrent error uses |
| TorrentRpc.TrackerStatus | src/rpc/torrent.ts:73-77 | nothing for a stopped torrent or one without trackers, else the first tracker's announce state |
| TorrentRpc.StripPort | src/rpc/torrent.ts:79-86 | the host is unchanged or loses exactly a final ":" followed by digits |
| TorrentRpc.StripPortOf | src/rpc/torrent.ts:79-86 | a host ending in ":" and digits loses exactly that port |
| TorrentRpc.StripTrackerLabel | src/rpc/torrent.ts:80-88 | the host is unchanged or loses a leading "trackerN."/"btN." label, and it loses it only when it has exactly three labels; a host of exactly three dot-free labels led by such a label keeps the last two |
| TorrentRpc.MainTracker | src/rpc/torrent.ts:82-90 | "<No trackers>" without trackers, else the first tracker's host with the port and then the tracker label stripped, the label going only from a host of exactly three labels |
| TorrentRpc.MainTrackerStrips | src/rpc/torrent.ts:82-90 | a first tracker at "trackerN.b.c:port" groups the torrent under "b.c" |
| TorrentRpc.MaxCount | src/rpc/torrent.ts:92-104 | -1 without trackers; otherwise the largest count, at least 0, bounding every count and equal to one of them unless 0 |
| TorrentRpc.SeedsTotal | src/rpc/torrent.ts:92-97 | the seed total is MaxCount over the trackers' seeder counts |
| TorrentRpc.PeersTotal | src/rpc/torrent.ts:99-104 | the peer total is MaxCount over the trackers' leecher counts |
| TorrentRpc.FlagMeaningInjective | src/rpc/torrent.ts:156-164 | different status flags have different meanings |
| TorrentRpc.StatusMeanings | src/rpc/torrent.ts:175-176 | one meaning per status flag of the flag string, in flag order |
| TorrentRpc.StatusFlagsInOrder | src/rpc/torrent.ts:175 | the matches of a concatenation are the matches of each part, one after the other, so they keep the order and the repeats of the flag string |
| TorrentRpc.StatusFlagsSingle | src/rpc/torrent.ts:175 | a single character is matched exactly when it is one of `ODdUuK?` |
| TorrentRpc.StatusFlags | src/rpc/torrent.ts:175 | the matches of `/[ODdUuK?]/g`: only status flags of the string, and every status flag the string holds |
| TorrentRpc.MicroTpMojibake | src/rpc/torrent.ts:187 | the label written for µTP is "Âµ" + "TP", one character longer than the protocol's name and different from it |
| TorrentRpc.Protocol | src/rpc/torrent.ts:187 | the corrected label: "µTP" exactly when the flags hold "T", else "TCP" |
| TorrentRpc.DecodePeerFlags | src/rpc/torrent.ts:166-192 | X gives "PEX", else H "DHT", else "Tracker"; E, I and T give encryption, direction and protocol; the status is the flags' meanings joined by ", " |
| Config.ServerIndex | src/config.ts:175-176 | the index found holds a server with the name and no earlier server has it; nothing is found only when no server has the name |
| Config.ServerNamed | src/config.ts:175-176 | `getServer`: nothing exactly when no server has the name; otherwise the first server carrying it |
| Config.KnownTabs | src/config.ts:147-150 | the sanitised open tabs are drawn from the tabs and each names a configured server; every tab naming a server is kept |
| Config.KnownTabsInOrder | src/config.ts:147-150 | sanitising works tab by tab, so the kept tabs stay in their order |
| Config.KnownTabsKeepsKnown | src/config.ts:147-150 | when every tab names a server nothing is dropped |
| Config.OpenServers | src/config.ts:167-168 | `getOpenServers`: the servers returned are configured servers whose name is an open tab, and every such server is returned |
| Config.OpenServersInOrder | src/config.ts:167-168 | the open servers keep the configured order |
| Config.WithoutFirst | src/config.ts:222-223 | removing the first copy of the directory shortens the list by one and takes exactly one copy out of its multiset; an absent directory leaves the list alone |
| Config.SaveDirsAfter | src/config.ts:219-227 | after use the directory is first and the list is non-empty whenever the limit is positive |
| Config.SaveDirOnce | src/config.ts:222-224 | a directory that occurred at most once occurs exactly once afterwards |
| Config.SaveDirsKeepOrder | src/config.ts:222-226 | what follows the directory is a prefix of the old list with the directory taken out, so the other entries keep their recency order |
| Config.SaveDirsLength | src/config.ts:222-226 | the result is the old length, plus one when the directory was new, minus exactly one when that exceeds the limit; with SaveDirsKeepOrder this fixes the whole list |
| Config.SaveDirsBounded | src/config.ts:224-226 | a list within the limit stays within it, and a full list stays full |
| Config.SaveDirsDistinct | src/config.ts:222-226 | a list without repeats stays without repeats |
| Config.PushSaveDir | src/config.ts:222-226 | the splice, unshift and pop steps on the recent list compute exactly `SaveDirsAfter`, so the order, bound and no-repeat lemmas about it hold for the list the method builds |
| Config.AddSaveDirTo | src/config.ts:219-227 | an unknown server leaves the servers unchanged; otherwise only the first server with the name changes, and only in its recent save directories |
| Config.Config.constructor | src/config.ts:98-107 | the defaults: no servers, no open tabs, twenty recent directories |
| Config.Config.Read | src/config.ts:134-153 | after reading, the open tabs are the old tabs that name a configured server; servers and the limit are untouched |
| Config.Config.AddSaveDir | src/config.ts:219-227 | the servers become `AddSaveDirTo` of the old servers under the configured limit; nothing else changes |
| ServerTabs.CurrentName | src/components/servertabs.tsx:79-139 | a server name is read off only when the current index lies inside the open tabs, and then it is one of them |
| ServerTabs.OpenTab | src/components/servertabs.tsx:94-99 | opening an open server changes nothing; otherwise its tab is appended and becomes the current one |
| ServerTabs.CloseTab | src/components/servertabs.tsx:101-118 | an index past the end changes nothing; otherwise the tab is removed and the current index moves down by one exactly when the closed tab was before it, or was the current and last tab |
| ServerTabs.OpenKeepsValid | src/components/servertabs.tsx:94-99 | opening keeps the current index inside the tabs and keeps the tabs free of repeats |
| ServerTabs.CloseKeepsValid | src/components/servertabs.tsx:101-118 | closing keeps the current index inside the tabs, or -1 once none is left |
| ServerTabs.CloseFollowsCurrent | src/components/servertabs.tsx:106-116 | closing another tab keeps the same server current; closing the current tab selects the next one, or the previous one when it was last; closing the only tab leaves no tabs and index -1 |
| ServerTabs.CloseUndoesOpen | src/components/servertabs.tsx:94-118 | opening a new server and closing its tab restores the tabs, with the last old tab current |
| ServerTabs.NextTab | src/components/servertabs.tsx:84-87 | the next index is defined exactly when a tab is open (otherwise it is NaN) and then lies inside the tabs |
| ServerTabs.PreviousTab | src/components/servertabs.tsx:88-91 | the previous index is defined exactly when a tab is open and then lies inside the tabs |
| ServerTabs.NextPreviousRoundTrip | src/components/servertabs.tsx:84-91 | going forward and then back, or back and then forward, returns to the current tab |
| ServerTabs.ModOnce | src/components/servertabs.tsx:86-90 | the remainder of a number below twice the divisor, as the hotkeys use it |
| ServerTabs.NextWraps | src/components/servertabs.tsx:86 | forward from the last tab wraps to the first |
| ServerTabs.Followed | src/components/servertabs.tsx:133-141 | the followed index is 0 or a position among the kept tabs |
| ServerTabs.KnownAppend | src/components/servertabs.tsx:134-138 | walking one more tab appends it to the kept tabs exactly when its server is configured |
| ServerTabs.OnServersChange | src/components/servertabs.tsx:131-149 | the new tabs are the old ones whose server is still configured, in order; the current index follows the current server among them |
| ServerTabs.FollowedValid | src/components/servertabs.tsx:131-147 | after the servers change the tab state is valid |
| ServerTabs.FollowedKeepsCurrent | src/components/servertabs.tsx:139-141 | when the current server is still configured the new current tab shows it |
| ServerTabs.FollowedDropsCurrent | src/components/servertabs.tsx:133-139 | when the current server is gone (or there was none) the first tab becomes current |
| ServerTabs.PollerConfigOf | src/components/servertabs.tsx:59-65 | a background tab gets polling exactly when its server is configured, under the server's own name |
| ServerTabs.PolledInBackground | src/components/servertabs.tsx:57-66 | a server is polled in the background exactly when it is configured and open in a tab other than the current one, each at its minimised interval |
| ServerTabs.PollerConfigs | src/components/servertabs.tsx:57-66 | at most one poller config per open tab, each for a configured server |
| ServerTabs.CurrentNotPolled | src/components/servertabs.tsx:58 | with distinct tabs, the current tab's server is never polled in the background |
| I18n.ReplaceFirst | src/i18n/index.ts:80 | `replace` with a string pattern: only the first underscore becomes a hyphen; a locale without one is unchanged |
| I18n.PrimarySubtagIsPrefix | src/i18n/index.ts:88 | the part before the first "-" is the prefix up to that hyphen, or the whole tag when there is none |
| I18n.FirstStartingWith | src/i18n/index.ts:89-93 | the code found is a supported code starting with the prefix; nothing is found exactly when no code starts with it |
| I18n.InheritedNameMapsToItself | src/i18n/index.ts:83 | the locale "toString" passes the `in` test and is returned as the language although it is not supported |
| I18n.MapLocale | src/i18n/index.ts:78-96 | the mapped language is always a supported one |
| I18n.MapLocaleAgrees | src/i18n/index.ts:78-96 | the corrected mapping agrees with the written one on every locale that does not normalise to an inherited property name |
| I18n.ExactCodeKept | src/i18n/index.ts:80-85 | a supported code, written with "_" or "-", maps to its normalised self |
| I18n.UnderscoreNormalised | src/i18n/index.ts:80-85 | "zh_CN" maps to "zh-CN" |
| I18n.RegionFallback | src/i18n/index.ts:87-95 | any other locale maps to the first supported code starting with its primary subtag ("en" before "zh-CN"), else to English |
| I18n.FirstOfSupported | src/i18n/index.ts:89-93 | the search over the table in declaration order, written out for the two codes |
| I18n.TraditionalChineseFallsBack | src/i18n/index.ts:74-93 | "zh-TW" falls back to "zh-CN" |
| I18n.TagFallback | src/i18n/index.ts:80-88 | a five-letter region tag with a hyphen keeps its two-letter primary subtag through normalisation |
| I18n.IsLanguageSupported | src/i18n/index.ts:277-279 | a language is supported exactly when it is "en" or "zh-CN" (the corrected own-code test) |
| I18n.InLanguageTable | src/i18n/index.ts:277-279 | the `in` test as written agrees with the supported codes on every name not inherited from Object.prototype, and accepts every inherited one although none is supported |
| I18n.ChangeLanguage | src/i18n/index.ts:248-254 | switching succeeds exactly for a supported code and selects it; otherwise it fails with the "Invalid language code: …" message naming the code |
| I18n.ChangeLanguageAsWritten | src/i18n/index.ts:248-250 | the switch as written succeeds exactly for a table code or a name every object inherits, selecting it; its failures are those of the intended switch |
| I18n.InheritedNameAcceptedAsWritten | src/i18n/index.ts:248-250 | as written "toString" is accepted as a language, where the intended switch refuses it |
| I18n.MappedLocaleAccepted | src/i18n/index.ts:248-254 | the language any locale maps to is always accepted by the switch |
| I18nCoverage.FullKey | scripts/check-i18n-coverage.js:48 | an empty prefix adds nothing; otherwise the key is the prefix, a dot and the entry's key |
| I18nCoverage.ExtractKeys | scripts/check-i18n-coverage.js:45-59 | the loop returns the dotted keys of the leaves in entry order, descending into nested objects (`ObjectKeys`) |
| I18nCoverage.Prefixed | scripts/check-i18n-coverage.js:50-52 | every path under a nested object gains the object's key in front |
| I18nCoverage.WellKeyedInit | scripts/check-i18n-coverage.js:45-59 | a prefix of well-keyed entries is well-keyed |
| I18nCoverage.PathsShape | scripts/check-i18n-coverage.js:45-59 | every leaf path is non-empty and starts with a key of the object; with well-formed keys every segment is non-empty and dot-free |
| I18nCoverage.KeysArePaths | scripts/check-i18n-coverage.js:45-59 | each extracted key is its leaf path joined with dots under the prefix, one key per leaf |
| I18nCoverage.Lookup | scripts/check-i18n-coverage.js:69 | a property is found exactly when an entry has the key, and its value is that entry's |
| I18nCoverage.LookupAppend | scripts/check-i18n-coverage.js:69 | a later entry is found only when no earlier entry has the key |
| I18nCoverage.IndexNamed | scripts/check-i18n-coverage.js:69 | an array is indexed by a key exactly when the key is the decimal numeral of an index inside it |
| I18nCoverage.WalkFromNothing | scripts/check-i18n-coverage.js:69 | once a step finds nothing the rest of the path finds nothing |
| I18nCoverage.SingleSegment | scripts/check-i18n-coverage.js:67-71 | a key without dots is looked up directly in the object |
| I18nCoverage.NothingInsideLeaf | scripts/check-i18n-coverage.js:67-71 | nothing is found inside a string, number, boolean or null |
| I18nCoverage.PathsReadBack | scripts/check-i18n-coverage.js:45-71 | following a leaf's path from the top finds a value that is not an object |
| I18nCoverage.KeysReadBack | scripts/check-i18n-coverage.js:45-71 | reading back an extracted key with `getNestedValue` finds the leaf it names |
| I18nCoverage.FilterMember | scripts/check-i18n-coverage.js:134-139 | an element survives a filter exactly when it is in the list and kept |
| I18nCoverage.CompareSets | scripts/check-i18n-coverage.js:134-139 | missing keys are exactly the source keys the language lacks, extra keys exactly the language keys the source lacks, empty keys exactly the language keys whose value is "" or null |
| I18nCoverage.CompleteMeansSameKeys | scripts/check-i18n-coverage.js:134-155 | a language is complete exactly when it has the same keys as the source and no empty value |
| I18nCoverage.ReplaceFirstOf | scripts/check-i18n-coverage.js:120 | a name without ".json" is unchanged by the language-code replacement |
| I18nCoverage.ReplaceFirstAt | scripts/check-i18n-coverage.js:120 | `replace(".json", "")` replaces the first occurrence only: the text before it and after it are kept |
| I18nCoverage.AnyIssueExists | scripts/check-i18n-coverage.js:118-190 | the accumulated issue flag holds exactly when some file needs attention |
| I18nCoverage.ExitRule | scripts/check-i18n-coverage.js:82-211 | the exit status is 0 or 1, and 1 exactly when the locales directory or the source file is missing, the source does not parse, or in strict mode some language file is unparsable or incomplete |
| I18nCoverage.OneMoreFile | scripts/check-i18n-coverage.js:118-190 | one more file adds its summary row when it parses, and sets the issue flag when it needs attention |
| I18nCoverage.CheckFile | scripts/check-i18n-coverage.js:118-155 | one language file gives its summary row exactly when it parses, and raises the issue flag exactly when it fails to parse or lacks, adds or empties a key |
| I18nCoverage.CheckFiles | scripts/check-i18n-coverage.js:114-190 | the loop over the language files ends with the rows `ResultsOf` lists and with the issue flag set exactly when `AnyIssue` holds |
| I18nCoverage.CheckCoverage | scripts/check-i18n-coverage.js:76-215 | the run returns the exit status of `ExitRule` and, when the setup succeeds, one summary row per parsable language file, in order |

## Left out

**Foreign code and runtime**

- Networking, the async runtime and tasks are not modelled. This includes:
  - hyper and reqwest sends;
  - the TCP accept loop and graceful shutdown;
  - timers, the timeout connector and task abort.

  A send is an abstract outcome, a task is a number, and the semaphore is
  a permit flag.
- Foreign decoders are inputs of the model:
  - gzip and deflate decoding (RFC 1952 and RFC 1951);
  - serde JSON;
  - IP-address parsing;
  - percent-decoding;
  - base64;
  - `new URL(...)`.
- Three `unwrap`s in the Rust source can panic. Each is a precondition
  instead:
  - the `X-Original-URL` header of a reply;
  - a query segment without "=";
  - a percent-decoding failure.
- Rust `HashMap` iteration order is unspecified. The loop in
  `process_torrents` over the stored snapshot picks each id with `:|`, and
  the contract of `Cache.ProcessTorrents` holds for every order.
- The `polling_task` loop is endless and sleeps between cycles. It is
  modelled by one cycle (`Poller.Poller.Cycle`); the sleeping and the lock
  are not modelled.
- Desktop notifications and sound, the geo-IP database, lava_torrent
  building, hashing and bencoding, and file reads and writes are abstract.
  Only their inputs and outputs are kept.
- Clocks are left out. The creation date is a parameter bounded by the
  64-bit range.

**Floating point, dates and rendering**

- Floating-point logic is not modelled:
  - byte formatting and percentages;
  - the `percent` fields of the file tree;
  - the piece-grid size search (src/components/piecescanvas.tsx:58-80);
  - the coverage percentage and its `toFixed`.
- Date libraries are left out: `timestampToDateString` and the
  luxon-based `secondsToHumanReadableStr` in src/util.ts.
- React rendering, hooks, notifications, the window title and the
  virtualizers of the tables are left out. So are the context menus and
  section visibility of the filter panel.

**Operations not modelled**

- `CachedFileTree.update` and `getView` (src/cachedfiletree.ts:211-233,
  369-382) only copy daemon fields into the tree and build the view. They
  are not modelled.
- piecescanvas:
  - `atob` and the stroke drawing of the grid lines are left out;
  - the piece count is the length of the wanted list;
  - the wanted-piece walk assumes the file lengths add up to the total
    size, within the piece count times the piece size.
- config:
  - reading and writing the file, and the lodash `merge` of the stored
    JSON, are left out;
  - the table and sash getters are left out;
  - `read` is modelled from its sanitisation on.
- servertabs:
  - the `clientManager` open and close calls, the window title and
    `unopenedTabs` are left out;
  - `switchTab` with NaN, which needs no open tab, is not modelled beyond
    `NextTab` and `PreviousTab` returning nothing.
- i18n: `detectBrowserLanguage`, `detectSystemLanguage`, localStorage,
  `initializeI18n` and i18next itself are left out.
- The coverage script:
  - console output, the `--verbose` slicing and file system reads are left
    out;
  - a top-level JSON value that is not an object is not modelled;
  - the model assumes objects hold distinct keys;
  - JavaScript's ordering of integer-like keys in `Object.entries` is not
    modelled;
  - `getNestedValue` does not model reading an array's `length` or a
    property inherited from a prototype.
- edittrackers: the initial form value (src/components/modals/edittrackers.tsx:56-58),
  the mutation call and notifications are left out.
- daemon: `parseInt` without a radix is modelled with its white-space
  skip, sign, "0x" prefix and longest digit prefix. White space outside
  ASCII and Latin-1 is not modelled, and NaN is `None`.
- settings: URL parsing is an input, given as the protocol the URL parser
  returns.

**Weaker than the source**

- Lower: lower-cases only 'A' to 'Z', where JavaScript `toLowerCase` folds
  all of Unicode. Searches and paths with letters outside ASCII differ.
  The same holds for the members built on it:
  - SearchFilter (src/components/server.tsx:119);
  - SearchedPath (src/components/tables/filetreetable.tsx:175);
  - ParseTerms (src/components/tables/filetreetable.tsx:265);
  - Util.NormalizePath (src/util.ts:97), which leaves "Über" as it is
    where the source gives "über".

  Its other callers compare with ASCII text only: the Content-Encoding
  header, the ".torrent" suffix and the hexadecimal magnet hash.
- SearchFilter: case folding is ASCII-only, as under Lower above.
- SearchedPath: case folding is ASCII-only, as under Lower above.
- ParseTerms: case folding is ASCII-only, as under Lower above.
- Util.NormalizePath: case folding of a drive-letter path is ASCII-only,
  as under Lower above.
- InsertPath: a file whose path equals the root's path is skipped. The
  source shifts that part away, leaving no parts, and stores the file
  under the key `undefined` at level -1
  (src/cachedfiletree.ts:155-158, 172-203).
- SortPairs: compares characters as code points. JavaScript compares
  UTF-16 code units, and the two orders differ between a character above
  U+FFFF and one in U+E000 to U+FFFF.
- OnRowClick: a shift-click whose anchor lies outside the current rows
  reads `rows[lastIndex]` of undefined and throws
  (src/components/tables/common.tsx:146). The model requires the anchor
  to be inside the rows on a shift-click and does not model the throw.
- ForwardRequest: forwards any session-id and authorization text. The
  source converts both headers with `to_str().unwrap()`
  (src-tauri/src/ipc.rs:235, 240), which panics on a value that is not
  visible ASCII; the panic is not modelled.
- SentResponse: copies the daemon's reply as it is. Converting the reply's
  headers (src-tauri/src/ipc.rs:297-303) panics through `expect` and
  `unwrap` on a header value that is not visible ASCII; the panic is not
  modelled.
- ContentEncoding: takes the Content-Encoding header as text. The source's
  `to_str().unwrap()` (src-tauri/src/torrentcache.rs:73) panics on a value
  that is not visible ASCII; the panic is not modelled.
- DecodeMagnetLink: the decoder of tracker values is a total function
  parameter. `decodeURIComponent` (src/trutil.ts:161) throws URIError on a
  malformed "%" sequence, which ends the whole decode; the throw is not
  modelled.
- ParseInt: parses into an unbounded integer. JavaScript numbers are
  doubles, so digits past 2^53 lose precision (src/components/modals/daemon.tsx:371-379).
- ToTimeStr: computes on unbounded integers and writes every value in
  plain decimal. `String(n)` on a double uses exponent form from 1e21 on,
  and precision is lost past 2^53 (src/components/modals/daemon.tsx:371-373).
- Quoted: escapes only the quote, the backslash and the line breaks of
  Rust's `{:?}` string format. Other control characters and Unicode
  escapes are not modelled.

## Findings

| source | as written | input that shows it | evidently intended | confidence | as-written member | corrected member |
|---|---|---|---|---|---|---|
| src/rpc/torrent.ts:187 | the µTP label is written as the mojibake "ÂµTP" | any peer whose flags contain "T" | the label "µTP" | not executed | TorrentRpc.MicroTpMojibake | TorrentRpc.Protocol |
| src/components/modals/settings.tsx:86-91 | the minus button on an empty server list sets the current index to current - 1, which is -2 | no servers, current -1, minus pressed | the index stays -1 once the list is empty | not executed | Settings.RemoveOnEmptyList | Settings.ButtonsKeepValid |
| src/i18n/index.ts:83 | the locale mapping's `in SUPPORTED_LANGUAGES` also finds the names an object inherits from Object.prototype | the locale "toString" | only the table's own codes are kept as they are | not executed | I18n.InheritedNameMapsToItself | I18n.MapLocaleAgrees |
| src/components/filters.tsx:390-398 | the label counts live in a plain object `{}` tested with `in`, which also finds the names every object inherits from Object.prototype; `+ 1` then turns an inherited function into text, and the `__proto__` setter drops the assignment | a torrent labelled "constructor", or one labelled "__proto__" | every label gets a numeric count of its occurrences | not executed | Filters.InheritedLabelsAsWritten | Filters.CountLabels |
| src/components/filters.tsx:400-403 | the tracker counts use the same plain object and `in` test | a torrent whose main tracker is "toString" | every main tracker gets a numeric count of its torrents | not executed | Filters.InheritedTrackerAsWritten | Filters.CountTrackers |
| src/i18n/index.ts:248-250 | `changeLanguage` (and `isLanguageSupported` at line 278) test `language in SUPPORTED_LANGUAGES`, which also accepts the inherited names | the language "toString" | only the table's own codes are accepted | not executed | I18n.InheritedNameAcceptedAsWritten | I18n.ChangeLanguage |

=== FILE: commands.dfy ===
/** Commands the front end invokes on the backend: reading a .torrent file
    for the "add torrent" dialog, removing one, and the four commands of the
    torrent-creation window, which find their request id in the window
    label. File access, bencode parsing and base64 are abstract. */
module Commands {
  import opened Common
  import CreateTorrent

  // ---------------------------------------------------------------------------
  // Window labels

  const MinI32 := -0x8000_0000
  const MaxI32 := 0x7fff_ffff

  /** Rust's `str::parse::<i32>`: an optional sign, then at least one
      decimal digit, within the 32-bit range. */
  function ParseI32(s: string): (r: Option<int>)
    ensures r.Some? ==> MinI32 <= r.value <= MaxI32
    ensures s == "" || s == "+" || s == "-" ==> r.None?
    ensures r.Some? ==> forall i :: 0 < i < |s| ==> IsDigit(s[i])
  {
    var negative := |s| > 0 && s[0] == '-';
    var digits := if |s| > 0 && (s[0] == '+' || s[0] == '-') then s[1..] else s;
    if digits == [] || !AllDigits(digits) then None
    else
      var v: int := if negative then 0 - DigitsValue(digits) as int else DigitsValue(digits);
      if MinI32 <= v <= MaxI32 then Some(v) else None
  }

  /** Every 32-bit integer written in decimal parses back to itself. */
  lemma ParseIntToString(n: int)
    requires MinI32 <= n <= MaxI32
    ensures ParseI32(IntToString(n)) == Some(n)
  {
    if n < 0 {
      NatToStringValue(-n);
      ParseNegative(NatToString(-n), -n);
    } else {
      NatToStringValue(n);
      ParseUnsigned(NatToString(n), n);
    }
  }

  lemma ParseUnsigned(t: string, v: nat)
    requires t != [] && AllDigits(t) && DigitsValue(t) == v && v <= MaxI32
    ensures ParseI32(t) == Some(v)
  {
    assert IsDigit(t[0]);
  }

  lemma ParseNegative(t: string, v: int)
    requires t != [] && AllDigits(t) && DigitsValue(t) == v && MinI32 <= -v
    ensures ParseI32("-" + t) == Some(-v)
  {
    var s := "-" + t;
    assert s[0] == '-' && s[1..] == t;
  }

  const LabelError := "Incorrect window label"

  /** The request id of a creation window: the label must split on '-'
      into exactly two parts, the second an i32. */
  function WindowId(windowLabel: string): (r: Result<int, string>)
    ensures r.Err? ==> r.error == LabelError
    ensures r.Ok? ==> multiset(windowLabel)['-'] == 1 && MinI32 <= r.value <= MaxI32
    ensures r.Ok? <==> |Split(windowLabel, '-')| == 2 && ParseI32(Split(windowLabel, '-')[1]).Some?
    ensures r.Ok? ==> |Split(windowLabel, '-')| == 2 && Some(r.value) == ParseI32(Split(windowLabel, '-')[1])
  {
    var parts := Split(windowLabel, '-');
    SplitCount(windowLabel, '-');
    if |parts| != 2 then Err(LabelError)
    else match ParseI32(parts[1])
      case Some(id) => Ok(id)
      case None => Err(LabelError)
  }

  /** A label "<prefix>-<n>" with a dash-free prefix and 0 <= n < 2^31
      carries the id n; a negative n adds a second dash and is refused. */
  lemma WindowIdOfLabel(prefix: string, n: int)
    requires '-' !in prefix && MinI32 <= n <= MaxI32
    ensures WindowId(prefix + "-" + IntToString(n)) == (if n >= 0 then Ok(n) else Err(LabelError))
  {
    var windowLabel := prefix + "-" + IntToString(n);
    if n >= 0 {
      assert '-' !in NatToString(n);
      SplitTwo(prefix, NatToString(n), '-');
      ParseIntToString(n);
    } else {
      assert multiset(windowLabel)['-'] >= 2 by {
        assert windowLabel == prefix + ['-'] + ['-'] + NatToString(-n);
        assert multiset(windowLabel) == multiset(prefix) + multiset{'-', '-'} + multiset(NatToString(-n));
      }
    }
  }

  // ---------------------------------------------------------------------------
  // The creation-window commands. Each first reads its id from the window label;
  // a bad label changes nothing.

  method CreateTorrentCommand(windowLabel: string, requests: CreateTorrent.CreationRequests,
                              info: CreateTorrent.CreateInfo, now: nat,
                              start: CreateTorrent.TorrentSpec -> Result<CreateTorrent.Build, string>)
    returns (r: Result<(), string>)
    requires now <= CreateTorrent.MaxI64
    modifies requests
    ensures WindowId(windowLabel).Err? ==> r == Err(LabelError) && requests.requests == old(requests.requests)
    ensures WindowId(windowLabel).Ok? ==>
      var built := start(CreateTorrent.Spec(info, now));
      && r == (if built.Ok? then Ok(()) else Err(built.error))
      && requests.requests == (if built.Ok? then old(requests.requests)[WindowId(windowLabel).value := CreateTorrent.Building(built.value)]
                               else old(requests.requests))
  {
    var id := WindowId(windowLabel);
    if id.Err? {
      return Err(LabelError);
    }
    r := requests.Add(id.value, info, now, start);
  }

  method CheckCreateTorrentCommand(windowLabel: string, requests: CreateTorrent.CreationRequests)
    returns (r: Result<CreateTorrent.CheckResult, string>)
    modifies requests
    ensures WindowId(windowLabel).Err? ==> r == Err(LabelError) && requests.requests == old(requests.requests)
    ensures WindowId(windowLabel).Ok? ==>
      var id := WindowId(windowLabel).value;
      && requests.requests == CreateTorrent.Settle(old(requests.requests), id)
      && r == Ok(CreateTorrent.Report(if id in requests.requests then Some(requests.requests[id]) else None))
  {
    var id := WindowId(windowLabel);
    if id.Err? {
      return Err(LabelError);
    }
    var result := requests.Check(id.value);
    r := Ok(result);
  }

  method CancelCreateTorrentCommand(windowLabel: string, requests: CreateTorrent.CreationRequests)
    returns (r: Result<(), string>)
    modifies requests
    ensures WindowId(windowLabel).Err? ==> r == Err(LabelError) && requests.requests == old(requests.requests)
    ensures WindowId(windowLabel).Ok? ==>
      var id := WindowId(windowLabel).value;
      && requests.requests == old(requests.requests) - {id}
      && r == (if id in old(requests.requests) then Ok(()) else Err(CreateTorrent.NotFoundMessage))
  {
    var id := WindowId(windowLabel);
    if id.Err? {
      return Err(LabelError);
    }
    r := requests.Cancel(id.value);
  }

  method SaveCreateTorrentCommand(windowLabel: string, requests: CreateTorrent.CreationRequests, path: string,
                                  write: (CreateTorrent.Torrent, string) -> Result<(), string>)
    returns (r: Result<(), string>)
    modifies requests
    ensures WindowId(windowLabel).Err? ==> r == Err(LabelError) && requests.requests == old(requests.requests)
    ensures WindowId(windowLabel).Ok? ==>
      var id := WindowId(windowLabel).value;
      && requests.requests == old(requests.requests) - {id}
      && r == (if id in old(requests.requests) && old(requests.requests)[id].Finished? && old(requests.requests)[id].result.Ok?
               then write(old(requests.requests)[id].result.value, path) else Err(CreateTorrent.NotFoundMessage))
  {
    var id := WindowId(windowLabel);
    if id.Err? {
      return Err(LabelError);
    }
    r := requests.Save(id.value, path, write);
  }

  // ---------------------------------------------------------------------------
  // Trackers of a .torrent file

  /** The tiers written one tracker per line, with one empty line before
      every tier that follows something already written (BEP 12). */
  function TierLines(tiers: seq<seq<string>>): seq<string> {
    if tiers == [] then []
    else
      var before := TierLines(tiers[..|tiers| - 1]);
      before + (if before != [] then [""] else []) + tiers[|tiers| - 1]
  }

  /** The tracker lines: the tiers when the file has an announce-list,
      else its announce URL, else nothing. */
  function TrackerLines(announceList: Option<seq<seq<string>>>, announce: Option<string>): seq<string> {
    match announceList
    case Some(tiers) => TierLines(tiers)
    case None => (match announce case Some(a) => [a] case None => [])
  }

  method Trackers(announceList: Option<seq<seq<string>>>, announce: Option<string>) returns (trackers: seq<string>)
    ensures trackers == TrackerLines(announceList, announce)
  {
    trackers := [];
    if announceList.Some? {
      var tiers := announceList.value;
      var i := 0;
      while i < |tiers|
        invariant 0 <= i <= |tiers|
        invariant trackers == TierLines(tiers[..i])
      {
        assert tiers[..i + 1][..i] == tiers[..i];
        if trackers != [] {
          trackers := trackers + [""];
        }
        var urls := tiers[i];
        ghost var start := trackers;
        var j := 0;
        while j < |urls|
          invariant 0 <= j <= |urls|
          invariant trackers == start + urls[..j]
        {
          assert urls[..j + 1] == urls[..j] + [urls[j]];
          trackers := trackers + [urls[j]];
          j := j + 1;
        }
        assert urls[..|urls|] == urls;
        i := i + 1;
      }
      assert tiers[..|tiers|] == tiers;
    } else if announce.Some? {
      trackers := [announce.value];
    }
  }

  lemma {:induction false} JoinTiersSnoc(parts: seq<seq<string>>, last: seq<string>)
    requires |parts| >= 1
    ensures CreateTorrent.JoinTiers(parts + [last]) == CreateTorrent.JoinTiers(parts) + [""] + last
  {
    if |parts| > 1 {
      JoinTiersSnoc(parts[1..], last);
      assert (parts + [last])[1..] == parts[1..] + [last];
    }
  }

  lemma {:induction false} JoinTiersStart(parts: seq<seq<string>>)
    requires |parts| >= 1
    ensures parts[0] <= CreateTorrent.JoinTiers(parts)
  {
  }

  /** For tiers that are all non-empty the lines are the tiers joined by
      one empty line each. */
  lemma {:induction false} TierLinesJoin(tiers: seq<seq<string>>)
    requires |tiers| >= 1
    requires forall i :: 0 <= i < |tiers| ==> tiers[i] != []
    ensures TierLines(tiers) == CreateTorrent.JoinTiers(tiers)
  {
    var init := tiers[..|tiers| - 1];
    var last := tiers[|tiers| - 1];
    assert TierLines(init) == [] ==> |init| == 0 by {
      if |init| > 0 {
        TierLinesJoin(init);
        JoinTiersStart(init);
      }
    }
    if |init| == 0 {
      assert TierLines(tiers) == last;
    } else {
      TierLinesJoin(init);
      JoinTiersSnoc(init, last);
      assert init + [last] == tiers;
    }
  }

  lemma {:induction false} SplitOnEmptyPrefix(p: seq<string>, q: seq<string>)
    requires forall i :: 0 <= i < |p| ==> p[i] != ""
    ensures var rest := CreateTorrent.SplitOnEmpty(q);
      CreateTorrent.SplitOnEmpty(p + q) == [p + rest[0]] + rest[1..]
  {
    if p != [] {
      var rest := CreateTorrent.SplitOnEmpty(q);
      SplitOnEmptyPrefix(p[1..], q);
      var tail := CreateTorrent.SplitOnEmpty(p[1..] + q);
      assert (p + q)[1..] == p[1..] + q;
      assert (p + q)[0] == p[0] != "";
      assert CreateTorrent.SplitOnEmpty(p + q) == [[p[0]] + tail[0]] + tail[1..];
      assert tail[0] == p[1..] + rest[0];
      assert tail[1..] == rest[1..];
      assert [p[0]] + (p[1..] + rest[0]) == p + rest[0];
    } else {
      var rest := CreateTorrent.SplitOnEmpty(q);
      assert p + q == q;
      assert p + rest[0] == rest[0];
      assert [rest[0]] + rest[1..] == rest;
    }
  }

  /** Splitting joined tiers that hold no empty line gives them back. */
  lemma {:induction false} SplitJoinTiers(parts: seq<seq<string>>)
    requires |parts| >= 1
    requires forall i, j :: 0 <= i < |parts| && 0 <= j < |parts[i]| ==> parts[i][j] != ""
    ensures CreateTorrent.SplitOnEmpty(CreateTorrent.JoinTiers(parts)) == parts
  {
    if |parts| == 1 {
      SplitOnEmptyPrefix(parts[0], []);
      assert parts[0] + [] == parts[0];
    } else {
      var rest := CreateTorrent.JoinTiers(parts[1..]);
      SplitJoinTiers(parts[1..]);
      assert CreateTorrent.SplitOnEmpty([""] + rest) == [[]] + parts[1..] by {
        assert ([""] + rest)[1..] == rest;
      }
      SplitOnEmptyPrefix(parts[0], [""] + rest);
      assert parts[0] + [""] + rest == parts[0] + ([""] + rest);
      assert ([[]] + parts[1..])[1..] == parts[1..];
      assert parts[0] + [] == parts[0];
      assert [parts[0]] + parts[1..] == parts;
    }
  }

  /** Reading tiers back into the creation form's announce list and
      creating a torrent again gives the same tiers: the line layout of
      `TierLines` and the tier split of the creation registry are inverse
      for well-formed tiers. */
  lemma TierLinesRoundTrip(tiers: seq<seq<string>>)
    requires forall i :: 0 <= i < |tiers| ==> tiers[i] != [] && forall j :: 0 <= j < |tiers[i]| ==> tiers[i][j] != ""
    ensures CreateTorrent.AnnounceTiers(TierLines(tiers)) == tiers
  {
    if tiers == [] {
      assert CreateTorrent.SplitOnEmpty([]) == [[]];
      assert Filter([[]], CreateTorrent.NonEmptyTier) == [];
    } else {
      TierLinesJoin(tiers);
      SplitJoinTiers(tiers);
      FilterAll(tiers, CreateTorrent.NonEmptyTier);
    }
  }

  // ---------------------------------------------------------------------------
  // Reading and removing .torrent files

  const MaxTorrentFileSize := 10 * 1024 * 1024

  /** Rust's debug formatting of a string: quoted, with quotes, backslashes
      and the common control characters escaped. */
  function Quoted(s: string): string {
    "\"" + Escaped(s) + "\""
  }

  function Escaped(s: string): string {
    if s == [] then []
    else
      var c := s[0];
      (if c == '"' then "\\\"" else if c == '\\' then "\\\\" else if c == '\n' then "\\n"
       else if c == '\r' then "\\r" else if c == '\t' then "\\t" else [c]) + Escaped(s[1..])
  }

  datatype FileEntry = FileEntry(name: string, length: int)

  /** A parsed .torrent file, as far as the dialog reads it. */
  datatype TorrentMeta = TorrentMeta(
    name: string, length: int, infoHash: string, files: Option<seq<FileEntry>>,
    announceList: Option<seq<seq<string>>>, announce: Option<string>)

  datatype ReadResult = ReadResult(
    torrentPath: string, metadata: string, name: string, length: int, hash: string,
    files: Option<seq<FileEntry>>, trackers: seq<string>)

  /** Reads a .torrent file. `size` is the file's size, or none if it
      cannot be queried; `contents` the bytes read, or none on a read
      failure; `parse` the bencode reader; `base64` the encoder. */
  method ReadFile(path: string, size: Option<nat>, contents: Option<seq<bv8>>,
                  parse: seq<bv8> -> Option<TorrentMeta>, base64: seq<bv8> -> string)
    returns (r: Result<ReadResult, string>)
    ensures size.None? ==> r == Err("Failed to read file " + Quoted(path))
    ensures size.Some? && size.value > MaxTorrentFileSize ==> r == Err("File is too large")
    ensures size.Some? && size.value <= MaxTorrentFileSize && contents.None? ==>
      r == Err("Failed to read file " + Quoted(path))
    ensures size.Some? && size.value <= MaxTorrentFileSize && contents.Some? && parse(contents.value).None? ==>
      r == Err("Failed to parse torrent " + Quoted(path))
    ensures r.Ok? <==> size.Some? && size.value <= MaxTorrentFileSize && contents.Some? && parse(contents.value).Some?
    ensures r.Ok? ==>
      var t := parse(contents.value).value;
      r.value == ReadResult(path, base64(contents.value), t.name, t.length, t.infoHash, t.files,
                            TrackerLines(t.announceList, t.announce))
  {
    if size.None? {
      return Err("Failed to read file " + Quoted(path));
    }
    if size.value > MaxTorrentFileSize {
      return Err("File is too large");
    }
    if contents.None? {
      return Err("Failed to read file " + Quoted(path));
    }
    var parsed := parse(contents.value);
    if parsed.None? {
      return Err("Failed to parse torrent " + Quoted(path));
    }
    var t := parsed.value;
    var trackers := Trackers(t.announceList, t.announce);
    r := Ok(ReadResult(path, base64(contents.value), t.name, t.length, t.infoHash, t.files, trackers));
  }

  /** Only paths ending in ".torrent", in any letter case, are deleted. */
  predicate IsTorrentPath(path: string) {
    EndsWith(Lower(path), ".torrent")
  }

  lemma TorrentPathAnyCase(stem: string, extension: string)
    requires Lower(extension) == ".torrent"
    ensures IsTorrentPath(stem + extension)
  {
    LowerAppend(stem, extension);
    var l := Lower(stem + extension);
    assert l[|l| - 8..] == Lower(extension);
  }

  /** `remove` deletes a file and says whether that worked. */
  method RemoveFile(path: string, remove: string -> bool) returns (attempted: bool, failed: bool)
    ensures attempted == IsTorrentPath(path)
    ensures failed == (attempted && !remove(path))
  {
    attempted := IsTorrentPath(path);
    failed := attempted && !remove(path);
  }
}

=== FILE: common.dfy ===
/** Shared vocabulary of the TrguiNG model: optional values, results, the
    Transmission status codes and the string and sequence operations that
    JavaScript and Rust provide as library calls. */
module Common {

  datatype Option<+T> = None | Some(value: T)

  datatype Result<+T, +E> = Ok(value: T) | Err(error: E)

  /** Names every JavaScript object inherits from Object.prototype. The
      `in` operator finds these on any object literal. */
  const ObjectPrototypeKeys: set<string> := {
    "constructor", "hasOwnProperty", "isPrototypeOf", "propertyIsEnumerable",
    "toLocaleString", "toString", "valueOf", "__proto__",
    "__defineGetter__", "__defineSetter__", "__lookupGetter__", "__lookupSetter__"
  }

  /** Torrent status codes of the Transmission RPC protocol. */
  const StatusStopped := 0
  const StatusQueuedToVerify := 1
  const StatusVerifying := 2
  const StatusQueuedToDownload := 3
  const StatusDownloading := 4
  const StatusQueuedToSeed := 5
  const StatusSeeding := 6

  /** Display strings indexed by status code. */
  const StatusStrings: seq<string> :=
    ["Stopped", "Waiting", "Verifying", "Waiting", "Downloading", "Waiting", "Seeding"]

  // ---------------------------------------------------------------------------
  // Strings

  predicate StartsWith(s: string, prefix: string) {
    prefix <= s
  }

  predicate EndsWith(s: string, suffix: string) {
    |suffix| <= |s| && s[|s| - |suffix|..] == suffix
  }

  /** `t` occurs in `s` as a contiguous substring (JavaScript `includes`). */
  predicate Contains(s: string, t: string) {
    exists i :: 0 <= i <= |s| - |t| && t <= s[i..]
  }

  /** Upper-case ASCII letters become lower-case; nothing else changes. */
  function LowerChar(c: char): (r: char)
    ensures 'A' <= c <= 'Z' ==> r != c && 'a' <= r <= 'z'
    ensures !('A' <= c <= 'Z') ==> r == c
  {
    if 'A' <= c <= 'Z' then (c as int + 32) as char else c
  }

  function Lower(s: string): (r: string)
    ensures |r| == |s|
    ensures forall i :: 0 <= i < |s| ==> r[i] == LowerChar(s[i])
  {
    if s == [] then [] else [LowerChar(s[0])] + Lower(s[1..])
  }

  lemma LowerIdempotent(s: string)
    ensures Lower(Lower(s)) == Lower(s)
  {
  }

  /** Every occurrence of `c` replaced by `d`. */
  function ReplaceAll(s: string, c: char, d: char): (r: string)
    ensures |r| == |s|
    ensures forall i :: 0 <= i < |s| ==> r[i] == (if s[i] == c then d else s[i])
  {
    if s == [] then [] else [if s[0] == c then d else s[0]] + ReplaceAll(s[1..], c, d)
  }

  /** Index of the first `c` in `s`, or -1 (JavaScript `String.indexOf`). */
  function IndexOf(s: string, c: char): (r: int)
    ensures -1 <= r < |s|
    ensures r == -1 <==> c !in s
    ensures r >= 0 ==> s[r] == c && c !in s[..r]
  {
    if s == [] then -1
    else if s[0] == c then 0
    else
      var k := IndexOf(s[1..], c);
      if k == -1 then -1 else assert s[..k + 1] == [s[0]] + s[1..][..k]; k + 1
  }

  /** Index of the first element equal to `c`, or -1 (JavaScript
      `Array.indexOf`; `findIndex` with an equality test finds the same). */
  function ArrayIndexOf<T(==)>(s: seq<T>, c: T): (r: int)
    ensures -1 <= r < |s|
    ensures r == -1 <==> c !in s
    ensures r >= 0 ==> s[r] == c && c !in s[..r]
  {
    if s == [] then -1
    else if s[0] == c then 0
    else
      var k := ArrayIndexOf(s[1..], c);
      if k == -1 then -1 else assert s[..k + 1] == [s[0]] + s[1..][..k]; k + 1
  }

  /** JavaScript `split(c)` with a one-character separator: the pieces between
      the separators, always at least one. */
  function Split(s: string, c: char): (r: seq<string>)
    ensures |r| >= 1
    ensures forall i :: 0 <= i < |r| ==> c !in r[i]
  {
    if s == [] then [""]
    else
      var rest := Split(s[1..], c);
      if s[0] == c then [""] + rest else [[s[0]] + rest[0]] + rest[1..]
  }

  /** There is one piece more than there are separators. */
  lemma {:induction false} SplitCount(s: string, c: char)
    ensures |Split(s, c)| == multiset(s)[c] + 1
  {
    if s != [] {
      SplitCount(s[1..], c);
      assert s == [s[0]] + s[1..];
    }
  }

  /** JavaScript `join(sep)`. */
  function Join(parts: seq<string>, sep: string): string {
    if |parts| == 0 then ""
    else if |parts| == 1 then parts[0]
    else parts[0] + sep + Join(parts[1..], sep)
  }

  /** Splitting and joining again gives the original string back. */
  lemma {:induction false} JoinSplit(s: string, c: char)
    ensures Join(Split(s, c), [c]) == s
  {
    if s != [] {
      var x, t := s[0], s[1..];
      assert s == [x] + t;
      SplitCons(x, t, c);
      JoinSplit(t, c);
      if x == c {
        JoinCons("", Split(t, c), [c]);
      } else {
        JoinHeadExtend(x, Split(t, c), [c]);
      }
    }
  }

  /** One character in front of a string: a separator starts a new piece,
      anything else extends the first one. */
  lemma SplitCons(x: char, s: string, c: char)
    ensures Split([x] + s, c) ==
      if x == c then [""] + Split(s, c) else [[x] + Split(s, c)[0]] + Split(s, c)[1..]
  {
    assert ([x] + s)[1..] == s;
  }

  lemma JoinCons(a: string, rest: seq<string>, sep: string)
    requires rest != []
    ensures Join([a] + rest, sep) == a + sep + Join(rest, sep)
  {
    assert ([a] + rest)[1..] == rest;
  }

  /** Putting a character in front of the first part puts it in front of
      the joined string. */
  lemma JoinHeadExtend(x: char, rest: seq<string>, sep: string)
    requires rest != []
    ensures Join([[x] + rest[0]] + rest[1..], sep) == [x] + Join(rest, sep)
  {
    if |rest| > 1 {
      JoinCons([x] + rest[0], rest[1..], sep);
      JoinCons(rest[0], rest[1..], sep);
      assert rest == [rest[0]] + rest[1..];
    }
  }

  /** A string without the separator is one piece. */
  lemma SplitWithout(s: string, c: char)
    requires c !in s
    ensures Split(s, c) == [s]
  {
    if s != [] {
      SplitWithout(s[1..], c);
      assert s == [s[0]] + s[1..];
    }
  }

  /** Two separator-free pieces around one separator split back apart. */
  lemma {:induction false} SplitTwo(a: string, b: string, c: char)
    requires c !in a && c !in b
    ensures Split(a + [c] + b, c) == [a, b]
  {
    if a == [] {
      assert a + [c] + b == [c] + b;
      SplitWithout(b, c);
      assert ([c] + b)[1..] == b;
    } else {
      SplitTwo(a[1..], b, c);
      var s := a + [c] + b;
      assert s[1..] == a[1..] + [c] + b;
      assert [a[0]] + a[1..] == a;
    }
  }

  lemma LowerAppend(a: string, b: string)
    ensures Lower(a + b) == Lower(a) + Lower(b)
  {
  }

  /** JavaScript `substring(start, end)`: both bounds clamped to the
      string, swapped when out of order. */
  function JsSubstring(s: string, start: int, end: int): (r: string)
    ensures |r| <= |s|
  {
    var a := if start < 0 then 0 else if start > |s| then |s| else start;
    var b := if end < 0 then 0 else if end > |s| then |s| else end;
    if a <= b then s[a..b] else s[b..a]
  }

  /** JavaScript `substring(start)`. */
  function JsSubstringFrom(s: string, start: int): (r: string)
    ensures 0 <= start <= |s| ==> r == s[start..]
    ensures start > |s| ==> r == ""
    ensures start < 0 ==> r == s
  {
    JsSubstring(s, start, |s|)
  }

  // ---------------------------------------------------------------------------
  // Decimal numbers

  function DigitChar(d: nat): char
    requires d < 10
  {
    ('0' as int + d) as char
  }

  predicate IsDigit(c: char) {
    '0' <= c <= '9'
  }

  function DigitValue(c: char): nat
    requires IsDigit(c)
  {
    c as int - '0' as int
  }

  predicate AllDigits(s: string) {
    forall i :: 0 <= i < |s| ==> IsDigit(s[i])
  }

  /** Shortest decimal representation (JavaScript `String(n)` for n >= 0). */
  function NatToString(n: nat): (r: string)
    ensures |r| >= 1 && AllDigits(r)
    ensures |r| > 1 ==> r[0] != '0'
  {
    if n < 10 then [DigitChar(n)] else NatToString(n / 10) + [DigitChar(n % 10)]
  }

  /** Value of a digit string read in base ten. */
  function DigitsValue(s: string): nat
    requires AllDigits(s)
  {
    if s == [] then 0 else DigitsValue(s[..|s| - 1]) * 10 + DigitValue(s[|s| - 1])
  }

  lemma {:induction false} NatToStringValue(n: nat)
    ensures DigitsValue(NatToString(n)) == n
  {
    if n >= 10 {
      NatToStringValue(n / 10);
      var s := NatToString(n);
      assert s[..|s| - 1] == NatToString(n / 10);
    }
  }

  /** Leading zeros do not change the value of a digit string. */
  lemma {:induction false} DigitsValueLeadingZero(s: string)
    requires AllDigits(s)
    ensures DigitsValue("0" + s) == DigitsValue(s)
  {
    if s != [] {
      DigitsValueLeadingZero(s[..|s| - 1]);
      assert ("0" + s)[..|s|] == "0" + s[..|s| - 1];
    }
  }

  /** JavaScript `%`: the remainder takes the sign of the dividend. */
  function JsRem(a: int, b: int): (r: int)
    requires b > 0
    ensures a >= 0 ==> r == a % b
    ensures -b < r < b
  {
    if a >= 0 then a % b else -((-a) % b)
  }

  /** JavaScript `String(n)` for any integer. */
  function IntToString(n: int): string {
    if n < 0 then "-" + NatToString(-n) else NatToString(n)
  }

  // ---------------------------------------------------------------------------
  // Sequences

  function Filter<T(==)>(s: seq<T>, keep: T -> bool): (r: seq<T>)
    ensures |r| <= |s|
    ensures forall i :: 0 <= i < |r| ==> r[i] in s && keep(r[i])
    ensures forall i :: 0 <= i < |s| && keep(s[i]) ==> s[i] in r
  {
    if s == [] then [] else (if keep(s[0]) then [s[0]] else []) + Filter(s[1..], keep)
  }

  /** Filtering works piece by piece, so it keeps the order of what it keeps. */
  lemma {:induction false} FilterConcat<T>(a: seq<T>, b: seq<T>, keep: T -> bool)
    ensures Filter(a + b, keep) == Filter(a, keep) + Filter(b, keep)
  {
    if a == [] {
      assert a + b == b;
    } else {
      assert (a + b)[0] == a[0] && (a + b)[1..] == a[1..] + b;
      FilterConcat(a[1..], b, keep);
    }
  }

  /** Filtering with a test every element passes keeps the sequence. */
  lemma {:induction false} FilterAll<T>(s: seq<T>, keep: T -> bool)
    requires forall i :: 0 <= i < |s| ==> keep(s[i])
    ensures Filter(s, keep) == s
  {
    if s != [] {
      FilterAll(s[1..], keep);
      assert [s[0]] + s[1..] == s;
    }
  }

  predicate Distinct<T(==)>(s: seq<T>) {
    forall i, j :: 0 <= i < j < |s| ==> s[i] != s[j]
  }

  /** Index of the first element satisfying `p`, or -1 (JavaScript `findIndex`). */
  function FindIndex<T>(s: seq<T>, p: T -> bool): (r: int)
    ensures -1 <= r < |s|
    ensures r >= 0 ==> p(s[r])
    ensures forall i :: 0 <= i < |s| && (r == -1 || i < r) ==> !p(s[i])
  {
    if s == [] then -1
    else if p(s[0]) then 0
    else var k := FindIndex(s[1..], p); if k == -1 then -1 else k + 1
  }

  /** `s` with the element at index `i` removed (JavaScript `splice(i, 1)`). */
  function RemoveAt<T>(s: seq<T>, i: nat): (r: seq<T>)
    requires i < |s|
    ensures |r| == |s| - 1
    ensures multiset(r) == multiset(s) - multiset{s[i]}
  {
    assert s == s[..i] + [s[i]] + s[i + 1..];
    s[..i] + s[i + 1..]
  }

  lemma DistinctPrefix<T>(s: seq<T>, n: nat)
    requires n <= |s| && Distinct(s)
    ensures Distinct(s[..n])
  {
    assert forall k :: 0 <= k < n ==> s[..n][k] == s[k];
  }

  /** Removing an element from a list without repeats leaves a list without
      repeats that no longer holds it. */
  lemma RemoveAtDistinct<T>(s: seq<T>, i: nat)
    requires i < |s| && Distinct(s)
    ensures Distinct(RemoveAt(s, i)) && s[i] !in RemoveAt(s, i)
  {
    var r := RemoveAt(s, i);
    assert forall k :: 0 <= k < |r| ==> r[k] == if k < i then s[k] else s[k + 1];
  }

  // ---------------------------------------------------------------------------
  // HTTP header lists. Header names are kept in the lower-case canonical form
  // that the HTTP library stores them in.

  type Headers = seq<(string, string)>

  /** The first value stored under `name`, as a header-map `get` returns it. */
  function HeaderGet(headers: Headers, name: string): (r: Option<string>)
    ensures r.None? <==> forall i :: 0 <= i < |headers| ==> headers[i].0 != name
    ensures r.Some? ==> exists i :: 0 <= i < |headers| && headers[i] == (name, r.value)
  {
    if headers == [] then None
    else if headers[0].0 == name then Some(headers[0].1)
    else HeaderGet(headers[1..], name)
  }

  predicate HasHeader(headers: Headers, name: string) {
    exists i :: 0 <= i < |headers| && headers[i].0 == name
  }

  /** A non-empty set has an element (the witness `:|` needs). */
  lemma NonEmptyHasElement(s: set<int>)
    requires s != {}
    ensures exists x :: x in s
  {
    if forall x :: x !in s {
      assert false;
    }
  }

  /** Every value stored under `name`, in order. */
  function HeaderValues(headers: Headers, name: string): (r: seq<string>)
    ensures |r| <= |headers|
  {
    if headers == [] then []
    else (if headers[0].0 == name then [headers[0].1] else []) + HeaderValues(headers[1..], name)
  }

  /** A header is present exactly when it has a value. */
  lemma {:induction false} HasHeaderValues(headers: Headers, name: string)
    ensures HeaderValues(headers, name) == [] <==> !HasHeader(headers, name)
  {
    if headers != [] {
      HasHeaderValues(headers[1..], name);
      if headers[0].0 != name && HasHeader(headers, name) {
        var i :| 0 <= i < |headers| && headers[i].0 == name;
        assert headers[1..][i - 1].0 == name;
      }
      if HasHeader(headers[1..], name) {
        var i :| 0 <= i < |headers[1..]| && headers[1..][i].0 == name;
        assert headers[i + 1].0 == name;
      }
    }
  }

  lemma {:induction false} HeaderValuesAppend(a: Headers, b: Headers, name: string)
    ensures HeaderValues(a + b, name) == HeaderValues(a, name) + HeaderValues(b, name)
  {
    if a != [] {
      assert (a + b)[0] == a[0];
      assert (a + b)[1..] == a[1..] + b;
      HeaderValuesAppend(a[1..], b, name);
      var first: seq<string> := if a[0].0 == name then [a[0].1] else [];
      assert HeaderValues(a + b, name) == first + HeaderValues(a[1..] + b, name);
      assert HeaderValues(a, name) == first + HeaderValues(a[1..], name);
    } else {
      assert a + b == b;
    }
  }

  /** A header map `remove`: every value under `name` goes. */
  function RemoveHeader(headers: Headers, name: string): (r: Headers)
    ensures HeaderValues(r, name) == []
    ensures forall n :: n != name ==> HeaderValues(r, n) == HeaderValues(headers, n)
  {
    if headers == [] then []
    else if headers[0].0 == name then RemoveHeader(headers[1..], name)
    else
      var rest := RemoveHeader(headers[1..], name);
      assert ([headers[0]] + rest)[1..] == rest;
      [headers[0]] + rest
  }

  /** A header map insert: the value replaces whatever `name` held, in
      place, or is added at the end. */
  function InsertHeader(headers: Headers, name: string, value: string): (r: Headers)
    ensures HeaderGet(r, name) == Some(value)
    ensures forall n :: n != name ==> HeaderGet(r, n) == HeaderGet(headers, n)
  {
    if headers == [] then [(name, value)]
    else if headers[0].0 == name then [(name, value)] + headers[1..]
    else [headers[0]] + InsertHeader(headers[1..], name, value)
  }

  /** The headers of the rebuilt response: every header of the original is
      inserted in turn. */
  function RebuildHeaders(headers: Headers): Headers {
    if headers == [] then []
    else
      var last := headers[|headers| - 1];
      InsertHeader(RebuildHeaders(headers[..|headers| - 1]), last.0, last.1)
  }

  /** The last value the original carried under `name`. */
  function LastHeader(headers: Headers, name: string): Option<string> {
    if headers == [] then None
    else if headers[|headers| - 1].0 == name then Some(headers[|headers| - 1].1)
    else LastHeader(headers[..|headers| - 1], name)
  }

  /** Every header name of the original comes back with its last value;
      nothing else is added. */
  lemma {:induction false} RebuildHeadersKeepsLast(headers: Headers, name: string)
    ensures HeaderGet(RebuildHeaders(headers), name) == LastHeader(headers, name)
  {
    if headers != [] {
      RebuildHeadersKeepsLast(headers[..|headers| - 1], name);
    }
  }

}

=== FILE: config.dfy ===
/** The persisted application configuration: the configured servers, the
    open tabs and the per-server list of recently used save directories. */
module Config {
  import opened Common
  import TrUtil
  import Poller

  /** Polling intervals, in seconds. */
  datatype Intervals = Intervals(session: nat, torrents: nat, torrentsMinimized: nat, details: nat)

  datatype ServerConfig = ServerConfig(
    name: string,
    connection: Poller.Connection,
    pathMappings: seq<TrUtil.PathMapping>,
    expandedDirFilters: seq<string>,
    lastSaveDirs: seq<string>,
    intervals: Intervals)

  /** Default length of the recent save directory list. */
  const DefaultNumLastSaveDirs := 20

  // ---------------------------------------------------------------------------
  // Looking servers up

  /** Index of the first server with the given name. */
  function ServerIndex(servers: seq<ServerConfig>, name: string): (r: Option<nat>)
    ensures r.Some? ==> r.value < |servers| && servers[r.value].name == name
    ensures forall i :: 0 <= i < |servers| && (r.None? || i < r.value) ==> servers[i].name != name
  {
    if servers == [] then None
    else if servers[0].name == name then Some(0)
    else match ServerIndex(servers[1..], name)
      case None => None
      case Some(i) => Some(i + 1)
  }

  predicate HasServer(servers: seq<ServerConfig>, name: string) {
    exists i :: 0 <= i < |servers| && servers[i].name == name
  }

  /** The server a name selects: the first with that name. */
  function ServerNamed(servers: seq<ServerConfig>, name: string): (r: Option<ServerConfig>)
    ensures r.None? <==> !HasServer(servers, name)
    ensures r.Some? ==> r.value.name == name
    ensures r.Some? ==> exists i :: 0 <= i < |servers| && servers[i] == r.value &&
                                    forall j :: 0 <= j < i ==> servers[j].name != name
  {
    match ServerIndex(servers, name)
      case None => None
      case Some(i) => Some(servers[i])
  }

  /** The open tabs that name a configured server, in their order. */
  function KnownTabs(tabs: seq<string>, servers: seq<ServerConfig>): (r: seq<string>)
    ensures forall i :: 0 <= i < |r| ==> r[i] in tabs && HasServer(servers, r[i])
    ensures forall i :: 0 <= i < |tabs| && HasServer(servers, tabs[i]) ==> tabs[i] in r
  {
    Filter(tabs, (name: string) => HasServer(servers, name))
  }

  /** The servers whose name is an open tab, in server order. */
  function OpenServers(servers: seq<ServerConfig>, tabs: seq<string>): (r: seq<ServerConfig>)
    ensures forall i :: 0 <= i < |r| ==> r[i] in servers && r[i].name in tabs
    ensures forall i :: 0 <= i < |servers| && servers[i].name in tabs ==> servers[i] in r
  {
    Filter(servers, (s: ServerConfig) => s.name in tabs)
  }

  /** Sanitising keeps the tabs in their order: it works tab by tab. */
  lemma KnownTabsInOrder(a: seq<string>, b: seq<string>, servers: seq<ServerConfig>)
    ensures KnownTabs(a + b, servers) == KnownTabs(a, servers) + KnownTabs(b, servers)
  {
    FilterConcat(a, b, (name: string) => HasServer(servers, name));
  }

  /** Sanitising drops nothing when every tab names a server. */
  lemma KnownTabsKeepsKnown(tabs: seq<string>, servers: seq<ServerConfig>)
    requires forall i :: 0 <= i < |tabs| ==> HasServer(servers, tabs[i])
    ensures KnownTabs(tabs, servers) == tabs
  {
    FilterAll(tabs, (name: string) => HasServer(servers, name));
  }

  /** The open servers keep the configured order. */
  lemma OpenServersInOrder(a: seq<ServerConfig>, b: seq<ServerConfig>, tabs: seq<string>)
    ensures OpenServers(a + b, tabs) == OpenServers(a, tabs) + OpenServers(b, tabs)
  {
    FilterConcat(a, b, (s: ServerConfig) => s.name in tabs);
  }

  // ---------------------------------------------------------------------------
  // Recent save directories

  /** The list without its first copy of `dir`. */
  function WithoutFirst(dirs: seq<string>, dir: string): (r: seq<string>)
    ensures dir in dirs ==> |r| == |dirs| - 1 && multiset(r) == multiset(dirs) - multiset{dir}
    ensures dir !in dirs ==> r == dirs
  {
    var index := ArrayIndexOf(dirs, dir);
    if index >= 0 then RemoveAt(dirs, index) else dirs
  }

  /** The list after using `dir`: its earlier entry taken out, the
      directory put first, and the last entry dropped once when the list
      is then longer than `limit`. */
  function SaveDirsAfter(dirs: seq<string>, dir: string, limit: int): (r: seq<string>)
    ensures |r| > 0 ==> r[0] == dir
    ensures limit >= 1 ==> |r| >= 1
  {
    var pushed := [dir] + WithoutFirst(dirs, dir);
    if |pushed| > limit then pushed[..|pushed| - 1] else pushed
  }

  /** The directory occurs once afterwards when it occurred at most once
      before. */
  lemma SaveDirOnce(dirs: seq<string>, dir: string, limit: int)
    requires multiset(dirs)[dir] <= 1 && limit >= 1
    ensures multiset(SaveDirsAfter(dirs, dir, limit))[dir] == 1
  {
    var rest := WithoutFirst(dirs, dir);
    if dir in dirs {
      assert multiset(rest) == multiset(dirs) - multiset{dir};
    } else {
      assert multiset(dirs)[dir] == 0;
    }
    assert multiset(rest)[dir] == 0;
    var pushed := [dir] + rest;
    var r := SaveDirsAfter(dirs, dir, limit);
    assert r == pushed || r == pushed[..|pushed| - 1];
    var kept := rest[..|r| - 1];
    assert r == [dir] + kept;
    assert multiset(kept)[dir] == 0 by {
      assert rest == kept + rest[|r| - 1..];
      assert multiset(rest) == multiset(kept) + multiset(rest[|r| - 1..]);
    }
    assert multiset(r) == multiset{dir} + multiset(kept);
  }

  /** The other entries keep their order, the most recent first: what
      follows the directory is a prefix of the old list without it. */
  lemma SaveDirsKeepOrder(dirs: seq<string>, dir: string, limit: int)
    ensures var r := SaveDirsAfter(dirs, dir, limit);
      |r| > 0 ==> r[1..] == WithoutFirst(dirs, dir)[..|r| - 1]
  {
  }

  /** Exactly one entry is dropped, and only when the list, with the
      directory put first, is longer than `limit`. */
  lemma SaveDirsLength(dirs: seq<string>, dir: string, limit: int)
    ensures var n := |dirs| + (if dir in dirs then 0 else 1);
      |SaveDirsAfter(dirs, dir, limit)| == if n > limit then n - 1 else n
  {
  }

  /** A list within its limit stays within it, and a list that was full
      stays full. */
  lemma SaveDirsBounded(dirs: seq<string>, dir: string, limit: int)
    requires 1 <= limit && |dirs| <= limit
    ensures |SaveDirsAfter(dirs, dir, limit)| <= limit
    ensures |dirs| == limit ==> |SaveDirsAfter(dirs, dir, limit)| == limit
  {
  }

  /** A list without repeats stays without repeats. */
  lemma SaveDirsDistinct(dirs: seq<string>, dir: string, limit: int)
    requires Distinct(dirs)
    ensures Distinct(SaveDirsAfter(dirs, dir, limit))
  {
    var rest := WithoutFirst(dirs, dir);
    WithoutFirstDistinct(dirs, dir);
    var pushed := [dir] + rest;
    assert Distinct(pushed) by {
      forall i, j | 0 <= i < j < |pushed| ensures pushed[i] != pushed[j] {
        assert pushed[j] == rest[j - 1];
        if i > 0 {
          assert pushed[i] == rest[i - 1];
        }
      }
    }
    if |pushed| > limit {
      DistinctPrefix(pushed, |pushed| - 1);
    }
  }

  lemma WithoutFirstDistinct(dirs: seq<string>, dir: string)
    requires Distinct(dirs)
    ensures Distinct(WithoutFirst(dirs, dir)) && dir !in WithoutFirst(dirs, dir)
  {
    if dir in dirs {
      RemoveAtDistinct(dirs, ArrayIndexOf(dirs, dir));
    }
  }

  /** The list update `Config.AddSaveDir` performs, step by step: the old
      entry spliced out, the directory put first, the last entry popped
      when the list is too long. */
  method PushSaveDir(previous: seq<string>, dir: string, limit: int) returns (saveDirs: seq<string>)
    ensures saveDirs == SaveDirsAfter(previous, dir, limit)
  {
    var index := ArrayIndexOf(previous, dir);
    saveDirs := previous;
    if index >= 0 {
      saveDirs := saveDirs[..index] + saveDirs[index + 1..];
    }
    assert saveDirs == WithoutFirst(previous, dir);
    saveDirs := [dir] + saveDirs;
    if |saveDirs| > limit {
      saveDirs := saveDirs[..|saveDirs| - 1];
    }
  }

  /** The servers after using `dir` on the server named `name`: only the
      first server with that name changes, and only in its save
      directories. */
  function AddSaveDirTo(servers: seq<ServerConfig>, name: string, dir: string, limit: int): (r: seq<ServerConfig>)
    ensures !HasServer(servers, name) ==> r == servers
    ensures |r| == |servers|
    ensures forall i :: 0 <= i < |servers| ==>
      if Some(i) == ServerIndex(servers, name)
      then r[i] == servers[i].(lastSaveDirs := SaveDirsAfter(servers[i].lastSaveDirs, dir, limit))
      else r[i] == servers[i]
  {
    match ServerIndex(servers, name)
      case None => servers
      case Some(i) => servers[i := servers[i].(lastSaveDirs := SaveDirsAfter(servers[i].lastSaveDirs, dir, limit))]
  }

  // ---------------------------------------------------------------------------
  // The configuration object

  class Config {
    var servers: seq<ServerConfig>
    var openTabs: seq<string>
    var numLastSaveDirs: int

    /** The defaults: no servers, no open tabs, twenty recent directories. */
    constructor()
      ensures servers == [] && openTabs == [] && numLastSaveDirs == DefaultNumLastSaveDirs
    {
      servers := [];
      openTabs := [];
      numLastSaveDirs := DefaultNumLastSaveDirs;
    }

    /** The sanitisation done after reading the file: open tabs that name
        no configured server are dropped. */
    method Read()
      modifies this
      ensures openTabs == KnownTabs(old(openTabs), servers)
      ensures servers == old(servers) && numLastSaveDirs == old(numLastSaveDirs)
    {
      openTabs := KnownTabs(openTabs, servers);
    }

    function GetOpenServers(): seq<ServerConfig>
      reads this
    {
      OpenServers(servers, openTabs)
    }

    function GetServer(name: string): Option<ServerConfig>
      reads this
    {
      ServerNamed(servers, name)
    }

    /** Records `dir` as the most recent save directory of the server
        named `serverName`, in place; an unknown server is left alone. */
    method AddSaveDir(serverName: string, dir: string)
      modifies this
      ensures servers == AddSaveDirTo(old(servers), serverName, dir, numLastSaveDirs)
      ensures openTabs == old(openTabs) && numLastSaveDirs == old(numLastSaveDirs)
    {
      var found := ServerIndex(servers, serverName);
      if found.None? {
        return;
      }
      var i := found.value;
      var saveDirs := PushSaveDir(servers[i].lastSaveDirs, dir, numLastSaveDirs);
      servers := servers[i := servers[i].(lastSaveDirs := saveDirs)];
    }
  }
}

=== FILE: create_torrent.dfy ===
/** The registry of torrent-creation requests of the backend. Each request
    id maps to a build that is hashing in the background or to the finished
    result. Hashing, bencoding and writing the file are abstract: a build is
    a handle with its progress and, once finished, its output. */
module CreateTorrent {
  import opened Common

  /** What the creation form sends. */
  datatype CreateInfo = CreateInfo(
    name: string, path: string, pieceLength: int, comment: string, source: string, private: bool,
    announceList: seq<string>, urlList: seq<string>, version: string)

  predicate NonEmptyString(s: string) { s != "" }

  predicate NonEmptyTier(tier: seq<string>) { tier != [] }

  /** The list cut at every empty line (a slice split): n empty lines give
      n + 1 parts, some of which may be empty. */
  function SplitOnEmpty(lines: seq<string>): (r: seq<seq<string>>)
    ensures |r| >= 1
    ensures forall i, j :: 0 <= i < |r| && 0 <= j < |r[i]| ==> r[i][j] != ""
  {
    if lines == [] then [[]]
    else
      var rest := SplitOnEmpty(lines[1..]);
      if lines[0] == "" then [[]] + rest
      else [[lines[0]] + rest[0]] + rest[1..]
  }

  /** The inverse of `SplitOnEmpty`: the parts with one empty line between
      neighbours. */
  function JoinTiers(parts: seq<seq<string>>): seq<string>
    requires |parts| >= 1
  {
    if |parts| == 1 then parts[0] else parts[0] + [""] + JoinTiers(parts[1..])
  }

  lemma {:induction false} JoinSplitOnEmpty(lines: seq<string>)
    ensures JoinTiers(SplitOnEmpty(lines)) == lines
  {
    if lines != [] {
      var rest := SplitOnEmpty(lines[1..]);
      JoinSplitOnEmpty(lines[1..]);
      if lines[0] == "" {
        assert ([[]] + rest)[1..] == rest;
      } else {
        var r := [[lines[0]] + rest[0]] + rest[1..];
        if |rest| == 1 {
          assert JoinTiers(r) == [lines[0]] + rest[0];
        } else {
          assert r[1..] == rest[1..];
          assert JoinTiers(rest) == rest[0] + [""] + JoinTiers(rest[1..]);
        }
      }
    }
  }

  function Flatten(parts: seq<seq<string>>): seq<string> {
    if parts == [] then [] else parts[0] + Flatten(parts[1..])
  }

  lemma {:induction false} FlattenSplitOnEmpty(lines: seq<string>)
    ensures Flatten(SplitOnEmpty(lines)) == Filter(lines, NonEmptyString)
  {
    if lines != [] {
      var rest := SplitOnEmpty(lines[1..]);
      FlattenSplitOnEmpty(lines[1..]);
      if lines[0] == "" {
        assert ([[]] + rest)[1..] == rest;
      } else {
        var r := [[lines[0]] + rest[0]] + rest[1..];
        assert r[1..] == rest[1..];
        assert Flatten(rest) == rest[0] + Flatten(rest[1..]);
      }
    }
  }

  /** Lines free of empty ones, put in front of a list that is empty or
      starts with an empty line, extend the first part of its split. */
  lemma {:induction false} SplitOnEmptyPrefix(x: seq<string>, rest: seq<string>)
    requires forall j :: 0 <= j < |x| ==> x[j] != ""
    requires rest == [] || rest[0] == ""
    ensures var q := SplitOnEmpty(rest);
      SplitOnEmpty(x + rest) == [x + q[0]] + q[1..]
  {
    if x == [] {
      assert x + rest == rest;
    } else {
      assert (x + rest)[0] == x[0] && (x + rest)[1..] == x[1..] + rest;
      SplitOnEmptyPrefix(x[1..], rest);
      assert [x[0]] + (x[1..] + SplitOnEmpty(rest)[0]) == x + SplitOnEmpty(rest)[0];
    }
  }

  /** Splitting inverts joining, for parts free of empty lines. */
  lemma {:induction false} SplitOnEmptyJoin(parts: seq<seq<string>>)
    requires |parts| >= 1
    requires forall i, j :: 0 <= i < |parts| && 0 <= j < |parts[i]| ==> parts[i][j] != ""
    ensures SplitOnEmpty(JoinTiers(parts)) == parts
  {
    if |parts| == 1 {
      SplitOnEmptyPrefix(parts[0], []);
      assert parts[0] + [] == parts[0];
    } else {
      var tail := JoinTiers(parts[1..]);
      SplitOnEmptyJoin(parts[1..]);
      assert JoinTiers(parts) == parts[0] + ([""] + tail);
      SplitOnEmptyPrefix(parts[0], [""] + tail);
      assert ([""] + tail)[1..] == tail;
      assert parts[0] + [] == parts[0];
    }
  }

  lemma {:induction false} FlattenDropsEmptyTiers(parts: seq<seq<string>>)
    ensures Flatten(Filter(parts, NonEmptyTier)) == Flatten(parts)
  {
    if parts != [] {
      FlattenDropsEmptyTiers(parts[1..]);
      if parts[0] != [] {
        assert Filter(parts, NonEmptyTier) == [parts[0]] + Filter(parts[1..], NonEmptyTier);
        assert ([parts[0]] + Filter(parts[1..], NonEmptyTier))[1..] == Filter(parts[1..], NonEmptyTier);
      } else {
        assert Filter(parts, NonEmptyTier) == Filter(parts[1..], NonEmptyTier);
        assert Flatten(parts) == parts[0] + Flatten(parts[1..]);
      }
    }
  }

  /** The announce tiers: the list split on empty lines, empty tiers
      dropped, in order (section "announce-list" of BEP 12). */
  function AnnounceTiers(announceList: seq<string>): (r: seq<seq<string>>)
    ensures forall i :: 0 <= i < |r| ==> r[i] != [] && forall j :: 0 <= j < |r[i]| ==> r[i][j] != ""
    ensures r == Filter(SplitOnEmpty(announceList), NonEmptyTier)
  {
    var parts := SplitOnEmpty(announceList);
    var r := Filter(parts, NonEmptyTier);
    forall i | 0 <= i < |r|
      ensures r[i] != [] && forall j :: 0 <= j < |r[i]| ==> r[i][j] != ""
    {
      assert r[i] in parts;
    }
    r
  }

  /** The tiers hold exactly the non-empty lines, in order. */
  lemma AnnounceTiersLines(announceList: seq<string>)
    ensures Flatten(AnnounceTiers(announceList)) == Filter(announceList, NonEmptyString)
  {
    FlattenDropsEmptyTiers(SplitOnEmpty(announceList));
    FlattenSplitOnEmpty(announceList);
  }

  /** Tiers written one after another with an empty line between them come
      back as the same tiers: the tier boundaries are the empty lines. */
  lemma AnnounceTiersOfJoined(tiers: seq<seq<string>>)
    requires |tiers| >= 1
    requires forall i :: 0 <= i < |tiers| ==> tiers[i] != [] && forall j :: 0 <= j < |tiers[i]| ==> tiers[i][j] != ""
    ensures AnnounceTiers(JoinTiers(tiers)) == tiers
  {
    SplitOnEmptyJoin(tiers);
    FilterAll(tiers, NonEmptyTier);
  }

  /** Dropping the empty strings leaves something exactly when there is a
      non-empty one. */
  lemma SomeNonEmpty(lines: seq<string>)
    ensures Filter(lines, NonEmptyString) != [] <==> exists i :: 0 <= i < |lines| && lines[i] != ""
  {
    var kept := Filter(lines, NonEmptyString);
    if kept != [] {
      assert kept[0] in lines;
    }
  }

  /** The parameters handed to the torrent builder. */
  datatype TorrentSpec = TorrentSpec(
    path: string, pieceLength: int, name: string, announce: Option<string>,
    createdBy: string, creationDate: int, urlList: Option<seq<string>>,
    announceTiers: Option<seq<seq<string>>>, comment: Option<string>, source: Option<string>, private: bool)

  const MaxI64 := 0x7fff_ffff_ffff_ffff

  /** The builder parameters of a request made at `now` (seconds since the
      Unix epoch): `announce` is the first line verbatim, even when empty;
      the tiers are set only when the list has lines; url-list, comment and
      source only when non-empty; privacy only when asked for. */
  function Spec(info: CreateInfo, now: nat): (s: TorrentSpec)
    requires now <= MaxI64
    ensures s.announce == (if info.announceList == [] then None else Some(info.announceList[0]))
    ensures s.announceTiers.Some? <==> info.announceList != []
    ensures s.urlList.Some? <==> exists i :: 0 <= i < |info.urlList| && info.urlList[i] != ""
    ensures s.urlList.Some? ==> s.urlList.value == Filter(info.urlList, NonEmptyString)
    ensures s.comment.Some? <==> info.comment != ""
    ensures s.source.Some? <==> info.source != ""
    ensures s.private == info.private
    ensures s.createdBy == "TrguiNG " + info.version && s.creationDate == now
    ensures s.path == info.path && s.pieceLength == info.pieceLength && s.name == info.name
    ensures s.announceTiers.Some? ==>
      && Flatten(s.announceTiers.value) == Filter(info.announceList, NonEmptyString)
      && forall i :: 0 <= i < |s.announceTiers.value| ==> s.announceTiers.value[i] != []
    ensures s.announceTiers.Some? ==> s.announceTiers.value == Filter(SplitOnEmpty(info.announceList), NonEmptyTier)
    ensures s.comment.Some? ==> s.comment.value == info.comment
    ensures s.source.Some? ==> s.source.value == info.source
  {
    AnnounceTiersLines(info.announceList);
    var urls := Filter(info.urlList, NonEmptyString);
    SomeNonEmpty(info.urlList);
    TorrentSpec(
      info.path, info.pieceLength, info.name,
      if info.announceList == [] then None else Some(info.announceList[0]),
      "TrguiNG " + info.version, now,
      if urls != [] then Some(urls) else None,
      if info.announceList != [] then Some(AnnounceTiers(info.announceList)) else None,
      if info.comment != "" then Some(info.comment) else None,
      if info.source != "" then Some(info.source) else None,
      info.private)
  }

  /** A finished torrent, as far as the registry reads it. */
  datatype Torrent = Torrent(infoHash: string)

  /** A background build: its handle, pieces hashed and total, and its
      output once finished. */
  datatype Build = Build(handle: nat, hashed: nat, total: nat, output: Option<Result<Torrent, string>>)

  datatype Entry = Building(build: Build) | Finished(result: Result<Torrent, string>)

  datatype CheckResult = NotFound | Error(message: string) | Complete(hash: string) | InProgress(hashed: nat, total: nat)

  /** The entry after `check` collected a finished build. */
  function Settle(requests: map<int, Entry>, id: int): (r: map<int, Entry>)
    ensures r.Keys == requests.Keys
    ensures forall k :: k in r && k != id ==> r[k] == requests[k]
    ensures id in r ==> (r[id].Building? ==> r[id].build.output.None?)
  {
    if id in requests && requests[id].Building? && requests[id].build.output.Some?
    then requests[id := Finished(requests[id].build.output.value)]
    else requests
  }

  /** A finished build is collected once; checking again changes nothing. */
  lemma SettleOnce(requests: map<int, Entry>, id: int)
    ensures Settle(Settle(requests, id), id) == Settle(requests, id)
  {
  }

  function Report(entry: Option<Entry>): CheckResult {
    match entry
    case None => NotFound
    case Some(Building(b)) => InProgress(b.hashed, b.total)
    case Some(Finished(Ok(t))) => Complete(t.infoHash)
    case Some(Finished(Err(e))) => Error(e)
  }

  const NotFoundMessage := "Torrent build request not found"

  class CreationRequests {
    var requests: map<int, Entry>
    /** Handles of the builds cancelled so far. */
    var cancelled: set<nat>

    constructor ()
      ensures requests == map[] && cancelled == {}
    {
      requests, cancelled := map[], {};
    }

    /** Starts a build for `info`; `start` is the builder, which may refuse.
        A refused build leaves the registry unchanged; otherwise the build
        takes the id's slot and a build it displaces is cancelled. */
    method Add(id: int, info: CreateInfo, now: nat, start: TorrentSpec -> Result<Build, string>)
      returns (r: Result<(), string>)
      requires now <= MaxI64
      modifies this
      ensures start(Spec(info, now)).Err? ==>
        r == Err(start(Spec(info, now)).error) && requests == old(requests) && cancelled == old(cancelled)
      ensures start(Spec(info, now)).Ok? ==>
        && r == Ok(())
        && requests == old(requests)[id := Building(start(Spec(info, now)).value)]
        && cancelled == old(cancelled) +
             (if id in old(requests) && old(requests)[id].Building? then {old(requests)[id].build.handle} else {})
    {
      var built := start(Spec(info, now));
      if built.Err? {
        return Err(built.error);
      }
      var previous := if id in requests then Some(requests[id]) else None;
      requests := requests[id := Building(built.value)];
      if previous.Some? && previous.value.Building? {
        cancelled := cancelled + {previous.value.build.handle};
      }
      r := Ok(());
    }

    /** Collects a finished build and reports the id's state. */
    method Check(id: int) returns (result: CheckResult)
      modifies this
      ensures requests == Settle(old(requests), id) && cancelled == old(cancelled)
      ensures result == Report(if id in requests then Some(requests[id]) else None)
    {
      if id in requests && requests[id].Building? && requests[id].build.output.Some? {
        var output := requests[id].build.output.value;
        requests := requests - {id};
        requests := requests[id := Finished(output)];
      }
      if id in requests {
        match requests[id] {
          case Building(b) => result := InProgress(b.hashed, b.total);
          case Finished(Ok(t)) => result := Complete(t.infoHash);
          case Finished(Err(e)) => result := Error(e);
        }
      } else {
        result := NotFound;
      }
    }

    /** Drops the id's entry, cancelling it if it is still building. */
    method Cancel(id: int) returns (r: Result<(), string>)
      modifies this
      ensures requests == old(requests) - {id}
      ensures r == (if id in old(requests) then Ok(()) else Err(NotFoundMessage))
      ensures cancelled == old(cancelled) +
        (if id in old(requests) && old(requests)[id].Building? then {old(requests)[id].build.handle} else {})
    {
      if id !in requests {
        return Err(NotFoundMessage);
      }
      var entry := requests[id];
      requests := requests - {id};
      if entry.Building? {
        cancelled := cancelled + {entry.build.handle};
      }
      r := Ok(());
    }

    /** Drops the id's entry whatever it holds, and writes the torrent to
        `path` only when the entry was a successful result. */
    method Save(id: int, path: string, write: (Torrent, string) -> Result<(), string>) returns (r: Result<(), string>)
      modifies this
      ensures requests == old(requests) - {id} && cancelled == old(cancelled)
      ensures r == (if id in old(requests) && old(requests)[id].Finished? && old(requests)[id].result.Ok?
                    then write(old(requests)[id].result.value, path) else Err(NotFoundMessage))
    {
      var entry := if id in requests then Some(requests[id]) else None;
      requests := requests - {id};
      match entry {
        case Some(Finished(Ok(torrent))) => r := write(torrent, path);
        case _ => r := Err(NotFoundMessage);
      }
    }
  }
}

=== FILE: daemon.dfy ===
/** The daemon settings dialog: the time inputs of the alternative speed
    schedule, which show minutes after midnight as "hh:mm" and read them
    back, and the weekday check boxes over the schedule's day bitmask. */
module Daemon {
  import opened Common

  // ---------------------------------------------------------------------------
  // JavaScript parseInt, radix left out

  /** The white space JavaScript skips in front of a number (the ASCII and
      Latin-1 part of it). */
  predicate IsWhite(c: char) {
    c == ' ' || c == '\t' || c == '\n' || c == '\r' || c == '\U{000B}' || c == '\U{000C}' || c == '\U{00A0}'
  }

  function SkipWhite(s: string): (r: string)
    ensures r == [] || !IsWhite(r[0])
    ensures |r| <= |s|
  {
    if s != [] && IsWhite(s[0]) then SkipWhite(s[1..]) else s
  }

  /** The longest prefix of `s` passing `p`. */
  function PrefixOf(s: string, p: char -> bool): (r: string)
    ensures |r| <= |s| && r == s[..|r|]
    ensures forall i :: 0 <= i < |r| ==> p(r[i])
    ensures |r| < |s| ==> !p(s[|r|])
  {
    if s != [] && p(s[0]) then [s[0]] + PrefixOf(s[1..], p) else []
  }

  predicate IsHexDigit(c: char) {
    IsDigit(c) || 'a' <= c <= 'f' || 'A' <= c <= 'F'
  }

  function HexValue(c: char): nat
    requires IsHexDigit(c)
  {
    if IsDigit(c) then DigitValue(c)
    else if 'a' <= c <= 'f' then c as nat - 'a' as nat + 10
    else c as nat - 'A' as nat + 10
  }

  function HexDigitsValue(s: string): nat
    requires forall i :: 0 <= i < |s| ==> IsHexDigit(s[i])
  {
    if s == [] then 0 else HexDigitsValue(s[..|s| - 1]) * 16 + HexValue(s[|s| - 1])
  }

  /** Digits after an optional sign: hexadecimal after "0x" or "0X", decimal
      otherwise; no digit is NaN (`None`). */
  function UnsignedValue(s: string): Option<nat> {
    if |s| >= 2 && s[0] == '0' && (s[1] == 'x' || s[1] == 'X') then
      var digits := PrefixOf(s[2..], IsHexDigit);
      if digits == [] then None else Some(HexDigitsValue(digits))
    else
      var digits := PrefixOf(s, IsDigit);
      if digits == [] then None else Some(DigitsValue(digits))
  }

  /** `parseInt(s)`: leading white space skipped, an optional sign, then
      the longest run of digits; `None` stands for NaN. */
  function ParseInt(s: string): Option<int> {
    var body := SkipWhite(s);
    if body != [] && body[0] == '-' then
      var u := UnsignedValue(body[1..]);
      if u.Some? then Some(-(u.value as int)) else None
    else if body != [] && body[0] == '+' then
      var u := UnsignedValue(body[1..]);
      if u.Some? then Some(u.value as int) else None
    else
      var u := UnsignedValue(body);
      if u.Some? then Some(u.value as int) else None
  }

  /** A run of decimal digits reads as its value, leading zeros included. */
  lemma ParseDigits(s: string)
    requires s != [] && AllDigits(s)
    ensures ParseInt(s) == Some(DigitsValue(s) as int)
  {
    assert !IsWhite(s[0]) && s[0] != '-' && s[0] != '+';
    assert SkipWhite(s) == s;
    UnsignedDigits(s);
  }

  lemma UnsignedDigits(s: string)
    requires s != [] && AllDigits(s)
    ensures UnsignedValue(s) == Some(DigitsValue(s))
  {
    assert !(|s| >= 2 && (s[1] == 'x' || s[1] == 'X'));
    PrefixAll(s);
  }

  /** A minus sign in front negates the value. */
  lemma ParseNegative(s: string)
    requires s != [] && AllDigits(s)
    ensures ParseInt("-" + s) == Some(-(DigitsValue(s) as int))
  {
    var t := "-" + s;
    assert t[0] == '-' && t[1..] == s;
    assert SkipWhite(t) == t;
    UnsignedDigits(s);
  }

  /** Text that does not start with a digit or a sign after the white space
      is NaN. */
  lemma ParseNaN(s: string)
    requires SkipWhite(s) == [] || !(IsDigit(SkipWhite(s)[0]) || SkipWhite(s)[0] in "+-")
    ensures ParseInt(s).None?
  {
  }

  lemma {:induction false} PrefixAll(s: string)
    requires AllDigits(s)
    ensures PrefixOf(s, IsDigit) == s
  {
    if s != [] {
      PrefixAll(s[1..]);
    }
  }

  // ---------------------------------------------------------------------------
  // Time inputs

  /** `padStart(2, "0")`. */
  function Pad2(s: string): (r: string)
    ensures |r| == if |s| >= 2 then |s| else 2
    ensures EndsWith(r, s)
    ensures forall i :: 0 <= i < |r| - |s| ==> r[i] == '0'
  {
    var r := if |s| >= 2 then s else seq(2 - |s|, _ => '0') + s;
    assert r[|r| - |s|..] == s;
    r
  }

  /** The formatter: the number read from the field as hours and minutes,
      "NaN:NaN" when nothing numeric is there. Hours are rounded down and
      minutes keep the sign of the number, as JavaScript's `%` does. */
  function ToTimeStr(time: string): (r: string)
    ensures ParseInt(time).None? ==> r == "NaN:NaN"
    ensures ParseInt(time).Some? ==>
      r == Pad2(IntToString(ParseInt(time).value / 60)) + ":" + Pad2(IntToString(JsRem(ParseInt(time).value, 60)))
  {
    match ParseInt(time)
    case None => "NaN:NaN"
    case Some(t) => Pad2(IntToString(t / 60)) + ":" + Pad2(IntToString(JsRem(t, 60)))
  }

  /** The parser: exactly one ':' with a number on each side gives the
      minutes h * 60 + m as a decimal string; anything else gives "". */
  function FromTimeStr(time: string): (r: string)
    ensures |Split(time, ':')| != 2 ==> r == ""
    ensures |Split(time, ':')| == 2 && ParseInt(Split(time, ':')[0]).Some? && ParseInt(Split(time, ':')[1]).Some? ==>
      r == IntToString(ParseInt(Split(time, ':')[0]).value * 60 + ParseInt(Split(time, ':')[1]).value)
    ensures r == "" <==> |Split(time, ':')| != 2 || ParseInt(Split(time, ':')[0]).None? || ParseInt(Split(time, ':')[1]).None?
  {
    var parts := Split(time, ':');
    if |parts| != 2 then ""
    else
      var h := ParseInt(parts[0]);
      var m := ParseInt(parts[1]);
      if h.None? || m.None? then ""
      else IntToString(h.value * 60 + m.value)
  }

  /** A non-negative number of minutes shows as its hours and the
      remaining minutes, each padded to two digits. */
  lemma TimeStrOf(t: nat)
    ensures ToTimeStr(NatToString(t)) == Pad2(NatToString(t / 60)) + ":" + Pad2(NatToString(t % 60))
  {
    ParseDigits(NatToString(t));
    NatToStringValue(t);
  }

  /** Padding a one- or two-digit string gives two digits of the same
      value. */
  lemma PadDigits(s: string)
    requires 1 <= |s| <= 2 && AllDigits(s)
    ensures |Pad2(s)| == 2 && AllDigits(Pad2(s)) && DigitsValue(Pad2(s)) == DigitsValue(s)
  {
    if |s| == 1 {
      assert Pad2(s) == "0" + s;
      DigitsValueLeadingZero(s);
    }
  }

  /** A number below 100 has at most two digits. */
  lemma SmallNatString(n: nat)
    requires n < 100
    ensures 1 <= |NatToString(n)| <= 2
  {
    if n >= 10 {
      assert NatToString(n) == NatToString(n / 10) + [DigitChar(n % 10)];
    }
  }

  /** The two-digit field of a number below 100, and its value. */
  lemma TwoDigits(n: nat)
    requires n < 100
    ensures |Pad2(NatToString(n))| == 2 && AllDigits(Pad2(NatToString(n)))
    ensures DigitsValue(Pad2(NatToString(n))) == n
  {
    SmallNatString(n);
    PadDigits(NatToString(n));
    NatToStringValue(n);
  }

  lemma MinuteFields(t: nat)
    requires t < 24 * 60
    ensures t / 60 < 24 && t % 60 < 60 && (t / 60) * 60 + t % 60 == t
  {
  }

  /** A minute of the day shows as two two-digit fields around ':'. */
  lemma TimeStrShape(t: nat)
    requires t < 24 * 60
    ensures |ToTimeStr(NatToString(t))| == 5 && ToTimeStr(NatToString(t))[2] == ':'
    ensures AllDigits(ToTimeStr(NatToString(t))[..2]) && AllDigits(ToTimeStr(NatToString(t))[3..])
  {
    MinuteFields(t);
    TimeStrOf(t);
    TwoDigits(t / 60);
    TwoDigits(t % 60);
    var a := Pad2(NatToString(t / 60));
    var b := Pad2(NatToString(t % 60));
    var r := ToTimeStr(NatToString(t));
    assert r == a + ":" + b;
    assert r[..2] == a && r[3..] == b;
  }

  /** Reading back what the formatter shows gives the same minute of the
      day. */
  lemma TimeRoundTrip(t: nat)
    requires t < 24 * 60
    ensures FromTimeStr(ToTimeStr(NatToString(t))) == NatToString(t)
  {
    MinuteFields(t);
    TimeStrOf(t);
    assert Pad2(NatToString(t / 60)) + ":" + Pad2(NatToString(t % 60)) ==
           Pad2(NatToString(t / 60)) + [':'] + Pad2(NatToString(t % 60));
    FieldsReadBack(t);
  }

  /** The two fields of a minute of the day read back as that minute. */
  lemma FieldsReadBack(t: nat)
    requires t < 24 * 60
    ensures FromTimeStr(Pad2(NatToString(t / 60)) + [':'] + Pad2(NatToString(t % 60))) == NatToString(t)
  {
    var h, m := t / 60, t % 60;
    assert h < 24 && m < 60 && h * 60 + m == t by {
      MinuteFields(t);
    }
    var a, b := Pad2(NatToString(h)), Pad2(NatToString(m));
    FieldValue(h);
    FieldValue(m);
    FieldsRead(a, b, h, m);
    assert IntToString(h * 60 + m) == NatToString(t);
  }

  /** The two-digit field of a number below 100 reads as that number and
      holds no ':'. */
  lemma FieldValue(n: nat)
    requires n < 100
    ensures ':' !in Pad2(NatToString(n))
    ensures ParseInt(Pad2(NatToString(n))) == Some(n)
  {
    TwoDigits(n);
    ParseDigits(Pad2(NatToString(n)));
    NoColon(Pad2(NatToString(n)));
  }

  lemma NoColon(s: string)
    requires AllDigits(s)
    ensures ':' !in s
  {
  }

  /** Two numbers around one ':' read as hours and minutes. */
  lemma FieldsRead(a: string, b: string, h: int, m: int)
    requires ':' !in a && ':' !in b
    requires ParseInt(a) == Some(h) && ParseInt(b) == Some(m)
    ensures FromTimeStr(a + [':'] + b) == IntToString(h * 60 + m)
  {
    SplitTwo(a, b, ':');
  }

  // ---------------------------------------------------------------------------
  // Weekday bitmask

  /** The seven days, Sunday first; day `d` is bit `d` of the schedule. */
  const DaysOfTheWeek: seq<string> := ["sun", "mon", "tue", "wed", "thu", "fri", "sat"]

  function Bit(day: nat): bv32
    requires day < |DaysOfTheWeek|
  {
    1 << day
  }

  /** A day's box is checked when its bit is set. */
  predicate DayChecked(days: bv32, day: nat)
    requires day < |DaysOfTheWeek|
  {
    days & Bit(day) != 0
  }

  /** Bit `day` is a single bit of the low seven. */
  lemma SingleBit(day: nat)
    requires day < |DaysOfTheWeek|
    ensures Bit(day) in {1, 2, 4, 8, 16, 32, 64}
  {
  }

  /** Checking a box sets its day's bit, unchecking clears it. */
  function SetDay(days: bv32, day: nat, checked: bool): (r: bv32)
    requires day < |DaysOfTheWeek|
    ensures DayChecked(r, day) == checked
  {
    if checked then days | Bit(day) else days & !Bit(day)
  }

  /** The other days keep their boxes. */
  lemma SetDayOtherDays(days: bv32, day: nat, checked: bool, d: nat)
    requires day < |DaysOfTheWeek| && d < |DaysOfTheWeek| && d != day
    ensures DayChecked(SetDay(days, day, checked), d) == DayChecked(days, d)
  {
  }

  /** Every other bit of the mask, inside the week or not, is left as it
      was. */
  lemma SetDayOtherBits(days: bv32, day: nat, checked: bool, mask: bv32)
    requires day < |DaysOfTheWeek|
    requires mask & Bit(day) == 0
    ensures SetDay(days, day, checked) & mask == days & mask
  {
  }

  /** Setting a box to what it shows changes nothing. */
  lemma SetDayIdempotent(days: bv32, day: nat)
    requires day < |DaysOfTheWeek|
    ensures SetDay(days, day, DayChecked(days, day)) == days
  {
    SingleBit(day);
  }
}

=== FILE: edit_trackers.dfy ===
/** The tracker editor: the edited list is cleaned of repeated trackers and
    blank runs, the changes for daemons older than RPC version 17 are
    computed against the torrent's current trackers, and the list is sent
    to every selected torrent. */
module EditTrackers {
  import opened Common
  import TrUtil
  import TableCommon

  // ---------------------------------------------------------------------------
  // Cleaning the edited list

  /** One line offered to the cleaned list: a repeated tracker is skipped,
      a blank line is skipped at the start and right after another blank,
      anything else is appended. */
  function Offer(kept: seq<string>, line: string): seq<string> {
    if line != "" && line in kept then kept
    else if line == "" && |kept| == 0 then kept
    else if line == "" && kept[|kept| - 1] == "" then kept
    else kept + [line]
  }

  /** The lines kept from the edited list, in order. Blank lines separate
      tiers, so the list never starts with one nor holds two in a row. */
  function Deduped(lines: seq<string>): (r: seq<string>)
    ensures r == [] || r[0] != ""
    ensures forall i :: 0 <= i < |r| - 1 ==> r[i] != "" || r[i + 1] != ""
    ensures forall x :: x in r ==> x in lines
  {
    if lines == [] then []
    else Offer(Deduped(lines[..|lines| - 1]), lines[|lines| - 1])
  }

  /** The non-blank lines, in order. */
  function Trackers(lines: seq<string>): (r: seq<string>)
    ensures forall x :: x in r <==> x in lines && x != ""
  {
    if lines == [] then []
    else
      var n := |lines| - 1;
      assert lines == lines[..n] + [lines[n]];
      Trackers(lines[..n]) + (if lines[n] != "" then [lines[n]] else [])
  }

  /** The trackers of the cleaned list are the first occurrence of each
      tracker of the edited list, in order. */
  lemma {:induction false} DedupedTrackers(lines: seq<string>)
    ensures Trackers(Deduped(lines)) == TableCommon.Dedup(Trackers(lines))
  {
    if lines != [] {
      DedupedTrackers(lines[..|lines| - 1]);
      DedupedTrackersStep(lines);
    }
  }

  /** One more line keeps the trackers of the cleaned list equal to the
      first occurrences. */
  lemma DedupedTrackersStep(lines: seq<string>)
    requires lines != []
    requires Trackers(Deduped(lines[..|lines| - 1])) == TableCommon.Dedup(Trackers(lines[..|lines| - 1]))
    ensures Trackers(Deduped(lines)) == TableCommon.Dedup(Trackers(lines))
  {
    var prev, x := lines[..|lines| - 1], lines[|lines| - 1];
    var kept := Deduped(prev);
    assert Deduped(lines) == Offer(kept, x);
    assert Trackers(lines) == Trackers(prev) + (if x != "" then [x] else []);
    TrackersOffer(kept, x);
    if x == "" {
      assert Trackers(prev) + [] == Trackers(prev);
    } else {
      DedupSnoc(Trackers(prev), x);
    }
  }

  /** Offering a line adds nothing to the trackers when it is blank, and
      adds it as a `Set` would when it is a tracker. */
  lemma TrackersOffer(kept: seq<string>, x: string)
    ensures Trackers(Offer(kept, x)) == if x == "" then Trackers(kept) else TableCommon.Insert(Trackers(kept), x)
  {
    if Offer(kept, x) != kept {
      assert Offer(kept, x) == kept + [x];
      TrackersSnoc(kept, x);
    }
  }

  lemma TrackersSnoc(lines: seq<string>, x: string)
    ensures Trackers(lines + [x]) == Trackers(lines) + (if x != "" then [x] else [])
  {
    assert (lines + [x])[..|lines|] == lines;
  }

  lemma DedupSnoc(s: seq<string>, x: string)
    ensures TableCommon.Dedup(s + [x]) == TableCommon.Insert(TableCommon.Dedup(s), x)
  {
    assert (s + [x])[..|s|] == s;
  }

  /** No tracker is kept twice. */
  lemma DedupedDistinct(lines: seq<string>)
    ensures Distinct(Trackers(Deduped(lines)))
  {
    DedupedTrackers(lines);
  }

  /** The cleaning loop of the save handler. */
  method Dedup(lines: seq<string>) returns (deduped: seq<string>)
    ensures deduped == Deduped(lines)
  {
    deduped := [];
    for i := 0 to |lines|
      invariant deduped == Deduped(lines[..i])
    {
      var tracker := lines[i];
      assert lines[..i + 1][..i] == lines[..i];
      if tracker != "" && tracker in deduped {
        continue;
      }
      if tracker == "" && |deduped| == 0 {
        continue;
      }
      if tracker == "" && deduped[|deduped| - 1] == "" {
        continue;
      }
      deduped := deduped + [tracker];
    }
    assert lines[..|lines|] == lines;
  }

  // ---------------------------------------------------------------------------
  // Changes for daemons before RPC version 17

  datatype TrackerStat = TrackerStat(announce: string, id: int)

  predicate Announced(stats: seq<TrackerStat>, url: string) {
    exists s :: s in stats && s.announce == url
  }

  /** Trackers to add and tracker ids to remove; either is absent when
      empty. */
  datatype Changes = Changes(add: Option<seq<string>>, remove: Option<seq<int>>)

  function IdsOf(stats: seq<TrackerStat>): (r: seq<int>)
    ensures |r| == |stats| && forall i :: 0 <= i < |r| ==> r[i] == stats[i].id
  {
    if stats == [] then [] else [stats[0].id] + IdsOf(stats[1..])
  }

  function NoneIfEmpty<T>(s: seq<T>): (r: Option<seq<T>>)
    ensures r.None? <==> s == []
    ensures r.Some? ==> r.value == s
  {
    if |s| == 0 then None else Some(s)
  }

  /** The trackers to add are the listed ones the torrent does not announce
      to; the ids to remove are those of the torrent's trackers no longer
      listed. */
  function OldDaemonChanges(deduped: seq<string>, stats: seq<TrackerStat>): (c: Changes)
    ensures c.add.Some? ==> forall u :: u in c.add.value <==> u in deduped && u != "" && !Announced(stats, u)
    ensures c.add.None? <==> forall u :: u in deduped && u != "" ==> Announced(stats, u)
    ensures c.remove.Some? ==> forall id :: id in c.remove.value <==>
      exists s :: s in stats && s.id == id && s.announce !in Trackers(deduped)
    ensures c.remove.None? <==> forall s :: s in stats ==> s.announce in Trackers(deduped)
  {
    var trackers := Trackers(deduped);
    var toAdd := Filter(trackers, (t: string) => !Announced(stats, t));
    var stale := Filter(stats, (s: TrackerStat) => s.announce !in trackers);
    AddedMembers(deduped, stats);
    RemovedMembers(trackers, stats);
    Changes(NoneIfEmpty(toAdd), NoneIfEmpty(IdsOf(stale)))
  }

  /** The trackers to add are the listed trackers nothing announces to. */
  lemma AddedMembers(deduped: seq<string>, stats: seq<TrackerStat>)
    ensures var toAdd := Filter(Trackers(deduped), (t: string) => !Announced(stats, t));
      && (forall u :: u in toAdd <==> u in deduped && u != "" && !Announced(stats, u))
      && (toAdd == [] <==> forall u :: u in deduped && u != "" ==> Announced(stats, u))
  {
    var trackers := Trackers(deduped);
    var toAdd := Filter(trackers, (t: string) => !Announced(stats, t));
    forall u | u in trackers && !Announced(stats, u) ensures u in toAdd {
      var i :| 0 <= i < |trackers| && trackers[i] == u;
    }
    forall u | u in toAdd ensures u in trackers && !Announced(stats, u) {
      var i :| 0 <= i < |toAdd| && toAdd[i] == u;
    }
    if toAdd != [] {
      assert toAdd[0] in toAdd;
    }
  }

  /** The ids to remove are those of the trackers no longer listed. */
  lemma RemovedMembers(trackers: seq<string>, stats: seq<TrackerStat>)
    ensures var toRemove := IdsOf(Filter(stats, (s: TrackerStat) => s.announce !in trackers));
      && (forall id :: id in toRemove <==> exists s :: s in stats && s.id == id && s.announce !in trackers)
      && (toRemove == [] <==> forall s :: s in stats ==> s.announce in trackers)
  {
    var stale := Filter(stats, (s: TrackerStat) => s.announce !in trackers);
    var toRemove := IdsOf(stale);
    forall s | s in stats && s.announce !in trackers ensures s in stale {
      var i :| 0 <= i < |stats| && stats[i] == s;
    }
    forall id | id in toRemove ensures exists s :: s in stats && s.id == id && s.announce !in trackers {
      var i :| 0 <= i < |toRemove| && toRemove[i] == id;
      assert stale[i] in stats && stale[i].announce !in trackers;
    }
    forall id | exists s :: s in stats && s.id == id && s.announce !in trackers ensures id in toRemove {
      var s :| s in stats && s.id == id && s.announce !in trackers;
      var i :| 0 <= i < |stale| && stale[i] == s;
      assert toRemove[i] == id;
    }
    if toRemove == [] {
      forall s | s in stats ensures s.announce in trackers {
        assert s.announce !in trackers ==> s.id in toRemove;
      }
    } else {
      assert toRemove[0] in toRemove;
    }
  }

  predicate DistinctIds(stats: seq<TrackerStat>) {
    forall i, j :: 0 <= i < |stats| && 0 <= j < |stats| && stats[i].id == stats[j].id ==> i == j
  }

  /** The trackers the torrent ends up with once the changes are applied:
      the current ones whose id is not removed, then the added ones. */
  predicate AfterChanges(stats: seq<TrackerStat>, c: Changes, url: string) {
    || (c.add.Some? && url in c.add.value)
    || exists s :: s in stats && s.announce == url && !(c.remove.Some? && s.id in c.remove.value)
  }

  /** With distinct tracker ids, applying the changes leaves the torrent
      announcing to exactly the listed trackers. */
  lemma ChangesReachList(deduped: seq<string>, stats: seq<TrackerStat>)
    requires DistinctIds(stats)
    ensures forall url :: AfterChanges(stats, OldDaemonChanges(deduped, stats), url) <==> url in Trackers(deduped)
  {
    var c := OldDaemonChanges(deduped, stats);
    forall url ensures AfterChanges(stats, c, url) <==> url in Trackers(deduped) {
      if url in Trackers(deduped) && Announced(stats, url) {
        var s :| s in stats && s.announce == url;
        assert !(c.remove.Some? && s.id in c.remove.value);
      }
    }
  }

  // ---------------------------------------------------------------------------
  // Saving

  datatype Mutation = Mutation(torrentIds: seq<int>, trackerList: string, trackerAdd: Option<seq<string>>, trackerRemove: Option<seq<int>>)

  /** The save handler: nothing is sent before the torrent's details are
      loaded; otherwise the cleaned list goes to every selected torrent,
      with explicit additions and removals for daemons before version 17. */
  method OnSave(torrentId: Option<int>, stats: Option<seq<TrackerStat>>, rpcVersion: int,
                selected: seq<int>, trackerList: string) returns (m: Option<Mutation>)
    ensures m.None? <==> torrentId.None? || stats.None?
    ensures m.Some? ==> m.value.torrentIds == selected
    ensures m.Some? ==> m.value.trackerList == Join(Deduped(Split(trackerList, '\n')), "\n")
    ensures m.Some? && rpcVersion >= 17 ==> m.value.trackerAdd.None? && m.value.trackerRemove.None?
    ensures m.Some? && rpcVersion < 17 ==>
      Changes(m.value.trackerAdd, m.value.trackerRemove) == OldDaemonChanges(Deduped(Split(trackerList, '\n')), stats.value)
  {
    if torrentId.None? || stats.None? {
      return None;
    }
    var deduped := Dedup(Split(trackerList, '\n'));
    var changes := Changes(None, None);
    if rpcVersion < 17 {
      changes := OldDaemonChanges(deduped, stats.value);
    }
    m := Some(Mutation(selected, Join(deduped, "\n"), changes.add, changes.remove));
  }

  /** The torrent whose trackers are shown: the current torrent when it is
      selected, else the first selected one. */
  function EditedTorrent(current: Option<int>, selected: seq<int>): (r: Option<int>)
    ensures current.Some? && current.value in selected ==> r == current
    ensures r.None? <==> selected == []
    ensures r.Some? ==> r.value in selected
  {
    if current.None? || current.value !in selected then
      if |selected| == 0 then None else Some(selected[0])
    else current
  }

  // ---------------------------------------------------------------------------
  // Adding the default trackers

  /** The default trackers appended on a line of their own. */
  function AddDefaultTrackers(list: string, defaults: seq<string>): (r: string)
    ensures StartsWith(r, list)
    ensures EndsWith(r, Join(defaults, "\n"))
  {
    var base := if EndsWith(list, "\n") then list else list + "\n";
    assert (base + Join(defaults, "\n"))[..|list|] == list;
    assert (base + Join(defaults, "\n"))[|base|..] == Join(defaults, "\n");
    base + Join(defaults, "\n")
  }

  /** Splitting at a separator splits both sides of it. */
  lemma {:induction false} SplitAppend(a: string, b: string, c: char)
    ensures Split(a + [c] + b, c) == Split(a, c) + Split(b, c)
  {
    if a != [] {
      var x, t := a[0], a[1..] + [c] + b;
      var hs, bs := Split(a[1..], c), Split(b, c);
      var front := if x == c then [""] + hs else [[x] + hs[0]] + hs[1..];
      assert a + [c] + b == [x] + t by {
        assert a == [x] + a[1..];
      }
      assert Split([x] + t, c) == front + bs by {
        SplitAppend(a[1..], b, c);
        SplitConsAppend(x, t, hs, bs, c);
      }
      assert Split(a, c) == front by {
        SplitCons(x, a[1..], c);
        assert [x] + a[1..] == a;
      }
    }
  }

  lemma SplitConsAppend(x: char, t: string, hs: seq<string>, bs: seq<string>, c: char)
    requires Split(t, c) == hs + bs && hs != []
    ensures Split([x] + t, c) == (if x == c then [""] + hs else [[x] + hs[0]] + hs[1..]) + bs
  {
    SplitCons(x, t, c);
    var st := Split(t, c);
    assert st[0] == hs[0] && st[1..] == hs[1..] + bs;
    if x == c {
      assert [""] + (hs + bs) == ([""] + hs) + bs;
    } else {
      assert [[x] + hs[0]] + (hs[1..] + bs) == ([[x] + hs[0]] + hs[1..]) + bs;
    }
  }

  /** The edited list's lines are kept and the default trackers follow
      them, one per line. */
  lemma DefaultTrackerLines(list: string, defaults: seq<string>)
    requires defaults != [] && forall i :: 0 <= i < |defaults| ==> '\n' !in defaults[i]
    ensures Split(AddDefaultTrackers(list, defaults), '\n') ==
      Split(if EndsWith(list, "\n") then list[..|list| - 1] else list, '\n') + defaults
  {
    var a := if EndsWith(list, "\n") then list[..|list| - 1] else list;
    var j := Join(defaults, "\n");
    AddedShape(list, j);
    SplitAppend(a, j, '\n');
    TrUtil.SplitJoin(defaults, '\n');
  }

  lemma AddedShape(list: string, j: string)
    ensures (if EndsWith(list, "\n") then list else list + "\n") + j ==
      (if EndsWith(list, "\n") then list[..|list| - 1] else list) + ['\n'] + j
  {
    if EndsWith(list, "\n") {
      assert list == list[..|list| - 1] + "\n";
    }
  }

  /** Saving after adding the defaults keeps every default tracker. */
  lemma DefaultTrackersSaved(list: string, defaults: seq<string>)
    requires defaults != [] && forall i :: 0 <= i < |defaults| ==> '\n' !in defaults[i]
    ensures forall i :: 0 <= i < |defaults| && defaults[i] != "" ==>
      defaults[i] in Deduped(Split(AddDefaultTrackers(list, defaults), '\n'))
  {
    var lines := Split(AddDefaultTrackers(list, defaults), '\n');
    DefaultTrackerLines(list, defaults);
    DedupedTrackers(lines);
    forall i | 0 <= i < |defaults| && defaults[i] != ""
      ensures defaults[i] in Deduped(lines)
    {
      assert defaults[i] in lines;
      assert defaults[i] in TableCommon.Dedup(Trackers(lines));
    }
  }
}

=== FILE: file_tree.dfy ===
/** The cached file tree of one torrent: directories hold sub-directories
    and files, keyed by name in insertion order; aggregates (size, done,
    want, priority) are recomputed bottom-up; wanted and selection flags
    are set over whole subtrees.

    A file entry of the tree is either the object that is also an element
    of the `files` array (`Shared`: a change through the tree is a change
    of that array element, and the other way round) or a copy that a
    rename put in its place (`Copied`: it no longer affects the array). */
module FileTree {
  import opened Common
  import TrUtil

  datatype File = File(
    index: nat, name: string, level: int, fullpath: string, size: int, done: int,
    want: bool, priority: int, isSelected: bool, wantedUpdating: bool)

  /** A file entry stored under `key`: the element `index` of the `files`
      array, or a detached copy. */
  datatype FileNode = Shared(key: string, index: nat) | Copied(key: string, file: File)

  datatype Dir = Dir(
    name: string, level: int, fullpath: string, size: int, done: int,
    want: Option<bool>, priority: Option<int>, isSelected: bool, wantedUpdating: bool,
    subdirs: seq<Dir>, files: seq<FileNode>)

  /** The root of a fresh tree. */
  const EmptyRoot := Dir("", 0, "", 0, 0, Some(true), Some(0), false, false, [], [])

  /** The file an entry stands for; an index past the array reads as a
      blank file. */
  function Resolve(node: FileNode, files: seq<File>): File {
    match node
    case Copied(_, f) => f
    case Shared(_, i) => if i < |files| then files[i] else File(i, "", 0, "", 0, 0, false, 0, false, false)
  }

  function ResolveAll(nodes: seq<FileNode>, files: seq<File>): (r: seq<File>)
    ensures |r| == |nodes| && forall i :: 0 <= i < |nodes| ==> r[i] == Resolve(nodes[i], files)
  {
    seq(|nodes|, i requires 0 <= i < |nodes| => Resolve(nodes[i], files))
  }

  /** Position of the sub-directory named `name` (JavaScript `Map.get`). */
  function SubdirIndex(subdirs: seq<Dir>, name: string): (k: int)
    ensures -1 <= k < |subdirs|
    ensures k >= 0 ==> subdirs[k].name == name
    ensures forall i :: 0 <= i < |subdirs| && (k == -1 || i < k) ==> subdirs[i].name != name
  {
    FindIndex(subdirs, (d: Dir) => d.name == name)
  }

  function FileIndex(nodes: seq<FileNode>, name: string): (k: int)
    ensures -1 <= k < |nodes|
    ensures k >= 0 ==> nodes[k].key == name
    ensures forall i :: 0 <= i < |nodes| && (k == -1 || i < k) ==> nodes[i].key != name
  {
    FindIndex(nodes, (n: FileNode) => n.key == name)
  }

  /** Lists with the same names in the same places find a name at the same
      place. */
  lemma SubdirIndexSameNames(a: seq<Dir>, b: seq<Dir>, name: string)
    requires |a| == |b| && forall i :: 0 <= i < |a| ==> a[i].name == b[i].name
    ensures SubdirIndex(a, name) == SubdirIndex(b, name)
  {
    var ka, kb := SubdirIndex(a, name), SubdirIndex(b, name);
    if ka >= 0 && kb >= 0 {
      assert !(ka < kb) && !(kb < ka);
    }
  }

  lemma FileIndexSameKeys(a: seq<FileNode>, b: seq<FileNode>, name: string)
    requires |a| == |b| && forall i :: 0 <= i < |a| ==> a[i].key == b[i].key
    ensures FileIndex(a, name) == FileIndex(b, name)
  {
    var ka, kb := FileIndex(a, name), FileIndex(b, name);
    if ka >= 0 && kb >= 0 {
      assert !(ka < kb) && !(kb < ka);
    }
  }

  // ---------------------------------------------------------------------------
  // Lookup

  datatype Entry = DirEntry(dir: Dir) | FileEntry(node: FileNode)

  /** The components of `path` below the root: a first component equal to
      the root's full path is skipped. */
  function PathParts(rootPath: string, path: string): seq<string> {
    var parts := Split(path, '/');
    if parts[0] == rootPath then parts[1..] else parts
  }

  /** Follows `parts` from `d`: a sub-directory of that name is entered; a
      file of that name is the answer at once, whatever parts remain; any
      other name is a miss. */
  function Walk(d: Dir, parts: seq<string>): Option<Entry>
    decreases |parts|
  {
    if parts == [] then Some(DirEntry(d))
    else
      var k := SubdirIndex(d.subdirs, parts[0]);
      if k >= 0 then Walk(d.subdirs[k], parts[1..])
      else
        var j := FileIndex(d.files, parts[0]);
        if j >= 0 then Some(FileEntry(d.files[j])) else None
  }

  function Lookup(tree: Dir, path: string): Option<Entry> {
    Walk(tree, PathParts(tree.fullpath, path))
  }

  // ---------------------------------------------------------------------------
  // Files of a subtree

  /** The files of a subtree in traversal order: every sub-directory's
      files first, then the directory's own. */
  function AllFiles(d: Dir, files: seq<File>): seq<File>
    decreases d
  {
    AllFilesSeq(d.subdirs, files) + ResolveAll(d.files, files)
  }

  function AllFilesSeq(ds: seq<Dir>, files: seq<File>): seq<File>
    decreases ds
  {
    if ds == [] then [] else AllFiles(ds[0], files) + AllFilesSeq(ds[1..], files)
  }

  /** Membership in a subtree, independently of traversal order. */
  predicate Holds(d: Dir, files: seq<File>, f: File)
    decreases d
  {
    (exists k :: 0 <= k < |d.files| && Resolve(d.files[k], files) == f) ||
    (exists k :: 0 <= k < |d.subdirs| && Holds(d.subdirs[k], files, f))
  }

  lemma {:induction false} AllFilesHolds(d: Dir, files: seq<File>, f: File)
    ensures f in AllFiles(d, files) <==> Holds(d, files, f)
    decreases d, 1
  {
    AllFilesSeqHolds(d.subdirs, files, f);
    var own := ResolveAll(d.files, files);
    if f in own {
      var k :| 0 <= k < |own| && own[k] == f;
      assert Resolve(d.files[k], files) == f;
    }
  }

  lemma {:induction false} AllFilesSeqHolds(ds: seq<Dir>, files: seq<File>, f: File)
    ensures f in AllFilesSeq(ds, files) <==> exists k :: 0 <= k < |ds| && Holds(ds[k], files, f)
    decreases ds, 0
  {
    if ds != [] {
      AllFilesHolds(ds[0], files, f);
      AllFilesSeqHolds(ds[1..], files, f);
      if exists k :: 0 <= k < |ds| && Holds(ds[k], files, f) {
        var k :| 0 <= k < |ds| && Holds(ds[k], files, f);
        if k > 0 { assert ds[1..][k - 1] == ds[k]; }
      }
      if exists k :: 0 <= k < |ds[1..]| && Holds(ds[1..][k], files, f) {
        var k :| 0 <= k < |ds[1..]| && Holds(ds[1..][k], files, f);
        assert ds[k + 1] == ds[1..][k];
      }
    }
  }

  function Indexes(fs: seq<File>): (r: seq<nat>)
    ensures |r| == |fs| && forall i :: 0 <= i < |fs| ==> r[i] == fs[i].index
  {
    seq(|fs|, i requires 0 <= i < |fs| => fs[i].index)
  }

  predicate Unwanted(f: File) {
    !f.want
  }

  /** The indexes of the files below `path`: the file's own index, every
      file of a directory's subtree, nothing for an unknown path. */
  function ChildFilesIndexes(tree: Dir, files: seq<File>, path: string): (r: seq<nat>)
    ensures Lookup(tree, path).None? ==> r == []
    ensures Lookup(tree, path).Some? && Lookup(tree, path).value.FileEntry? ==>
      r == [Resolve(Lookup(tree, path).value.node, files).index]
    ensures Lookup(tree, path).Some? && Lookup(tree, path).value.DirEntry? ==>
      forall i :: i in r <==> exists f :: Holds(Lookup(tree, path).value.dir, files, f) && f.index == i
  {
    match Lookup(tree, path)
    case None => []
    case Some(FileEntry(node)) => [Resolve(node, files).index]
    case Some(DirEntry(d)) =>
      var r := Indexes(AllFiles(d, files));
      forall i ensures i in r <==> exists f :: Holds(d, files, f) && f.index == i {
        if i in r {
          var k :| 0 <= k < |r| && r[k] == i;
          AllFilesHolds(d, files, AllFiles(d, files)[k]);
        }
        if exists f :: Holds(d, files, f) && f.index == i {
          var f :| Holds(d, files, f) && f.index == i;
          AllFilesHolds(d, files, f);
          var k :| 0 <= k < |AllFiles(d, files)| && AllFiles(d, files)[k] == f;
          assert r[k] == i;
        }
      }
      r
  }

  /** The indexes of the unwanted files of the tree. */
  function GetUnwanted(tree: Dir, files: seq<File>): (r: seq<nat>)
    ensures forall i :: i in r <==> exists f :: Holds(tree, files, f) && !f.want && f.index == i
  {
    var all := AllFiles(tree, files);
    var r := Indexes(Filter(all, Unwanted));
    forall i ensures i in r <==> exists f :: Holds(tree, files, f) && !f.want && f.index == i {
      if i in r {
        var k :| 0 <= k < |r| && r[k] == i;
        AllFilesHolds(tree, files, Filter(all, Unwanted)[k]);
      }
      if exists f :: Holds(tree, files, f) && !f.want && f.index == i {
        var f :| Holds(tree, files, f) && !f.want && f.index == i;
        AllFilesHolds(tree, files, f);
        var k :| 0 <= k < |Filter(all, Unwanted)| && Filter(all, Unwanted)[k] == f;
        assert r[k] == i;
      }
    }
    r
  }

  function SumSize(fs: seq<File>): int {
    if fs == [] then 0 else fs[0].size + SumSize(fs[1..])
  }

  function SumDone(fs: seq<File>): int {
    if fs == [] then 0 else fs[0].done + SumDone(fs[1..])
  }

  lemma {:induction false} SumAppend(a: seq<File>, b: seq<File>)
    ensures SumSize(a + b) == SumSize(a) + SumSize(b)
    ensures SumDone(a + b) == SumDone(a) + SumDone(b)
  {
    if a != [] {
      SumAppend(a[1..], b);
      assert (a + b)[0] == a[0];
      assert (a + b)[1..] == a[1..] + b;
    } else {
      assert a + b == b;
    }
  }

  /** The total size of the wanted files of the array, read from the array
      (not from the tree). */
  function GetWantedSize(files: seq<File>): (r: int)
    ensures (forall i :: 0 <= i < |files| ==> files[i].want) ==> r == SumSize(files)
    ensures (forall i :: 0 <= i < |files| ==> !files[i].want) ==> r == 0
  {
    if files == [] then 0
    else (if files[0].want then files[0].size else 0) + GetWantedSize(files[1..])
  }

  /** The wanted and unwanted sizes add up to the total. */
  lemma {:induction false} WantedSizeSplit(files: seq<File>)
    ensures GetWantedSize(files) + SumSize(Filter(files, Unwanted)) == SumSize(files)
  {
    if files != [] {
      WantedSizeSplit(files[1..]);
      var rest := Filter(files[1..], Unwanted);
      if !files[0].want {
        assert Filter(files, Unwanted) == [files[0]] + rest;
        assert ([files[0]] + rest)[1..] == rest;
      } else {
        assert Filter(files, Unwanted) == rest;
      }
    }
  }

  // ---------------------------------------------------------------------------
  // Aggregates

  /** The common value when every value agrees, otherwise none (a set of
      the values that holds exactly one element). */
  function Agreed<T(==)>(vals: seq<Option<T>>): (r: Option<T>)
    ensures r.Some? ==> |vals| > 0 && forall i :: 0 <= i < |vals| ==> vals[i] == r
    ensures |vals| > 0 && (forall i :: 0 <= i < |vals| ==> vals[i] == vals[0]) ==> r == vals[0]
    ensures |vals| > 0 && (exists i :: 0 <= i < |vals| && vals[i] != vals[0]) ==> r == None
  {
    if |vals| > 0 && forall i :: 0 <= i < |vals| ==> vals[i] == vals[0] then vals[0] else None
  }

  function DirWants(ds: seq<Dir>): (r: seq<Option<bool>>)
    ensures |r| == |ds| && forall i :: 0 <= i < |ds| ==> r[i] == ds[i].want
  {
    seq(|ds|, i requires 0 <= i < |ds| => ds[i].want)
  }

  function FileWants(fs: seq<File>): (r: seq<Option<bool>>)
    ensures |r| == |fs| && forall i :: 0 <= i < |fs| ==> r[i] == Some(fs[i].want)
  {
    seq(|fs|, i requires 0 <= i < |fs| => Some(fs[i].want))
  }

  function DirPriorities(ds: seq<Dir>): (r: seq<Option<int>>)
    ensures |r| == |ds| && forall i :: 0 <= i < |ds| ==> r[i] == ds[i].priority
  {
    seq(|ds|, i requires 0 <= i < |ds| => ds[i].priority)
  }

  function FilePriorities(fs: seq<File>): (r: seq<Option<int>>)
    ensures |r| == |fs| && forall i :: 0 <= i < |fs| ==> r[i] == Some(fs[i].priority)
  {
    seq(|fs|, i requires 0 <= i < |fs| => Some(fs[i].priority))
  }

  function DirSize(ds: seq<Dir>): int {
    if ds == [] then 0 else ds[0].size + DirSize(ds[1..])
  }

  function DirDone(ds: seq<Dir>): int {
    if ds == [] then 0 else ds[0].done + DirDone(ds[1..])
  }

  /** Recomputes every directory bottom-up: size and done are the sums over
      the children, want and priority the children's common value. */
  function Recalc(d: Dir, files: seq<File>): (r: Dir)
    ensures r.name == d.name && r.fullpath == d.fullpath && r.files == d.files
    ensures r.subdirs == RecalcSeq(d.subdirs, files)
    decreases d
  {
    var subs := RecalcSeq(d.subdirs, files);
    var own := ResolveAll(d.files, files);
    d.(subdirs := subs,
       size := DirSize(subs) + SumSize(own),
       done := DirDone(subs) + SumDone(own),
       want := Agreed(DirWants(subs) + FileWants(own)),
       priority := Agreed(DirPriorities(subs) + FilePriorities(own)))
  }

  function RecalcSeq(ds: seq<Dir>, files: seq<File>): (r: seq<Dir>)
    ensures |r| == |ds| && forall i :: 0 <= i < |ds| ==> r[i] == Recalc(ds[i], files)
    decreases ds
  {
    if ds == [] then [] else [Recalc(ds[0], files)] + RecalcSeq(ds[1..], files)
  }

  /** Recalculation leaves the files alone. */
  lemma {:induction false} AllFilesRecalc(d: Dir, files: seq<File>)
    ensures AllFiles(Recalc(d, files), files) == AllFiles(d, files)
    decreases d, 1
  {
    AllFilesSeqRecalc(d.subdirs, files);
  }

  lemma {:induction false} AllFilesSeqRecalc(ds: seq<Dir>, files: seq<File>)
    ensures AllFilesSeq(RecalcSeq(ds, files), files) == AllFilesSeq(ds, files)
    decreases ds, 0
  {
    if ds != [] {
      AllFilesRecalc(ds[0], files);
      AllFilesSeqRecalc(ds[1..], files);
      assert RecalcSeq(ds, files)[1..] == RecalcSeq(ds[1..], files);
    }
  }

  /** A directory's size and done are the sums over every file below it. */
  lemma {:induction false} RecalcSums(d: Dir, files: seq<File>)
    ensures Recalc(d, files).size == SumSize(AllFiles(d, files))
    ensures Recalc(d, files).done == SumDone(AllFiles(d, files))
    decreases d, 1
  {
    RecalcSeqSums(d.subdirs, files);
    SumAppend(AllFilesSeq(d.subdirs, files), ResolveAll(d.files, files));
  }

  lemma {:induction false} RecalcSeqSums(ds: seq<Dir>, files: seq<File>)
    ensures DirSize(RecalcSeq(ds, files)) == SumSize(AllFilesSeq(ds, files))
    ensures DirDone(RecalcSeq(ds, files)) == SumDone(AllFilesSeq(ds, files))
    decreases ds, 0
  {
    if ds != [] {
      RecalcSums(ds[0], files);
      RecalcSeqSums(ds[1..], files);
      assert RecalcSeq(ds, files)[1..] == RecalcSeq(ds[1..], files);
      SumAppend(AllFiles(ds[0], files), AllFilesSeq(ds[1..], files));
    }
  }

  lemma AgreedAppend<T>(a: seq<Option<T>>, b: seq<Option<T>>, v: T)
    requires Agreed(a + b) == Some(v)
    ensures forall i :: 0 <= i < |a| ==> a[i] == Some(v)
    ensures forall i :: 0 <= i < |b| ==> b[i] == Some(v)
  {
    assert forall i :: 0 <= i < |a| ==> (a + b)[i] == a[i];
    assert forall i :: 0 <= i < |b| ==> (a + b)[|a| + i] == b[i];
  }

  /** A directory is wanted (or unwanted) as a whole only when every file
      below it is. */
  lemma {:induction false} RecalcWant(d: Dir, files: seq<File>, b: bool)
    requires Recalc(d, files).want == Some(b)
    ensures forall f :: f in AllFiles(d, files) ==> f.want == b
    decreases d, 1
  {
    var subs := RecalcSeq(d.subdirs, files);
    var own := ResolveAll(d.files, files);
    AgreedAppend(DirWants(subs), FileWants(own), b);
    RecalcSeqWant(d.subdirs, files, b);
  }

  lemma {:induction false} RecalcSeqWant(ds: seq<Dir>, files: seq<File>, b: bool)
    requires forall i :: 0 <= i < |ds| ==> Recalc(ds[i], files).want == Some(b)
    ensures forall f :: f in AllFilesSeq(ds, files) ==> f.want == b
    decreases ds, 0
  {
    if ds != [] {
      RecalcWant(ds[0], files, b);
      assert forall i :: 0 <= i < |ds[1..]| ==> ds[1..][i] == ds[i + 1];
      RecalcSeqWant(ds[1..], files, b);
    }
  }

  /** Likewise for the priority. */
  lemma {:induction false} RecalcPriority(d: Dir, files: seq<File>, p: int)
    requires Recalc(d, files).priority == Some(p)
    ensures forall f :: f in AllFiles(d, files) ==> f.priority == p
    decreases d, 1
  {
    var subs := RecalcSeq(d.subdirs, files);
    var own := ResolveAll(d.files, files);
    AgreedAppend(DirPriorities(subs), FilePriorities(own), p);
    RecalcSeqPriority(d.subdirs, files, p);
  }

  lemma {:induction false} RecalcSeqPriority(ds: seq<Dir>, files: seq<File>, p: int)
    requires forall i :: 0 <= i < |ds| ==> Recalc(ds[i], files).priority == Some(p)
    ensures forall f :: f in AllFilesSeq(ds, files) ==> f.priority == p
    decreases ds, 0
  {
    if ds != [] {
      RecalcPriority(ds[0], files, p);
      assert forall i :: 0 <= i < |ds[1..]| ==> ds[1..][i] == ds[i + 1];
      RecalcSeqPriority(ds[1..], files, p);
    }
  }

  /** Recalculating twice changes nothing more. */
  lemma {:induction false} RecalcIdempotent(d: Dir, files: seq<File>)
    ensures Recalc(Recalc(d, files), files) == Recalc(d, files)
    decreases d, 1
  {
    RecalcSeqIdempotent(d.subdirs, files);
    RecalcStable(d, files);
  }

  lemma RecalcStable(d: Dir, files: seq<File>)
    requires RecalcSeq(RecalcSeq(d.subdirs, files), files) == RecalcSeq(d.subdirs, files)
    ensures Recalc(Recalc(d, files), files) == Recalc(d, files)
  {
    RecalcTotals(d, files);
    RecalcFixed(Recalc(d, files), files);
  }

  /** The totals a directory holds when they agree with its contents. */
  predicate Totalled(d: Dir, files: seq<File>) {
    var own := ResolveAll(d.files, files);
    && d.size == DirSize(d.subdirs) + SumSize(own)
    && d.done == DirDone(d.subdirs) + SumDone(own)
    && d.want == Agreed(DirWants(d.subdirs) + FileWants(own))
    && d.priority == Agreed(DirPriorities(d.subdirs) + FilePriorities(own))
  }

  lemma RecalcTotals(d: Dir, files: seq<File>)
    ensures Totalled(Recalc(d, files), files)
  {
  }

  /** A directory whose sub-directories and totals are already up to date
      is left as it is. */
  lemma RecalcFixed(r: Dir, files: seq<File>)
    requires RecalcSeq(r.subdirs, files) == r.subdirs && Totalled(r, files)
    ensures Recalc(r, files) == r
  {
  }

  lemma {:induction false} RecalcSeqIdempotent(ds: seq<Dir>, files: seq<File>)
    ensures RecalcSeq(RecalcSeq(ds, files), files) == RecalcSeq(ds, files)
    decreases ds, 0
  {
    if ds != [] {
      RecalcIdempotent(ds[0], files);
      RecalcSeqIdempotent(ds[1..], files);
      assert RecalcSeq(ds, files)[1..] == RecalcSeq(ds[1..], files);
    }
  }

  /** Recalculation keeps every path where it was. */
  lemma {:induction false} WalkRecalc(d: Dir, files: seq<File>, parts: seq<string>)
    ensures Walk(Recalc(d, files), parts) ==
      match Walk(d, parts)
      case Some(DirEntry(x)) => Some(DirEntry(Recalc(x, files)))
      case other => other
    decreases |parts|
  {
    if parts != [] {
      var r := Recalc(d, files);
      SubdirIndexSameNames(d.subdirs, r.subdirs, parts[0]);
      var k := SubdirIndex(d.subdirs, parts[0]);
      if k >= 0 {
        WalkRecalc(d.subdirs[k], files, parts[1..]);
      }
    }
  }

  // ---------------------------------------------------------------------------
  // Marking subtrees: wanted state and selection

  datatype Mark = WantMark(state: bool, updating: bool) | SelectMark(value: bool)

  function MarkFile(f: File, m: Mark): File {
    match m
    case WantMark(s, u) => f.(want := s, wantedUpdating := u)
    case SelectMark(v) => f.(isSelected := v)
  }

  predicate Marked(f: File, m: Mark) {
    match m
    case WantMark(s, u) => f.want == s && f.wantedUpdating == u
    case SelectMark(v) => f.isSelected == v
  }

  predicate DirMarked(d: Dir, m: Mark) {
    match m
    case WantMark(s, u) => d.want == Some(s) && d.wantedUpdating == u
    case SelectMark(v) => d.isSelected == v
  }

  /** A copied file is marked in the tree; a shared one is marked through
      the array instead. */
  function MarkNode(n: FileNode, m: Mark): (r: FileNode)
    ensures r.key == n.key && r.Shared? == n.Shared?
  {
    match n
    case Copied(key, f) => Copied(key, MarkFile(f, m))
    case Shared(_, _) => n
  }

  function MarkNodes(ns: seq<FileNode>, m: Mark): (r: seq<FileNode>)
    ensures |r| == |ns| && forall i :: 0 <= i < |ns| ==> r[i] == MarkNode(ns[i], m)
  {
    seq(|ns|, i requires 0 <= i < |ns| => MarkNode(ns[i], m))
  }

  /** Marks a directory, every directory below it and every copied file
      below it. */
  function MarkSubtree(d: Dir, m: Mark): (r: Dir)
    ensures r.name == d.name && r.fullpath == d.fullpath && DirMarked(r, m)
    decreases d
  {
    var top := match m
      case WantMark(s, u) => d.(want := Some(s), wantedUpdating := u)
      case SelectMark(v) => d.(isSelected := v);
    top.(subdirs := MarkSubtreeSeq(d.subdirs, m), files := MarkNodes(d.files, m))
  }

  function MarkSubtreeSeq(ds: seq<Dir>, m: Mark): (r: seq<Dir>)
    ensures |r| == |ds| && forall i :: 0 <= i < |ds| ==> r[i] == MarkSubtree(ds[i], m)
    decreases ds
  {
    if ds == [] then [] else [MarkSubtree(ds[0], m)] + MarkSubtreeSeq(ds[1..], m)
  }

  function NodeIndexes(ns: seq<FileNode>): set<nat> {
    set i | 0 <= i < |ns| && ns[i].Shared? :: ns[i].index
  }

  /** The array positions a subtree shares. */
  function SharedIndexes(d: Dir): set<nat>
    decreases d
  {
    SharedIndexesSeq(d.subdirs) + NodeIndexes(d.files)
  }

  function SharedIndexesSeq(ds: seq<Dir>): set<nat>
    decreases ds
  {
    if ds == [] then {} else SharedIndexes(ds[0]) + SharedIndexesSeq(ds[1..])
  }

  lemma {:induction false} SharedIndexesSeqHas(ds: seq<Dir>, k: nat)
    requires k < |ds|
    ensures SharedIndexes(ds[k]) <= SharedIndexesSeq(ds)
    decreases k
  {
    if k > 0 {
      SharedIndexesSeqHas(ds[1..], k - 1);
    }
  }

  /** The array with the elements at `ix` marked. */
  function MarkShared(files: seq<File>, ix: set<nat>, m: Mark): (r: seq<File>)
    ensures |r| == |files|
    ensures forall i :: 0 <= i < |files| ==> r[i] == if i in ix then MarkFile(files[i], m) else files[i]
  {
    seq(|files|, i requires 0 <= i < |files| => if i in ix then MarkFile(files[i], m) else files[i])
  }

  predicate InRange(ix: set<nat>, n: nat) {
    forall i :: i in ix ==> i < n
  }

  /** Marking a subtree together with the array elements it shares marks
      every file below it. */
  lemma {:induction false} MarkSubtreeMarksAll(d: Dir, files: seq<File>, ix: set<nat>, m: Mark)
    requires SharedIndexes(d) <= ix && InRange(SharedIndexes(d), |files|)
    ensures forall f :: f in AllFiles(MarkSubtree(d, m), MarkShared(files, ix, m)) ==> Marked(f, m)
    decreases d, 1
  {
    var fs := MarkShared(files, ix, m);
    MarkSubtreeSeqMarksAll(d.subdirs, files, ix, m);
    var own := ResolveAll(MarkNodes(d.files, m), fs);
    forall k | 0 <= k < |own| ensures Marked(own[k], m) {
      if d.files[k].Shared? {
        assert d.files[k].index in NodeIndexes(d.files);
      }
    }
  }

  lemma {:induction false} MarkSubtreeSeqMarksAll(ds: seq<Dir>, files: seq<File>, ix: set<nat>, m: Mark)
    requires SharedIndexesSeq(ds) <= ix && InRange(SharedIndexesSeq(ds), |files|)
    ensures forall f :: f in AllFilesSeq(MarkSubtreeSeq(ds, m), MarkShared(files, ix, m)) ==> Marked(f, m)
    decreases ds, 0
  {
    if ds != [] {
      MarkSubtreeMarksAll(ds[0], files, ix, m);
      MarkSubtreeSeqMarksAll(ds[1..], files, ix, m);
      assert MarkSubtreeSeq(ds, m)[1..] == MarkSubtreeSeq(ds[1..], m);
    }
  }

  /** Marks the subtree at `parts` (a directory), or the copied file there. */
  function ModifyAt(d: Dir, parts: seq<string>, m: Mark): (r: Dir)
    ensures r.name == d.name && r.fullpath == d.fullpath
    decreases |parts|
  {
    if parts == [] then MarkSubtree(d, m)
    else
      var k := SubdirIndex(d.subdirs, parts[0]);
      if k >= 0 then d.(subdirs := d.subdirs[k := ModifyAt(d.subdirs[k], parts[1..], m)])
      else
        var j := FileIndex(d.files, parts[0]);
        if j >= 0 then d.(files := d.files[j := MarkNode(d.files[j], m)]) else d
  }

  function MarkEntry(e: Option<Entry>, m: Mark): Option<Entry> {
    match e
    case None => None
    case Some(DirEntry(x)) => Some(DirEntry(MarkSubtree(x, m)))
    case Some(FileEntry(n)) => Some(FileEntry(MarkNode(n, m)))
  }

  /** The entry at `parts` afterwards is the marked entry, and the same
      path still leads to it. */
  lemma {:induction false} WalkModifyAt(d: Dir, parts: seq<string>, m: Mark)
    ensures Walk(ModifyAt(d, parts, m), parts) == MarkEntry(Walk(d, parts), m)
    decreases |parts|
  {
    if parts != [] {
      var r := ModifyAt(d, parts, m);
      var k := SubdirIndex(d.subdirs, parts[0]);
      if k >= 0 {
        SubdirIndexSameNames(d.subdirs, r.subdirs, parts[0]);
        WalkModifyAt(d.subdirs[k], parts[1..], m);
      } else {
        var j := FileIndex(d.files, parts[0]);
        if j >= 0 {
          FileIndexSameKeys(d.files, r.files, parts[0]);
        }
      }
    }
  }

  /** The array positions an entry shares. */
  function EntryIndexes(e: Entry): set<nat> {
    match e
    case DirEntry(x) => SharedIndexes(x)
    case FileEntry(Shared(_, i)) => {i}
    case FileEntry(Copied(_, _)) => {}
  }

  predicate EntryMarked(e: Entry, files: seq<File>, m: Mark) {
    match e
    case DirEntry(x) => DirMarked(x, m) && forall f :: f in AllFiles(x, files) ==> Marked(f, m)
    case FileEntry(n) => Marked(Resolve(n, files), m)
  }

  /** Marks the entry at `parts` in the tree and in the array; an unknown
      path changes nothing. */
  function ApplyMark(tree: Dir, files: seq<File>, parts: seq<string>, m: Mark): (Dir, seq<File>) {
    match Walk(tree, parts)
    case None => (tree, files)
    case Some(e) => (ModifyAt(tree, parts, m), MarkShared(files, EntryIndexes(e), m))
  }

  lemma ApplyMarkEffect(tree: Dir, files: seq<File>, parts: seq<string>, m: Mark)
    requires Walk(tree, parts).Some? && InRange(EntryIndexes(Walk(tree, parts).value), |files|)
    ensures ApplyMark(tree, files, parts, m).0.fullpath == tree.fullpath
    ensures var (t, fs) := ApplyMark(tree, files, parts, m);
      Walk(t, parts).Some? && EntryMarked(Walk(t, parts).value, fs, m)
  {
    var e := Walk(tree, parts).value;
    var fs := MarkShared(files, EntryIndexes(e), m);
    WalkModifyAt(tree, parts, m);
    match e
    case DirEntry(x) =>
      MarkSubtreeMarksAll(x, files, SharedIndexes(x), m);
    case FileEntry(n) =>
  }

  // ---------------------------------------------------------------------------
  // setWanted

  /** Sets the wanted state of the entry at `path` (a whole subtree for a
      directory) and then recomputes the tree; an unknown path changes
      nothing. */
  function SetWantedIn(tree: Dir, files: seq<File>, path: string, state: bool, updating: bool): (Dir, seq<File>) {
    var parts := PathParts(tree.fullpath, path);
    if Walk(tree, parts).None? then (tree, files)
    else
      var (t, fs) := ApplyMark(tree, files, parts, WantMark(state, updating));
      (Recalc(t, fs), fs)
  }

  /** Afterwards every file at or below `path` has the new wanted state. */
  lemma SetWantedEffect(tree: Dir, files: seq<File>, path: string, state: bool, updating: bool)
    requires Lookup(tree, path).Some? && InRange(EntryIndexes(Lookup(tree, path).value), |files|)
    ensures var (t, fs) := SetWantedIn(tree, files, path, state, updating);
      var e := Lookup(t, path);
      && e.Some?
      && (e.value.DirEntry? ==> forall f :: f in AllFiles(e.value.dir, fs) ==> f.want == state && f.wantedUpdating == updating)
      && (e.value.FileEntry? ==> Resolve(e.value.node, fs).want == state && Resolve(e.value.node, fs).wantedUpdating == updating)
  {
    var parts := PathParts(tree.fullpath, path);
    var m := WantMark(state, updating);
    ApplyMarkEffect(tree, files, parts, m);
    var (t, fs) := ApplyMark(tree, files, parts, m);
    WalkRecalc(t, fs, parts);
    var e := Walk(t, parts).value;
    if e.DirEntry? {
      AllFilesRecalc(e.dir, fs);
    }
  }

  // ---------------------------------------------------------------------------
  // Selection

  datatype Verb = Add | Set | Toggle

  function EntrySelected(e: Entry, files: seq<File>): bool {
    match e
    case DirEntry(x) => x.isSelected
    case FileEntry(n) => Resolve(n, files).isSelected
  }

  /** One id of a selection action: a toggle of a selected entry clears it,
      anything else selects it; an unknown id is skipped. */
  function SelectOne(tree: Dir, files: seq<File>, verb: Verb, id: string): (Dir, seq<File>) {
    var parts := PathParts(tree.fullpath, id);
    match Walk(tree, parts)
    case None => (tree, files)
    case Some(e) => ApplyMark(tree, files, parts, SelectMark(!(verb == Toggle && EntrySelected(e, files))))
  }

  lemma SelectOneEffect(tree: Dir, files: seq<File>, verb: Verb, id: string)
    requires Lookup(tree, id).Some? && InRange(EntryIndexes(Lookup(tree, id).value), |files|)
    ensures var (t, fs) := SelectOne(tree, files, verb, id);
      Lookup(t, id).Some? &&
      EntrySelected(Lookup(t, id).value, fs) == !(verb == Toggle && EntrySelected(Lookup(tree, id).value, files))
  {
    var parts := PathParts(tree.fullpath, id);
    var e := Walk(tree, parts).value;
    ApplyMarkEffect(tree, files, parts, SelectMark(!(verb == Toggle && EntrySelected(e, files))));
  }

  /** The ids of a selection action in order. */
  function SelectIds(tree: Dir, files: seq<File>, verb: Verb, ids: seq<string>): (Dir, seq<File>)
    decreases |ids|
  {
    if ids == [] then (tree, files)
    else
      var (t, fs) := SelectIds(tree, files, verb, ids[..|ids| - 1]);
      SelectOne(t, fs, verb, ids[|ids| - 1])
  }

  function SelectedFiles(ns: seq<FileNode>, files: seq<File>): seq<string> {
    if ns == [] then []
    else
      var f := Resolve(ns[0], files);
      (if f.isSelected then [f.fullpath] else []) + SelectedFiles(ns[1..], files)
  }

  /** The full paths of the selected entries: a directory, then its files,
      then its sub-directories. */
  function Selected(d: Dir, files: seq<File>): seq<string>
    decreases d
  {
    (if d.isSelected then [d.fullpath] else []) + SelectedFiles(d.files, files) + SelectedSeq(d.subdirs, files)
  }

  function SelectedSeq(ds: seq<Dir>, files: seq<File>): seq<string>
    decreases ds
  {
    if ds == [] then [] else Selected(ds[0], files) + SelectedSeq(ds[1..], files)
  }

  /** An entry of a subtree that is selected, independently of traversal
      order: the directory itself, one of its files, or an entry below. */
  predicate MarkedIn(d: Dir, files: seq<File>, p: string)
    decreases d
  {
    (d.isSelected && d.fullpath == p) ||
    (exists k :: 0 <= k < |d.files| && Resolve(d.files[k], files).isSelected && Resolve(d.files[k], files).fullpath == p) ||
    (exists k :: 0 <= k < |d.subdirs| && MarkedIn(d.subdirs[k], files, p))
  }

  lemma {:induction false} SelectedFilesMarked(ns: seq<FileNode>, files: seq<File>, p: string)
    ensures p in SelectedFiles(ns, files) <==>
      exists k :: 0 <= k < |ns| && Resolve(ns[k], files).isSelected && Resolve(ns[k], files).fullpath == p
  {
    if ns != [] {
      SelectedFilesMarked(ns[1..], files, p);
      if exists k :: 0 <= k < |ns| && Resolve(ns[k], files).isSelected && Resolve(ns[k], files).fullpath == p {
        var k :| 0 <= k < |ns| && Resolve(ns[k], files).isSelected && Resolve(ns[k], files).fullpath == p;
        if k > 0 { assert ns[1..][k - 1] == ns[k]; }
      }
      if exists k :: 0 <= k < |ns[1..]| && Resolve(ns[1..][k], files).isSelected && Resolve(ns[1..][k], files).fullpath == p {
        var k :| 0 <= k < |ns[1..]| && Resolve(ns[1..][k], files).isSelected && Resolve(ns[1..][k], files).fullpath == p;
        assert ns[k + 1] == ns[1..][k];
      }
    }
  }

  /** The selection read back lists exactly the selected entries' paths. */
  lemma {:induction false} SelectedListsMarked(d: Dir, files: seq<File>, p: string)
    ensures p in Selected(d, files) <==> MarkedIn(d, files, p)
    decreases d, 1
  {
    SelectedFilesMarked(d.files, files, p);
    SelectedSeqMarked(d.subdirs, files, p);
  }

  lemma {:induction false} SelectedSeqMarked(ds: seq<Dir>, files: seq<File>, p: string)
    ensures p in SelectedSeq(ds, files) <==> exists k :: 0 <= k < |ds| && MarkedIn(ds[k], files, p)
    decreases ds, 0
  {
    if ds != [] {
      SelectedListsMarked(ds[0], files, p);
      SelectedSeqMarked(ds[1..], files, p);
      if exists k :: 0 <= k < |ds| && MarkedIn(ds[k], files, p) {
        var k :| 0 <= k < |ds| && MarkedIn(ds[k], files, p);
        if k > 0 { assert ds[1..][k - 1] == ds[k]; }
      }
      if exists k :: 0 <= k < |ds[1..]| && MarkedIn(ds[1..][k], files, p) {
        var k :| 0 <= k < |ds[1..]| && MarkedIn(ds[1..][k], files, p);
        assert ds[k + 1] == ds[1..][k];
      }
    }
  }

  lemma {:induction false} SelectedFilesCleared(ns: seq<FileNode>, files: seq<File>, ix: set<nat>)
    requires NodeIndexes(ns) <= ix
    ensures SelectedFiles(MarkNodes(ns, SelectMark(false)), MarkShared(files, ix, SelectMark(false))) == []
  {
    if ns != [] {
      if ns[0].Shared? {
        assert ns[0].index in NodeIndexes(ns);
      }
      assert NodeIndexes(ns[1..]) <= NodeIndexes(ns) by {
        forall i | i in NodeIndexes(ns[1..]) ensures i in NodeIndexes(ns) {
          var k :| 0 <= k < |ns[1..]| && ns[1..][k].Shared? && ns[1..][k].index == i;
          assert ns[k + 1] == ns[1..][k];
        }
      }
      SelectedFilesCleared(ns[1..], files, ix);
      assert MarkNodes(ns, SelectMark(false))[1..] == MarkNodes(ns[1..], SelectMark(false));
    }
  }

  /** Clearing the selection of a subtree (with the array elements it
      shares) leaves nothing selected in it. */
  lemma {:induction false} SelectionCleared(d: Dir, files: seq<File>, ix: set<nat>)
    requires SharedIndexes(d) <= ix
    ensures Selected(MarkSubtree(d, SelectMark(false)), MarkShared(files, ix, SelectMark(false))) == []
    decreases d, 1
  {
    SelectedFilesCleared(d.files, files, ix);
    SelectionSeqCleared(d.subdirs, files, ix);
  }

  lemma {:induction false} SelectionSeqCleared(ds: seq<Dir>, files: seq<File>, ix: set<nat>)
    requires SharedIndexesSeq(ds) <= ix
    ensures SelectedSeq(MarkSubtreeSeq(ds, SelectMark(false)), MarkShared(files, ix, SelectMark(false))) == []
    decreases ds, 0
  {
    if ds != [] {
      SelectionCleared(ds[0], files, ix);
      SelectionSeqCleared(ds[1..], files, ix);
      assert MarkSubtreeSeq(ds, SelectMark(false))[1..] == MarkSubtreeSeq(ds[1..], SelectMark(false));
    }
  }

  /** The "set" verb first clears the whole tree: with no ids nothing is
      selected afterwards. */
  lemma SetClearsSelection(tree: Dir, files: seq<File>)
    ensures var (t, fs) := ApplyMark(tree, files, [], SelectMark(false));
      Selected(t, fs) == []
  {
    SelectionCleared(tree, files, SharedIndexes(tree));
  }

  // ---------------------------------------------------------------------------
  // Map updates

  /** JavaScript `Map.set` keyed by directory name: an existing entry of
      that name is replaced where it stands, otherwise the entry is
      appended. */
  function SetDir(ds: seq<Dir>, x: Dir): (r: seq<Dir>)
    ensures SubdirIndex(r, x.name) >= 0 && r[SubdirIndex(r, x.name)] == x
  {
    var k := SubdirIndex(ds, x.name);
    if k >= 0 then
      SubdirIndexUpdate(ds, k, x);
      ds[k := x]
    else
      SubdirIndexAppend(ds, x, x.name);
      ds + [x]
  }

  function SetNode(ns: seq<FileNode>, n: FileNode): (r: seq<FileNode>)
    ensures FileIndex(r, n.key) >= 0 && r[FileIndex(r, n.key)] == n
  {
    var k := FileIndex(ns, n.key);
    if k >= 0 then
      FileIndexUpdate(ns, k, n);
      ns[k := n]
    else
      FileIndexAppend(ns, n, n.key);
      ns + [n]
  }

  lemma SubdirIndexUpdate(ds: seq<Dir>, k: int, x: Dir)
    requires 0 <= k < |ds| && SubdirIndex(ds, x.name) == k
    ensures SubdirIndex(ds[k := x], x.name) == k
  {
    var r := ds[k := x];
    assert r[k].name == x.name;
    assert forall i :: 0 <= i < k ==> r[i] == ds[i];
  }

  lemma SubdirIndexAppend(ds: seq<Dir>, x: Dir, name: string)
    requires SubdirIndex(ds, name) < 0 && x.name == name
    ensures SubdirIndex(ds + [x], name) == |ds|
  {
    var r := ds + [x];
    assert r[|ds|].name == name;
    assert forall i :: 0 <= i < |ds| ==> r[i] == ds[i];
  }

  lemma FileIndexUpdate(ns: seq<FileNode>, k: int, n: FileNode)
    requires 0 <= k < |ns| && FileIndex(ns, n.key) == k
    ensures FileIndex(ns[k := n], n.key) == k
  {
    var r := ns[k := n];
    assert r[k].key == n.key;
    assert forall i :: 0 <= i < k ==> r[i] == ns[i];
  }

  lemma FileIndexAppend(ns: seq<FileNode>, n: FileNode, name: string)
    requires FileIndex(ns, name) < 0 && n.key == name
    ensures FileIndex(ns + [n], name) == |ns|
  {
    var r := ns + [n];
    assert r[|ns|].key == name;
    assert forall i :: 0 <= i < |ns| ==> r[i] == ns[i];
  }

  // ---------------------------------------------------------------------------
  // Building the tree

  /** The full path of a directory created under `currentPath`. */
  function ChildPath(currentPath: string, name: string): string {
    if currentPath == "" then name else currentPath + "/" + name
  }

  /** A directory as first created: nothing below it, no aggregates yet. */
  function NewDir(name: string, level: int, fullpath: string): Dir {
    Dir(name, level, fullpath, 0, 0, None, None, false, false, [], [])
  }

  /** Stores `node` under the last of `parts`, descending into (or
      creating) a directory for every earlier part; a created directory
      records its depth and its path. */
  function Insert(d: Dir, parts: seq<string>, currentPath: string, level: int, node: FileNode): (r: Dir)
    requires |parts| >= 1
    ensures r.name == d.name && r.fullpath == d.fullpath
    decreases |parts|
  {
    if |parts| == 1 then d.(files := SetNode(d.files, node))
    else
      var path := ChildPath(currentPath, parts[0]);
      var k := SubdirIndex(d.subdirs, parts[0]);
      if k >= 0 then
        d.(subdirs := d.subdirs[k := Insert(d.subdirs[k], parts[1..], path, level + 1, node)])
      else
        d.(subdirs := d.subdirs + [Insert(NewDir(parts[0], level, path), parts[1..], path, level + 1, node)])
  }

  lemma InsertHere(d: Dir, p: string, currentPath: string, level: int, node: FileNode)
    requires node.key == p && SubdirIndex(d.subdirs, p) < 0
    ensures Walk(Insert(d, [p], currentPath, level, node), [p]) == Some(FileEntry(node))
  {
  }

  /** After inserting, the path leads to the inserted entry, unless a
      directory already stood at that path (it still shadows the file). */
  lemma {:induction false} InsertFinds(d: Dir, parts: seq<string>, currentPath: string, level: int, node: FileNode)
    requires |parts| >= 1 && node.key == parts[|parts| - 1]
    requires !(Walk(d, parts).Some? && Walk(d, parts).value.DirEntry?)
    ensures Walk(Insert(d, parts, currentPath, level, node), parts) == Some(FileEntry(node))
    decreases |parts|
  {
    var k := SubdirIndex(d.subdirs, parts[0]);
    var path := ChildPath(currentPath, parts[0]);
    if |parts| == 1 {
      assert parts == [parts[0]];
      InsertHere(d, parts[0], currentPath, level, node);
    } else {
      var x := if k >= 0 then d.subdirs[k] else NewDir(parts[0], level, path);
      InsertBelow(d, parts, currentPath, level, node);
      InsertFinds(x, parts[1..], path, level + 1, node);
    }
  }

  /** Below the first part, inserting and walking both go into the same
      (possibly new) sub-directory. */
  lemma InsertBelow(d: Dir, parts: seq<string>, currentPath: string, level: int, node: FileNode)
    requires |parts| > 1
    ensures var k := SubdirIndex(d.subdirs, parts[0]);
      var path := ChildPath(currentPath, parts[0]);
      var x := if k >= 0 then d.subdirs[k] else NewDir(parts[0], level, path);
      && Walk(Insert(d, parts, currentPath, level, node), parts) == Walk(Insert(x, parts[1..], path, level + 1, node), parts[1..])
      && (k >= 0 ==> Walk(d, parts) == Walk(x, parts[1..]))
      && (k < 0 ==> Walk(x, parts[1..]).None?)
  {
    var k := SubdirIndex(d.subdirs, parts[0]);
    var path := ChildPath(currentPath, parts[0]);
    var r := Insert(d, parts, currentPath, level, node);
    if k >= 0 {
      SubdirIndexSameNames(d.subdirs, r.subdirs, parts[0]);
    } else {
      var x := NewDir(parts[0], level, path);
      SubdirIndexAppend(d.subdirs, Insert(x, parts[1..], path, level + 1, node), parts[0]);
    }
  }

  /** Replaces every shared entry by a copy of the array element it shares,
      as happens when the array is replaced by a new one. */
  function Detach(d: Dir, files: seq<File>): (r: Dir)
    ensures r.name == d.name && r.fullpath == d.fullpath
    decreases d
  {
    d.(subdirs := DetachSeq(d.subdirs, files), files := DetachNodes(d.files, files))
  }

  function DetachSeq(ds: seq<Dir>, files: seq<File>): (r: seq<Dir>)
    ensures |r| == |ds| && forall i :: 0 <= i < |ds| ==> r[i] == Detach(ds[i], files)
    decreases ds
  {
    if ds == [] then [] else [Detach(ds[0], files)] + DetachSeq(ds[1..], files)
  }

  function DetachNodes(ns: seq<FileNode>, files: seq<File>): (r: seq<FileNode>)
    ensures |r| == |ns| && forall i :: 0 <= i < |ns| ==> r[i] == Copied(ns[i].key, Resolve(ns[i], files))
  {
    seq(|ns|, i requires 0 <= i < |ns| => Copied(ns[i].key, Resolve(ns[i], files)))
  }

  /** Detached entries keep their contents whatever the new array holds,
      and share nothing with it. */
  lemma {:induction false} DetachKeepsFiles(d: Dir, files: seq<File>, newFiles: seq<File>)
    ensures AllFiles(Detach(d, files), newFiles) == AllFiles(d, files)
    ensures SharedIndexes(Detach(d, files)) == {}
    decreases d, 1
  {
    DetachSeqKeepsFiles(d.subdirs, files, newFiles);
    assert ResolveAll(DetachNodes(d.files, files), newFiles) == ResolveAll(d.files, files);
  }

  lemma {:induction false} DetachSeqKeepsFiles(ds: seq<Dir>, files: seq<File>, newFiles: seq<File>)
    ensures AllFilesSeq(DetachSeq(ds, files), newFiles) == AllFilesSeq(ds, files)
    ensures SharedIndexesSeq(DetachSeq(ds, files)) == {}
    decreases ds, 0
  {
    if ds != [] {
      DetachKeepsFiles(ds[0], files, newFiles);
      DetachSeqKeepsFiles(ds[1..], files, newFiles);
      assert DetachSeq(ds, files)[1..] == DetachSeq(ds[1..], files);
    }
  }

  // ---------------------------------------------------------------------------
  // Renaming

  /** The full path with its last component replaced by `name`. */
  function RenamedPath(fullpath: string, name: string): string {
    var parts := Split(fullpath, '/');
    Join(parts[..|parts| - 1] + [name], "/")
  }

  lemma RenamedPathParts(fullpath: string, name: string)
    requires '/' !in name
    ensures var parts := Split(fullpath, '/');
      Split(RenamedPath(fullpath, name), '/') == parts[..|parts| - 1] + [name]
  {
    var parts := Split(fullpath, '/');
    TrUtil.SplitJoin(parts[..|parts| - 1] + [name], '/');
  }

  function RenamedDir(x: Dir, name: string): Dir {
    x.(name := name, fullpath := RenamedPath(x.fullpath, name))
  }

  function RenamedFile(f: File, name: string): File {
    f.(name := name, fullpath := RenamedPath(f.fullpath, name))
  }

  /** Replaces the entry at `parts` by a renamed copy stored under the new
      name in the same parent. Entries are stored under their own names, so
      deleting the entry's name removes the entry that was found. A renamed
      directory keeps its children, whose paths are left as they were. */
  function RenameAt(d: Dir, parts: seq<string>, name: string, files: seq<File>): (r: Dir)
    requires parts != []
    ensures r.name == d.name && r.fullpath == d.fullpath
    decreases |parts|
  {
    var k := SubdirIndex(d.subdirs, parts[0]);
    if k >= 0 then
      if |parts| == 1 then
        d.(subdirs := SetDir(RemoveAt(d.subdirs, k), RenamedDir(d.subdirs[k], name)))
      else
        d.(subdirs := d.subdirs[k := RenameAt(d.subdirs[k], parts[1..], name, files)])
    else
      var j := FileIndex(d.files, parts[0]);
      if j >= 0 then
        d.(files := SetNode(RemoveAt(d.files, j), Copied(name, RenamedFile(Resolve(d.files[j], files), name))))
      else d
  }

  /** An unknown path renames nothing. */
  lemma {:induction false} RenameMiss(d: Dir, parts: seq<string>, name: string, files: seq<File>)
    requires parts != [] && Walk(d, parts).None?
    ensures RenameAt(d, parts, name, files) == d
    decreases |parts|
  {
    var k := SubdirIndex(d.subdirs, parts[0]);
    if k >= 0 {
      if |parts| > 1 {
        RenameMiss(d.subdirs[k], parts[1..], name, files);
        assert d.subdirs[k := d.subdirs[k]] == d.subdirs;
      }
    }
  }

  lemma RenameDirHere(d: Dir, p: string, name: string, files: seq<File>)
    requires SubdirIndex(d.subdirs, p) >= 0
    ensures Walk(RenameAt(d, [p], name, files), [name]) ==
      Some(DirEntry(RenamedDir(d.subdirs[SubdirIndex(d.subdirs, p)], name)))
  {
    var r := RenameAt(d, [p], name, files);
    var ks := SubdirIndex(r.subdirs, name);
    assert Walk(r, [name]) == Walk(r.subdirs[ks], []);
  }

  lemma RenameFileHere(d: Dir, p: string, name: string, files: seq<File>)
    requires SubdirIndex(d.subdirs, p) < 0 && FileIndex(d.files, p) >= 0 && SubdirIndex(d.subdirs, name) < 0
    ensures Walk(RenameAt(d, [p], name, files), [name]) ==
      Some(FileEntry(Copied(name, RenamedFile(Resolve(d.files[FileIndex(d.files, p)], files), name))))
  {
  }

  /** Below the first part, renaming and walking both go into the same
      sub-directory. */
  lemma RenameBelow(d: Dir, parts: seq<string>, name: string, files: seq<File>)
    requires |parts| > 1 && SubdirIndex(d.subdirs, parts[0]) >= 0
    ensures var k := SubdirIndex(d.subdirs, parts[0]);
      && Walk(RenameAt(d, parts, name, files), parts[..|parts| - 1] + [name]) ==
         Walk(RenameAt(d.subdirs[k], parts[1..], name, files), parts[1..][..|parts| - 2] + [name])
      && Walk(d, parts[..|parts| - 1]) == Walk(d.subdirs[k], parts[1..][..|parts| - 2])
  {
    var k := SubdirIndex(d.subdirs, parts[0]);
    var r := RenameAt(d, parts, name, files);
    SubdirIndexSameNames(d.subdirs, r.subdirs, parts[0]);
    var target := parts[..|parts| - 1] + [name];
    assert target[0] == parts[0] && target[1..] == parts[1..][..|parts| - 2] + [name];
    var front := parts[..|parts| - 1];
    assert front[0] == parts[0] && front[1..] == parts[1..][..|parts| - 2];
  }

  /** A renamed directory is found under the new name in its old parent. */
  lemma {:induction false} RenameFindsDir(d: Dir, parts: seq<string>, name: string, files: seq<File>, x: Dir)
    requires parts != [] && Walk(d, parts) == Some(DirEntry(x))
    ensures Walk(RenameAt(d, parts, name, files), parts[..|parts| - 1] + [name]) == Some(DirEntry(RenamedDir(x, name)))
    decreases |parts|
  {
    var k := SubdirIndex(d.subdirs, parts[0]);
    if |parts| == 1 {
      assert parts == [parts[0]] && parts[..0] + [name] == [name];
      RenameDirHere(d, parts[0], name, files);
    } else {
      RenameFindsDir(d.subdirs[k], parts[1..], name, files, x);
      RenameBelow(d, parts, name, files);
    }
  }

  /** A renamed file is found under the new name in its old parent, unless
      a directory of that name there shadows it. */
  lemma {:induction false} RenameFindsFile(d: Dir, parts: seq<string>, name: string, files: seq<File>, n: FileNode, parent: Dir)
    requires parts != [] && Walk(d, parts) == Some(FileEntry(n))
    requires Walk(d, parts[..|parts| - 1]) == Some(DirEntry(parent)) && SubdirIndex(parent.subdirs, name) < 0
    ensures Walk(RenameAt(d, parts, name, files), parts[..|parts| - 1] + [name]) ==
      Some(FileEntry(Copied(name, RenamedFile(Resolve(n, files), name))))
    decreases |parts|
  {
    var k := SubdirIndex(d.subdirs, parts[0]);
    if |parts| == 1 {
      assert parts == [parts[0]] && parts[..0] + [name] == [name];
      RenameFileHere(d, parts[0], name, files);
    } else if k >= 0 {
      RenameBelow(d, parts, name, files);
      RenameFindsFile(d.subdirs[k], parts[1..], name, files, n, parent);
    }
  }

  /** Renames the entry at `path`; an unknown path changes nothing, and the
      root (which has no parent) cannot be renamed. */
  function RenameEntry(tree: Dir, files: seq<File>, path: string, name: string): (r: Result<Dir, string>)
    ensures Lookup(tree, path).None? ==> r == Ok(tree)
    ensures r.Err? <==> PathParts(tree.fullpath, path) == []
  {
    var parts := PathParts(tree.fullpath, path);
    if parts == [] then Err("TypeError: the root entry has no parent")
    else if Walk(tree, parts).None? then Ok(tree)
    else Ok(RenameAt(tree, parts, name, files))
  }

  // ---------------------------------------------------------------------------
  // Parsing a torrent's file list

  datatype TorrentFile = TorrentFile(name: string, length: int)
  datatype FileStat = FileStat(wanted: bool, bytesCompleted: int, priority: int)
  datatype TorrentBase = TorrentBase(hashString: string, name: string, files: seq<TorrentFile>, fileStats: seq<FileStat>)

  /** A file's path with backslashes turned into slashes. */
  function FilePath(t: TorrentFile): string {
    ReplaceAll(t.name, '\\', '/')
  }

  lemma {:induction false} JoinLast(parts: seq<string>, c: char)
    requires |parts| >= 2
    ensures Join(parts, [c]) == Join(parts[..|parts| - 1], [c]) + [c] + parts[|parts| - 1]
    decreases |parts|
  {
    if |parts| > 2 {
      JoinLast(parts[1..], c);
      assert parts[..|parts| - 1][1..] == parts[1..][..|parts| - 2];
    }
  }

  /** The part of a path after its last slash. */
  function BaseName(path: string): (r: string)
    ensures '/' !in r && EndsWith(path, r)
    ensures |r| == |path| || path[|path| - |r| - 1] == '/'
  {
    var parts := Split(path, '/');
    JoinSplit(path, '/');
    if |parts| >= 2 then
      JoinLast(parts, '/');
      parts[|parts| - 1]
    else
      parts[0]
  }

  function ParsedFile(torrent: TorrentBase, i: nat, fromFile: bool): File
    requires i < |torrent.files| && (fromFile || i < |torrent.fileStats|)
  {
    var path := FilePath(torrent.files[i]);
    File(i, BaseName(path), 0, path, torrent.files[i].length,
      if fromFile then 0 else torrent.fileStats[i].bytesCompleted,
      if fromFile then true else torrent.fileStats[i].wanted,
      if fromFile then 0 else torrent.fileStats[i].priority,
      false, false)
  }

  function ParsedFiles(torrent: TorrentBase, fromFile: bool): (r: seq<File>)
    requires fromFile || |torrent.fileStats| >= |torrent.files|
    ensures |r| == |torrent.files| && forall i :: 0 <= i < |r| ==> r[i] == ParsedFile(torrent, i, fromFile)
  {
    seq(|torrent.files|, i requires 0 <= i < |torrent.files| => ParsedFile(torrent, i, fromFile))
  }

  /** The root takes the torrent's (file-system safe) name when the torrent
      has several files, or one file inside a folder of that name. */
  function ParsedRoot(torrent: TorrentBase, oldRoot: string): string {
    var safe := TrUtil.FileSystemSafeName(torrent.name);
    if |torrent.files| > 1 || (|torrent.files| > 0 && StartsWith(FilePath(torrent.files[0]), safe + "/"))
    then safe else oldRoot
  }

  type PathIndex = (string, nat)

  function PathIndexPairs(fs: seq<File>): (r: seq<PathIndex>)
    ensures |r| == |fs| && forall i :: 0 <= i < |fs| ==> r[i] == (fs[i].fullpath, i)
  {
    seq(|fs|, i requires 0 <= i < |fs| => (fs[i].fullpath, i))
  }

  /** JavaScript's `<` on strings: lexicographic, character by character. */
  predicate CodeLess(a: string, b: string)
    decreases |a|
  {
    |b| > 0 && (|a| == 0 || a[0] < b[0] || (a[0] == b[0] && CodeLess(a[1..], b[1..])))
  }

  lemma {:induction false} CodeLessIrreflexive(a: string)
    ensures !CodeLess(a, a)
    decreases |a|
  {
    if |a| > 0 {
      CodeLessIrreflexive(a[1..]);
    }
  }

  lemma {:induction false} CodeLessAsymmetric(a: string, b: string)
    requires CodeLess(a, b)
    ensures !CodeLess(b, a)
    decreases |a|
  {
    if |a| > 0 && a[0] == b[0] {
      CodeLessAsymmetric(a[1..], b[1..]);
    }
  }

  lemma {:induction false} CodeLessTotal(a: string, b: string)
    ensures a == b || CodeLess(a, b) || CodeLess(b, a)
    decreases |a|
  {
    if |a| > 0 && |b| > 0 && a[0] == b[0] {
      CodeLessTotal(a[1..], b[1..]);
      if a[1..] == b[1..] {
        assert a == [a[0]] + a[1..] && b == [b[0]] + b[1..];
      }
    }
  }

  lemma {:induction false} CodeLessTrans(a: string, b: string, c: string)
    requires CodeLess(a, b) && CodeLess(b, c)
    ensures CodeLess(a, c)
    decreases |a|
  {
    if |a| > 0 && a[0] == b[0] && b[0] == c[0] {
      CodeLessTrans(a[1..], b[1..], c[1..]);
    }
  }

  /** Paths in code order, equal paths by index. */
  predicate PairLe(x: PathIndex, y: PathIndex) {
    CodeLess(x.0, y.0) || (x.0 == y.0 && x.1 <= y.1)
  }

  lemma PairLeTotal(x: PathIndex, y: PathIndex)
    ensures PairLe(x, y) || PairLe(y, x)
  {
    CodeLessTotal(x.0, y.0);
  }

  lemma PairLeTrans(x: PathIndex, y: PathIndex, z: PathIndex)
    requires PairLe(x, y) && PairLe(y, z)
    ensures PairLe(x, z)
  {
    if CodeLess(x.0, y.0) && CodeLess(y.0, z.0) {
      CodeLessTrans(x.0, y.0, z.0);
    }
  }

  lemma PairLeAntisymmetric(x: PathIndex, y: PathIndex)
    requires PairLe(x, y) && PairLe(y, x)
    ensures x == y
  {
    if CodeLess(x.0, y.0) {
      CodeLessAsymmetric(x.0, y.0);
    } else if CodeLess(y.0, x.0) {
      CodeLessAsymmetric(y.0, x.0);
    }
  }

  predicate PairsSorted(s: seq<PathIndex>) {
    forall i, j :: 0 <= i < j < |s| ==> PairLe(s[i], s[j])
  }

  lemma InsertPairFront(x: PathIndex, s: seq<PathIndex>)
    requires PairsSorted(s) && s != [] && PairLe(x, s[0])
    ensures PairsSorted([x] + s)
  {
    forall j | 0 <= j < |s| ensures PairLe(x, s[j]) {
      if j > 0 {
        PairLeTrans(x, s[0], s[j]);
      }
    }
  }

  lemma InsertPairBehind(x: PathIndex, s: seq<PathIndex>, rest: seq<PathIndex>)
    requires PairsSorted(s) && s != [] && PairLe(s[0], x)
    requires PairsSorted(rest) && multiset(rest) == multiset(s[1..]) + multiset{x}
    ensures PairsSorted([s[0]] + rest)
    ensures multiset([s[0]] + rest) == multiset(s) + multiset{x}
  {
    forall j | 0 <= j < |rest| ensures PairLe(s[0], rest[j]) {
      assert rest[j] in multiset(rest);
      if rest[j] != x {
        assert rest[j] in multiset(s[1..]);
        var i :| 0 <= i < |s[1..]| && s[1..][i] == rest[j];
        assert s[i + 1] == rest[j];
      }
    }
    assert s == [s[0]] + s[1..];
  }

  function InsertPair(x: PathIndex, s: seq<PathIndex>): (r: seq<PathIndex>)
    requires PairsSorted(s)
    ensures PairsSorted(r) && multiset(r) == multiset(s) + multiset{x}
    decreases |s|
  {
    if s == [] then [x]
    else if PairLe(x, s[0]) then
      InsertPairFront(x, s);
      [x] + s
    else
      PairLeTotal(x, s[0]);
      var rest := InsertPair(x, s[1..]);
      InsertPairBehind(x, s, rest);
      [s[0]] + rest
  }

  /** The order in which the files are added to the tree. */
  function SortPairs(s: seq<PathIndex>): (r: seq<PathIndex>)
    ensures PairsSorted(r) && multiset(r) == multiset(s)
    decreases |s|
  {
    if s == [] then []
    else
      assert s == [s[0]] + s[1..];
      InsertPair(s[0], SortPairs(s[1..]))
  }

  /** There is only one sorted arrangement of a collection of pairs, so a
      stable sort by path of the pairs taken in index order yields exactly
      `SortPairs`. */
  lemma {:induction false} SortedUnique(a: seq<PathIndex>, b: seq<PathIndex>)
    requires PairsSorted(a) && PairsSorted(b) && multiset(a) == multiset(b)
    ensures a == b
    decreases |a|
  {
    if a != [] {
      SortedHeads(a, b);
      assert multiset(a[1..]) == multiset(b[1..]) by {
        assert a == [a[0]] + a[1..] && b == [b[0]] + b[1..];
        assert multiset(a[1..]) == multiset(a) - multiset{a[0]};
        assert multiset(b[1..]) == multiset(b) - multiset{b[0]};
      }
      SortedUnique(a[1..], b[1..]);
    }
  }

  /** Two sorted arrangements of the same pairs start alike. */
  lemma SortedHeads(a: seq<PathIndex>, b: seq<PathIndex>)
    requires PairsSorted(a) && PairsSorted(b) && multiset(a) == multiset(b) && a != []
    ensures b != [] && a[0] == b[0]
  {
    assert a[0] in multiset(b);
    var i :| 0 <= i < |b| && b[i] == a[0];
    assert b[0] in multiset(a);
    var j :| 0 <= j < |a| && a[j] == b[0];
    assert PairLe(b[0], a[0]) by {
      if i > 0 {
        assert PairLe(b[0], b[i]);
      }
    }
    assert PairLe(a[0], b[0]) by {
      if j > 0 {
        assert PairLe(a[0], a[j]);
      }
    }
    PairLeAntisymmetric(a[0], b[0]);
  }

  /** A pair of the sorted order is a file's (path, index). */
  lemma OrderElem(fs: seq<File>, order: seq<PathIndex>, k: int)
    requires multiset(order) == multiset(PathIndexPairs(fs)) && 0 <= k < |order|
    ensures order[k].1 < |fs| && order[k].0 == fs[order[k].1].fullpath
  {
    var pairs := PathIndexPairs(fs);
    assert order[k] in multiset(order);
    var j :| 0 <= j < |pairs| && pairs[j] == order[k];
  }

  /** Every file's (path, index) occurs in the sorted order. */
  lemma OrderCovers(fs: seq<File>, order: seq<PathIndex>)
    requires multiset(order) == multiset(PathIndexPairs(fs))
    ensures forall j :: 0 <= j < |fs| ==> (fs[j].fullpath, j) in order
  {
    var pairs := PathIndexPairs(fs);
    forall j | 0 <= j < |fs| ensures (fs[j].fullpath, j) in order {
      assert pairs[j] in multiset(pairs);
    }
  }

  /** Each file's level: the number of directories above it. */
  function WithLevels(fs: seq<File>, root: string): (r: seq<File>)
    ensures |r| == |fs| && forall j :: 0 <= j < |fs| ==> r[j] == fs[j].(level := |PathParts(root, fs[j].fullpath)| - 1)
  {
    seq(|fs|, j requires 0 <= j < |fs| => fs[j].(level := |PathParts(root, fs[j].fullpath)| - 1))
  }

  /** The path-to-index record, written pair by pair: a later pair of the
      same path overwrites an earlier one. */
  function PathIndexMap(ps: seq<PathIndex>): map<string, nat>
    decreases |ps|
  {
    if ps == [] then map[]
    else PathIndexMap(ps[..|ps| - 1])[ps[|ps| - 1].0 := ps[|ps| - 1].1]
  }

  lemma {:induction false} PathIndexMapFacts(ps: seq<PathIndex>)
    requires PairsSorted(ps)
    ensures forall k :: 0 <= k < |ps| ==> ps[k].0 in PathIndexMap(ps) && ps[k].1 <= PathIndexMap(ps)[ps[k].0]
    ensures forall p :: p in PathIndexMap(ps) ==> (p, PathIndexMap(ps)[p]) in ps
    decreases |ps|
  {
    if ps != [] {
      var front := ps[..|ps| - 1];
      var last := ps[|ps| - 1];
      assert PairsSorted(front);
      PathIndexMapFacts(front);
      CodeLessIrreflexive(last.0);
      var m := PathIndexMap(ps);
      forall k | 0 <= k < |ps| ensures ps[k].0 in m && ps[k].1 <= m[ps[k].0] {
        if k < |ps| - 1 {
          assert ps[k] == front[k];
          if ps[k].0 == last.0 {
            assert PairLe(ps[k], last);
          }
        }
      }
      forall p | p in m ensures (p, m[p]) in ps {
        if p != last.0 {
          assert (p, m[p]) in front;
        }
      }
    }
  }

  /** Every file's path is recorded, with the largest index among the files
      of that path. */
  lemma FilePathToIndexSpec(fs: seq<File>)
    ensures var m := PathIndexMap(SortPairs(PathIndexPairs(fs)));
      && (forall i :: 0 <= i < |fs| ==> fs[i].fullpath in m && i <= m[fs[i].fullpath])
      && (forall p :: p in m ==> m[p] < |fs| && fs[m[p]].fullpath == p)
  {
    var order := SortPairs(PathIndexPairs(fs));
    var m := PathIndexMap(order);
    PathIndexMapFacts(order);
    OrderCovers(fs, order);
    forall i | 0 <= i < |fs| ensures fs[i].fullpath in m && i <= m[fs[i].fullpath] {
      var k :| 0 <= k < |order| && order[k] == (fs[i].fullpath, i);
    }
    forall p | p in m ensures m[p] < |fs| && fs[m[p]].fullpath == p {
      var k :| 0 <= k < |order| && order[k] == (p, m[p]);
      OrderElem(fs, order, k);
    }
  }

  /** Adds the file of one (path, index) pair to the tree, as a shared
      entry stored under the last part of its path. A path equal to the
      root's own path leaves nothing to store it under and is skipped. */
  function InsertPath(t: Dir, root: string, p: PathIndex): (r: Dir)
    ensures r.fullpath == t.fullpath
  {
    var parts := PathParts(root, p.0);
    if parts == [] then t
    else Insert(t, parts, root, 0, Shared(parts[|parts| - 1], p.1))
  }

  function InsertAll(t: Dir, root: string, ps: seq<PathIndex>): (r: Dir)
    ensures r.fullpath == t.fullpath
    decreases |ps|
  {
    if ps == [] then t
    else InsertPath(InsertAll(t, root, ps[..|ps| - 1]), root, ps[|ps| - 1])
  }

  /** The last inserted file is found at its path unless a directory stands
      there. */
  lemma InsertPathFinds(t: Dir, root: string, p: PathIndex)
    requires PathParts(root, p.0) != []
    requires !(Walk(t, PathParts(root, p.0)).Some? && Walk(t, PathParts(root, p.0)).value.DirEntry?)
    ensures var parts := PathParts(root, p.0);
      Walk(InsertPath(t, root, p), parts) == Some(FileEntry(Shared(parts[|parts| - 1], p.1)))
  {
    var parts := PathParts(root, p.0);
    InsertFinds(t, parts, root, 0, Shared(parts[|parts| - 1], p.1));
  }

  // ---------------------------------------------------------------------------
  // Every file of the loop is found at its path

  /** `a` lies on the way down to `b`: a directory path above `b`. */
  predicate ProperPrefix(a: seq<string>, b: seq<string>) {
    |a| < |b| && b[..|a|] == a
  }

  /** Two different paths, neither on the other's way down. */
  predicate Apart(a: seq<string>, b: seq<string>) {
    a != b && !ProperPrefix(a, b) && !ProperPrefix(b, a)
  }

  /** Walking `parts` goes through directories only and ends at the file
      entry `node`, with no directory of that name beside it. */
  predicate Reaches(d: Dir, parts: seq<string>, node: FileNode)
    decreases |parts|
  {
    |parts| >= 1 &&
    var k := SubdirIndex(d.subdirs, parts[0]);
    if |parts| == 1 then
      k < 0 && FileIndex(d.files, parts[0]) >= 0 && d.files[FileIndex(d.files, parts[0])] == node
    else
      k >= 0 && Reaches(d.subdirs[k], parts[1..], node)
  }

  /** No directory stands at `parts`. */
  predicate NoDirAt(d: Dir, parts: seq<string>)
    decreases |parts|
  {
    |parts| >= 1 &&
    var k := SubdirIndex(d.subdirs, parts[0]);
    if |parts| == 1 then k < 0
    else k >= 0 ==> NoDirAt(d.subdirs[k], parts[1..])
  }

  lemma {:induction false} ReachesWalk(d: Dir, parts: seq<string>, node: FileNode)
    requires Reaches(d, parts, node)
    ensures Walk(d, parts) == Some(FileEntry(node))
    decreases |parts|
  {
    if |parts| > 1 {
      ReachesWalk(d.subdirs[SubdirIndex(d.subdirs, parts[0])], parts[1..], node);
    }
  }

  lemma SubdirIndexAppendOther(ds: seq<Dir>, x: Dir, name: string)
    requires x.name != name
    ensures SubdirIndex(ds + [x], name) == SubdirIndex(ds, name)
  {
    var r := ds + [x];
    assert forall i :: 0 <= i < |ds| ==> r[i] == ds[i];
    var a, b := SubdirIndex(r, name), SubdirIndex(ds, name);
    if a >= 0 && b >= 0 {
      assert !(a < b) && !(b < a);
    }
  }

  lemma FileIndexAppendOther(ns: seq<FileNode>, n: FileNode, name: string)
    requires n.key != name
    ensures FileIndex(ns + [n], name) == FileIndex(ns, name)
  {
    var r := ns + [n];
    assert forall i :: 0 <= i < |ns| ==> r[i] == ns[i];
    var a, b := FileIndex(r, name), FileIndex(ns, name);
    if a >= 0 && b >= 0 {
      assert !(a < b) && !(b < a);
    }
  }

  /** Storing an entry under another key finds every other key where it was. */
  lemma SetNodeOther(ns: seq<FileNode>, n: FileNode, name: string)
    requires n.key != name
    ensures var r := SetNode(ns, n);
      FileIndex(r, name) == FileIndex(ns, name) && (FileIndex(ns, name) >= 0 ==> r[FileIndex(ns, name)] == ns[FileIndex(ns, name)])
  {
    var k := FileIndex(ns, n.key);
    if k >= 0 {
      FileIndexSameKeys(ns, ns[k := n], name);
    } else {
      FileIndexAppendOther(ns, n, name);
    }
  }

  /** Inserting below another first name leaves that name's entries alone. */
  lemma InsertOtherName(d: Dir, q: seq<string>, cur: string, level: int, n: FileNode, name: string)
    requires |q| >= 1 && n.key == q[|q| - 1] && q[0] != name
    ensures var r := Insert(d, q, cur, level, n);
      var k := SubdirIndex(d.subdirs, name);
      var j := FileIndex(d.files, name);
      && SubdirIndex(r.subdirs, name) == k && (k >= 0 ==> r.subdirs[k] == d.subdirs[k])
      && FileIndex(r.files, name) == j && (j >= 0 ==> r.files[j] == d.files[j])
  {
    if |q| == 1 {
      SetNodeOther(d.files, n, name);
    } else {
      InsertBelowOtherName(d, q, cur, level, n, name);
    }
  }

  lemma InsertBelowOtherName(d: Dir, q: seq<string>, cur: string, level: int, n: FileNode, name: string)
    requires |q| > 1 && q[0] != name
    ensures var r := Insert(d, q, cur, level, n);
      var k := SubdirIndex(d.subdirs, name);
      && r.files == d.files
      && SubdirIndex(r.subdirs, name) == k && (k >= 0 ==> r.subdirs[k] == d.subdirs[k])
  {
    var r := Insert(d, q, cur, level, n);
    var k := SubdirIndex(d.subdirs, q[0]);
    var path := ChildPath(cur, q[0]);
    if k >= 0 {
      SubdirIndexSameNames(d.subdirs, r.subdirs, name);
    } else {
      SubdirIndexAppendOther(d.subdirs, Insert(NewDir(q[0], level, path), q[1..], path, level + 1, n), name);
    }
  }

  /** Inserting below `q[0]` leaves a directory of that name holding the
      insertion. */
  lemma InsertDescends(d: Dir, q: seq<string>, cur: string, level: int, n: FileNode)
    requires |q| > 1
    ensures var k := SubdirIndex(d.subdirs, q[0]);
      var path := ChildPath(cur, q[0]);
      var x := if k >= 0 then d.subdirs[k] else NewDir(q[0], level, path);
      var r := Insert(d, q, cur, level, n);
      && SubdirIndex(r.subdirs, q[0]) >= 0
      && r.subdirs[SubdirIndex(r.subdirs, q[0])] == Insert(x, q[1..], path, level + 1, n)
  {
    var k := SubdirIndex(d.subdirs, q[0]);
    var path := ChildPath(cur, q[0]);
    var r := Insert(d, q, cur, level, n);
    if k >= 0 {
      SubdirIndexSameNames(d.subdirs, r.subdirs, q[0]);
    } else {
      SubdirIndexAppend(d.subdirs, Insert(NewDir(q[0], level, path), q[1..], path, level + 1, n), q[0]);
    }
  }

  /** A fresh directory has nothing at any path. */
  lemma NoDirInNew(name: string, level: int, path: string, parts: seq<string>)
    requires |parts| >= 1
    ensures NoDirAt(NewDir(name, level, path), parts)
  {
  }

  /** Inserting a path never puts a directory where another path ends,
      unless that path lies on its way down. */
  lemma {:induction false} InsertKeepsNoDir(d: Dir, parts: seq<string>, q: seq<string>, cur: string, level: int, n: FileNode)
    requires |q| >= 1 && n.key == q[|q| - 1] && NoDirAt(d, parts) && !ProperPrefix(parts, q)
    ensures NoDirAt(Insert(d, q, cur, level, n), parts)
    decreases |q|
  {
    if q[0] != parts[0] {
      InsertOtherName(d, q, cur, level, n, parts[0]);
    } else if |q| > 1 {
      assert |parts| > 1;
      var k := SubdirIndex(d.subdirs, q[0]);
      var path := ChildPath(cur, q[0]);
      var x := if k >= 0 then d.subdirs[k] else NewDir(q[0], level, path);
      InsertDescends(d, q, cur, level, n);
      if k < 0 {
        NoDirInNew(q[0], level, path, parts[1..]);
      }
      assert !ProperPrefix(parts[1..], q[1..]);
      InsertKeepsNoDir(x, parts[1..], q[1..], path, level + 1, n);
    }
  }

  /** Inserting a path makes it reach the inserted entry where no
      directory stood. */
  lemma {:induction false} InsertMakesReaches(d: Dir, parts: seq<string>, cur: string, level: int, n: FileNode)
    requires |parts| >= 1 && n.key == parts[|parts| - 1] && NoDirAt(d, parts)
    ensures Reaches(Insert(d, parts, cur, level, n), parts, n)
    decreases |parts|
  {
    if |parts| > 1 {
      var k := SubdirIndex(d.subdirs, parts[0]);
      var path := ChildPath(cur, parts[0]);
      var x := if k >= 0 then d.subdirs[k] else NewDir(parts[0], level, path);
      InsertDescends(d, parts, cur, level, n);
      if k < 0 {
        NoDirInNew(parts[0], level, path, parts[1..]);
      }
      InsertMakesReaches(x, parts[1..], path, level + 1, n);
    }
  }

  /** A path that reaches its entry keeps reaching it when a path apart
      from it is inserted, or when it is inserted again with the same
      entry. */
  lemma {:induction false} InsertKeepsReaches(d: Dir, parts: seq<string>, node: FileNode,
                                              q: seq<string>, cur: string, level: int, n: FileNode)
    requires Reaches(d, parts, node) && |q| >= 1 && n.key == q[|q| - 1]
    requires Apart(parts, q) || (parts == q && n == node)
    ensures Reaches(Insert(d, q, cur, level, n), parts, node)
    decreases |q|
  {
    if q[0] != parts[0] {
      InsertOtherName(d, q, cur, level, n, parts[0]);
    } else if parts == q {
      if |q| > 1 {
        var k := SubdirIndex(d.subdirs, q[0]);
        InsertDescends(d, q, cur, level, n);
        InsertKeepsReaches(d.subdirs[k], parts[1..], node, q[1..], ChildPath(cur, q[0]), level + 1, n);
      }
    } else {
      ApartTails(parts, q);
      var k := SubdirIndex(d.subdirs, q[0]);
      InsertDescends(d, q, cur, level, n);
      InsertKeepsReaches(d.subdirs[k], parts[1..], node, q[1..], ChildPath(cur, q[0]), level + 1, n);
    }
  }

  /** Paths apart with the same first part are longer than one part and
      stay apart below it. */
  lemma ApartTails(a: seq<string>, b: seq<string>)
    requires |a| >= 1 && |b| >= 1 && a[0] == b[0] && Apart(a, b)
    ensures |a| > 1 && |b| > 1 && Apart(a[1..], b[1..])
  {
    assert a == [a[0]] + a[1..] && b == [b[0]] + b[1..];
  }

  /** The entry a pair is stored as: the array element of its index, under
      the last part of its path. */
  function PairNode(root: string, p: PathIndex): FileNode
    requires PathParts(root, p.0) != []
  {
    var parts := PathParts(root, p.0);
    Shared(parts[|parts| - 1], p.1)
  }

  /** Any two pairs are the same pair or have paths apart. */
  predicate PairsApart(root: string, ps: seq<PathIndex>) {
    forall i, j :: 0 <= i < |ps| && 0 <= j < |ps| ==>
      ps[i] == ps[j] || Apart(PathParts(root, ps[i].0), PathParts(root, ps[j].0))
  }

  lemma {:induction false} InsertAllKeepsNoDir(t: Dir, root: string, ps: seq<PathIndex>, parts: seq<string>)
    requires NoDirAt(t, parts)
    requires forall k :: 0 <= k < |ps| ==> !ProperPrefix(parts, PathParts(root, ps[k].0))
    ensures NoDirAt(InsertAll(t, root, ps), parts)
    decreases |ps|
  {
    if ps != [] {
      var front, p := ps[..|ps| - 1], ps[|ps| - 1];
      forall k | 0 <= k < |front| ensures !ProperPrefix(parts, PathParts(root, front[k].0)) {
        assert front[k] == ps[k];
      }
      InsertAllKeepsNoDir(t, root, front, parts);
      var t' := InsertAll(t, root, front);
      assert InsertAll(t, root, ps) == InsertPath(t', root, p);
      var q := PathParts(root, p.0);
      if q != [] {
        InsertKeepsNoDir(t', parts, q, root, 0, Shared(q[|q| - 1], p.1));
      }
    }
  }

  /** After the whole loop, every pair's path reaches that pair's entry. */
  lemma {:induction false} InsertAllReaches(t: Dir, root: string, ps: seq<PathIndex>)
    requires forall k :: 0 <= k < |ps| ==> PathParts(root, ps[k].0) != [] && NoDirAt(t, PathParts(root, ps[k].0))
    requires PairsApart(root, ps)
    ensures forall k :: 0 <= k < |ps| ==> Reaches(InsertAll(t, root, ps), PathParts(root, ps[k].0), PairNode(root, ps[k]))
    decreases |ps|
  {
    if ps != [] {
      var front, p := ps[..|ps| - 1], ps[|ps| - 1];
      assert ps == front + [p];
      assert PairsApart(root, front) by {
        assert forall k :: 0 <= k < |front| ==> front[k] == ps[k];
      }
      assert forall k :: 0 <= k < |front| ==> PathParts(root, front[k].0) != [] && NoDirAt(t, PathParts(root, front[k].0));
      InsertAllReaches(t, root, front);
      var q := PathParts(root, p.0);
      forall k | 0 <= k < |front| ensures !ProperPrefix(q, PathParts(root, front[k].0)) {
        assert front[k] == ps[k];
      }
      InsertAllKeepsNoDir(t, root, front, q);
      forall k | 0 <= k < |front| ensures front[k] == p || Apart(PathParts(root, front[k].0), q) {
        assert front[k] == ps[k];
      }
      InsertLastReaches(InsertAll(t, root, front), root, front, p);
    }
  }

  /** The step of that loop: the last pair comes to reach its entry, and
      every earlier pair keeps reaching its own. */
  lemma InsertLastReaches(t: Dir, root: string, front: seq<PathIndex>, p: PathIndex)
    requires forall k :: 0 <= k < |front| ==> PathParts(root, front[k].0) != [] && Reaches(t, PathParts(root, front[k].0), PairNode(root, front[k]))
    requires PathParts(root, p.0) != [] && NoDirAt(t, PathParts(root, p.0))
    requires forall k :: 0 <= k < |front| ==> front[k] == p || Apart(PathParts(root, front[k].0), PathParts(root, p.0))
    ensures var ps := front + [p];
      forall k :: 0 <= k < |ps| ==> Reaches(InsertPath(t, root, p), PathParts(root, ps[k].0), PairNode(root, ps[k]))
  {
    var ps := front + [p];
    var q := PathParts(root, p.0);
    InsertMakesReaches(t, q, root, 0, PairNode(root, p));
    forall k | 0 <= k < |ps|
      ensures Reaches(InsertPath(t, root, p), PathParts(root, ps[k].0), PairNode(root, ps[k]))
    {
      if k < |front| {
        assert ps[k] == front[k];
        InsertKeepsReaches(t, PathParts(root, front[k].0), PairNode(root, front[k]), q, root, 0, PairNode(root, p));
      }
    }
  }

  /** Levels set for the files of the pairs in `ps`, the others untouched. */
  predicate LevelsUpTo(fs: seq<File>, fs0: seq<File>, root: string, ps: seq<PathIndex>) {
    |fs| == |fs0| &&
    forall j :: 0 <= j < |fs0| ==> fs[j] == if (fs0[j].fullpath, j) in ps then WithLevels(fs0, root)[j] else fs0[j]
  }

  lemma LevelsStep(fs: seq<File>, fs0: seq<File>, root: string, ps: seq<PathIndex>, p: PathIndex)
    requires LevelsUpTo(fs, fs0, root, ps) && p.1 < |fs0| && p.0 == fs0[p.1].fullpath
    ensures LevelsUpTo(fs[p.1 := fs[p.1].(level := |PathParts(root, p.0)| - 1)], fs0, root, ps + [p])
  {
    var fs' := fs[p.1 := fs[p.1].(level := |PathParts(root, p.0)| - 1)];
    forall j | 0 <= j < |fs0|
      ensures fs'[j] == if (fs0[j].fullpath, j) in ps + [p] then WithLevels(fs0, root)[j] else fs0[j]
    {
      if j != p.1 {
        assert (fs0[j].fullpath, j) in ps + [p] <==> (fs0[j].fullpath, j) in ps;
      }
    }
  }

  lemma LevelsDone(fs: seq<File>, fs0: seq<File>, root: string, order: seq<PathIndex>)
    requires LevelsUpTo(fs, fs0, root, order) && multiset(order) == multiset(PathIndexPairs(fs0))
    ensures fs == WithLevels(fs0, root)
  {
    OrderCovers(fs0, order);
  }

  /** The tree, the file array and the path-to-index record that parsing a
      torrent produces from the previous tree and array. */
  function Parsed(tree: Dir, files: seq<File>, torrent: TorrentBase, fromFile: bool): (Dir, seq<File>, map<string, nat>)
    requires fromFile || |torrent.fileStats| >= |torrent.files|
  {
    var fs0 := ParsedFiles(torrent, fromFile);
    var root := ParsedRoot(torrent, tree.fullpath);
    var order := SortPairs(PathIndexPairs(fs0));
    var fs := WithLevels(fs0, root);
    (Recalc(InsertAll(Detach(tree, files).(fullpath := root), root, order), fs), fs, PathIndexMap(order))
  }

  lemma ParsedBy(tree: Dir, files: seq<File>, torrent: TorrentBase, fromFile: bool,
                 fs0: seq<File>, root: string, order: seq<PathIndex>, t: Dir, fs: seq<File>, m: map<string, nat>)
    requires fromFile || |torrent.fileStats| >= |torrent.files|
    requires fs0 == ParsedFiles(torrent, fromFile) && root == ParsedRoot(torrent, tree.fullpath)
    requires order == SortPairs(PathIndexPairs(fs0))
    requires t == InsertAll(Detach(tree, files).(fullpath := root), root, order)
    requires fs == WithLevels(fs0, root) && m == PathIndexMap(order)
    ensures (Recalc(t, fs), fs, m) == Parsed(tree, files, torrent, fromFile)
  {
  }

  /** The sorted pairs of files whose paths are apart are pairwise the same
      pair or apart. */
  lemma OrderApart(fs: seq<File>, root: string, order: seq<PathIndex>)
    requires multiset(order) == multiset(PathIndexPairs(fs))
    requires PathsApart(root, FullPaths(fs))
    ensures PairsApart(root, order)
  {
    forall i, j | 0 <= i < |order| && 0 <= j < |order|
      ensures order[i] == order[j] || Apart(PathParts(root, order[i].0), PathParts(root, order[j].0))
    {
      OrderElem(fs, order, i);
      OrderElem(fs, order, j);
      var a, b := order[i].1, order[j].1;
      var paths := FullPaths(fs);
      assert paths[a] == order[i].0 && paths[b] == order[j].0;
      if a < b {
        assert Apart(PathParts(root, paths[a]), PathParts(root, paths[b]));
      } else if b < a {
        assert Apart(PathParts(root, paths[b]), PathParts(root, paths[a]));
      }
    }
  }

  /** Inserting the sorted pairs into a tree with no directories finds
      every file at its path. */
  lemma OrderFound(start: Dir, root: string, fs: seq<File>, order: seq<PathIndex>)
    requires start.subdirs == [] && multiset(order) == multiset(PathIndexPairs(fs))
    requires PathsApart(root, FullPaths(fs))
    ensures forall i :: 0 <= i < |fs| ==>
      Walk(InsertAll(start, root, order), PathParts(root, fs[i].fullpath)) == Some(FileEntry(PairNode(root, (fs[i].fullpath, i))))
  {
    var t := InsertAll(start, root, order);
    OrderApart(fs, root, order);
    forall k | 0 <= k < |order|
      ensures PathParts(root, order[k].0) != [] && NoDirAt(start, PathParts(root, order[k].0))
    {
      OrderElem(fs, order, k);
    }
    InsertAllReaches(start, root, order);
    OrderCovers(fs, order);
    forall i | 0 <= i < |fs|
      ensures Walk(t, PathParts(root, fs[i].fullpath)) == Some(FileEntry(PairNode(root, (fs[i].fullpath, i))))
    {
      var k :| 0 <= k < |order| && order[k] == (fs[i].fullpath, i);
      ReachesWalk(t, PathParts(root, fs[i].fullpath), PairNode(root, order[k]));
    }
  }

  /** The last part of a path below the root is its base name. */
  lemma BaseNameLast(root: string, path: string)
    requires PathParts(root, path) != []
    ensures var parts := PathParts(root, path); parts[|parts| - 1] == BaseName(path)
  {
    BaseNameSplit(path);
    var split := Split(path, '/');
    var parts := PathParts(root, path);
    assert parts[|parts| - 1] == split[|split| - 1];
  }

  lemma BaseNameSplit(path: string)
    ensures var split := Split(path, '/'); BaseName(path) == split[|split| - 1]
  {
  }

  /** The paths of the torrent's files, backslashes turned into slashes. */
  function TorrentPaths(torrent: TorrentBase): (r: seq<string>)
    ensures |r| == |torrent.files| && forall i :: 0 <= i < |r| ==> r[i] == FilePath(torrent.files[i])
  {
    seq(|torrent.files|, i requires 0 <= i < |torrent.files| => FilePath(torrent.files[i]))
  }

  function FullPaths(fs: seq<File>): (r: seq<string>)
    ensures |r| == |fs| && forall i :: 0 <= i < |r| ==> r[i] == fs[i].fullpath
  {
    seq(|fs|, i requires 0 <= i < |fs| => fs[i].fullpath)
  }

  /** No path below the root is empty, equal to another or on another's
      way down. */
  predicate PathsApart(root: string, paths: seq<string>) {
    && (forall i :: 0 <= i < |paths| ==> PathParts(root, paths[i]) != [])
    && (forall a, b :: 0 <= a < b < |paths| ==> Apart(PathParts(root, paths[a]), PathParts(root, paths[b])))
  }

  /** Parsing into a tree with no directories (a fresh or reset cache)
      finds every file at its own path, as the array element of its index
      under its base name, provided the paths are apart. */
  lemma ParsedFilesFound(tree: Dir, files: seq<File>, torrent: TorrentBase, fromFile: bool)
    requires fromFile || |torrent.fileStats| >= |torrent.files|
    requires tree.subdirs == []
    requires PathsApart(ParsedRoot(torrent, tree.fullpath), TorrentPaths(torrent))
    ensures var parsed := Parsed(tree, files, torrent, fromFile);
      forall i :: 0 <= i < |torrent.files| ==>
        && parsed.1[i].fullpath == FilePath(torrent.files[i])
        && Lookup(parsed.0, FilePath(torrent.files[i])) == Some(FileEntry(Shared(parsed.1[i].name, i)))
  {
    var fs0 := ParsedFiles(torrent, fromFile);
    var root := ParsedRoot(torrent, tree.fullpath);
    var order := SortPairs(PathIndexPairs(fs0));
    var fs := WithLevels(fs0, root);
    var start := Detach(tree, files).(fullpath := root);
    var t := InsertAll(start, root, order);
    ParsedBy(tree, files, torrent, fromFile, fs0, root, order, t, fs, PathIndexMap(order));
    ParsedFilesNamed(torrent, fromFile);
    FilesFound(start, root, fs0, order, fs);
    var parsed := Parsed(tree, files, torrent, fromFile);
    assert parsed.0 == Recalc(t, fs) && parsed.1 == fs;
    forall i | 0 <= i < |torrent.files|
      ensures fs0[i].fullpath == FilePath(torrent.files[i])
    {
      assert FullPaths(fs0)[i] == TorrentPaths(torrent)[i];
    }
  }

  /** A parsed file carries its path and, as its name, the path's base
      name. */
  lemma ParsedFilesNamed(torrent: TorrentBase, fromFile: bool)
    requires fromFile || |torrent.fileStats| >= |torrent.files|
    ensures var fs := ParsedFiles(torrent, fromFile);
      && FullPaths(fs) == TorrentPaths(torrent)
      && forall i :: 0 <= i < |fs| ==> fs[i].name == BaseName(fs[i].fullpath)
  {
  }

  /** The same on the parsed array: each file is found at its path after
      the tree is recomputed. */
  lemma FilesFound(start: Dir, root: string, fs0: seq<File>, order: seq<PathIndex>, fs: seq<File>)
    requires start.subdirs == [] && start.fullpath == root && multiset(order) == multiset(PathIndexPairs(fs0))
    requires PathsApart(root, FullPaths(fs0))
    requires forall i :: 0 <= i < |fs0| ==> fs0[i].name == BaseName(fs0[i].fullpath)
    requires fs == WithLevels(fs0, root)
    ensures forall i :: 0 <= i < |fs0| ==>
      && fs[i].fullpath == fs0[i].fullpath
      && Lookup(Recalc(InsertAll(start, root, order), fs), fs0[i].fullpath) == Some(FileEntry(Shared(fs[i].name, i)))
  {
    var t := InsertAll(start, root, order);
    OrderFound(start, root, fs0, order);
    forall i | 0 <= i < |fs0|
      ensures Lookup(Recalc(t, fs), fs0[i].fullpath) == Some(FileEntry(Shared(fs[i].name, i)))
    {
      FoundAfterRecalc(t, fs, root, fs0[i], i);
    }
  }

  lemma FoundAfterRecalc(t: Dir, fs: seq<File>, root: string, f: File, i: nat)
    requires t.fullpath == root && PathParts(root, f.fullpath) != [] && f.name == BaseName(f.fullpath)
    requires Walk(t, PathParts(root, f.fullpath)) == Some(FileEntry(PairNode(root, (f.fullpath, i))))
    ensures Lookup(Recalc(t, fs), f.fullpath) == Some(FileEntry(Shared(f.name, i)))
  {
    var parts := PathParts(root, f.fullpath);
    WalkRecalc(t, fs, parts);
    BaseNameLast(root, f.fullpath);
    assert Lookup(Recalc(t, fs), f.fullpath) == Walk(Recalc(t, fs), parts);
  }

  // ---------------------------------------------------------------------------
  // Selection action as a whole

  /** The "set" verb clears the whole tree before the ids are applied. */
  function SelectActionIn(tree: Dir, files: seq<File>, verb: Verb, ids: seq<string>): (Dir, seq<File>) {
    var (t, fs) := if verb == Set then ApplyMark(tree, files, [], SelectMark(false)) else (tree, files);
    SelectIds(t, fs, verb, ids)
  }

  // ---------------------------------------------------------------------------
  // The cache object

  class CachedFileTree {
    var tree: Dir
    var torrenthash: string
    var torrentId: int
    var files: seq<File>
    var filePathToIndex: map<string, nat>
    var initialized: bool

    constructor (hash: string, id: int)
      ensures torrenthash == hash && torrentId == id
      ensures tree == EmptyRoot && files == [] && filePathToIndex == map[] && !initialized
    {
      torrenthash := hash;
      torrentId := id;
      tree := EmptyRoot;
      files := [];
      filePathToIndex := map[];
      initialized := false;
    }

    method Reset()
      modifies this
      ensures tree == EmptyRoot && files == [] && filePathToIndex == map[] && !initialized
      ensures torrenthash == old(torrenthash) && torrentId == old(torrentId)
    {
      tree := EmptyRoot;
      files := [];
      filePathToIndex := map[];
      initialized := false;
    }

    /** Follows the path part by part from the root. */
    method FindEntry(path: string) returns (e: Option<Entry>)
      ensures e == Lookup(tree, path)
    {
      var parts := PathParts(tree.fullpath, path);
      var node := tree;
      var i := 0;
      while i < |parts|
        invariant 0 <= i <= |parts|
        invariant Walk(tree, parts) == Walk(node, parts[i..])
      {
        assert parts[i..][0] == parts[i] && parts[i..][1..] == parts[i + 1..];
        var k := SubdirIndex(node.subdirs, parts[i]);
        if k >= 0 {
          node := node.subdirs[k];
        } else {
          var j := FileIndex(node.files, parts[i]);
          if j >= 0 {
            return Some(FileEntry(node.files[j]));
          }
          return None;
        }
        i := i + 1;
      }
      return Some(DirEntry(node));
    }

    method RecalcTree()
      modifies this
      ensures tree == Recalc(old(tree), files)
      ensures files == old(files) && filePathToIndex == old(filePathToIndex) && initialized == old(initialized)
      ensures torrenthash == old(torrenthash) && torrentId == old(torrentId)
    {
      tree := Recalc(tree, files);
    }

    /** Replaces the file list by the torrent's and rebuilds the tree from
        it: files are added in path order, each under the directories its
        path names. */
    method Parse(torrent: TorrentBase, fromFile: bool)
      requires fromFile || |torrent.fileStats| >= |torrent.files|
      modifies this
      ensures torrenthash == torrent.hashString && torrentId == old(torrentId) && initialized
      ensures (tree, files, filePathToIndex) == Parsed(old(tree), old(files), torrent, fromFile)
    {
      var t, fs, m := Rebuild(tree, files, torrent, fromFile);
      Install(t, fs, m, torrent.hashString);
    }

    /** Stores a freshly parsed tree, its file array and its path index. */
    method Install(t: Dir, fs: seq<File>, m: map<string, nat>, hash: string)
      modifies this
      ensures tree == t && files == fs && filePathToIndex == m
      ensures torrenthash == hash && torrentId == old(torrentId) && initialized
    {
      tree, files, filePathToIndex := t, fs, m;
      torrenthash := hash;
      initialized := true;
    }

    /** The work of `Parse` on the previous tree and array. */
    static method Rebuild(tree: Dir, files: seq<File>, torrent: TorrentBase, fromFile: bool)
      returns (newTree: Dir, fs: seq<File>, m: map<string, nat>)
      requires fromFile || |torrent.fileStats| >= |torrent.files|
      ensures (newTree, fs, m) == Parsed(tree, files, torrent, fromFile)
    {
      var fs0 := ParsedFiles(torrent, fromFile);
      var root := ParsedRoot(torrent, tree.fullpath);
      var start := Detach(tree, files).(fullpath := root);
      var order := SortPairs(PathIndexPairs(fs0));
      var t;
      t, fs, m := InsertFiles(start, root, order, fs0);
      newTree := Recalc(t, fs);
      ParsedBy(tree, files, torrent, fromFile, fs0, root, order, t, fs, m);
    }

    /** The loop of `Parse` over the sorted (path, index) pairs: records the
        index of the path, adds the file to the tree and sets its level. */
    static method InsertFiles(start: Dir, root: string, order: seq<PathIndex>, fs0: seq<File>)
      returns (t: Dir, fs: seq<File>, m: map<string, nat>)
      requires multiset(order) == multiset(PathIndexPairs(fs0))
      ensures t == InsertAll(start, root, order)
      ensures fs == WithLevels(fs0, root)
      ensures m == PathIndexMap(order)
    {
      t, fs, m := start, fs0, map[];
      var i := 0;
      while i < |order|
        invariant 0 <= i <= |order|
        invariant t == InsertAll(start, root, order[..i])
        invariant m == PathIndexMap(order[..i])
        invariant LevelsUpTo(fs, fs0, root, order[..i])
      {
        OrderElem(fs0, order, i);
        assert order[..i + 1] == order[..i] + [order[i]];
        assert order[..i + 1][..i] == order[..i];
        t, fs, m := InsertOne(t, fs, m, fs0, root, order[..i], order[i]);
        i := i + 1;
      }
      assert order[..|order|] == order;
      LevelsDone(fs, fs0, root, order);
    }

    /** One turn of that loop, for the pair `p` after the pairs `done`. */
    static method InsertOne(t0: Dir, fs0: seq<File>, m0: map<string, nat>, files: seq<File>, root: string,
                            done: seq<PathIndex>, p: PathIndex)
      returns (t: Dir, fs: seq<File>, m: map<string, nat>)
      requires p.1 < |files| && p.0 == files[p.1].fullpath
      requires LevelsUpTo(fs0, files, root, done)
      ensures t == InsertPath(t0, root, p)
      ensures m == m0[p.0 := p.1]
      ensures LevelsUpTo(fs, files, root, done + [p])
    {
      var (path, index) := p;
      LevelsStep(fs0, files, root, done, p);
      m := m0[path := index];
      var parts := PathParts(root, path);
      t := InsertPath(t0, root, p);
      fs := fs0[index := fs0[index].(level := |parts| - 1)];
    }

    /** Renames the entry at `path`; `threw` reports the error the root
        entry raises, which leaves everything as it was. */
    method UpdatePath(path: string, name: string) returns (threw: bool)
      modifies this
      ensures threw <==> RenameEntry(old(tree), old(files), path, name).Err?
      ensures !threw ==> tree == RenameEntry(old(tree), old(files), path, name).value
      ensures threw ==> tree == old(tree)
      ensures files == old(files) && filePathToIndex == old(filePathToIndex) && initialized == old(initialized)
      ensures torrenthash == old(torrenthash) && torrentId == old(torrentId)
    {
      var e := FindEntry(path);
      if e.None? {
        return false;
      }
      var parts := PathParts(tree.fullpath, path);
      if parts == [] {
        return true;
      }
      tree := RenameAt(tree, parts, name, files);
      return false;
    }

    method SetWanted(path: string, state: bool, updating: bool)
      modifies this
      ensures (tree, files) == SetWantedIn(old(tree), old(files), path, state, updating)
      ensures filePathToIndex == old(filePathToIndex) && initialized == old(initialized)
      ensures torrenthash == old(torrenthash) && torrentId == old(torrentId)
    {
      var e := FindEntry(path);
      if e.None? {
        return;
      }
      var (t, fs) := ApplyMark(tree, files, PathParts(tree.fullpath, path), WantMark(state, updating));
      tree, files := t, fs;
      RecalcTree();
    }

    method SelectAction(verb: Verb, ids: seq<string>)
      modifies this
      ensures (tree, files) == SelectActionIn(old(tree), old(files), verb, ids)
      ensures filePathToIndex == old(filePathToIndex) && initialized == old(initialized)
      ensures torrenthash == old(torrenthash) && torrentId == old(torrentId)
    {
      if verb == Set {
        var (t, fs) := ApplyMark(tree, files, [], SelectMark(false));
        tree, files := t, fs;
      }
      var t, fs := SelectEach(tree, files, verb, ids);
      tree, files := t, fs;
    }

    /** The loop of `SelectAction` over the ids, one entry at a time. */
    static method SelectEach(t0: Dir, f0: seq<File>, verb: Verb, ids: seq<string>) returns (t: Dir, fs: seq<File>)
      ensures (t, fs) == SelectIds(t0, f0, verb, ids)
    {
      t, fs := t0, f0;
      var i := 0;
      while i < |ids|
        invariant 0 <= i <= |ids|
        invariant (t, fs) == SelectIds(t0, f0, verb, ids[..i])
      {
        assert ids[..i + 1][..i] == ids[..i];
        var (t', fs') := SelectOne(t, fs, verb, ids[i]);
        t, fs := t', fs';
        i := i + 1;
      }
      assert ids[..|ids|] == ids;
    }
  }
}

=== FILE: file_tree_table.dfy ===
/** The file tree table of a torrent: the search box and the rows it keeps,
    the selection reducer that keeps the previous list when nothing
    changed, the selection re-derived under a search, and the file ids sent
    when the priority or wanted state of the selected rows changes. */
module FileTreeTable {
  import opened Common
  import TrUtil
  import FileTree

  /** A row of the table: its full path and, for a directory, its
      sub-rows. */
  datatype Row = Row(fullpath: string, subrows: seq<Row>)

  // ---------------------------------------------------------------------------
  // Matching a row against the search terms

  /** The part of a row's path the search looks at: the lower-cased path
      after its first "/" (which drops the torrent's top directory), or the
      whole path when it has none. */
  function SearchedPath(fullpath: string): (p: string)
    ensures IndexOf(fullpath, '/') == -1 ==> p == Lower(fullpath)
    ensures IndexOf(fullpath, '/') >= 0 ==> p == Lower(fullpath)[IndexOf(fullpath, '/') + 1..]
  {
    JsSubstringFrom(Lower(fullpath), IndexOf(fullpath, '/') + 1)
  }

  /** Every term occurs in the searched part of the path. */
  function EntryMatches(row: Row, terms: seq<string>): (r: bool)
    ensures r <==> forall i :: 0 <= i < |terms| ==> Contains(SearchedPath(row.fullpath), terms[i])
  {
    if terms == [] then true
    else Contains(SearchedPath(row.fullpath), terms[0]) && EntryMatches(row, terms[1..])
  }

  lemma NoTermsMatch(row: Row)
    ensures EntryMatches(row, [])
  {
  }

  // ---------------------------------------------------------------------------
  // The search filter

  function Size(r: Row): (n: nat)
    ensures n >= 1
    decreases r, 1
  {
    1 + SizeSeq(r.subrows)
  }

  function SizeSeq(rs: seq<Row>): nat
    decreases rs, 0
  {
    if rs == [] then 0 else SizeSeq(rs[..|rs| - 1]) + Size(rs[|rs| - 1])
  }

  /** A row survives the search when it or some row below it matches. */
  predicate Survives(r: Row, terms: seq<string>)
    decreases Size(r), 1
  {
    EntryMatches(r, terms) || SurvivesSome(r.subrows, terms)
  }

  predicate SurvivesSome(rs: seq<Row>, terms: seq<string>)
    decreases SizeSeq(rs), 2
  {
    rs != [] && (SurvivesSome(rs[..|rs| - 1], terms) || Survives(rs[|rs| - 1], terms))
  }

  /** The kept rows among `rows`, in order: a leaf when it matches; a
      directory, as a copy holding its kept sub-rows, when some sub-row is
      kept or it matches itself. */
  function Searched(rows: seq<Row>, terms: seq<string>): (r: seq<Row>)
    ensures |r| <= |rows|
    ensures r == [] <==> !SurvivesSome(rows, terms)
    ensures Paths(r) == SurvivorPaths(rows, terms)
    decreases SizeSeq(rows), 1
  {
    if rows == [] then []
    else
      var front := Searched(rows[..|rows| - 1], terms);
      var last := Kept(rows[|rows| - 1], terms);
      PathsConcat(front, last);
      front + last
  }

  function Kept(row: Row, terms: seq<string>): (r: seq<Row>)
    ensures |r| <= 1
    ensures r != [] <==> Survives(row, terms)
    ensures r != [] ==> r[0].fullpath == row.fullpath
    decreases Size(row), 0
  {
    if |row.subrows| > 0 then
      var subrows := Searched(row.subrows, terms);
      if |subrows| > 0 || EntryMatches(row, terms) then [row.(subrows := subrows)] else []
    else
      assert !SurvivesSome(row.subrows, terms);
      if EntryMatches(row, terms) then [row] else []
  }

  /** A row is kept exactly when it survives, and it is kept as itself
      holding only its surviving sub-rows, searched in turn. */
  lemma KeptSurvivor(row: Row, terms: seq<string>)
    ensures Kept(row, terms) == if Survives(row, terms) then [row.(subrows := Searched(row.subrows, terms))] else []
  {
    if |row.subrows| == 0 {
      assert row.(subrows := []) == row;
    }
  }

  /** The full paths of rows, in order. */
  function Paths(rs: seq<Row>): seq<string> {
    if rs == [] then [] else [rs[0].fullpath] + Paths(rs[1..])
  }

  lemma {:induction false} PathsConcat(a: seq<Row>, b: seq<Row>)
    ensures Paths(a + b) == Paths(a) + Paths(b)
  {
    if a != [] {
      PathsConcat(a[1..], b);
      assert (a + b)[0] == a[0] && (a + b)[1..] == a[1..] + b;
    } else {
      assert a + b == b;
    }
  }

  /** The full paths of the rows that survive the search, in order. */
  function SurvivorPaths(rows: seq<Row>, terms: seq<string>): seq<string> {
    if rows == [] then []
    else SurvivorPaths(rows[..|rows| - 1], terms) + (if Survives(rows[|rows| - 1], terms) then [rows[|rows| - 1].fullpath] else [])
  }

  /** Without terms every row matches, and the filter keeps the rows as
      they are; the table then skips it. */
  lemma {:induction false} SearchedNoTerms(rows: seq<Row>)
    ensures Searched(rows, []) == rows
    decreases SizeSeq(rows), 1
  {
    if rows != [] {
      var front, last := rows[..|rows| - 1], rows[|rows| - 1];
      SearchedNoTerms(front);
      KeptNoTerms(last);
      assert Searched(rows, []) == Searched(front, []) + Kept(last, []);
      assert front + [last] == rows;
    }
  }

  lemma {:induction false} KeptNoTerms(row: Row)
    ensures Kept(row, []) == [row]
    decreases Size(row), 0
  {
    if |row.subrows| > 0 {
      SearchedNoTerms(row.subrows);
    }
  }

  /** Each kept row is a match or holds kept sub-rows, so every leaf left
      in the result matches. */
  lemma {:induction false} KeptRowsJustified(rows: seq<Row>, terms: seq<string>)
    ensures forall k :: 0 <= k < |Searched(rows, terms)| ==>
      EntryMatches(Searched(rows, terms)[k], terms) || Searched(rows, terms)[k].subrows != []
    decreases SizeSeq(rows)
  {
    if rows != [] {
      KeptRowsJustified(rows[..|rows| - 1], terms);
    }
  }

  /** The table's rows under a search: unchanged without terms. */
  function SearchData(data: seq<Row>, terms: seq<string>): (r: seq<Row>)
    ensures terms == [] ==> r == data
    ensures terms != [] ==> r == Searched(data, terms)
  {
    if |terms| == 0 then data else Searched(data, terms)
  }

  /** The filter as the table runs it: a loop over the rows that recurses
      into each directory. */
  method SearchFilter(rows: seq<Row>, terms: seq<string>) returns (result: seq<Row>)
    ensures result == Searched(rows, terms)
    decreases SizeSeq(rows), 1
  {
    result := [];
    for i := 0 to |rows|
      invariant result == Searched(rows[..i], terms)
    {
      assert rows[..i + 1][..i] == rows[..i] && rows[..i + 1][i] == rows[i];
      SizePrefix(rows, i);
      var kept := FilterRow(rows[i], terms);
      result := result + kept;
    }
    assert rows[..|rows|] == rows;
  }

  /** The body of that loop for one row: a directory keeps the rows its
      own filter returns. */
  method FilterRow(row: Row, terms: seq<string>) returns (kept: seq<Row>)
    ensures kept == Kept(row, terms)
    decreases Size(row), 0
  {
    kept := [];
    if |row.subrows| > 0 {
      var subrows := SearchFilter(row.subrows, terms);
      if |subrows| > 0 || EntryMatches(row, terms) {
        kept := [row.(subrows := subrows)];
      }
    } else if EntryMatches(row, terms) {
      kept := [row];
    }
  }

  /** A row of the list is smaller than the list. */
  lemma {:induction false} SizePrefix(rows: seq<Row>, i: nat)
    requires i < |rows|
    ensures SizeSeq(rows[i].subrows) < SizeSeq(rows)
  {
    var n := |rows| - 1;
    if i < n {
      assert rows[..n][i] == rows[i];
      SizePrefix(rows[..n], i);
    }
  }

  // ---------------------------------------------------------------------------
  // Search terms

  /** The characters JavaScript's `trim` removes: the white space and line
      terminators of ECMAScript, that is tab, vertical tab, form feed,
      space, no-break space, the byte order mark, the space separators
      (U+1680, U+2000 to U+200A, U+202F, U+205F, U+3000), line feed,
      carriage return and the line and paragraph separators. */
  predicate IsSpace(c: char) {
    c == ' ' || c == '\t' || c == '\n' || c == '\r' || c == '\U{000B}' || c == '\U{000C}' || c == '\U{00A0}' ||
    c == '\U{FEFF}' || c == '\U{1680}' || ('\U{2000}' <= c <= '\U{200A}') || c == '\U{2028}' || c == '\U{2029}' ||
    c == '\U{202F}' || c == '\U{205F}' || c == '\U{3000}'
  }

  function TrimStart(s: string): (r: string)
    ensures |r| <= |s| && (r == [] || !IsSpace(r[0]))
    ensures r == s[|s| - |r|..]
  {
    if s != [] && IsSpace(s[0]) then TrimStart(s[1..]) else s
  }

  function TrimEnd(s: string): (r: string)
    ensures |r| <= |s| && (r == [] || !IsSpace(r[|r| - 1]))
    ensures r == s[..|r|]
  {
    if s != [] && IsSpace(s[|s| - 1]) then TrimEnd(s[..|s| - 1]) else s
  }

  function Trim(s: string): string {
    TrimEnd(TrimStart(s))
  }

  predicate Trimmed(s: string) {
    s != [] && !IsSpace(s[0]) && !IsSpace(s[|s| - 1])
  }

  function Normalized(parts: seq<string>): (r: seq<string>)
    ensures |r| == |parts|
  {
    seq(|parts|, i requires 0 <= i < |parts| => Lower(Trim(parts[i])))
  }

  function NonEmpty(parts: seq<string>): (r: seq<string>)
    ensures forall i :: 0 <= i < |r| ==> r[i] != "" && r[i] in parts
    ensures |r| <= |parts|
    ensures (forall i :: 0 <= i < |parts| ==> parts[i] != "") ==> r == parts
  {
    if parts == [] then [] else (if parts[0] == "" then [] else [parts[0]]) + NonEmpty(parts[1..])
  }

  /** No non-empty piece is dropped. */
  lemma {:induction false} NonEmptyKeeps(parts: seq<string>, k: int)
    requires 0 <= k < |parts| && parts[k] != ""
    ensures parts[k] in NonEmpty(parts)
  {
    if k > 0 {
      NonEmptyKeeps(parts[1..], k - 1);
    }
  }

  /** The search input as terms: split on spaces, each piece trimmed and
      lower-cased, empty pieces dropped. */
  function ParseTerms(value: string): (terms: seq<string>)
    ensures forall i :: 0 <= i < |terms| ==> terms[i] != "" && ' ' !in terms[i]
    ensures forall t :: t in terms <==> PieceTerm(Split(value, ' '), t)
    ensures |terms| <= |Split(value, ' ')|
  {
    var parts := Split(value, ' ');
    var r := NonEmpty(Normalized(parts));
    TermsSpaceFree(parts, r);
    TermsMembers(parts, r);
    r
  }

  lemma {:induction false} TermsSpaceFree(parts: seq<string>, r: seq<string>)
    requires forall k :: 0 <= k < |parts| ==> ' ' !in parts[k]
    requires r == NonEmpty(Normalized(parts))
    ensures forall i :: 0 <= i < |r| ==> ' ' !in r[i]
  {
    forall i | 0 <= i < |r| ensures ' ' !in r[i] {
      assert r[i] in Normalized(parts);
      var k :| 0 <= k < |parts| && Normalized(parts)[k] == r[i];
      TrimKeepsSpaceFree(parts[k]);
      LowerKeepsSpaceFree(Trim(parts[k]));
    }
  }

  lemma TrimKeepsSpaceFree(s: string)
    ensures ' ' in Trim(s) ==> ' ' in s
  {
    var a := TrimStart(s);
    var b := TrimEnd(a);
    if ' ' in b {
      var j :| 0 <= j < |b| && b[j] == ' ';
      assert a[j] == ' ';
      assert s[|s| - |a| + j] == ' ';
    }
  }

  /** `t` is a piece of the input, trimmed and lower-cased, and not
      empty. */
  predicate PieceTerm(pieces: seq<string>, t: string) {
    t != "" && exists k :: 0 <= k < |pieces| && t == Lower(Trim(pieces[k]))
  }

  /** The terms kept from the pieces are exactly their non-empty normal
      forms. */
  lemma {:induction false} TermsMembers(parts: seq<string>, r: seq<string>)
    requires r == NonEmpty(Normalized(parts))
    ensures forall t :: t in r <==> PieceTerm(parts, t)
  {
    var n := Normalized(parts);
    forall t ensures t in r <==> PieceTerm(parts, t) {
      if t in r {
        var k :| 0 <= k < |n| && n[k] == t;
        assert t == Lower(Trim(parts[k]));
      }
      if t != "" && exists k :: 0 <= k < |parts| && t == Lower(Trim(parts[k])) {
        var k :| 0 <= k < |parts| && t == Lower(Trim(parts[k]));
        assert n[k] == t;
        NonEmptyKeeps(n, k);
      }
    }
  }

  lemma LowerKeepsSpaceFree(s: string)
    ensures ' ' in Lower(s) ==> ' ' in s
  {
    if ' ' in Lower(s) {
      var k :| 0 <= k < |Lower(s)| && Lower(s)[k] == ' ';
      assert LowerChar(s[k]) == ' ';
    }
  }

  /** Terms already in parsed form come back unchanged when typed in again
      separated by single spaces. */
  lemma ParseTermsRoundTrip(terms: seq<string>)
    requires terms != []
    requires forall i :: 0 <= i < |terms| ==> Trimmed(terms[i]) && ' ' !in terms[i] && Lower(terms[i]) == terms[i]
    ensures ParseTerms(Join(terms, " ")) == terms
  {
    TrUtil.SplitJoin(terms, ' ');
    NormalizedParsed(terms);
  }

  lemma {:induction false} NormalizedParsed(terms: seq<string>)
    requires forall i :: 0 <= i < |terms| ==> Trimmed(terms[i]) && Lower(terms[i]) == terms[i]
    ensures Normalized(terms) == terms
  {
    forall i | 0 <= i < |terms| ensures Normalized(terms)[i] == terms[i] {
      TrimTrimmed(terms[i]);
    }
  }

  lemma TrimTrimmed(s: string)
    requires Trimmed(s)
    ensures Trim(s) == s
  {
    assert TrimStart(s) == s;
  }

  // ---------------------------------------------------------------------------
  // Selection

  /** The selection reducer: the previous array is kept when the new one has
      the same elements in the same order. */
  method SelectedReducer(prev: seq<string>, next: seq<string>) returns (result: seq<string>, keptPrevious: bool)
    ensures result == next
    ensures keptPrevious <==> prev == next
  {
    if |prev| == |next| {
      for i := 0 to |prev|
        invariant prev[..i] == next[..i]
      {
        if prev[i] != next[i] {
          return next, false;
        }
      }
      assert prev == prev[..|prev|] && next == next[..|next|];
      return prev, true;
    }
    return next, false;
  }

  /** The rows a search selects: walking the rows, a row whose path is
      selected (or any row, when selecting all) is taken whole when it is a
      leaf or matches the terms; otherwise its sub-rows are tried. */
  function DeriveSelection(rows: seq<Row>, terms: seq<string>, selectAll: bool, isSelected: string -> bool): (r: seq<string>)
    ensures forall i :: 0 <= i < |r| ==> selectAll || isSelected(r[i])
    ensures forall i :: 0 <= i < |rows| && Takes(rows[i], terms, selectAll, isSelected) ==> rows[i].fullpath in r
    decreases SizeSeq(rows), 1
  {
    if rows == [] then []
    else
      var front := DeriveSelection(rows[..|rows| - 1], terms, selectAll, isSelected);
      var last := Derived(rows[|rows| - 1], terms, selectAll, isSelected);
      assert forall i :: 0 <= i < |rows| - 1 ==> rows[i] == rows[..|rows| - 1][i];
      front + last
  }

  /** The selection takes a row whole when it is selected (or all are) and
      it is a leaf or matches the terms. */
  predicate Takes(row: Row, terms: seq<string>, selectAll: bool, isSelected: string -> bool) {
    (selectAll || isSelected(row.fullpath)) && (|row.subrows| == 0 || EntryMatches(row, terms))
  }

  function Derived(row: Row, terms: seq<string>, selectAll: bool, isSelected: string -> bool): (r: seq<string>)
    ensures forall i :: 0 <= i < |r| ==> selectAll || isSelected(r[i])
    ensures Takes(row, terms, selectAll, isSelected) ==> r == [row.fullpath]
    decreases Size(row), 0
  {
    if (selectAll || isSelected(row.fullpath)) && (|row.subrows| == 0 || EntryMatches(row, terms)) then [row.fullpath]
    else DeriveSelection(row.subrows, terms, selectAll, isSelected)
  }

  /** Selecting all without a search takes the top rows whole. */
  lemma {:induction false} SelectAllTopRows(rows: seq<Row>, isSelected: string -> bool)
    ensures DeriveSelection(rows, [], true, isSelected) == seq(|rows|, i requires 0 <= i < |rows| => rows[i].fullpath)
    decreases |rows|
  {
    if rows != [] {
      SelectAllTopRows(rows[..|rows| - 1], isSelected);
    }
  }

  /** `p` is `q` or lies below it. */
  predicate Below(p: string, q: string) {
    p == q || StartsWith(p, q + "/")
  }

  /** Every sub-row's path starts with its row's path and "/", all the way
      down, as the rows of the file tree are built. */
  predicate Nested(row: Row)
    decreases row
  {
    forall i :: 0 <= i < |row.subrows| ==> StartsWith(row.subrows[i].fullpath, row.fullpath + "/") && Nested(row.subrows[i])
  }

  lemma {:induction false} SizeElement(rows: seq<Row>, i: int)
    requires 0 <= i < |rows|
    ensures Size(rows[i]) <= SizeSeq(rows)
    decreases |rows|
  {
    if i < |rows| - 1 {
      SizeElement(rows[..|rows| - 1], i);
    }
  }

  /** The paths of the leaf rows at or below a row, in order. */
  function LeafPaths(row: Row): seq<string>
    decreases Size(row), 0
  {
    if |row.subrows| == 0 then [row.fullpath] else LeafPathsSeq(row.subrows)
  }

  function LeafPathsSeq(rows: seq<Row>): seq<string>
    decreases SizeSeq(rows), 1
  {
    if rows == [] then [] else LeafPathsSeq(rows[..|rows| - 1]) + LeafPaths(rows[|rows| - 1])
  }

  /** A leaf below a nested row lies below the row's path. */
  lemma {:induction false} LeafBelow(row: Row, p: string)
    requires Nested(row) && p in LeafPaths(row)
    ensures Below(p, row.fullpath)
    decreases Size(row), 0
  {
    if |row.subrows| > 0 {
      var i := LeafIn(row.subrows, p);
      LeafBelow(row.subrows[i], p);
      var q := row.subrows[i].fullpath;
      assert row.fullpath + "/" <= q;
      if p != q {
        assert q + "/" <= p;
        assert row.fullpath + "/" <= q + "/";
      }
    }
  }

  /** The row a leaf of a list of rows comes from. */
  lemma {:induction false} LeafIn(rows: seq<Row>, p: string) returns (i: int)
    requires p in LeafPathsSeq(rows)
    ensures 0 <= i < |rows| && p in LeafPaths(rows[i]) && Size(rows[i]) <= SizeSeq(rows)
    decreases |rows|
  {
    var front := rows[..|rows| - 1];
    if p in LeafPaths(rows[|rows| - 1]) {
      i := |rows| - 1;
    } else {
      i := LeafIn(front, p);
      assert rows[i] == front[i];
    }
    SizeElement(rows, i);
  }

  /** Every selected leaf is sent, itself or through a row above it that
      the selection takes whole. */
  lemma {:induction false} DerivedCovers(row: Row, terms: seq<string>, selectAll: bool, isSelected: string -> bool, p: string)
    requires Nested(row) && p in LeafPaths(row) && (selectAll || isSelected(p))
    ensures exists q :: q in Derived(row, terms, selectAll, isSelected) && Below(p, q)
    decreases Size(row), 0
  {
    if Takes(row, terms, selectAll, isSelected) {
      LeafBelow(row, p);
      assert row.fullpath in Derived(row, terms, selectAll, isSelected);
    } else {
      DeriveSelectionCovers(row.subrows, terms, selectAll, isSelected, p);
    }
  }

  lemma {:induction false} DeriveSelectionCovers(rows: seq<Row>, terms: seq<string>, selectAll: bool, isSelected: string -> bool, p: string)
    requires forall i :: 0 <= i < |rows| ==> Nested(rows[i])
    requires p in LeafPathsSeq(rows) && (selectAll || isSelected(p))
    ensures exists q :: q in DeriveSelection(rows, terms, selectAll, isSelected) && Below(p, q)
    decreases SizeSeq(rows), 1
  {
    var front, last := rows[..|rows| - 1], rows[|rows| - 1];
    var r := DeriveSelection(rows, terms, selectAll, isSelected);
    assert r == DeriveSelection(front, terms, selectAll, isSelected) + Derived(last, terms, selectAll, isSelected);
    if p in LeafPaths(last) {
      DerivedCovers(last, terms, selectAll, isSelected, p);
      var q :| q in Derived(last, terms, selectAll, isSelected) && Below(p, q);
      assert q in r;
    } else {
      assert forall i :: 0 <= i < |front| ==> front[i] == rows[i];
      DeriveSelectionCovers(front, terms, selectAll, isSelected, p);
      var q :| q in DeriveSelection(front, terms, selectAll, isSelected) && Below(p, q);
      assert q in r;
    }
  }

  // ---------------------------------------------------------------------------
  // File ids of the selected rows

  /** The files below any of the paths. */
  predicate UnderSome(tree: FileTree.Dir, files: seq<FileTree.File>, paths: seq<string>, id: nat) {
    exists k :: 0 <= k < |paths| && id in FileTree.ChildFilesIndexes(tree, files, paths[k])
  }

  /** `curIds.forEach((id) => set.add(id))` on a set kept in insertion
      order: each id not yet present is appended. */
  method AddAll(ids: seq<nat>, cur: seq<nat>) returns (r: seq<nat>)
    requires Distinct(ids)
    ensures Distinct(r)
    ensures forall id :: id in r <==> id in ids || id in cur
  {
    r := ids;
    for j := 0 to |cur|
      invariant Distinct(r)
      invariant forall id :: id in r <==> id in ids || id in cur[..j]
    {
      assert cur[..j + 1] == cur[..j] + [cur[j]];
      if cur[j] !in r {
        r := r + [cur[j]];
      }
    }
    assert cur[..|cur|] == cur;
  }

  /** One more selected path adds the files below it. */
  lemma UnderSomeStep(tree: FileTree.Dir, files: seq<FileTree.File>, selected: seq<string>, k: nat, id: nat)
    requires k < |selected|
    ensures UnderSome(tree, files, selected[..k + 1], id) <==>
      UnderSome(tree, files, selected[..k], id) || id in FileTree.ChildFilesIndexes(tree, files, selected[k])
  {
    var a, b := selected[..k + 1], selected[..k];
    assert a == b + [selected[k]];
    UnderSomeAppend(tree, files, b, selected[k], id);
  }

  lemma UnderSomeAppend(tree: FileTree.Dir, files: seq<FileTree.File>, paths: seq<string>, path: string, id: nat)
    ensures UnderSome(tree, files, paths + [path], id) <==>
      UnderSome(tree, files, paths, id) || id in FileTree.ChildFilesIndexes(tree, files, path)
  {
    var a := paths + [path];
    if UnderSome(tree, files, a, id) && !UnderSome(tree, files, paths, id) {
      var m :| 0 <= m < |a| && id in FileTree.ChildFilesIndexes(tree, files, a[m]);
    }
    if UnderSome(tree, files, paths, id) {
      var m :| 0 <= m < |paths| && id in FileTree.ChildFilesIndexes(tree, files, paths[m]);
      assert a[m] == paths[m];
    }
    assert a[|paths|] == path;
  }

  /** The ids sent with a priority or wanted change: the file indexes below
      every selected path, each once. */
  method SelectedFileIds(ft: FileTree.CachedFileTree, selected: seq<string>) returns (ids: seq<nat>)
    ensures Distinct(ids)
    ensures forall id :: id in ids <==> UnderSome(ft.tree, ft.files, selected, id)
  {
    ids := [];
    for k := 0 to |selected|
      invariant Distinct(ids)
      invariant forall id :: id in ids <==> UnderSome(ft.tree, ft.files, selected[..k], id)
    {
      var cur := FileTree.ChildFilesIndexes(ft.tree, ft.files, selected[k]);
      ids := AddAll(ids, cur);
      forall id ensures UnderSome(ft.tree, ft.files, selected[..k + 1], id) <==>
                        UnderSome(ft.tree, ft.files, selected[..k], id) || id in cur {
        UnderSomeStep(ft.tree, ft.files, selected, k, id);
      }
    }
    assert selected[..|selected|] == selected;
  }
}

=== FILE: filters.dfy ===
/** The filter side panel: the status filters, the label, tracker and
    directory filters, the counts shown beside them, and the tree of
    download directories from which the directory filters are listed. */
module Filters {
  import opened Common

  /** The torrent fields the filters read. */
  datatype Torrent = Torrent(
    status: int, sizeWhenDone: int, haveValid: int, rateDownload: int, rateUpload: int,
    error: int, cachedError: string, pieceCount: int, labels: seq<string>,
    cachedMainTracker: string, downloadDir: string)

  // ---------------------------------------------------------------------------
  // Status filters

  datatype StatusFilterName =
    | AllTorrents | Downloading | Completed | Active | Inactive
    | Running | Stopped | Errored | Waiting | Magnetizing

  function Max(a: int, b: int): int {
    if a >= b then a else b
  }

  /** The test behind each status filter row. */
  function StatusFilter(name: StatusFilterName, t: Torrent): (r: bool)
    ensures name == Completed ==> (r <==> t.status == 6 || (t.sizeWhenDone > 0 && t.haveValid >= t.sizeWhenDone))
    ensures name == Waiting ==> (r <==> 1 <= t.status <= 3)
  {
    match name
    case AllTorrents => true
    case Downloading => t.status == StatusDownloading
    case Completed =>
      t.status == StatusSeeding || (t.sizeWhenDone > 0 && Max(t.sizeWhenDone - t.haveValid, 0) == 0)
    case Active => t.rateDownload > 0 || t.rateUpload > 0
    case Inactive => t.rateDownload == 0 && t.rateUpload == 0 && t.status != StatusStopped
    case Running => t.status != StatusStopped
    case Stopped => t.status == StatusStopped
    case Errored => t.error != 0 || t.cachedError != ""
    case Waiting => t.status in [StatusVerifying, StatusQueuedToVerify, StatusQueuedToDownload]
    case Magnetizing => t.status == StatusDownloading && t.pieceCount == 0
  }

  /** How the status filters relate: running and stopped split the
      torrents, waiting is the three states between stopped and
      downloading, magnetizing is a kind of downloading, and with rates that
      are never negative the inactive torrents are the running ones that are
      not active. */
  lemma StatusFiltersRelated(t: Torrent)
    ensures StatusFilter(Running, t) <==> !StatusFilter(Stopped, t)
    ensures StatusFilter(Waiting, t) <==> StatusStopped < t.status < StatusDownloading
    ensures StatusFilter(Magnetizing, t) ==> StatusFilter(Downloading, t)
    ensures StatusFilter(Downloading, t) ==> StatusFilter(Running, t) && !StatusFilter(Waiting, t)
    ensures t.rateDownload >= 0 && t.rateUpload >= 0 ==>
      (StatusFilter(Inactive, t) <==> StatusFilter(Running, t) && !StatusFilter(Active, t))
  {
  }

  predicate NoLabels(t: Torrent) {
    |t.labels| == 0
  }

  predicate LabelFilter(name: string, t: Torrent) {
    name in t.labels
  }

  predicate TrackerFilter(tracker: string, t: Torrent) {
    t.cachedMainTracker == tracker
  }

  /** The directory filter row for `dirPath` (which ends in "/") accepts a
      torrent whose download directory lies under it, or is the directory
      itself written without the trailing separator. */
  function DirFilter(dirPath: string, t: Torrent): (r: bool)
    ensures r <==> (StartsWith(t.downloadDir, dirPath) ||
                    (|dirPath| > 0 && t.downloadDir == dirPath[..|dirPath| - 1]))
  {
    var path := t.downloadDir;
    if |path| + 1 == |dirPath| then StartsWith(dirPath, path) else StartsWith(path, dirPath)
  }

  // ---------------------------------------------------------------------------
  // Counts beside the label and tracker rows

  /** How many times `label` is carried, over all torrents. */
  function Occurrences(torrents: seq<Torrent>, name: string): nat {
    if torrents == [] then 0
    else multiset(torrents[0].labels)[name] + Occurrences(torrents[1..], name)
  }

  /** How many torrents the label filter accepts. */
  function Labelled(torrents: seq<Torrent>, name: string): nat {
    if torrents == [] then 0
    else (if LabelFilter(name, torrents[0]) then 1 else 0) + Labelled(torrents[1..], name)
  }

  /** How many torrents the tracker filter accepts. */
  function WithTracker(torrents: seq<Torrent>, tracker: string): nat {
    if torrents == [] then 0
    else (if TrackerFilter(tracker, torrents[0]) then 1 else 0) + WithTracker(torrents[1..], tracker)
  }

  predicate Carried(torrents: seq<Torrent>, name: string) {
    exists i :: 0 <= i < |torrents| && name in torrents[i].labels
  }

  lemma {:induction false} OccurrencesAppend(a: seq<Torrent>, b: seq<Torrent>, name: string)
    ensures Occurrences(a + b, name) == Occurrences(a, name) + Occurrences(b, name)
  {
    if a != [] {
      assert (a + b)[1..] == a[1..] + b;
      OccurrencesAppend(a[1..], b, name);
    } else {
      assert a + b == b;
    }
  }

  lemma {:induction false} WithTrackerAppend(a: seq<Torrent>, b: seq<Torrent>, tracker: string)
    ensures WithTracker(a + b, tracker) == WithTracker(a, tracker) + WithTracker(b, tracker)
  {
    if a != [] {
      assert (a + b)[1..] == a[1..] + b;
      WithTrackerAppend(a[1..], b, tracker);
    } else {
      assert a + b == b;
    }
  }

  /** A label no torrent carries is counted zero times. */
  lemma {:induction false} NotCarried(torrents: seq<Torrent>, name: string)
    requires !Carried(torrents, name)
    ensures Occurrences(torrents, name) == 0
  {
    if torrents != [] {
      NotCarried(torrents[1..], name);
    }
  }

  /** The count of a name over the labels of one more torrent. */
  lemma TorrentStep(torrents: seq<Torrent>, i: nat)
    requires i < |torrents|
    ensures forall l :: Occurrences(torrents[..i + 1], l) == Occurrences(torrents[..i], l) + multiset(torrents[i].labels)[l]
    ensures forall l :: Carried(torrents[..i + 1], l) <==> Carried(torrents[..i], l) || l in torrents[i].labels
  {
    var t := torrents[i];
    assert torrents[..i + 1] == torrents[..i] + [t];
    forall l ensures Occurrences(torrents[..i + 1], l) == Occurrences(torrents[..i], l) + multiset(t.labels)[l] {
      OccurrencesAppend(torrents[..i], [t], l);
    }
    forall l ensures Carried(torrents[..i + 1], l) <==> Carried(torrents[..i], l) || l in t.labels {
      if l in t.labels {
        assert torrents[..i + 1][i] == t;
      }
      if Carried(torrents[..i], l) {
        var k :| 0 <= k < i && l in torrents[..i][k].labels;
        assert torrents[..i + 1][k] == torrents[..i][k];
      }
      if Carried(torrents[..i + 1], l) && l !in t.labels {
        var k :| 0 <= k < i + 1 && l in torrents[..i + 1][k].labels;
        assert torrents[..i][k] == torrents[..i + 1][k];
      }
    }
  }

  /** The label counts: every preconfigured label starts at zero, and every
      label a torrent carries adds one to its count. */
  method CountLabels(preconfigured: seq<string>, torrents: seq<Torrent>) returns (labels: map<string, int>)
    ensures forall l :: l in labels <==> l in preconfigured || Carried(torrents, l)
    ensures forall l :: l in labels ==> labels[l] == Occurrences(torrents, l)
  {
    labels := map[];
    for i := 0 to |preconfigured|
      invariant forall l :: l in labels <==> l in preconfigured[..i]
      invariant forall l :: l in labels ==> labels[l] == 0
    {
      labels := labels[preconfigured[i] := 0];
    }
    assert preconfigured[..|preconfigured|] == preconfigured;
    for i := 0 to |torrents|
      invariant forall l :: l in labels <==> l in preconfigured || Carried(torrents[..i], l)
      invariant forall l :: l in labels ==> labels[l] == Occurrences(torrents[..i], l)
    {
      TorrentStep(torrents, i);
      forall l | l !in labels {
        NotCarried(torrents[..i], l);
      }
      labels := AddLabels(labels, torrents[i].labels);
    }
    assert torrents[..|torrents|] == torrents;
  }

  /** One torrent's labels counted in: a label seen for the first time
      starts at zero. */
  method AddLabels(labels0: map<string, int>, ls: seq<string>) returns (labels: map<string, int>)
    ensures forall l :: l in labels <==> l in labels0 || l in ls
    ensures forall l :: l in labels ==> labels[l] == (if l in labels0 then labels0[l] else 0) + multiset(ls)[l]
  {
    labels := labels0;
    for j := 0 to |ls|
      invariant forall l :: l in labels <==> l in labels0 || l in ls[..j]
      invariant forall l :: l in labels ==> labels[l] == (if l in labels0 then labels0[l] else 0) + multiset(ls[..j])[l]
    {
      var l := ls[j];
      assert ls[..j + 1] == ls[..j] + [l];
      if l !in labels {
        labels := labels[l := 0];
      }
      labels := labels[l := labels[l] + 1];
    }
    assert ls[..|ls|] == ls;
  }

  /** The tracker counts: one per torrent, under its main tracker. */
  method CountTrackers(torrents: seq<Torrent>) returns (trackers: map<string, int>)
    ensures forall tr :: tr in trackers <==> exists i :: 0 <= i < |torrents| && torrents[i].cachedMainTracker == tr
    ensures forall tr :: tr in trackers ==> trackers[tr] == WithTracker(torrents, tr)
  {
    trackers := map[];
    for i := 0 to |torrents|
      invariant forall tr :: tr in trackers <==> exists k :: 0 <= k < i && torrents[k].cachedMainTracker == tr
      invariant forall tr :: tr in trackers ==> trackers[tr] == WithTracker(torrents[..i], tr)
    {
      var t := torrents[i];
      assert torrents[..i + 1] == torrents[..i] + [t];
      forall tr ensures WithTracker(torrents[..i + 1], tr) == WithTracker(torrents[..i], tr) + (if tr == t.cachedMainTracker then 1 else 0) {
        WithTrackerAppend(torrents[..i], [t], tr);
      }
      forall tr | tr !in trackers {
        NoTracker(torrents[..i], tr);
      }
      if t.cachedMainTracker !in trackers {
        trackers := trackers[t.cachedMainTracker := 0];
      }
      trackers := trackers[t.cachedMainTracker := trackers[t.cachedMainTracker] + 1];
    }
    assert torrents[..|torrents|] == torrents;
  }

  lemma {:induction false} NoTracker(torrents: seq<Torrent>, tracker: string)
    requires forall k :: 0 <= k < |torrents| ==> torrents[k].cachedMainTracker != tracker
    ensures WithTracker(torrents, tracker) == 0
  {
    if torrents != [] {
      NoTracker(torrents[1..], tracker);
    }
  }

  lemma {:induction false} DistinctCount(ls: seq<string>, x: string)
    requires Distinct(ls)
    ensures multiset(ls)[x] == if x in ls then 1 else 0
  {
    if ls != [] {
      assert ls == [ls[0]] + ls[1..];
      assert Distinct(ls[1..]);
      DistinctCount(ls[1..], x);
    }
  }

  /** When no torrent carries a label twice, the count shown beside a label
      row is the number of torrents that row's filter accepts. */
  lemma {:induction false} LabelCountMatchesFilter(torrents: seq<Torrent>, name: string)
    requires forall i :: 0 <= i < |torrents| ==> Distinct(torrents[i].labels)
    ensures Occurrences(torrents, name) == Labelled(torrents, name)
  {
    if torrents != [] {
      DistinctCount(torrents[0].labels, name);
      LabelCountMatchesFilter(torrents[1..], name);
    }
  }

  // ---------------------------------------------------------------------------
  // The counts as written: plain objects whose `in` test also finds the
  // names every object inherits from Object.prototype

  /** A value held in the counting object: a number, or the text that `+ 1`
      makes of an inherited member, namely that member's string form followed
      by `ones` digits "1". */
  datatype Tally = Count(n: int) | Text(member: string, ones: nat)

  function Bump(v: Tally): Tally {
    match v
    case Count(n) => Count(n + 1)
    case Text(member, ones) => Text(member, ones + 1)
  }

  /** `labels[l] = 0` on a plain object: assigning a number to `__proto__`
      is ignored, every other name becomes an own key. */
  function ZeroAsWritten(record: map<string, Tally>, name: string): map<string, Tally> {
    if name == "__proto__" then record else record[name := Count(0)]
  }

  /** `if (!(l in labels)) labels[l] = 0; labels[l] = labels[l] + 1;` on a
      plain object. An inherited name passes the `in` test, so it is never
      set to zero: `__proto__ + 1` is a string the prototype setter ignores,
      and any other inherited member plus one becomes text. */
  function BumpAsWritten(record: map<string, Tally>, name: string): map<string, Tally> {
    if name in record then record[name := Bump(record[name])]
    else if name == "__proto__" then record
    else if name in ObjectPrototypeKeys then record[name := Text(name, 1)]
    else record[name := Count(1)]
  }

  function ZeroAllAsWritten(record: map<string, Tally>, names: seq<string>): map<string, Tally>
    decreases names
  {
    if names == [] then record else ZeroAllAsWritten(ZeroAsWritten(record, names[0]), names[1..])
  }

  function BumpAllAsWritten(record: map<string, Tally>, names: seq<string>): map<string, Tally>
    decreases names
  {
    if names == [] then record else BumpAllAsWritten(BumpAsWritten(record, names[0]), names[1..])
  }

  function CountLabelsInto(record: map<string, Tally>, torrents: seq<Torrent>): map<string, Tally>
    decreases torrents
  {
    if torrents == [] then record
    else CountLabelsInto(BumpAllAsWritten(record, torrents[0].labels), torrents[1..])
  }

  /** The label counts exactly as the panel computes them. */
  function CountLabelsAsWritten(preconfigured: seq<string>, torrents: seq<Torrent>): map<string, Tally> {
    CountLabelsInto(ZeroAllAsWritten(map[], preconfigured), torrents)
  }

  function CountTrackersInto(record: map<string, Tally>, torrents: seq<Torrent>): map<string, Tally>
    decreases torrents
  {
    if torrents == [] then record
    else CountTrackersInto(BumpAsWritten(record, torrents[0].cachedMainTracker), torrents[1..])
  }

  /** The tracker counts exactly as the panel computes them. */
  function CountTrackersAsWritten(torrents: seq<Torrent>): map<string, Tally> {
    CountTrackersInto(map[], torrents)
  }

  /** Every value a record built from numbers holds is a number. */
  predicate AllCounts(record: map<string, Tally>) {
    forall k :: k in record ==> record[k].Count?
  }

  function Base(record: map<string, Tally>, name: string): int
    requires AllCounts(record)
  {
    if name in record then record[name].n else 0
  }

  lemma {:induction false} ZeroAllAgrees(record: map<string, Tally>, names: seq<string>)
    requires AllCounts(record)
    requires forall k :: 0 <= k < |names| ==> names[k] != "__proto__"
    ensures var r := ZeroAllAsWritten(record, names);
      AllCounts(r) &&
      (forall l :: l in r <==> l in record || l in names) &&
      (forall l :: l in r ==> r[l].n == if l in names then 0 else record[l].n)
    decreases names
  {
    if names != [] {
      ZeroAllAgrees(ZeroAsWritten(record, names[0]), names[1..]);
      assert names == [names[0]] + names[1..];
    }
  }

  lemma {:induction false} BumpAllAgrees(record: map<string, Tally>, names: seq<string>)
    requires AllCounts(record)
    requires forall k :: 0 <= k < |names| ==> names[k] !in ObjectPrototypeKeys
    ensures var r := BumpAllAsWritten(record, names);
      AllCounts(r) &&
      (forall l :: l in r <==> l in record || l in names) &&
      (forall l :: l in r ==> r[l].n == Base(record, l) + multiset(names)[l])
    decreases names
  {
    if names != [] {
      var next := BumpAsWritten(record, names[0]);
      BumpAllAgrees(next, names[1..]);
      assert names == [names[0]] + names[1..];
      forall l ensures Base(next, l) == Base(record, l) + multiset([names[0]])[l] {
      }
    }
  }

  /** A label is carried by some torrent exactly when the first carries it
      or one of the others does. */
  lemma CarriedCons(torrents: seq<Torrent>)
    requires torrents != []
    ensures forall l :: Carried(torrents, l) <==> l in torrents[0].labels || Carried(torrents[1..], l)
  {
    forall l ensures Carried(torrents, l) <==> l in torrents[0].labels || Carried(torrents[1..], l) {
      if Carried(torrents[1..], l) {
        var i :| 0 <= i < |torrents[1..]| && l in torrents[1..][i].labels;
        assert l in torrents[i + 1].labels;
      }
      if Carried(torrents, l) && l !in torrents[0].labels {
        var i :| 0 <= i < |torrents| && l in torrents[i].labels;
        assert l in torrents[1..][i - 1].labels;
      }
    }
  }

  lemma {:induction false} CountLabelsIntoAgrees(record: map<string, Tally>, torrents: seq<Torrent>)
    requires AllCounts(record)
    requires forall l :: Carried(torrents, l) ==> l !in ObjectPrototypeKeys
    ensures var r := CountLabelsInto(record, torrents);
      AllCounts(r) &&
      (forall l :: l in r <==> l in record || Carried(torrents, l)) &&
      (forall l :: l in r ==> r[l].n == Base(record, l) + Occurrences(torrents, l))
    decreases torrents
  {
    if torrents != [] {
      var t := torrents[0];
      forall k | 0 <= k < |t.labels| ensures t.labels[k] !in ObjectPrototypeKeys {
        assert Carried(torrents, t.labels[k]) by { assert t.labels[k] in torrents[0].labels; }
      }
      var next := BumpAllAsWritten(record, t.labels);
      BumpAllAgrees(record, t.labels);
      CarriedCons(torrents);
      CountLabelsIntoAgrees(next, torrents[1..]);
      forall l ensures Base(next, l) == Base(record, l) + multiset(t.labels)[l] {
      }
    }
  }

  /** When no label is a name inherited from Object.prototype, the counts as
      written are the counts `CountLabels` states. */
  lemma CountLabelsAsWrittenAgrees(preconfigured: seq<string>, torrents: seq<Torrent>)
    requires forall l :: (l in preconfigured || Carried(torrents, l)) ==> l !in ObjectPrototypeKeys
    ensures var r := CountLabelsAsWritten(preconfigured, torrents);
      (forall l :: l in r <==> l in preconfigured || Carried(torrents, l)) &&
      (forall l :: l in r ==> r[l] == Count(Occurrences(torrents, l)))
  {
    forall k | 0 <= k < |preconfigured| ensures preconfigured[k] != "__proto__" {
      assert preconfigured[k] in preconfigured;
    }
    ZeroAllAgrees(map[], preconfigured);
    CountLabelsIntoAgrees(ZeroAllAsWritten(map[], preconfigured), torrents);
  }

  lemma {:induction false} CountTrackersIntoAgrees(record: map<string, Tally>, torrents: seq<Torrent>)
    requires AllCounts(record)
    requires forall k :: 0 <= k < |torrents| ==> torrents[k].cachedMainTracker !in ObjectPrototypeKeys
    ensures var r := CountTrackersInto(record, torrents);
      AllCounts(r) &&
      (forall tr :: tr in r <==> tr in record || exists k :: 0 <= k < |torrents| && torrents[k].cachedMainTracker == tr) &&
      (forall tr :: tr in r ==> r[tr].n == Base(record, tr) + WithTracker(torrents, tr))
    decreases torrents
  {
    if torrents != [] {
      var next := BumpAsWritten(record, torrents[0].cachedMainTracker);
      CountTrackersIntoAgrees(next, torrents[1..]);
    }
  }

  /** When no main tracker is a name inherited from Object.prototype, the
      counts as written are the counts `CountTrackers` states. */
  lemma CountTrackersAsWrittenAgrees(torrents: seq<Torrent>)
    requires forall k :: 0 <= k < |torrents| ==> torrents[k].cachedMainTracker !in ObjectPrototypeKeys
    ensures var r := CountTrackersAsWritten(torrents);
      (forall tr :: tr in r <==> exists k :: 0 <= k < |torrents| && torrents[k].cachedMainTracker == tr) &&
      (forall tr :: tr in r ==> r[tr] == Count(WithTracker(torrents, tr)))
  {
    CountTrackersIntoAgrees(map[], torrents);
  }

  /** A torrent labelled "constructor" and "__proto__": as written the first
      count becomes the text of the inherited `Object` function followed by
      "1", and the second label gets no row at all, while `CountLabels`
      counts each once. A preconfigured "__proto__" never gets a row either. */
  lemma InheritedLabelsAsWritten(t: Torrent)
    requires t.labels == ["constructor", "__proto__"]
    ensures var r := CountLabelsAsWritten([], [t]);
      "constructor" in r && r["constructor"] == Text("constructor", 1) && "__proto__" !in r
    ensures Carried([t], "__proto__") && Occurrences([t], "constructor") == 1
    ensures "__proto__" !in CountLabelsAsWritten(["__proto__"], [])
  {
    var r0 := BumpAsWritten(map[], "constructor");
    assert "constructor" in ObjectPrototypeKeys;
    assert r0 == map["constructor" := Text("constructor", 1)];
    assert BumpAsWritten(r0, "__proto__") == r0;
    assert BumpAllAsWritten(map[], t.labels) == r0 by {
      assert t.labels[1..] == ["__proto__"];
      assert BumpAllAsWritten(r0, ["__proto__"]) == BumpAllAsWritten(r0, []);
    }
    assert CountLabelsInto(r0, [t][1..]) == r0;
    assert "__proto__" in [t][0].labels;
  }

  /** A torrent whose main tracker is "toString": as written its count is text. */
  lemma InheritedTrackerAsWritten(t: Torrent)
    requires t.cachedMainTracker == "toString"
    ensures var r := CountTrackersAsWritten([t]);
      "toString" in r && r["toString"] == Text("toString", 1)
    ensures WithTracker([t], "toString") == 1
  {
    assert "toString" in ObjectPrototypeKeys;
    var r0 := BumpAsWritten(map[], "toString");
    assert r0 == map["toString" := Text("toString", 1)];
    assert CountTrackersInto(r0, [t][1..]) == r0;
  }

  // ---------------------------------------------------------------------------
  // The list of expanded directory paths kept in the server's settings

  datatype ExpandVerb = Expand | Collapse

  /** JavaScript `slice(start, end)` with `end` counted from the back when
      negative. */
  function Slice<T>(s: seq<T>, start: nat, end: int): (r: seq<T>)
    ensures end >= 0 && start <= end <= |s| ==> r == s[start..end]
  {
    var e := if end < 0 then Max(|s| + end, 0) else if end > |s| then |s| else end;
    if start >= e then [] else s[start..e]
  }

  /** Expanding appends the path. Collapsing removes the element at the
      first index of the path, as `indexOf` finds it: for a path that is not
      in the list that index is -1, and the two slices then give the list
      without its last element followed by the whole list. */
  function ExpandedReduce(list: seq<string>, verb: ExpandVerb, value: string): (r: seq<string>)
    ensures verb == Expand ==> r == list + [value]
    ensures verb == Collapse && value in list ==>
      exists i :: 0 <= i < |list| && list[i] == value && value !in list[..i] && r == list[..i] + list[i + 1..]
    ensures verb == Collapse && value in list ==> multiset(r) == multiset(list) - multiset{value}
    ensures verb == Collapse && value !in list && list != [] ==> r == list[..|list| - 1] + list
    ensures verb == Collapse && list == [] ==> r == []
  {
    match verb
    case Expand => list + [value]
    case Collapse =>
      var idx := ArrayIndexOf(list, value);
      if idx >= 0 then
        CollapseFound(list, value, idx);
        Slice(list, 0, idx) + list[idx + 1..]
      else
        CollapseMissing(list, idx);
        Slice(list, 0, idx) + list
  }

  lemma CollapseFound(list: seq<string>, value: string, idx: int)
    requires idx == ArrayIndexOf(list, value) && idx >= 0
    ensures var r := Slice(list, 0, idx) + list[idx + 1..];
      && list[idx] == value && value !in list[..idx] && r == list[..idx] + list[idx + 1..]
      && multiset(r) == multiset(list) - multiset{value}
  {
    assert Slice(list, 0, idx) + list[idx + 1..] == RemoveAt(list, idx);
  }

  lemma CollapseMissing(list: seq<string>, idx: int)
    requires idx == -1
    ensures list != [] ==> Slice(list, 0, idx) == list[..|list| - 1]
    ensures list == [] ==> Slice(list, 0, idx) + list == []
  {
  }

  /** Collapsing a directory that was just expanded, and was not expanded
      before, restores the list. */
  lemma ExpandThenCollapse(list: seq<string>, value: string)
    requires value !in list
    ensures ExpandedReduce(ExpandedReduce(list, Expand, value), Collapse, value) == list
  {
    var l := list + [value];
    assert ArrayIndexOf(l, value) == |list| by {
      assert l[|list|] == value && l[..|list|] == list;
    }
  }

  // ---------------------------------------------------------------------------
  // The directory tree

  /** A directory of the filter tree. `subdirs` keeps the insertion order of
      the source's map; while the tree is built a child is looked up by the
      name it was created with. */
  datatype Directory = Directory(name: string, path: string, subdirs: seq<Directory>, expanded: bool, count: int, level: int)

  const DefaultRoot := Directory("", "", [], true, 0, -1)

  function ChildIndex(ds: seq<Directory>, name: string): (k: int)
    ensures -1 <= k < |ds|
    ensures k >= 0 ==> ds[k].name == name
    ensures forall i :: 0 <= i < |ds| && (k == -1 || i < k) ==> ds[i].name != name
  {
    FindIndex(ds, (d: Directory) => d.name == name)
  }

  /** One path walked into the tree below `dir`: every non-empty component
      moves one level down, creating the directory when it is missing, and
      adds one to the count of the directory it reaches. `currentPath` is the
      part of the path walked so far, each component followed by "/". */
  function AddParts(dir: Directory, parts: seq<string>, currentPath: string, expanded: seq<string>): (r: Directory)
    ensures r.name == dir.name && r.path == dir.path && r.expanded == dir.expanded
    ensures r.count == dir.count && r.level == dir.level
    decreases |parts|
  {
    if parts == [] then dir
    else
      var part := parts[0];
      var path := currentPath + part + "/";
      if part == "" then AddParts(dir, parts[1..], path, expanded)
      else
        var k := ChildIndex(dir.subdirs, part);
        var child := if k >= 0 then dir.subdirs[k] else Directory(part, path, [], path in expanded, 0, dir.level + 1);
        var walked := AddParts(child.(count := child.count + 1), parts[1..], path, expanded);
        dir.(subdirs := if k >= 0 then dir.subdirs[k := walked] else dir.subdirs + [walked])
  }

  /** The tree of a list of download directories, before compaction. */
  function DirTree(paths: seq<string>, expanded: seq<string>): Directory {
    if paths == [] then DefaultRoot
    else AddParts(DirTree(paths[..|paths| - 1], expanded), Split(paths[|paths| - 1], '/'), "", expanded)
  }

  method BuildDirTree(paths: seq<string>, expanded: seq<string>, compactDirectories: bool) returns (root: Directory)
    ensures !compactDirectories ==> root == DirTree(paths, expanded)
    ensures compactDirectories ==> root == Compact(DirTree(paths, expanded))
  {
    root := DefaultRoot;
    for i := 0 to |paths|
      invariant root == DirTree(paths[..i], expanded)
    {
      assert paths[..i + 1][..i] == paths[..i];
      root := AddParts(root, Split(paths[i], '/'), "", expanded);
    }
    assert paths[..|paths|] == paths;
    if compactDirectories {
      root := Compact(root);
    }
  }

  /** The directory reached from `d` by a list of names. */
  function Find(d: Directory, names: seq<string>): Option<Directory>
    decreases |names|
  {
    if names == [] then Some(d)
    else
      var k := ChildIndex(d.subdirs, names[0]);
      if k < 0 then None else Find(d.subdirs[k], names[1..])
  }

  function CountAt(d: Directory, names: seq<string>): int {
    match Find(d, names)
    case Some(n) => n.count
    case None => 0
  }

  /** The components of a split path that create directories. */
  function NonEmpty(parts: seq<string>): seq<string> {
    if parts == [] then []
    else if parts[0] == "" then NonEmpty(parts[1..])
    else [parts[0]] + NonEmpty(parts[1..])
  }

  /** How many of the paths pass through the directory named by `names`. */
  function PassingThrough(paths: seq<string>, names: seq<string>): nat {
    if paths == [] then 0
    else
      PassingThrough(paths[..|paths| - 1], names) +
      (if names <= NonEmpty(Split(paths[|paths| - 1], '/')) then 1 else 0)
  }

  lemma ChildIndexUpdate(ds: seq<Directory>, k: nat, x: Directory, name: string)
    requires k < |ds| && x.name == ds[k].name
    ensures ChildIndex(ds[k := x], name) == ChildIndex(ds, name)
  {
    var r := ds[k := x];
    assert forall i :: 0 <= i < |ds| ==> r[i].name == ds[i].name;
  }

  lemma ChildIndexAppend(ds: seq<Directory>, x: Directory, name: string)
    requires ChildIndex(ds, x.name) < 0
    ensures name == x.name ==> ChildIndex(ds + [x], name) == |ds|
    ensures name != x.name ==> ChildIndex(ds + [x], name) == ChildIndex(ds, name)
  {
    var r := ds + [x];
    assert forall i :: 0 <= i < |ds| ==> r[i] == ds[i];
    assert r[|ds|] == x;
  }

  /** Finding below a directory whose child `part` was replaced (or
      appended) by `walked`. */
  lemma FindReplaced(dir: Directory, k: int, walked: Directory, names: seq<string>)
    requires names != [] && -1 <= k < |dir.subdirs| && k == ChildIndex(dir.subdirs, walked.name)
    ensures var r := dir.(subdirs := if k >= 0 then dir.subdirs[k := walked] else dir.subdirs + [walked]);
      Find(r, names) == if names[0] == walked.name then Find(walked, names[1..]) else Find(dir, names)
  {
    if k >= 0 {
      ChildIndexUpdate(dir.subdirs, k, walked, names[0]);
    } else {
      ChildIndexAppend(dir.subdirs, walked, names[0]);
    }
  }

  /** Below the top, a change of count is not seen. */
  lemma FindBumped(d: Directory, c: int, names: seq<string>)
    requires names != []
    ensures Find(d.(count := c), names) == Find(d, names)
  {
  }

  lemma NonEmptyPrefix(parts: seq<string>, names: seq<string>)
    requires parts != [] && parts[0] != "" && names != []
    ensures names <= NonEmpty(parts) <==> names[0] == parts[0] && names[1..] <= NonEmpty(parts[1..])
  {
    assert NonEmpty(parts) == [parts[0]] + NonEmpty(parts[1..]);
  }

  /** The step of `AddPartsCounts` at a non-empty component, with the
      walk below the child already accounted for. */
  lemma StepCounts(dir: Directory, k: int, child: Directory, walked: Directory, names: seq<string>, below: bool)
    requires names != [] && names[0] == walked.name
    requires -1 <= k < |dir.subdirs| && k == ChildIndex(dir.subdirs, walked.name)
    requires k >= 0 ==> child == dir.subdirs[k]
    requires k < 0 ==> child.subdirs == [] && child.count == 0
    requires walked.count == child.count + 1
    requires |names| > 1 ==>
      (Find(walked, names[1..]).Some? <==> Find(child, names[1..]).Some? || below) &&
      CountAt(walked, names[1..]) == CountAt(child, names[1..]) + (if below then 1 else 0)
    ensures var r := dir.(subdirs := if k >= 0 then dir.subdirs[k := walked] else dir.subdirs + [walked]);
      (Find(r, names).Some? <==> Find(dir, names).Some? || |names| == 1 || below) &&
      CountAt(r, names) == CountAt(dir, names) + (if |names| == 1 || below then 1 else 0)
  {
    FindReplaced(dir, k, walked, names);
    assert Find(dir, names) == if k >= 0 then Find(child, names[1..]) else None;
    if |names| > 1 && k < 0 {
      assert Find(child, names[1..]) == None;
    }
  }

  /** Walking a path below `dir` adds one to the count of exactly the
      directories the path passes through, creating those that were
      missing, and leaves every other directory as it was. */
  lemma {:induction false} AddPartsCounts(dir: Directory, parts: seq<string>, currentPath: string, expanded: seq<string>, names: seq<string>)
    requires names != []
    ensures Find(AddParts(dir, parts, currentPath, expanded), names).Some? <==>
      Find(dir, names).Some? || names <= NonEmpty(parts)
    ensures CountAt(AddParts(dir, parts, currentPath, expanded), names) ==
      CountAt(dir, names) + (if names <= NonEmpty(parts) then 1 else 0)
    decreases |parts|, 1
  {
    if parts == [] {
    } else if parts[0] == "" {
      AddPartsCounts(dir, parts[1..], currentPath + parts[0] + "/", expanded, names);
    } else {
      AddPartsCountsAt(dir, parts, currentPath, expanded, names);
    }
  }

  lemma AddPartsUnfold(dir: Directory, parts: seq<string>, currentPath: string, expanded: seq<string>)
    requires parts != [] && parts[0] != ""
    ensures var path := currentPath + parts[0] + "/";
      var k := ChildIndex(dir.subdirs, parts[0]);
      var child := if k >= 0 then dir.subdirs[k] else Directory(parts[0], path, [], path in expanded, 0, dir.level + 1);
      var walked := AddParts(child.(count := child.count + 1), parts[1..], path, expanded);
      AddParts(dir, parts, currentPath, expanded) ==
        dir.(subdirs := if k >= 0 then dir.subdirs[k := walked] else dir.subdirs + [walked])
  {
  }

  /** `AddPartsCounts` when the first component is not empty. */
  lemma {:induction false} AddPartsCountsAt(dir: Directory, parts: seq<string>, currentPath: string, expanded: seq<string>, names: seq<string>)
    requires names != [] && parts != [] && parts[0] != ""
    ensures Find(AddParts(dir, parts, currentPath, expanded), names).Some? <==>
      Find(dir, names).Some? || names <= NonEmpty(parts)
    ensures CountAt(AddParts(dir, parts, currentPath, expanded), names) ==
      CountAt(dir, names) + (if names <= NonEmpty(parts) then 1 else 0)
    decreases |parts|, 0
  {
    var part := parts[0];
    var path := currentPath + part + "/";
    var k := ChildIndex(dir.subdirs, part);
    var child := if k >= 0 then dir.subdirs[k] else Directory(part, path, [], path in expanded, 0, dir.level + 1);
    var bumped := child.(count := child.count + 1);
    var walked := AddParts(bumped, parts[1..], path, expanded);
    AddPartsStep(dir, parts, currentPath, expanded, k, walked);
    NonEmptyPrefix(parts, names);
    if names[0] == part {
      if |names| > 1 {
        AddPartsCounts(bumped, parts[1..], path, expanded, names[1..]);
        FindBumped(child, child.count + 1, names[1..]);
      }
      StepCounts(dir, k, child, walked, names, |names| > 1 && names[1..] <= NonEmpty(parts[1..]));
    } else {
      FindReplaced(dir, k, walked, names);
    }
  }

  /** What holds of every directory below `d` in a tree built from the
      paths `sources`: it sits one level below its parent, it is named by a
      non-empty component, its path ends in that name and "/" and is the
      beginning of one of the paths followed by "/", and it is expanded
      exactly when its path is listed in `expanded`. */
  predicate WellFormed(d: Directory, expanded: seq<string>, sources: set<string>)
    decreases d
  {
    forall i :: 0 <= i < |d.subdirs| ==>
      Placed(d.level, d.subdirs[i], expanded, sources) && WellFormed(d.subdirs[i], expanded, sources)
  }

  predicate Placed(parentLevel: int, c: Directory, expanded: seq<string>, sources: set<string>) {
    c.level == parentLevel + 1 && c.name != "" && EndsWith(c.path, c.name + "/") &&
    (exists p :: p in sources && StartsWith(p + "/", c.path)) &&
    c.expanded == (c.path in expanded)
  }

  /** Replacing or appending a well-placed, well-formed child keeps a
      directory well-formed. */
  lemma ReplaceChild(dir: Directory, k: int, walked: Directory, expanded: seq<string>, sources: set<string>)
    requires WellFormed(dir, expanded, sources) && -1 <= k < |dir.subdirs|
    requires Placed(dir.level, walked, expanded, sources) && WellFormed(walked, expanded, sources)
    ensures WellFormed(dir.(subdirs := if k >= 0 then dir.subdirs[k := walked] else dir.subdirs + [walked]), expanded, sources)
  {
    var ds := if k >= 0 then dir.subdirs[k := walked] else dir.subdirs + [walked];
    assert forall i :: 0 <= i < |ds| ==> ds[i] == walked || ds[i] == dir.subdirs[i];
  }

  lemma {:induction false} WellFormedMore(d: Directory, expanded: seq<string>, sources: set<string>, more: set<string>)
    requires WellFormed(d, expanded, sources) && sources <= more
    ensures WellFormed(d, expanded, more)
    decreases d
  {
    forall i | 0 <= i < |d.subdirs| ensures WellFormed(d.subdirs[i], expanded, more) {
      WellFormedMore(d.subdirs[i], expanded, sources, more);
    }
  }

  /** The directory created for a component ends a prefix of the path. */
  lemma CreatedPrefix(currentPath: string, parts: seq<string>, p: string)
    requires parts != [] && currentPath + Join(parts, "/") == p
    ensures StartsWith(p + "/", currentPath + parts[0] + "/")
    ensures |parts| > 1 ==> currentPath + parts[0] + "/" + Join(parts[1..], "/") == p
  {
    var head := currentPath + parts[0] + "/";
    Regroup(currentPath, parts[0], "/");
    if |parts| > 1 {
      var tail := Join(parts[1..], "/");
      assert Join(parts, "/") == parts[0] + "/" + tail;
      Regroup(currentPath, parts[0] + "/", tail);
      Regroup(head, tail, "/");
      PrefixOfAppend(head, tail + "/");
    } else {
      assert Join(parts, "/") == parts[0];
      PrefixOfAppend(head, []);
    }
  }

  lemma Regroup(a: string, b: string, c: string)
    ensures a + (b + c) == a + b + c
  {
  }

  lemma PrefixOfAppend(a: string, b: string)
    ensures StartsWith(a + b, a)
  {
    assert (a + b)[..|a|] == a;
  }

  /** Walking a path into a well-formed tree keeps it well-formed. */
  lemma {:induction false} AddPartsWellFormed(dir: Directory, parts: seq<string>, currentPath: string, expanded: seq<string>, sources: set<string>, p: string)
    requires WellFormed(dir, expanded, sources) && p in sources
    requires parts != [] ==> currentPath + Join(parts, "/") == p
    ensures WellFormed(AddParts(dir, parts, currentPath, expanded), expanded, sources)
    decreases |parts|, 2
  {
    if parts == [] {
    } else if parts[0] == "" {
      CreatedPrefix(currentPath, parts, p);
      AddPartsWellFormed(dir, parts[1..], currentPath + parts[0] + "/", expanded, sources, p);
    } else {
      AddPartsWellFormedAt(dir, parts, currentPath, expanded, sources, p);
    }
  }

  lemma {:induction false} AddPartsWellFormedAt(dir: Directory, parts: seq<string>, currentPath: string, expanded: seq<string>, sources: set<string>, p: string)
    requires WellFormed(dir, expanded, sources) && p in sources
    requires parts != [] && parts[0] != "" && currentPath + Join(parts, "/") == p
    ensures WellFormed(AddParts(dir, parts, currentPath, expanded), expanded, sources)
    decreases |parts|, 1
  {
    var path := currentPath + parts[0] + "/";
    var k := ChildIndex(dir.subdirs, parts[0]);
    var child := if k >= 0 then dir.subdirs[k] else Directory(parts[0], path, [], path in expanded, 0, dir.level + 1);
    var walked := AddParts(child.(count := child.count + 1), parts[1..], path, expanded);
    WalkedWellFormed(dir, parts, currentPath, expanded, sources, p, k, child);
    ReplaceChild(dir, k, walked, expanded, sources);
    AddPartsStep(dir, parts, currentPath, expanded, k, walked);
  }

  /** `AddPartsUnfold` with the child index and the walked child named. */
  lemma AddPartsStep(dir: Directory, parts: seq<string>, currentPath: string, expanded: seq<string>, k: int, walked: Directory)
    requires parts != [] && parts[0] != "" && k == ChildIndex(dir.subdirs, parts[0])
    requires var path := currentPath + parts[0] + "/";
      var child := if k >= 0 then dir.subdirs[k] else Directory(parts[0], path, [], path in expanded, 0, dir.level + 1);
      walked == AddParts(child.(count := child.count + 1), parts[1..], path, expanded)
    ensures AddParts(dir, parts, currentPath, expanded) ==
      dir.(subdirs := if k >= 0 then dir.subdirs[k := walked] else dir.subdirs + [walked])
  {
    AddPartsUnfold(dir, parts, currentPath, expanded);
  }

  /** The child a walk goes through comes back well placed and
      well-formed. */
  lemma {:induction false} WalkedWellFormed(dir: Directory, parts: seq<string>, currentPath: string, expanded: seq<string>,
                                            sources: set<string>, p: string, k: int, child: Directory)
    requires WellFormed(dir, expanded, sources) && p in sources
    requires parts != [] && parts[0] != "" && currentPath + Join(parts, "/") == p
    requires k == ChildIndex(dir.subdirs, parts[0])
    requires child == if k >= 0 then dir.subdirs[k]
                      else Directory(parts[0], currentPath + parts[0] + "/", [], currentPath + parts[0] + "/" in expanded, 0, dir.level + 1)
    ensures var walked := AddParts(child.(count := child.count + 1), parts[1..], currentPath + parts[0] + "/", expanded);
      Placed(dir.level, walked, expanded, sources) && WellFormed(walked, expanded, sources)
    decreases |parts|, 0
  {
    var path := currentPath + parts[0] + "/";
    var bumped := child.(count := child.count + 1);
    var walked := AddParts(bumped, parts[1..], path, expanded);
    CreatedPrefix(currentPath, parts, p);
    ChildPlaced(dir, k, child, parts[0], path, expanded, sources, p);
    AddPartsWellFormed(bumped, parts[1..], path, expanded, sources, p);
    SamePlace(bumped, walked, dir.level, expanded, sources);
  }

  /** The child a walk goes through, found or created, is well placed. */
  lemma ChildPlaced(dir: Directory, k: int, child: Directory, part: string, path: string,
                    expanded: seq<string>, sources: set<string>, p: string)
    requires WellFormed(dir, expanded, sources) && p in sources && StartsWith(p + "/", path)
    requires part != "" && EndsWith(path, part + "/") && k == ChildIndex(dir.subdirs, part)
    requires child == if k >= 0 then dir.subdirs[k] else Directory(part, path, [], path in expanded, 0, dir.level + 1)
    ensures Placed(dir.level, child.(count := child.count + 1), expanded, sources)
    ensures WellFormed(child.(count := child.count + 1), expanded, sources)
  {
  }

  /** Placement does not look at the count or the children. */
  lemma SamePlace(a: Directory, b: Directory, parentLevel: int, expanded: seq<string>, sources: set<string>)
    requires Placed(parentLevel, a, expanded, sources)
    requires a.name == b.name && a.path == b.path && a.expanded == b.expanded && a.level == b.level
    ensures Placed(parentLevel, b, expanded, sources)
  {
  }

  /** What well-formedness says of a directory reached by a list of names. */
  lemma {:induction false} FindWellFormed(d: Directory, names: seq<string>, expanded: seq<string>, sources: set<string>)
    requires WellFormed(d, expanded, sources) && names != [] && Find(d, names).Some?
    ensures var n := Find(d, names).value;
      n.level == d.level + |names| && n.name == names[|names| - 1] &&
      EndsWith(n.path, n.name + "/") && (exists p :: p in sources && StartsWith(p + "/", n.path)) &&
      n.expanded == (n.path in expanded)
    decreases |names|
  {
    var k := ChildIndex(d.subdirs, names[0]);
    if |names| > 1 {
      FindWellFormed(d.subdirs[k], names[1..], expanded, sources);
    }
  }

  lemma {:induction false} WellFormedLevels(d: Directory, expanded: seq<string>, sources: set<string>)
    requires WellFormed(d, expanded, sources)
    ensures LevelsFrom(d)
    decreases d
  {
    forall i | 0 <= i < |d.subdirs| ensures LevelsFrom(d.subdirs[i]) {
      WellFormedLevels(d.subdirs[i], expanded, sources);
    }
  }

  lemma {:induction false} DirTreeWellFormed(paths: seq<string>, expanded: seq<string>)
    ensures WellFormed(DirTree(paths, expanded), expanded, set p | p in paths)
    ensures LevelsFrom(DirTree(paths, expanded))
    ensures var t := DirTree(paths, expanded); t.level == -1 && t.count == 0 && t.path == ""
    decreases |paths|
  {
    if paths != [] {
      var prefix := paths[..|paths| - 1];
      var p := paths[|paths| - 1];
      DirTreeWellFormed(prefix, expanded);
      WellFormedMore(DirTree(prefix, expanded), expanded, (set q | q in prefix), (set q | q in paths));
      JoinSplit(p, '/');
      AddPartsWellFormed(DirTree(prefix, expanded), Split(p, '/'), "", expanded, (set q | q in paths), p);
    }
    WellFormedLevels(DirTree(paths, expanded), expanded, set q | q in paths);
  }

  lemma {:induction false} DirTreeCounts(paths: seq<string>, expanded: seq<string>, names: seq<string>)
    requires names != []
    ensures Find(DirTree(paths, expanded), names).Some? <==> PassingThrough(paths, names) > 0
    ensures CountAt(DirTree(paths, expanded), names) == PassingThrough(paths, names)
    decreases |paths|
  {
    if paths != [] {
      var prefix := paths[..|paths| - 1];
      DirTreeCounts(prefix, expanded, names);
      AddPartsCounts(DirTree(prefix, expanded), Split(paths[|paths| - 1], '/'), "", expanded, names);
    }
  }

  /** The directory tree of a list of download directories: the directory
      named by a list of non-empty components exists exactly when some path
      passes through it, and then its count is the number of paths passing
      through it, its level is its depth (the root being at -1), its name is
      the last component, its path ends in that component and "/" and begins
      one of the paths followed by "/", and it is expanded exactly when its
      path is listed. */
  lemma DirTreeNodes(paths: seq<string>, expanded: seq<string>, names: seq<string>)
    requires names != []
    ensures Find(DirTree(paths, expanded), names).Some? <==> PassingThrough(paths, names) > 0
    ensures Find(DirTree(paths, expanded), names).Some? ==>
      var n := Find(DirTree(paths, expanded), names).value;
      n.count == PassingThrough(paths, names) && n.level == |names| - 1 &&
      n.name == names[|names| - 1] && EndsWith(n.path, n.name + "/") &&
      (exists i :: 0 <= i < |paths| && StartsWith(paths[i] + "/", n.path)) &&
      n.expanded == (n.path in expanded)
  {
    DirTreeCounts(paths, expanded, names);
    DirTreeWellFormed(paths, expanded);
    if Find(DirTree(paths, expanded), names).Some? {
      FindWellFormed(DirTree(paths, expanded), names, expanded, (set p | p in paths));
    }
  }

  // ---------------------------------------------------------------------------
  // Compaction

  function Size(d: Directory): nat
    decreases d, 1
  {
    1 + SizeSeq(d.subdirs)
  }

  function SizeSeq(ds: seq<Directory>): nat
    decreases ds, 0
  {
    if ds == [] then 0 else Size(ds[0]) + SizeSeq(ds[1..])
  }

  /** A directory whose only child has the same count. */
  predicate Squashable(d: Directory) {
    |d.subdirs| == 1 && d.subdirs[0].count == d.count
  }

  /** The names down the chain of lone children that have their parent's
      count. */
  function LoneNames(d: Directory): seq<string>
    decreases d
  {
    if Squashable(d) then [d.subdirs[0].name] + LoneNames(d.subdirs[0]) else []
  }

  /** The last directory of that chain: `d` itself when it has no such
      child. */
  function LoneEnd(d: Directory): (r: Directory)
    ensures r.count == d.count && !Squashable(r)
    decreases d
  {
    if Squashable(d) then LoneEnd(d.subdirs[0]) else d
  }

  /** Joining two leading parts first joins to the same string. */
  lemma JoinMerge(a: string, b: string, rest: seq<string>, sep: string)
    ensures Join([a, b] + rest, sep) == Join([a + sep + b] + rest, sep)
  {
    var long := [a, b] + rest;
    var short := [a + sep + b] + rest;
    assert long[0] == a && long[1..] == [b] + rest;
    assert short[0] == a + sep + b && short[1..] == rest;
    if rest == [] {
      assert Join([b], sep) == b;
    } else {
      JoinCons(b, rest, sep);
      assert Join(long, sep) == a + sep + (b + sep + Join(rest, sep));
    }
  }

  /** `d` squashed in the place of a directory called `name` at `level`: a
      lone child with the same count takes the directory's place, its name
      prefixed with the directory's name and a "/", and so on down. The
      result is the end of the chain, named by every name on the way
      joined by "/". */
  function SquashFrom(name: string, level: int, d: Directory): (r: Directory)
    ensures r.count == d.count && r.level == level && !Squashable(r)
    ensures r == LoneEnd(d).(name := Join([name] + LoneNames(d), "/"), level := level)
    ensures SizeSeq(r.subdirs) < Size(d)
    decreases d
  {
    if Squashable(d) then
      var child := d.subdirs[0];
      JoinMerge(name, child.name, LoneNames(child), "/");
      assert [name] + LoneNames(d) == [name, child.name] + LoneNames(child);
      SquashFrom(name + "/" + child.name, level, child)
    else d.(name := name, level := level)
  }

  /** The directory with its chain of lone same-count children folded into
      one: the end of the chain with its path, children and expanded flag,
      at the directory's level, named by the names on the way joined by
      "/". */
  function Squash(d: Directory): (r: Directory)
    ensures r.count == d.count && r.level == d.level && !Squashable(r)
    ensures !Squashable(d) ==> r == d
    ensures var last := LoneEnd(d);
      && r.path == last.path && r.subdirs == last.subdirs && r.expanded == last.expanded
      && r.name == Join([d.name] + LoneNames(d), "/")
  {
    SquashFrom(d.name, d.level, d)
  }

  /** One lone child with its parent's count, and no further: the child
      takes the parent's place as "parent/child". */
  lemma SquashOneChild(d: Directory)
    requires Squashable(d) && !Squashable(d.subdirs[0])
    ensures Squash(d) == d.subdirs[0].(name := d.name + "/" + d.subdirs[0].name, level := d.level)
  {
    assert LoneNames(d) == [d.subdirs[0].name];
  }

  /** The leaf directories (those without children) in order, by path and
      count. */
  function Leaves(d: Directory): seq<(string, int)>
    decreases d
  {
    if d.subdirs == [] then [(d.path, d.count)] else LeavesSeq(d.subdirs)
  }

  function LeavesSeq(ds: seq<Directory>): seq<(string, int)>
    decreases ds
  {
    if ds == [] then [] else Leaves(ds[0]) + LeavesSeq(ds[1..])
  }

  /** Squashing keeps the leaves. */
  lemma {:induction false} LeavesSquash(name: string, level: int, d: Directory)
    ensures Leaves(SquashFrom(name, level, d)) == Leaves(d)
    decreases d
  {
    if Squashable(d) {
      var child := d.subdirs[0];
      LeavesSquash(name + "/" + child.name, level, child);
      assert LeavesSeq(d.subdirs) == Leaves(child) + LeavesSeq(d.subdirs[1..]);
    }
  }

  /** No directory of the tree can be squashed further. */
  predicate AllSquashed(d: Directory)
    decreases d
  {
    !Squashable(d) && forall i :: 0 <= i < |d.subdirs| ==> AllSquashed(d.subdirs[i])
  }

  /** Every child sits one level below its parent. */
  predicate LevelsFrom(d: Directory)
    decreases d
  {
    forall i :: 0 <= i < |d.subdirs| ==> d.subdirs[i].level == d.level + 1 && LevelsFrom(d.subdirs[i])
  }

  /** `d`, placed at `level`, compacted: squashed, then each child placed one
      level below and compacted in turn, in the same order. */
  function CompactAt(d: Directory, level: int): (r: Directory)
    ensures r.count == d.count && r.level == level
    ensures AllSquashed(r) && LevelsFrom(r)
    decreases Size(d), 0
  {
    var s := SquashFrom(d.name, level, d);
    s.(subdirs := CompactSeq(s.subdirs, level + 1))
  }

  function CompactSeq(ds: seq<Directory>, level: int): (r: seq<Directory>)
    ensures |r| == |ds|
    ensures forall i :: 0 <= i < |r| ==> r[i].count == ds[i].count && r[i].level == level
    ensures forall i :: 0 <= i < |r| ==> AllSquashed(r[i]) && LevelsFrom(r[i])
    decreases SizeSeq(ds), 1
  {
    if ds == [] then []
    else [CompactAt(ds[0], level)] + CompactSeq(ds[1..], level)
  }

  /** Compaction keeps the leaves, in order, with their paths and counts. */
  lemma {:induction false} LeavesCompact(d: Directory, level: int)
    ensures Leaves(CompactAt(d, level)) == Leaves(d)
    decreases Size(d), 0
  {
    var s := SquashFrom(d.name, level, d);
    LeavesSquash(d.name, level, d);
    LeavesCompactSeq(s.subdirs, level + 1);
  }

  lemma {:induction false} LeavesCompactSeq(ds: seq<Directory>, level: int)
    ensures LeavesSeq(CompactSeq(ds, level)) == LeavesSeq(ds)
    decreases SizeSeq(ds), 1
  {
    if ds != [] {
      LeavesCompact(ds[0], level);
      LeavesCompactSeq(ds[1..], level);
      assert CompactSeq(ds, level)[1..] == CompactSeq(ds[1..], level);
    }
  }

  /** The compacted tree: the root's count and level, no directory left to
      squash, children one level below their parents, and the same leaves
      in the same order. */
  function Compact(root: Directory): (r: Directory)
    ensures r.count == root.count && r.level == root.level
    ensures AllSquashed(r) && LevelsFrom(r)
    ensures Leaves(r) == Leaves(root)
  {
    LeavesCompact(root, root.level);
    CompactAt(root, root.level)
  }

  /** Compacting a tree that is already compact, with consistent levels,
      changes nothing. */
  lemma {:induction false} CompactIdempotent(d: Directory)
    requires AllSquashed(d) && LevelsFrom(d)
    ensures CompactAt(d, d.level) == d
    decreases d, 1
  {
    CompactSeqIdempotent(d.subdirs, d.level + 1);
  }

  lemma {:induction false} CompactSeqIdempotent(ds: seq<Directory>, level: int)
    requires forall i :: 0 <= i < |ds| ==> ds[i].level == level && AllSquashed(ds[i]) && LevelsFrom(ds[i])
    ensures CompactSeq(ds, level) == ds
    decreases ds, 0
  {
    if ds != [] {
      CompactIdempotent(ds[0]);
      CompactSeqIdempotent(ds[1..], level);
      assert ds == [ds[0]] + ds[1..];
    }
  }

  // ---------------------------------------------------------------------------
  // The rows listed: the tree flattened

  /** The directories listed below `d`: each child in order, followed by its
      own listing when it is expanded. */
  function Flatten(d: Directory): seq<Directory> {
    FlattenSeq(d.subdirs)
  }

  function FlattenSeq(ds: seq<Directory>): seq<Directory>
    decreases ds
  {
    if ds == [] then []
    else [ds[0]] + (if ds[0].expanded then FlattenSeq(ds[0].subdirs) else []) + FlattenSeq(ds[1..])
  }

  /** A directory that is expanded and has children. */
  predicate Opens(d: Directory) {
    d.expanded && d.subdirs != []
  }

  /** A listing in preorder, every row at `level` or deeper: a row that
      opens is followed by its first child, a row that does not is followed
      by a row no deeper than itself, and the last row does not open. */
  predicate Preorder(r: seq<Directory>, level: int) {
    (r != [] ==> !Opens(r[|r| - 1])) &&
    (forall i :: 0 <= i < |r| ==> r[i].level >= level) &&
    (forall i :: 0 <= i < |r| - 1 ==> (Opens(r[i]) ==> r[i + 1] == r[i].subdirs[0])) &&
    (forall i :: 0 <= i < |r| - 1 ==> (!Opens(r[i]) ==> r[i + 1].level <= r[i].level))
  }

  lemma PreorderConcat(x: Directory, a: seq<Directory>, b: seq<Directory>, level: int)
    requires x.level == level && Preorder(a, level + 1) && Preorder(b, level)
    requires (a == [] <==> !Opens(x)) && (a != [] ==> a[0] == x.subdirs[0])
    requires b != [] ==> b[0].level == level
    ensures Preorder([x] + a + b, level)
  {
    var r := [x] + a + b;
    forall i | 0 <= i < |r| ensures r[i].level >= level {
      if 0 < i <= |a| { assert r[i] == a[i - 1]; }
      if i > |a| { assert r[i] == b[i - 1 - |a|]; }
    }
    forall i | 0 <= i < |r| - 1
      ensures Opens(r[i]) ==> r[i + 1] == r[i].subdirs[0]
      ensures !Opens(r[i]) ==> r[i + 1].level <= r[i].level
    {
      if i == 0 {
        if a == [] { assert r[1] == b[0]; } else { assert r[1] == a[0]; }
      } else if i < |a| {
        assert r[i] == a[i - 1] && r[i + 1] == a[i];
      } else if i == |a| {
        assert r[i] == a[|a| - 1] && r[i + 1] == b[0];
      } else {
        assert r[i] == b[i - 1 - |a|] && r[i + 1] == b[i - |a|];
      }
    }
    if b == [] {
      if a != [] { assert r[|r| - 1] == a[|a| - 1]; }
    } else {
      assert r[|r| - 1] == b[|b| - 1];
    }
  }

  /** The listing below directories at one level is a preorder walk of the
      expanded part of the tree that starts with the first of them. */
  lemma {:induction false} FlattenPreorder(ds: seq<Directory>, level: int)
    requires forall i :: 0 <= i < |ds| ==> ds[i].level == level && LevelsFrom(ds[i])
    ensures Preorder(FlattenSeq(ds), level)
    ensures FlattenSeq(ds) != [] ==> FlattenSeq(ds)[0] == ds[0]
    decreases ds
  {
    if ds != [] {
      var x := ds[0];
      if x.expanded {
        FlattenPreorder(x.subdirs, level + 1);
      }
      FlattenPreorder(ds[1..], level);
      PreorderConcat(x, if x.expanded then FlattenSeq(x.subdirs) else [], FlattenSeq(ds[1..]), level);
    }
  }

  /** The rows of a listing at one level, in order. */
  function RowsAt(r: seq<Directory>, level: int): seq<Directory> {
    if r == [] then [] else (if r[0].level == level then [r[0]] else []) + RowsAt(r[1..], level)
  }

  lemma {:induction false} RowsAtConcat(a: seq<Directory>, b: seq<Directory>, level: int)
    ensures RowsAt(a + b, level) == RowsAt(a, level) + RowsAt(b, level)
  {
    if a != [] {
      var head := if a[0].level == level then [a[0]] else [];
      RowsAtConcat(a[1..], b, level);
      assert (a + b)[0] == a[0] && (a + b)[1..] == a[1..] + b;
      assert RowsAt(a + b, level) == head + RowsAt(a[1..] + b, level);
      assert RowsAt(a, level) == head + RowsAt(a[1..], level);
    } else {
      assert a + b == b;
    }
  }

  lemma {:induction false} RowsAtNone(r: seq<Directory>, level: int)
    requires forall i :: 0 <= i < |r| ==> r[i].level > level
    ensures RowsAt(r, level) == []
  {
    if r != [] {
      RowsAtNone(r[1..], level);
    }
  }

  /** `children` are the first rows of `rows`. */
  predicate ListedFirst(children: seq<Directory>, rows: seq<Directory>) {
    |children| <= |rows| && rows[..|children|] == children
  }

  /** The rows listed at the directories' own level are exactly those
      directories, in order: none is left out. */
  lemma {:induction false} FlattenTopRows(ds: seq<Directory>, level: int)
    requires forall i :: 0 <= i < |ds| ==> ds[i].level == level && LevelsFrom(ds[i])
    ensures RowsAt(FlattenSeq(ds), level) == ds
    decreases ds
  {
    if ds != [] {
      var x := ds[0];
      var sub := if x.expanded then FlattenSeq(x.subdirs) else [];
      if x.expanded {
        FlattenPreorder(x.subdirs, level + 1);
        RowsAtNone(sub, level);
      }
      FlattenTopRows(ds[1..], level);
      RowsAtHead(x, sub, FlattenSeq(ds[1..]), level);
      assert ds == [x] + ds[1..];
    }
  }

  /** A row at `level` followed by deeper rows and then `rest`. */
  lemma RowsAtHead(x: Directory, sub: seq<Directory>, rest: seq<Directory>, level: int)
    requires x.level == level && RowsAt(sub, level) == []
    ensures RowsAt([x] + sub + rest, level) == [x] + RowsAt(rest, level)
  {
    RowsAtConcat([x] + sub, rest, level);
    RowsAtConcat([x], sub, level);
  }

  /** Every expanded row is followed by all its children, in order, before
      any other directory one level below it. */
  predicate ChildrenFollow(r: seq<Directory>) {
    forall i :: 0 <= i < |r| && r[i].expanded ==> ListedFirst(r[i].subdirs, RowsAt(r[i + 1..], r[i].level + 1))
  }

  lemma {:induction false} FlattenChildrenFollow(ds: seq<Directory>, level: int)
    requires forall i :: 0 <= i < |ds| ==> ds[i].level == level && LevelsFrom(ds[i])
    ensures ChildrenFollow(FlattenSeq(ds))
    decreases ds
  {
    if ds != [] {
      var x := ds[0];
      var sub := if x.expanded then FlattenSeq(x.subdirs) else [];
      var rest := FlattenSeq(ds[1..]);
      assert x.level == level && LevelsFrom(x);
      if x.expanded {
        FlattenChildrenFollow(x.subdirs, level + 1);
        FlattenTopRows(x.subdirs, level + 1);
      }
      assert forall i :: 0 <= i < |ds[1..]| ==> ds[1..][i] == ds[i + 1];
      FlattenChildrenFollow(ds[1..], level);
      assert FlattenSeq(ds) == [x] + sub + rest;
      ChildrenFollowCons(x, sub, rest);
    }
  }

  /** The listing of one directory followed by the listing of its later
      siblings keeps every expanded row's children after it. */
  lemma ChildrenFollowCons(x: Directory, sub: seq<Directory>, rest: seq<Directory>)
    requires ChildrenFollow(sub) && ChildrenFollow(rest)
    requires x.expanded ==> RowsAt(sub, x.level + 1) == x.subdirs
    ensures ChildrenFollow([x] + sub + rest)
  {
    var r := [x] + sub + rest;
    forall i | 0 <= i < |r| && r[i].expanded
      ensures ListedFirst(r[i].subdirs, RowsAt(r[i + 1..], r[i].level + 1))
    {
      if i == 0 {
        FollowAtHead(r, x, sub, rest);
      } else if i <= |sub| {
        FollowInFront(r, sub, rest, i);
      } else {
        FollowInRest(r, sub, rest, i);
      }
    }
  }

  lemma FollowAtHead(r: seq<Directory>, x: Directory, sub: seq<Directory>, rest: seq<Directory>)
    requires r == [x] + sub + rest
    requires x.expanded ==> RowsAt(sub, x.level + 1) == x.subdirs
    ensures r[0].expanded ==> ListedFirst(r[0].subdirs, RowsAt(r[1..], r[0].level + 1))
  {
    assert r[0] == x && r[1..] == sub + rest;
    RowsAtConcat(sub, rest, x.level + 1);
  }

  lemma FollowInRest(r: seq<Directory>, sub: seq<Directory>, rest: seq<Directory>, i: int)
    requires |sub| < i < |r| && |r| == 1 + |sub| + |rest| && r[1..] == sub + rest
    requires ChildrenFollow(rest)
    ensures r[i].expanded ==> ListedFirst(r[i].subdirs, RowsAt(r[i + 1..], r[i].level + 1))
  {
    var j := i - 1 - |sub|;
    assert r[i] == rest[j] && r[i + 1..] == rest[j + 1..];
  }

  lemma FollowInFront(r: seq<Directory>, sub: seq<Directory>, rest: seq<Directory>, i: int)
    requires 0 < i <= |sub| && |r| == 1 + |sub| + |rest| && r[1..] == sub + rest
    requires sub[i - 1].expanded ==> ListedFirst(sub[i - 1].subdirs, RowsAt(sub[i..], sub[i - 1].level + 1))
    ensures r[i].expanded ==> ListedFirst(r[i].subdirs, RowsAt(r[i + 1..], r[i].level + 1))
  {
    assert r[i] == sub[i - 1] && r[i + 1..] == sub[i..] + rest;
    RowsAtConcat(sub[i..], rest, r[i].level + 1);
  }

  /** The rows listed for a tree with consistent levels: a preorder walk
      whose top rows are the root's children in order, and in which every
      expanded directory is followed by all its children in order. */
  lemma FlattenTree(root: Directory)
    requires LevelsFrom(root)
    ensures Preorder(Flatten(root), root.level + 1)
    ensures Flatten(root) != [] ==> Flatten(root)[0] == root.subdirs[0]
    ensures RowsAt(Flatten(root), root.level + 1) == root.subdirs
    ensures ChildrenFollow(Flatten(root))
  {
    FlattenPreorder(root.subdirs, root.level + 1);
    FlattenTopRows(root.subdirs, root.level + 1);
    FlattenChildrenFollow(root.subdirs, root.level + 1);
  }
}

=== FILE: i18n.dfy ===
/** Choosing the interface language: mapping a system locale to one of the
    supported languages, and the check made before switching language. */
module I18n {
  import opened Common

  /** The supported language codes, in declaration order. */
  const SupportedLanguages: seq<string> := ["en", "zh-CN"]

  const DefaultLanguage: string := "en"

  /** A code of the supported language table: exactly English and
      simplified Chinese. */
  predicate IsLanguageSupported(language: string): (r: bool)
    ensures r <==> language == "en" || language == "zh-CN"
  {
    language in SupportedLanguages
  }

  /** The `in` test as written against the language table: own keys and
      inherited ones alike. It agrees with `IsLanguageSupported` on every
      name an object does not inherit, and accepts every inherited one. */
  predicate InLanguageTable(language: string): (r: bool)
    ensures language !in ObjectPrototypeKeys ==> (r <==> IsLanguageSupported(language))
    ensures language in ObjectPrototypeKeys ==> r && !IsLanguageSupported(language)
  {
    language in SupportedLanguages || language in ObjectPrototypeKeys
  }

  // ---------------------------------------------------------------------------
  // Locale mapping

  /** The first `from` replaced by `to` (JavaScript `replace` with a string
      pattern). */
  function ReplaceFirst(s: string, from: char, to: char): (r: string)
    ensures from !in s ==> r == s
    ensures from in s ==> var i := IndexOf(s, from); r == s[..i] + [to] + s[i + 1..]
  {
    var i := IndexOf(s, from);
    if i < 0 then s else s[..i] + [to] + s[i + 1..]
  }

  /** The part of a tag before its first "-": its primary language subtag
      (section 2.1 of RFC 5646). */
  function PrimarySubtag(tag: string): string {
    Split(tag, '-')[0]
  }

  lemma {:induction false} PrimarySubtagIsPrefix(tag: string)
    ensures PrimarySubtag(tag) == if '-' in tag then tag[..IndexOf(tag, '-')] else tag
  {
    if tag != [] {
      PrimarySubtagIsPrefix(tag[1..]);
      assert tag == [tag[0]] + tag[1..];
      if tag[0] != '-' && '-' in tag[1..] {
        assert tag[..IndexOf(tag, '-')] == [tag[0]] + tag[1..][..IndexOf(tag[1..], '-')];
      }
    }
  }

  /** The first of `codes` that starts with `prefix`. */
  function FirstStartingWith(codes: seq<string>, prefix: string): (r: Option<string>)
    ensures r.Some? ==> r.value in codes && StartsWith(r.value, prefix)
    ensures r.None? <==> forall i :: 0 <= i < |codes| ==> !StartsWith(codes[i], prefix)
  {
    if codes == [] then None
    else if StartsWith(codes[0], prefix) then Some(codes[0])
    else FirstStartingWith(codes[1..], prefix)
  }

  /** The language for a locale, with the membership test as written: the
      locale itself when it is found in the table, otherwise the first
      supported code starting with its primary subtag, otherwise English. */
  function MapLocaleAsWritten(locale: string): string {
    var normalized := ReplaceFirst(locale, '_', '-');
    if InLanguageTable(normalized) then normalized
    else match FirstStartingWith(SupportedLanguages, PrimarySubtag(normalized))
      case Some(code) => code
      case None => DefaultLanguage
  }

  /** A locale naming an inherited property is returned as the language. */
  lemma InheritedNameMapsToItself()
    ensures MapLocaleAsWritten("toString") == "toString"
    ensures !IsLanguageSupported(MapLocaleAsWritten("toString"))
  {
    assert IndexOf("toString", '_') == -1;
  }

  /** The language for a locale: the normalised locale when it is a
      supported code, otherwise the first supported code starting with its
      primary subtag, otherwise English. */
  function MapLocale(locale: string): (r: string)
    ensures IsLanguageSupported(r)
  {
    var normalized := ReplaceFirst(locale, '_', '-');
    if IsLanguageSupported(normalized) then normalized
    else match FirstStartingWith(SupportedLanguages, PrimarySubtag(normalized))
      case Some(code) => code
      case None => DefaultLanguage
  }

  /** The two agree on every locale that does not normalise to an
      inherited property name. */
  lemma MapLocaleAgrees(locale: string)
    requires ReplaceFirst(locale, '_', '-') !in ObjectPrototypeKeys
    ensures MapLocaleAsWritten(locale) == MapLocale(locale)
  {
  }

  /** A supported code, written with "_" or "-", maps to itself. */
  lemma ExactCodeKept(locale: string)
    requires IsLanguageSupported(ReplaceFirst(locale, '_', '-'))
    ensures MapLocale(locale) == ReplaceFirst(locale, '_', '-')
  {
  }

  lemma UnderscoreNormalised()
    ensures MapLocale("zh_CN") == "zh-CN"
  {
    assert IndexOf("zh_CN", '_') == 2;
    assert ReplaceFirst("zh_CN", '_', '-') == "zh-CN";
  }

  /** Any other locale maps by its primary subtag: to the first supported
      code it begins, else to English. */
  lemma RegionFallback(locale: string)
    requires !IsLanguageSupported(ReplaceFirst(locale, '_', '-'))
    ensures var primary := PrimarySubtag(ReplaceFirst(locale, '_', '-'));
      && (StartsWith("en", primary) ==> MapLocale(locale) == "en")
      && (!StartsWith("en", primary) && StartsWith("zh-CN", primary) ==> MapLocale(locale) == "zh-CN")
      && (!StartsWith("en", primary) && !StartsWith("zh-CN", primary) ==> MapLocale(locale) == DefaultLanguage)
  {
    FirstOfSupported(PrimarySubtag(ReplaceFirst(locale, '_', '-')));
  }

  lemma FirstOfSupported(prefix: string)
    ensures FirstStartingWith(SupportedLanguages, prefix) ==
      if StartsWith("en", prefix) then Some("en")
      else if StartsWith("zh-CN", prefix) then Some("zh-CN")
      else None
  {
    assert SupportedLanguages[1..] == ["zh-CN"];
    assert SupportedLanguages[1..][1..] == [];
  }

  lemma TraditionalChineseFallsBack()
    ensures MapLocale("zh-TW") == "zh-CN"
  {
    TagFallback("zh-TW", "zh");
    RegionFallback("zh-TW");
  }

  lemma TagFallback(tag: string, primary: string)
    requires |tag| == 5 && tag[2] == '-' && '_' !in tag && '-' !in tag[..2] && primary == tag[..2]
    requires !IsLanguageSupported(tag)
    ensures PrimarySubtag(ReplaceFirst(tag, '_', '-')) == primary
    ensures !IsLanguageSupported(ReplaceFirst(tag, '_', '-'))
  {
    PrimarySubtagIsPrefix(tag);
    assert IndexOf(tag, '-') == 2;
  }

  // ---------------------------------------------------------------------------
  // Changing language

  function JoinedCodes(): string {
    Join(SupportedLanguages, ", ")
  }

  /** The message of the error raised for an unsupported code. */
  function InvalidLanguageMessage(language: string): string {
    "Invalid language code: " + language + ". Supported languages: " + JoinedCodes()
  }

  /** Switching language: an unsupported code fails before anything
      changes; a supported one becomes the language. */
  function ChangeLanguage(language: string): (r: Result<string, string>)
    ensures r.Ok? <==> IsLanguageSupported(language)
    ensures r.Ok? ==> r.value == language
    ensures r.Err? ==> StartsWith(r.error, "Invalid language code: " + language)
  {
    if !IsLanguageSupported(language) then Err(InvalidLanguageMessage(language))
    else Ok(language)
  }

  /** The switch with the `in` test as written: a name every object
      inherits passes the check as well. */
  function ChangeLanguageAsWritten(language: string): (r: Result<string, string>)
    ensures r.Ok? <==> InLanguageTable(language)
    ensures r.Ok? ==> r.value == language
    ensures r.Err? ==> r == ChangeLanguage(language)
  {
    if !InLanguageTable(language) then Err(InvalidLanguageMessage(language))
    else Ok(language)
  }

  /** As written, "toString" is accepted as a language; the intended check
      refuses it. */
  lemma InheritedNameAcceptedAsWritten()
    ensures ChangeLanguageAsWritten("toString") == Ok("toString")
    ensures ChangeLanguage("toString").Err?
  {
    assert "toString" in ObjectPrototypeKeys;
    assert "toString" != SupportedLanguages[0] && "toString" != SupportedLanguages[1];
  }

  /** The language a locale maps to can always be switched to. */
  lemma MappedLocaleAccepted(locale: string)
    ensures ChangeLanguage(MapLocale(locale)) == Ok(MapLocale(locale))
  {
  }
}

=== FILE: i18n_coverage.dfy ===
/** The translation coverage check: every leaf of the English file and of
    each other language file is named by its dotted key path; keys missing
    from a language, keys only the language has and keys with empty values
    are reported, and the exit status is decided from them. */
module I18nCoverage {
  import opened Common
  import TrUtil

  /** A parsed JSON value; an object lists its entries in order. */
  datatype Json = JNull | JBool(b: bool) | JNum(n: int) | JStr(s: string) | JArr(items: seq<Json>) | JObj(entries: seq<Entry>)
  datatype Entry = Entry(key: string, value: Json)

  // ---------------------------------------------------------------------------
  // Key extraction

  /** The key of an entry under `prefix`; an empty prefix adds no dot. */
  function FullKey(prefix: string, key: string): (r: string)
    ensures prefix == "" ==> r == key
    ensures prefix != "" ==> |r| == |prefix| + 1 + |key| && r[|prefix|] == '.' && r[..|prefix|] == prefix && r[|prefix| + 1..] == key
  {
    if prefix != "" then prefix + "." + key else key
  }

  /** The keys of an object's leaves, in entry order: a nested object is
      walked, anything else (arrays and null included) is a leaf. */
  function ObjectKeys(es: seq<Entry>, prefix: string): seq<string> {
    if es == [] then []
    else
      var e := es[|es| - 1];
      var full := FullKey(prefix, e.key);
      ObjectKeys(es[..|es| - 1], prefix) + (if e.value.JObj? then ObjectKeys(e.value.entries, full) else [full])
  }

  /** Key extraction as a loop over the entries, descending into nested
      objects. */
  method ExtractKeys(es: seq<Entry>, prefix: string) returns (keys: seq<string>)
    ensures keys == ObjectKeys(es, prefix)
    decreases es
  {
    keys := [];
    var i := 0;
    while i < |es|
      invariant 0 <= i <= |es|
      invariant keys == ObjectKeys(es[..i], prefix)
    {
      var e := es[i];
      var fullKey := FullKey(prefix, e.key);
      assert es[..i + 1][..i] == es[..i];
      if e.value.JObj? {
        var nested := ExtractKeys(e.value.entries, fullKey);
        keys := keys + nested;
      } else {
        keys := keys + [fullKey];
      }
      i := i + 1;
    }
    assert es[..|es|] == es;
  }

  /** The leaves as key paths: the reference the dotted keys are checked
      against. */
  function Paths(es: seq<Entry>): seq<seq<string>> {
    if es == [] then []
    else
      var e := es[|es| - 1];
      Paths(es[..|es| - 1]) + (if e.value.JObj? then Prefixed(e.key, Paths(e.value.entries)) else [[e.key]])
  }

  function Prefixed(key: string, ps: seq<seq<string>>): (r: seq<seq<string>>)
    ensures |r| == |ps| && forall i :: 0 <= i < |ps| ==> r[i] == [key] + ps[i]
  {
    seq(|ps|, i requires 0 <= i < |ps| => [key] + ps[i])
  }

  predicate HasKey(es: seq<Entry>, key: string) {
    exists j :: 0 <= j < |es| && es[j].key == key
  }

  /** Keys as a translation file has them: distinct within each object,
      not empty and free of dots, all the way down. */
  predicate WellKeyed(es: seq<Entry>) {
    && (forall i, j :: 0 <= i < j < |es| ==> es[i].key != es[j].key)
    && (forall i :: 0 <= i < |es| ==> es[i].key != "" && '.' !in es[i].key)
    && (forall i :: 0 <= i < |es| && es[i].value.JObj? ==> WellKeyed(es[i].value.entries))
  }

  lemma WellKeyedInit(es: seq<Entry>)
    requires WellKeyed(es) && es != []
    ensures WellKeyed(es[..|es| - 1])
  {
    var init := es[..|es| - 1];
    assert forall i :: 0 <= i < |init| ==> init[i] == es[i];
  }

  /** Every path is non-empty and begins with a key of the object; in a
      well-keyed object every segment is a non-empty key without dots. */
  lemma {:induction false} PathsShape(es: seq<Entry>)
    ensures forall i :: 0 <= i < |Paths(es)| ==> |Paths(es)[i]| >= 1 && HasKey(es, Paths(es)[i][0])
    ensures WellKeyed(es) ==> forall i, k :: 0 <= i < |Paths(es)| && 0 <= k < |Paths(es)[i]| ==>
      Paths(es)[i][k] != "" && '.' !in Paths(es)[i][k]
  {
    if es != [] {
      var init := es[..|es| - 1];
      var e := es[|es| - 1];
      PathsShape(init);
      if WellKeyed(es) {
        WellKeyedInit(es);
      }
      if e.value.JObj? {
        PathsShape(e.value.entries);
      }
      forall i | 0 <= i < |Paths(init)|
        ensures HasKey(es, Paths(init)[i][0])
      {
        var j :| 0 <= j < |init| && init[j].key == Paths(init)[i][0];
        assert es[j] == init[j];
      }
    }
  }

  /** The keys are the paths joined with dots, under the prefix. */
  lemma {:induction false} KeysArePaths(es: seq<Entry>, prefix: string)
    requires WellKeyed(es)
    ensures |ObjectKeys(es, prefix)| == |Paths(es)|
    ensures forall i :: 0 <= i < |Paths(es)| ==> ObjectKeys(es, prefix)[i] == FullKey(prefix, Join(Paths(es)[i], "."))
    decreases es, 0
  {
    if es != [] {
      var init := es[..|es| - 1];
      var e := es[|es| - 1];
      WellKeyedInit(es);
      KeysArePaths(init, prefix);
      var full := FullKey(prefix, e.key);
      var ks := if e.value.JObj? then ObjectKeys(e.value.entries, full) else [full];
      var ps := if e.value.JObj? then Prefixed(e.key, Paths(e.value.entries)) else [[e.key]];
      if e.value.JObj? {
        assert e == es[|es| - 1];
        NestedKeysArePaths(e.key, e.value.entries, prefix);
      }
      assert |ks| == |ps| && forall j :: 0 <= j < |ps| ==> ks[j] == FullKey(prefix, Join(ps[j], "."));
      KeysConcat(ObjectKeys(init, prefix), ks, Paths(init), ps, prefix);
    }
  }

  /** The keys below an object-valued entry are its own paths, each after
      the entry's key. */
  lemma {:induction false} NestedKeysArePaths(key: string, nested: seq<Entry>, prefix: string)
    requires key != "" && WellKeyed(nested)
    ensures var ks := ObjectKeys(nested, FullKey(prefix, key));
      var ps := Prefixed(key, Paths(nested));
      |ks| == |ps| && forall j :: 0 <= j < |ps| ==> ks[j] == FullKey(prefix, Join(ps[j], "."))
    decreases nested, 1
  {
    var full := FullKey(prefix, key);
    KeysArePaths(nested, full);
    PathsShape(nested);
    forall j | 0 <= j < |Paths(nested)|
      ensures ObjectKeys(nested, full)[j] == FullKey(prefix, Join([key] + Paths(nested)[j], "."))
    {
      var q := Paths(nested)[j];
      assert ([key] + q)[1..] == q;
      assert Join([key] + q, ".") == key + "." + Join(q, ".");
      if prefix != "" {
        assert full + "." + Join(q, ".") == prefix + "." + (key + "." + Join(q, "."));
      }
    }
  }

  /** Matching keys and paths stay matched when both lists are extended. */
  lemma KeysConcat(ka: seq<string>, kb: seq<string>, pa: seq<seq<string>>, pb: seq<seq<string>>, prefix: string)
    requires |ka| == |pa| && forall i :: 0 <= i < |pa| ==> ka[i] == FullKey(prefix, Join(pa[i], "."))
    requires |kb| == |pb| && forall i :: 0 <= i < |pb| ==> kb[i] == FullKey(prefix, Join(pb[i], "."))
    ensures |ka + kb| == |pa + pb|
    ensures forall i :: 0 <= i < |pa + pb| ==> (ka + kb)[i] == FullKey(prefix, Join((pa + pb)[i], "."))
  {
    forall i | 0 <= i < |pa + pb| ensures (ka + kb)[i] == FullKey(prefix, Join((pa + pb)[i], ".")) {
      if i >= |pa| {
        assert (ka + kb)[i] == kb[i - |pa|] && (pa + pb)[i] == pb[i - |pa|];
      }
    }
  }

  // ---------------------------------------------------------------------------
  // Reading a value by its dotted key

  /** The value of the first entry with the key. */
  function Lookup(es: seq<Entry>, key: string): (r: Option<Json>)
    ensures r.Some? <==> HasKey(es, key)
    ensures r.Some? ==> exists j :: 0 <= j < |es| && es[j].key == key && es[j].value == r.value
  {
    if es == [] then None
    else if es[0].key == key then Some(es[0].value)
    else
      var r := Lookup(es[1..], key);
      assert r.Some? ==> exists j :: 0 <= j < |es| - 1 && es[1..][j].key == key && es[1..][j].value == r.value;
      assert HasKey(es[1..], key) <==> HasKey(es, key);
      r
  }

  lemma {:induction false} LookupAppend(es: seq<Entry>, e: Entry, key: string)
    ensures Lookup(es + [e], key) ==
      if HasKey(es, key) then Lookup(es, key) else if e.key == key then Some(e.value) else None
  {
    if es == [] {
      assert [] + [e] == [e];
    } else {
      assert (es + [e])[1..] == es[1..] + [e];
      LookupAppend(es[1..], e, key);
      assert HasKey(es, key) <==> es[0].key == key || HasKey(es[1..], key);
    }
  }

  /** The array index a key names, as a canonical decimal numeral. */
  function IndexNamed(key: string, n: nat): (r: Option<nat>)
    ensures r.Some? ==> r.value < n && NatToString(r.value) == key
    ensures r.None? ==> forall i :: 0 <= i < n ==> NatToString(i) != key
  {
    if n == 0 then None
    else if NatToString(n - 1) == key then Some(n - 1)
    else IndexNamed(key, n - 1)
  }

  /** One step down a path: an object or array is indexed, anything else
      (and a missing value) gives nothing. */
  function Step(current: Option<Json>, key: string): Option<Json> {
    match current
      case Some(JObj(es)) => Lookup(es, key)
      case Some(JArr(items)) =>
        (match IndexNamed(key, |items|)
           case Some(i) => Some(items[i])
           case None => None)
      case _ => None
  }

  /** The steps of a path, first to last. */
  function Walk(current: Option<Json>, keys: seq<string>): Option<Json>
    decreases |keys|
  {
    if keys == [] then current else Walk(Step(current, keys[0]), keys[1..])
  }

  /** Once a step finds nothing, the rest of the path finds nothing. */
  lemma {:induction false} WalkFromNothing(keys: seq<string>)
    ensures Walk(None, keys) == None
  {
    if keys != [] {
      WalkFromNothing(keys[1..]);
    }
  }

  /** The value at a dotted key, or nothing. */
  function GetNestedValue(obj: Json, path: string): Option<Json> {
    Walk(Some(obj), Split(path, '.'))
  }

  /** A key without dots is looked up directly. */
  lemma SingleSegment(obj: Json, path: string)
    requires '.' !in path && obj.JObj?
    ensures GetNestedValue(obj, path) == Lookup(obj.entries, path)
  {
    SplitWithout(path, '.');
    assert Walk(Some(obj), [path]) == Walk(Step(Some(obj), path), [path][1..]);
    assert [path][1..] == [];
  }

  /** Nothing is found inside a value that is neither an object nor an
      array. */
  lemma NothingInsideLeaf(obj: Json, path: string)
    requires !obj.JObj? && !obj.JArr?
    ensures GetNestedValue(obj, path).None?
  {
    WalkFromNothing(Split(path, '.')[1..]);
  }

  /** Following a leaf's path from the top finds the leaf, never an
      object. */
  lemma {:induction false} PathsReadBack(es: seq<Entry>, i: nat)
    requires WellKeyed(es) && i < |Paths(es)|
    ensures var v := Walk(Some(JObj(es)), Paths(es)[i]); v.Some? && !v.value.JObj?
    decreases es, 1
  {
    var init := es[..|es| - 1];
    if i < |Paths(init)| {
      ReadBackInit(es, i);
    } else {
      ReadBackLast(es, i);
    }
  }

  /** `PathsReadBack` for a path of an entry before the last. */
  lemma {:induction false} ReadBackInit(es: seq<Entry>, i: nat)
    requires WellKeyed(es) && i < |Paths(es)| && es != [] && i < |Paths(es[..|es| - 1])|
    ensures var v := Walk(Some(JObj(es)), Paths(es)[i]); v.Some? && !v.value.JObj?
    decreases es, 0
  {
    var init := es[..|es| - 1];
    var e := es[|es| - 1];
    assert es == init + [e];
    WellKeyedInit(es);
    var p := Paths(es)[i];
    PathsReadBack(init, i);
    PathsShape(init);
    assert p == Paths(init)[i];
    LookupAppend(init, e, p[0]);
    WalkObject(init, p);
    WalkObject(es, p);
  }

  /** `PathsReadBack` for a path of the last entry. */
  lemma {:induction false} ReadBackLast(es: seq<Entry>, i: nat)
    requires WellKeyed(es) && i < |Paths(es)| && es != [] && i >= |Paths(es[..|es| - 1])|
    ensures var v := Walk(Some(JObj(es)), Paths(es)[i]); v.Some? && !v.value.JObj?
    decreases es, 0
  {
    var e := es[|es| - 1];
    var j := i - |Paths(es[..|es| - 1])|;
    var p := Paths(es)[i];
    LookupLast(es);
    LastPath(es, i);
    WalkObject(es, p);
    if e.value.JObj? {
      var q := Paths(e.value.entries)[j];
      assert p[0] == e.key && p[1..] == q;
      PathsReadBack(e.value.entries, j);
    }
  }

  /** In a well-keyed object the last entry is found by its key. */
  lemma LookupLast(es: seq<Entry>)
    requires WellKeyed(es) && es != []
    ensures Lookup(es, es[|es| - 1].key) == Some(es[|es| - 1].value)
  {
    var init := es[..|es| - 1];
    var e := es[|es| - 1];
    assert es == init + [e];
    assert !HasKey(init, e.key) by {
      assert forall j :: 0 <= j < |init| ==> init[j] == es[j];
    }
    LookupAppend(init, e, e.key);
  }

  /** A path of the last entry: its key, followed by a path inside it when
      it holds an object. */
  lemma LastPath(es: seq<Entry>, i: nat)
    requires es != [] && |Paths(es[..|es| - 1])| <= i < |Paths(es)|
    ensures var e := es[|es| - 1];
      var j := i - |Paths(es[..|es| - 1])|;
      if e.value.JObj? then j < |Paths(e.value.entries)| && Paths(es)[i] == [e.key] + Paths(e.value.entries)[j]
      else Paths(es)[i] == [e.key]
  {
  }

  /** A path into an object starts with a lookup of its first key. */
  lemma WalkObject(es: seq<Entry>, p: seq<string>)
    requires p != []
    ensures Walk(Some(JObj(es)), p) == Walk(Lookup(es, p[0]), p[1..])
  {
  }

  /** Reading back an extracted key finds the leaf it names. */
  lemma KeysReadBack(es: seq<Entry>, i: nat)
    requires WellKeyed(es) && i < |ObjectKeys(es, "")|
    ensures var v := GetNestedValue(JObj(es), ObjectKeys(es, "")[i]); v.Some? && !v.value.JObj?
  {
    KeysArePaths(es, "");
    PathsShape(es);
    var p := Paths(es)[i];
    TrUtil.SplitJoin(p, '.');
    PathsReadBack(es, i);
  }

  // ---------------------------------------------------------------------------
  // Comparing a language with the source

  predicate IsEmptyValue(v: Option<Json>) {
    v == Some(JStr("")) || v == Some(JNull)
  }

  datatype Comparison = Comparison(missing: seq<string>, extra: seq<string>, empty: seq<string>)

  /** Source keys the language lacks, language keys the source lacks, and
      language keys whose value is "" or null, each in the order of the
      list it is drawn from. */
  function Compare(sourceKeys: seq<string>, langKeys: seq<string>, lang: seq<Entry>): Comparison {
    Comparison(
      Filter(sourceKeys, (k: string) => k !in langKeys),
      Filter(langKeys, (k: string) => k !in sourceKeys),
      Filter(langKeys, (k: string) => IsEmptyValue(GetNestedValue(JObj(lang), k))))
  }

  lemma FilterMember<T>(s: seq<T>, keep: T -> bool, x: T)
    ensures x in Filter(s, keep) <==> x in s && keep(x)
  {
    var r := Filter(s, keep);
    if x in r {
      var i :| 0 <= i < |r| && r[i] == x;
    }
  }

  /** What each list holds. */
  lemma CompareSets(sourceKeys: seq<string>, langKeys: seq<string>, lang: seq<Entry>)
    ensures var c := Compare(sourceKeys, langKeys, lang);
      && (forall k :: k in c.missing <==> k in sourceKeys && k !in langKeys)
      && (forall k :: k in c.extra <==> k in langKeys && k !in sourceKeys)
      && (forall k :: k in c.empty <==> k in langKeys && IsEmptyValue(GetNestedValue(JObj(lang), k)))
  {
    var c := Compare(sourceKeys, langKeys, lang);
    forall k ensures k in c.missing <==> k in sourceKeys && k !in langKeys {
      FilterMember(sourceKeys, (k: string) => k !in langKeys, k);
    }
    forall k ensures k in c.extra <==> k in langKeys && k !in sourceKeys {
      FilterMember(langKeys, (k: string) => k !in sourceKeys, k);
    }
    forall k ensures k in c.empty <==> k in langKeys && IsEmptyValue(GetNestedValue(JObj(lang), k)) {
      FilterMember(langKeys, (k: string) => IsEmptyValue(GetNestedValue(JObj(lang), k)), k);
    }
  }

  predicate Complete(c: Comparison) {
    c.missing == [] && c.extra == [] && c.empty == []
  }

  /** A language is complete exactly when it has the source's keys, no
      others, and no empty value. */
  lemma CompleteMeansSameKeys(sourceKeys: seq<string>, langKeys: seq<string>, lang: seq<Entry>)
    ensures Complete(Compare(sourceKeys, langKeys, lang)) <==>
      && (forall k :: k in sourceKeys <==> k in langKeys)
      && (forall k :: k in langKeys ==> !IsEmptyValue(GetNestedValue(JObj(lang), k)))
  {
    var c := Compare(sourceKeys, langKeys, lang);
    CompareSets(sourceKeys, langKeys, lang);
    if !Complete(c) {
      if c.missing != [] {
        assert c.missing[0] in c.missing;
      } else if c.extra != [] {
        assert c.extra[0] in c.extra;
      } else {
        assert c.empty[0] in c.empty;
      }
    }
  }

  // ---------------------------------------------------------------------------
  // The run

  const SourceLang := "en.json"

  /** A locale file as read: unparsable, or an object. */
  datatype FileData = Unparsable | Parsed(entries: seq<Entry>)

  datatype LangFile = LangFile(name: string, data: FileData)

  /** One row of the summary table. */
  datatype LangResult = LangResult(language: string, total: nat, missing: nat, extra: nat, empty: nat)

  /** The files compared: JSON files other than the source. */
  predicate IsLangFile(f: LangFile) {
    EndsWith(f.name, ".json") && f.name != SourceLang
  }

  /** A language needs attention when it does not parse or is not
      complete. */
  predicate HasIssue(sourceKeys: seq<string>, f: LangFile) {
    match f.data
      case Unparsable => true
      case Parsed(es) => !Complete(Compare(sourceKeys, ObjectKeys(es, ""), es))
  }

  /** The first `pattern` replaced by `replacement` (JavaScript `replace`
      with a string pattern). */
  function ReplaceFirstOf(s: string, pattern: string, replacement: string): (r: string)
    ensures (forall i :: 0 <= i <= |s| ==> !(pattern <= s[i..])) ==> r == s
  {
    if pattern <= s then assert s[0..] == s; replacement + s[|pattern|..]
    else if s == [] then s
    else
      assert forall i :: 1 <= i <= |s| ==> s[i..] == s[1..][i - 1..];
      [s[0]] + ReplaceFirstOf(s[1..], pattern, replacement)
  }

  /** It is the first occurrence that is replaced. */
  lemma {:induction false} ReplaceFirstAt(s: string, pattern: string, replacement: string, i: int)
    requires FirstAt(s, pattern, i)
    ensures ReplaceFirstOf(s, pattern, replacement) == s[..i] + replacement + s[i + |pattern|..]
    decreases |s|, 1
  {
    if pattern <= s {
      FirstAtZero(s, pattern, i);
      ReplaceAtStart(s, pattern, replacement, i);
    } else {
      ReplaceFirstLater(s, pattern, replacement, i);
    }
  }

  /** `ReplaceFirstAt` when the first occurrence is not at the start. */
  lemma {:induction false} ReplaceFirstLater(s: string, pattern: string, replacement: string, i: int)
    requires !(pattern <= s) && FirstAt(s, pattern, i)
    ensures ReplaceFirstOf(s, pattern, replacement) == s[..i] + replacement + s[i + |pattern|..]
    decreases |s|, 0
  {
    FirstAtNext(s, pattern, i);
    ReplaceFirstAt(s[1..], pattern, replacement, i - 1);
    ReplaceFurther(s, pattern, replacement, i);
  }

  lemma ReplaceAtStart(s: string, pattern: string, replacement: string, i: int)
    requires pattern <= s && i == 0
    ensures ReplaceFirstOf(s, pattern, replacement) == s[..i] + replacement + s[i + |pattern|..]
  {
    assert s[..0] == [];
  }

  lemma ReplaceFurther(s: string, pattern: string, replacement: string, i: int)
    requires s != [] && !(pattern <= s) && 1 <= i && i - 1 + |pattern| <= |s| - 1
    requires s[..i] == [s[0]] + s[1..][..i - 1] && s[i + |pattern|..] == s[1..][i - 1 + |pattern|..]
    requires ReplaceFirstOf(s[1..], pattern, replacement) == s[1..][..i - 1] + replacement + s[1..][i - 1 + |pattern|..]
    ensures ReplaceFirstOf(s, pattern, replacement) == s[..i] + replacement + s[i + |pattern|..]
  {
    assert ReplaceFirstOf(s, pattern, replacement) == [s[0]] + ReplaceFirstOf(s[1..], pattern, replacement);
    ConsRegroup(s[0], s[1..][..i - 1], replacement, s[1..][i - 1 + |pattern|..]);
  }

  lemma ConsRegroup(x: char, a: string, m: string, b: string)
    ensures [x] + (a + m + b) == [x] + a + m + b
  {
  }

  /** `pattern` occurs at `i` in `s` and nowhere before. */
  predicate FirstAt(s: string, pattern: string, i: int) {
    0 <= i <= |s| && pattern <= s[i..] && forall j :: 0 <= j < i ==> NotAt(s, pattern, j)
  }

  predicate NotAt(s: string, pattern: string, j: int)
    requires 0 <= j <= |s|
  {
    !(pattern <= s[j..])
  }

  lemma FirstAtZero(s: string, pattern: string, i: int)
    requires pattern <= s && FirstAt(s, pattern, i)
    ensures i == 0
  {
    assert s[0..] == s;
    assert !NotAt(s, pattern, 0);
  }

  lemma FirstAtNext(s: string, pattern: string, i: int)
    requires !(pattern <= s) && FirstAt(s, pattern, i)
    ensures s != [] && i >= 1 && FirstAt(s[1..], pattern, i - 1) && i - 1 + |pattern| <= |s| - 1
    ensures s[..i] == [s[0]] + s[1..][..i - 1] && s[i + |pattern|..] == s[1..][i - 1 + |pattern|..]
  {
    assert s[0..] == s;
    assert s[1..][i - 1..] == s[i..];
    assert s[1..][..i - 1] == s[1..i];
    assert s[1..][i - 1 + |pattern|..] == s[i + |pattern|..];
    forall j | 0 <= j < i - 1 ensures NotAt(s[1..], pattern, j) {
      assert NotAt(s, pattern, j + 1);
      assert s[1..][j..] == s[j + 1..];
    }
  }

  function ResultOf(sourceKeys: seq<string>, name: string, es: seq<Entry>): LangResult {
    var langKeys := ObjectKeys(es, "");
    var c := Compare(sourceKeys, langKeys, es);
    LangResult(ReplaceFirstOf(name, ".json", ""), |langKeys|, |c.missing|, |c.extra|, |c.empty|)
  }

  /** The summary rows: one per language file that parses, in order. */
  function ResultsOf(sourceKeys: seq<string>, files: seq<LangFile>): seq<LangResult> {
    if files == [] then []
    else
      var f := files[|files| - 1];
      ResultsOf(sourceKeys, files[..|files| - 1]) +
        (match f.data
           case Unparsable => []
           case Parsed(es) => [ResultOf(sourceKeys, f.name, es)])
  }

  /** Some file of `fs` needs attention. */
  predicate AnyIssue(sourceKeys: seq<string>, fs: seq<LangFile>) {
    fs != [] && (AnyIssue(sourceKeys, fs[..|fs| - 1]) || HasIssue(sourceKeys, fs[|fs| - 1]))
  }

  lemma {:induction false} AnyIssueExists(sourceKeys: seq<string>, fs: seq<LangFile>)
    ensures AnyIssue(sourceKeys, fs) <==> exists f :: f in fs && HasIssue(sourceKeys, f)
  {
    if fs != [] {
      var init := fs[..|fs| - 1];
      AnyIssueExists(sourceKeys, init);
      assert fs == init + [fs[|fs| - 1]];
    }
  }

  /** The exit status: 1 when the locales directory or the source file is
      missing or the source does not parse; 0 when there is nothing to
      compare; otherwise 1 only in strict mode with some language needing
      attention. */
  function ExitStatus(localesExist: bool, source: Option<FileData>, files: seq<LangFile>, strict: bool): int {
    if !localesExist then 1
    else match source
      case None => 1
      case Some(Unparsable) => 1
      case Some(Parsed(src)) =>
        var langFiles := Filter(files, IsLangFile);
        if langFiles == [] then 0
        else if strict && AnyIssue(ObjectKeys(src, ""), langFiles) then 1
        else 0
  }

  /** The exit status is 1 exactly when the setup fails, or in strict mode
      when some language file needs attention; never otherwise. */
  lemma ExitRule(localesExist: bool, source: Option<FileData>, files: seq<LangFile>, strict: bool)
    ensures ExitStatus(localesExist, source, files, strict) in {0, 1}
    ensures ExitStatus(localesExist, source, files, strict) == 1 <==>
      || !localesExist
      || !(source.Some? && source.value.Parsed?)
      || (strict && exists f :: f in files && IsLangFile(f) && HasIssue(ObjectKeys(source.value.entries, ""), f))
  {
    if localesExist && source.Some? && source.value.Parsed? {
      var sourceKeys := ObjectKeys(source.value.entries, "");
      var langFiles := Filter(files, IsLangFile);
      AnyIssueExists(sourceKeys, langFiles);
      forall f ensures f in langFiles <==> f in files && IsLangFile(f) {
        FilterMember(files, IsLangFile, f);
      }
      if langFiles == [] {
        assert !AnyIssue(sourceKeys, langFiles);
      }
    }
  }

  /** The effect of one more file on the rows and on the issue flag. */
  lemma OneMoreFile(sourceKeys: seq<string>, fs: seq<LangFile>, i: nat)
    requires i < |fs|
    ensures ResultsOf(sourceKeys, fs[..i + 1]) == ResultsOf(sourceKeys, fs[..i]) +
      (match fs[i].data
         case Unparsable => []
         case Parsed(es) => [ResultOf(sourceKeys, fs[i].name, es)])
    ensures AnyIssue(sourceKeys, fs[..i + 1]) == (AnyIssue(sourceKeys, fs[..i]) || HasIssue(sourceKeys, fs[i]))
  {
    assert fs[..i + 1][..i] == fs[..i];
  }

  /** The script: compares every language file with the source, collects
      the summary rows and whether anything needs attention, and returns
      the exit status. */
  method CheckCoverage(localesExist: bool, source: Option<FileData>, files: seq<LangFile>, strict: bool)
    returns (exitCode: int, results: seq<LangResult>)
    ensures exitCode == ExitStatus(localesExist, source, files, strict)
    ensures source.Some? && source.value.Parsed? && localesExist ==>
      results == ResultsOf(ObjectKeys(source.value.entries, ""), Filter(files, IsLangFile))
  {
    results := [];
    if !localesExist {
      return 1, [];
    }
    if source.None? || source.value.Unparsable? {
      return 1, [];
    }
    var sourceKeys := ExtractKeys(source.value.entries, "");
    var langFiles := Filter(files, IsLangFile);
    if |langFiles| == 0 {
      return 0, [];
    }
    var hasIssues;
    hasIssues, results := CheckFiles(sourceKeys, langFiles);
    exitCode := if hasIssues && strict then 1 else 0;
  }

  /** The loop over the language files. */
  method CheckFiles(sourceKeys: seq<string>, langFiles: seq<LangFile>) returns (hasIssues: bool, results: seq<LangResult>)
    ensures hasIssues == AnyIssue(sourceKeys, langFiles)
    ensures results == ResultsOf(sourceKeys, langFiles)
  {
    hasIssues, results := false, [];
    var i := 0;
    while i < |langFiles|
      invariant 0 <= i <= |langFiles|
      invariant hasIssues == AnyIssue(sourceKeys, langFiles[..i])
      invariant results == ResultsOf(sourceKeys, langFiles[..i])
    {
      OneMoreFile(sourceKeys, langFiles, i);
      var row, issue := CheckFile(sourceKeys, langFiles[i]);
      results := results + row;
      hasIssues := hasIssues || issue;
      i := i + 1;
    }
    assert langFiles[..|langFiles|] == langFiles;
  }

  /** The body of that loop for one language file: its summary row, when
      it parses, and whether it needs attention. */
  method CheckFile(sourceKeys: seq<string>, langFile: LangFile) returns (row: seq<LangResult>, issue: bool)
    ensures row == match langFile.data
      case Unparsable => []
      case Parsed(es) => [ResultOf(sourceKeys, langFile.name, es)]
    ensures issue == HasIssue(sourceKeys, langFile)
  {
    if langFile.data.Unparsable? {
      return [], true;
    }
    var langKeys := ExtractKeys(langFile.data.entries, "");
    var c := Compare(sourceKeys, langKeys, langFile.data.entries);
    row := [LangResult(ReplaceFirstOf(langFile.name, ".json", ""), |langKeys|, |c.missing|, |c.extra|, |c.empty|)];
    issue := !(c.missing == [] && c.extra == [] && c.empty == []);
  }
}

=== FILE: ipc.dfy ===
/** The local control server of the backend (127.0.0.1:44321). It hands
    command-line arguments of a second instance to the running one, proxies
    RPC calls of the web view to Transmission (adding CORS headers), and
    answers geo-IP lookups. Sending and receiving are abstract: the outcome
    of a proxied call, JSON parsing, IP parsing, percent-decoding and the
    geo-IP database are inputs of the model. */
module IpcServer {
  import opened Common

  const Address := "127.0.0.1:44321"

  /** Origins allowed by a release build (custom protocol) and by a
      development build. */
  const ReleaseOrigins: seq<string> := ["tauri://localhost", "http://tauri.localhost"]
  const DevOrigins: seq<string> := ["http://localhost:8080"]

  function AllowedOrigins(customProtocol: bool): seq<string> {
    if customProtocol then ReleaseOrigins else DevOrigins
  }

  const AllowOrigin := "access-control-allow-origin"
  const AllowHeaders := "access-control-allow-headers"
  const ExposeHeaders := "access-control-expose-headers"
  const AllowMethods := "access-control-allow-methods"
  const SessionIdHeader := "x-transmission-session-id"

  datatype HttpResponse = HttpResponse(status: int, headers: Headers, body: string)

  /** The CORS headers of section 3.2 of the WHATWG Fetch Standard, added
      to the headers of a response on the way out. */
  function Cors(requestHeaders: Headers, headers: Headers, allowed: seq<string>): Headers {
    var withoutOrigin := RemoveHeader(headers, AllowOrigin);
    var withOrigin := withoutOrigin + OriginPart(requestHeaders, allowed);
    var withAllowHeaders := withOrigin + [(AllowHeaders, "*")];
    var withExpose := withAllowHeaders + ExposePart(withAllowHeaders);
    withExpose + [(AllowMethods, "POST, OPTIONS")]
  }

  /** The allow-origin header to append: the request Origin when it equals
      an allowed origin, else nothing. */
  function OriginPart(requestHeaders: Headers, allowed: seq<string>): Headers {
    match HeaderGet(requestHeaders, "origin")
    case Some(o) => if o in allowed then [(AllowOrigin, o)] else []
    case None => []
  }

  /** The expose header to append unless one is present. */
  function ExposePart(headers: Headers): Headers {
    if HasHeader(headers, ExposeHeaders) then [] else [(ExposeHeaders, "X-Transmission-Session-Id")]
  }

  /** The request Origin is echoed exactly when it is on the allow list;
      whatever allow-origin values the response had are gone. */
  function EchoedOrigin(requestHeaders: Headers, allowed: seq<string>): seq<string> {
    match HeaderGet(requestHeaders, "origin")
    case Some(o) => if o in allowed then [o] else []
    case None => []
  }

  /** The headers after `Cors`, as five consecutive pieces. */
  lemma CorsShape(requestHeaders: Headers, headers: Headers, allowed: seq<string>)
    ensures Cors(requestHeaders, headers, allowed) ==
      RemoveHeader(headers, AllowOrigin) + OriginPart(requestHeaders, allowed) + [(AllowHeaders, "*")]
      + ExposePart(headers) + [(AllowMethods, "POST, OPTIONS")]
  {
    var withoutOrigin := RemoveHeader(headers, AllowOrigin);
    var withOrigin := withoutOrigin + OriginPart(requestHeaders, allowed);
    var withAllowHeaders := withOrigin + [(AllowHeaders, "*")];
    HeaderValuesAppend(withoutOrigin, OriginPart(requestHeaders, allowed), ExposeHeaders);
    HeaderValuesAppend(withOrigin, [(AllowHeaders, "*")], ExposeHeaders);
    HasHeaderValues(withAllowHeaders, ExposeHeaders);
    HasHeaderValues(headers, ExposeHeaders);
    assert ExposePart(withAllowHeaders) == ExposePart(headers);
  }

  lemma CorsValues(requestHeaders: Headers, headers: Headers, allowed: seq<string>, n: string)
    ensures HeaderValues(Cors(requestHeaders, headers, allowed), n) ==
      HeaderValues(RemoveHeader(headers, AllowOrigin), n) + HeaderValues(OriginPart(requestHeaders, allowed), n)
      + HeaderValues([(AllowHeaders, "*")], n) + HeaderValues(ExposePart(headers), n)
      + HeaderValues([(AllowMethods, "POST, OPTIONS")], n)
  {
    CorsShape(requestHeaders, headers, allowed);
    var a := RemoveHeader(headers, AllowOrigin);
    var b := a + OriginPart(requestHeaders, allowed);
    var c := b + [(AllowHeaders, "*")];
    var d := c + ExposePart(headers);
    HeaderValuesAppend(a, OriginPart(requestHeaders, allowed), n);
    HeaderValuesAppend(b, [(AllowHeaders, "*")], n);
    HeaderValuesAppend(c, ExposePart(headers), n);
    HeaderValuesAppend(d, [(AllowMethods, "POST, OPTIONS")], n);
  }

  /** The four CORS header names are pairwise different. */
  lemma CorsNamesDistinct()
    ensures AllowOrigin != AllowHeaders && AllowOrigin != ExposeHeaders && AllowOrigin != AllowMethods
    ensures AllowHeaders != ExposeHeaders && AllowHeaders != AllowMethods && ExposeHeaders != AllowMethods
  {
    assert AllowHeaders[21] != AllowMethods[21];
    assert AllowOrigin[15] != ExposeHeaders[15];
  }

  lemma SingleHeaderValues(name: string, value: string, n: string)
    ensures HeaderValues([(name, value)], n) == if name == n then [value] else []
  {
    assert [(name, value)][1..] == [];
  }

  /** The values of any one header name after `Cors`, piece by piece. */
  lemma CorsValuesOf(requestHeaders: Headers, headers: Headers, allowed: seq<string>, n: string)
    ensures HeaderValues(Cors(requestHeaders, headers, allowed), n) ==
      (if n == AllowOrigin then [] else HeaderValues(headers, n))
      + (if n == AllowOrigin then EchoedOrigin(requestHeaders, allowed) else [])
      + (if n == AllowHeaders then ["*"] else [])
      + (if n == ExposeHeaders && !HasHeader(headers, ExposeHeaders) then ["X-Transmission-Session-Id"] else [])
      + (if n == AllowMethods then ["POST, OPTIONS"] else [])
  {
    CorsValues(requestHeaders, headers, allowed, n);
    assert HeaderValues(OriginPart(requestHeaders, allowed), n) ==
      (if n == AllowOrigin then EchoedOrigin(requestHeaders, allowed) else []) by {
      match HeaderGet(requestHeaders, "origin")
      case Some(o) => SingleHeaderValues(AllowOrigin, o, n);
      case None =>
    }
    SingleHeaderValues(AllowHeaders, "*", n);
    SingleHeaderValues(ExposeHeaders, "X-Transmission-Session-Id", n);
    SingleHeaderValues(AllowMethods, "POST, OPTIONS", n);
  }

  // The four lemmas below take the header name as a parameter `n`, so that
  // the solver compares the literal names only through `CorsNamesDistinct`.

  lemma CorsOriginValues(requestHeaders: Headers, headers: Headers, allowed: seq<string>, n: string)
    requires n == AllowOrigin
    ensures HeaderValues(Cors(requestHeaders, headers, allowed), n) == EchoedOrigin(requestHeaders, allowed)
  {
    var b := EchoedOrigin(requestHeaders, allowed);
    assert HeaderValues(Cors(requestHeaders, headers, allowed), n) == [] + b + [] + [] + [] by {
      CorsNamesDistinct();
      CorsValuesOf(requestHeaders, headers, allowed, n);
    }
    assert [] + b + [] + [] + [] == b;
  }

  lemma CorsHeadersValues(requestHeaders: Headers, headers: Headers, allowed: seq<string>, n: string)
    requires n == AllowHeaders
    ensures HeaderValues(Cors(requestHeaders, headers, allowed), n) == HeaderValues(headers, n) + ["*"]
  {
    var a := HeaderValues(headers, n);
    assert HeaderValues(Cors(requestHeaders, headers, allowed), n) == a + [] + ["*"] + [] + [] by {
      CorsNamesDistinct();
      CorsValuesOf(requestHeaders, headers, allowed, n);
    }
    assert a + [] + ["*"] + [] + [] == a + ["*"];
  }

  lemma CorsExposeValues(requestHeaders: Headers, headers: Headers, allowed: seq<string>, n: string)
    requires n == ExposeHeaders
    ensures HeaderValues(Cors(requestHeaders, headers, allowed), n) ==
      if HasHeader(headers, n) then HeaderValues(headers, n) else ["X-Transmission-Session-Id"]
  {
    var a := HeaderValues(headers, n);
    HasHeaderValues(headers, n);
    var d: seq<string> := if HasHeader(headers, n) then [] else ["X-Transmission-Session-Id"];
    assert HeaderValues(Cors(requestHeaders, headers, allowed), n) == a + [] + [] + d + [] by {
      CorsNamesDistinct();
      CorsValuesOf(requestHeaders, headers, allowed, n);
    }
    assert a + [] + [] + d + [] == a + d;
  }

  lemma CorsMethodsValues(requestHeaders: Headers, headers: Headers, allowed: seq<string>, n: string)
    requires n == AllowMethods
    ensures HeaderValues(Cors(requestHeaders, headers, allowed), n) == HeaderValues(headers, n) + ["POST, OPTIONS"]
  {
    var a := HeaderValues(headers, n);
    assert HeaderValues(Cors(requestHeaders, headers, allowed), n) == a + [] + [] + [] + ["POST, OPTIONS"] by {
      CorsNamesDistinct();
      CorsValuesOf(requestHeaders, headers, allowed, n);
    }
    assert a + [] + [] + [] + ["POST, OPTIONS"] == a + ["POST, OPTIONS"];
  }

  /** The request Origin is echoed exactly when it is on the allow list;
      whatever allow-origin values the response had are gone. */
  lemma CorsAllowOrigin(requestHeaders: Headers, headers: Headers, allowed: seq<string>)
    ensures HeaderValues(Cors(requestHeaders, headers, allowed), AllowOrigin) == EchoedOrigin(requestHeaders, allowed)
  {
    CorsOriginValues(requestHeaders, headers, allowed, AllowOrigin);
  }

  /** "*" is always added to the allowed headers. */
  lemma CorsAllowHeaders(requestHeaders: Headers, headers: Headers, allowed: seq<string>)
    ensures HeaderValues(Cors(requestHeaders, headers, allowed), AllowHeaders) == HeaderValues(headers, AllowHeaders) + ["*"]
  {
    CorsHeadersValues(requestHeaders, headers, allowed, AllowHeaders);
  }

  /** The session-id header is exposed unless the response already exposes
      something, which is then kept as it was. */
  lemma CorsExposeHeaders(requestHeaders: Headers, headers: Headers, allowed: seq<string>)
    ensures HeaderValues(Cors(requestHeaders, headers, allowed), ExposeHeaders) ==
      if HasHeader(headers, ExposeHeaders) then HeaderValues(headers, ExposeHeaders) else ["X-Transmission-Session-Id"]
  {
    CorsExposeValues(requestHeaders, headers, allowed, ExposeHeaders);
  }

  /** "POST, OPTIONS" is always added to the allowed methods. */
  lemma CorsAllowMethods(requestHeaders: Headers, headers: Headers, allowed: seq<string>)
    ensures HeaderValues(Cors(requestHeaders, headers, allowed), AllowMethods) ==
      HeaderValues(headers, AllowMethods) + ["POST, OPTIONS"]
  {
    CorsMethodsValues(requestHeaders, headers, allowed, AllowMethods);
  }

  /** No header outside the four CORS names changes. */
  lemma CorsOtherHeaders(requestHeaders: Headers, headers: Headers, allowed: seq<string>, n: string)
    requires n != AllowOrigin && n != AllowHeaders && n != ExposeHeaders && n != AllowMethods
    ensures HeaderValues(Cors(requestHeaders, headers, allowed), n) == HeaderValues(headers, n)
  {
    CorsValuesOf(requestHeaders, headers, allowed, n);
    var a := HeaderValues(headers, n);
    assert a + [] + [] + [] + [] == a;
  }

  // ---------------------------------------------------------------------------
  // Fixed replies

  function NotFound(): HttpResponse {
    HttpResponse(404, [], "NOT FOUND")
  }

  function TimedOut(requestHeaders: Headers, allowed: seq<string>): HttpResponse {
    HttpResponse(408, Cors(requestHeaders, [], allowed), "Request timed out")
  }

  function FetchError(requestHeaders: Headers, allowed: seq<string>): HttpResponse {
    HttpResponse(503, Cors(requestHeaders, [], allowed), "Proxy fetch error")
  }

  function InvalidRequest(requestHeaders: Headers, msg: string, allowed: seq<string>): HttpResponse {
    HttpResponse(400, Cors(requestHeaders, [], allowed), "INVALID REQUEST: " + msg)
  }

  // ---------------------------------------------------------------------------
  // Routing

  datatype Method = Post | Options | OtherMethod(name: string)

  datatype Request = Request(verb: Method, path: string, query: Option<string>, headers: Headers, body: string)

  datatype Route = RejectContentType | DeliverArgs | Preflight | Proxy(inspect: bool) | IpLookup | NoRoute

  /** The Content-Type gate and the route table. */
  function RouteOf(request: Request): (r: Route)
    ensures r == RejectContentType <==>
      request.verb != Options && HeaderGet(request.headers, "content-type") != Some("application/json")
    ensures r == Preflight <==> request.verb == Options
    ensures r == DeliverArgs <==> r != RejectContentType && request.verb == Post && request.path == "/args"
    ensures r == Proxy(false) <==> r != RejectContentType && request.verb == Post && request.path == "/post"
    ensures r == Proxy(true) <==> r != RejectContentType && request.verb == Post && request.path == "/torrentget"
    ensures r == IpLookup <==> r != RejectContentType && request.verb == Post && request.path == "/iplookup"
    ensures r == NoRoute <==> (r != RejectContentType && (request.verb.OtherMethod? ||
      (request.verb == Post && request.path !in ["/args", "/post", "/torrentget", "/iplookup"])))
  {
    var contentType := match HeaderGet(request.headers, "content-type") case Some(v) => v case None => "";
    if contentType != "application/json" && request.verb != Options then RejectContentType
    else
      match request.verb
      case Options => Preflight
      case Post =>
        if request.path == "/args" then DeliverArgs
        else if request.path == "/post" then Proxy(false)
        else if request.path == "/torrentget" then Proxy(true)
        else if request.path == "/iplookup" then IpLookup
        else NoRoute
      case OtherMethod(_) => NoRoute
  }

  // ---------------------------------------------------------------------------
  // The `url` query parameter

  /** The part of a query segment before its first "=", and the part between
      the first and the second "=". */
  function Key(segment: string): string {
    Split(segment, '=')[0]
  }

  function Value(segment: string): string
    requires '=' in segment
  {
    SplitCount(segment, '=');
    Split(segment, '=')[1]
  }

  /** Every segment the search for `url` reads has an "=" (a segment without
      one stops the handler). */
  predicate UrlSearchDefined(segments: seq<string>) {
    segments == [] || ('=' in segments[0] && (Key(segments[0]) == "url" || UrlSearchDefined(segments[1..])))
  }

  /** The value of the first segment whose key is `url`. */
  function FindUrl(segments: seq<string>): (r: Option<string>)
    requires UrlSearchDefined(segments)
    ensures r.None? <==> forall i :: 0 <= i < |segments| ==> Key(segments[i]) != "url"
    ensures r.Some? ==> exists i :: (0 <= i < |segments| && '=' in segments[i] && Key(segments[i]) == "url"
      && r.value == Value(segments[i]) && forall j :: 0 <= j < i ==> Key(segments[j]) != "url")
  {
    if segments == [] then None
    else if Key(segments[0]) == "url" then Some(Value(segments[0]))
    else
      var r := FindUrl(segments[1..]);
      if r.Some? then
        var i :| 0 <= i < |segments[1..]| && '=' in segments[1..][i] && Key(segments[1..][i]) == "url"
          && r.value == Value(segments[1..][i]) && forall j :: 0 <= j < i ==> Key(segments[1..][j]) != "url";
        assert segments[i + 1] == segments[1..][i];
        r
      else r
  }

  /** The forwarded request: JSON content type, plus the session id and
      the credentials of the incoming request when it has them. */
  datatype Forward = Forward(url: string, headers: Headers, body: string)

  function ForwardRequest(url: string, requestHeaders: Headers, body: string): (f: Forward)
    ensures f.url == url && f.body == body
    ensures HeaderValues(f.headers, "content-type") == ["application/json"]
    ensures HeaderValues(f.headers, SessionIdHeader) ==
      (match HeaderGet(requestHeaders, SessionIdHeader) case Some(v) => [v] case None => [])
    ensures HeaderValues(f.headers, "authorization") ==
      (match HeaderGet(requestHeaders, "authorization") case Some(v) => [v] case None => [])
  {
    var session: Headers :=
      match HeaderGet(requestHeaders, SessionIdHeader) case Some(v) => [(SessionIdHeader, v)] case None => [];
    var auth: Headers :=
      match HeaderGet(requestHeaders, "authorization") case Some(v) => [("authorization", v)] case None => [];
    var headers := [("content-type", "application/json")] + session + auth;
    HeaderValuesAppend([("content-type", "application/json")] + session, auth, "content-type");
    HeaderValuesAppend([("content-type", "application/json")], session, "content-type");
    HeaderValuesAppend([("content-type", "application/json")] + session, auth, SessionIdHeader);
    HeaderValuesAppend([("content-type", "application/json")], session, SessionIdHeader);
    HeaderValuesAppend([("content-type", "application/json")] + session, auth, "authorization");
    HeaderValuesAppend([("content-type", "application/json")], session, "authorization");
    Forward(url, headers, body)
  }

  // ---------------------------------------------------------------------------
  // Proxying

  /** What sending the forwarded request gave: a reply (whose body could or
      could not be read), a timeout, or another failure (with the status the
      client library attached, if any). */
  datatype SendOutcome =
    | Received(status: int, headers: Headers, body: Option<string>)
    | SendTimedOut
    | SendFailed(errorStatus: Option<int>, message: string)

  /** A reply handed to the completion inspector: body, origin and flags. */
  datatype Inspection = Inspection(body: string, origin: string, toast: bool, sound: bool)

  datatype ProxyOutcome = ProxyOutcome(forward: Option<Forward>, response: HttpResponse, inspection: Option<Inspection>)

  predicate IsSuccess(status: int) {
    200 <= status < 300
  }

  predicate ProxyDefined(request: Request, decode: string -> Option<string>) {
    request.query.Some? ==>
      var segments := Split(request.query.value, '&');
      && UrlSearchDefined(segments)
      && (FindUrl(segments).Some? ==> decode(FindUrl(segments).value).Some?)
  }

  function ProxyFetch(request: Request, inspect: bool, allowed: seq<string>,
                      decode: string -> Option<string>, send: SendOutcome): (r: ProxyOutcome)
    requires ProxyDefined(request, decode)
    ensures request.query.None? ==>
      r == ProxyOutcome(None, InvalidRequest(request.headers, "no query parameters", allowed), None)
    ensures request.query.Some? && FindUrl(Split(request.query.value, '&')).None? ==>
      r == ProxyOutcome(None, InvalidRequest(request.headers, "no url query parameter", allowed), None)
    ensures r.inspection.Some? <==>
      r.forward.Some? && inspect && send.Received? && IsSuccess(send.status) && send.body.Some?
    ensures r.inspection.Some? ==> r.inspection.value == Inspection(send.body.value, r.forward.value.url,
      HasHeader(request.headers, "x-trguing-toast"), HasHeader(request.headers, "x-trguing-sound"))
    ensures r.forward.Some? ==>
      && r.forward.value.url == decode(FindUrl(Split(request.query.value, '&')).value).value
      && r.response == SentResponse(request, allowed, send)
    ensures request.query.Some? && FindUrl(Split(request.query.value, '&')).Some? ==>
      && r.forward == Some(ForwardRequest(decode(FindUrl(Split(request.query.value, '&')).value).value,
        request.headers, request.body))
      && r.response == SentResponse(request, allowed, send)
  {
    match request.query
    case None => ProxyOutcome(None, InvalidRequest(request.headers, "no query parameters", allowed), None)
    case Some(query) =>
      match FindUrl(Split(query, '&'))
      case None => ProxyOutcome(None, InvalidRequest(request.headers, "no url query parameter", allowed), None)
      case Some(encoded) =>
        var url := decode(encoded).value;
        var forward := ForwardRequest(url, request.headers, request.body);
        var inspection :=
          if send.Received? && send.body.Some? && IsSuccess(send.status) && inspect then
            Some(Inspection(send.body.value, url,
              HasHeader(request.headers, "x-trguing-toast"), HasHeader(request.headers, "x-trguing-sound")))
          else None;
        ProxyOutcome(Some(forward), SentResponse(request, allowed, send), inspection)
  }

  /** The reply to a forwarded request: the remote status, headers and body
      with CORS added; 503 with CORS when the body cannot be read; 408 with
      CORS on a timeout; any other failure keeps its status (503 if none)
      and carries no CORS headers. */
  function SentResponse(request: Request, allowed: seq<string>, send: SendOutcome): HttpResponse {
    match send
    case Received(status, headers, body) =>
      if body.None? then FetchError(request.headers, allowed)
      else HttpResponse(status, Cors(request.headers, RebuildHeaders(headers), allowed), body.value)
    case SendTimedOut => TimedOut(request.headers, allowed)
    case SendFailed(status, message) =>
      HttpResponse(match status case Some(s) => s case None => 503, [], message)
  }

  /** Only a send failure that is not a timeout leaves the reply without
      CORS headers; every other reply carries them. */
  lemma SentResponseCors(request: Request, allowed: seq<string>, send: SendOutcome)
    ensures var r := SentResponse(request, allowed, send);
      HasHeader(r.headers, AllowMethods) <==> !send.SendFailed?
  {
    var r := SentResponse(request, allowed, send);
    if !send.SendFailed? {
      var base := if send.Received? && send.body.Some? then RebuildHeaders(send.headers) else [];
      CorsAllowMethods(request.headers, base, allowed);
      assert HeaderValues(r.headers, AllowMethods) != [];
      HasHeaderValues(r.headers, AllowMethods);
    }
  }

  // ---------------------------------------------------------------------------
  // Geo-IP lookup

  datatype IpAddr = V4(octets: seq<int>) | V6(segments: seq<int>)

  /** One line "entry: error" for every entry that is not an IP address, in
      input order. */
  function IpErrorLines(entries: seq<string>, parseIp: string -> Result<IpAddr, string>): (r: seq<string>)
    ensures r == [] <==> forall i :: 0 <= i < |entries| ==> parseIp(entries[i]).Ok?
    ensures forall i :: 0 <= i < |entries| && parseIp(entries[i]).Err? ==>
      entries[i] + ": " + parseIp(entries[i]).error in r
    ensures forall k :: 0 <= k < |r| ==> exists i :: (0 <= i < |entries| && parseIp(entries[i]).Err? &&
      r[k] == entries[i] + ": " + parseIp(entries[i]).error)
  {
    if entries == [] then []
    else
      var rest := IpErrorLines(entries[1..], parseIp);
      var head := match parseIp(entries[0]) case Err(e) => [entries[0] + ": " + e] case Ok(_) => [];
      assert forall i :: 1 <= i < |entries| ==> entries[i] == entries[1..][i - 1];
      head + rest
  }

  /** The error lines of two lists one after the other are the lines of the
      first followed by those of the second: the lines keep input order. */
  lemma {:induction false} IpErrorLinesConcat(a: seq<string>, b: seq<string>, parseIp: string -> Result<IpAddr, string>)
    ensures IpErrorLines(a + b, parseIp) == IpErrorLines(a, parseIp) + IpErrorLines(b, parseIp)
  {
    if a == [] {
      assert a + b == b;
    } else {
      assert (a + b)[0] == a[0] && (a + b)[1..] == a[1..] + b;
      IpErrorLinesConcat(a[1..], b, parseIp);
    }
  }

  /** One entry gives one line "entry: error" when it is not an address, and
      none when it is. */
  lemma IpErrorLinesSingle(entry: string, parseIp: string -> Result<IpAddr, string>)
    ensures IpErrorLines([entry], parseIp) ==
      match parseIp(entry) case Err(e) => [entry + ": " + e] case Ok(_) => []
  {
    assert [entry][1..] == [];
  }

  function ParsedIps(entries: seq<string>, parseIp: string -> Result<IpAddr, string>): (r: seq<IpAddr>)
    requires forall i :: 0 <= i < |entries| ==> parseIp(entries[i]).Ok?
    ensures |r| == |entries| && forall i :: 0 <= i < |entries| ==> parseIp(entries[i]) == Ok(r[i])
  {
    if entries == [] then [] else [parseIp(entries[0]).value] + ParsedIps(entries[1..], parseIp)
  }

  datatype LookupOutcome = LookupOutcome(response: HttpResponse, looked: Option<seq<IpAddr>>)

  /** The body must be a JSON array of strings; a list with any entry that is
      not an IP address is refused with one reply naming every bad entry;
      only a fully valid list reaches the lookup, whose JSON answer is sent
      with CORS. */
  function GeoipLookup(request: Request, allowed: seq<string>,
                       parseJson: string -> Result<seq<string>, string>,
                       parseIp: string -> Result<IpAddr, string>,
                       lookup: seq<IpAddr> -> Option<string>): (r: LookupOutcome)
    ensures parseJson(request.body).Err? ==> r == LookupOutcome(
      InvalidRequest(request.headers, "Can not parse json: " + parseJson(request.body).error + "\n", allowed), None)
    ensures r.looked.Some? <==> (parseJson(request.body).Ok? &&
      forall i :: 0 <= i < |parseJson(request.body).value| ==> parseIp(parseJson(request.body).value[i]).Ok?)
    ensures r.looked.Some? ==> r.response.status == 200 && |r.looked.value| == |parseJson(request.body).value|
    ensures r.looked.Some? ==>
      && r.looked.value == ParsedIps(parseJson(request.body).value, parseIp)
      && r.response == HttpResponse(200, Cors(request.headers, [], allowed),
        match lookup(r.looked.value) case Some(j) => j case None => "Error serializing response")
    ensures parseJson(request.body).Ok? && r.looked.None? ==> r.response == InvalidRequest(request.headers,
      Join(IpErrorLines(parseJson(request.body).value, parseIp), "\n") + "\n", allowed)
  {
    match parseJson(request.body)
    case Err(e) => LookupOutcome(InvalidRequest(request.headers, "Can not parse json: " + e + "\n", allowed), None)
    case Ok(entries) =>
      var errors := IpErrorLines(entries, parseIp);
      if errors != [] then
        LookupOutcome(InvalidRequest(request.headers, Join(errors, "\n") + "\n", allowed), None)
      else
        var ips := ParsedIps(entries, parseIp);
        var json := match lookup(ips) case Some(j) => j case None => "Error serializing response";
        LookupOutcome(HttpResponse(200, Cors(request.headers, [], allowed), json), Some(ips))
  }

  // ---------------------------------------------------------------------------
  // The whole request handler

  /** What serving one request does besides replying. */
  datatype Effect = NoEffect | Deliver(payload: string) | Proxied(proxied: ProxyOutcome) | Looked(lookedUp: LookupOutcome)

  function Handle(request: Request, allowed: seq<string>,
                  decode: string -> Option<string>, send: SendOutcome,
                  parseJson: string -> Result<seq<string>, string>,
                  parseIp: string -> Result<IpAddr, string>,
                  lookup: seq<IpAddr> -> Option<string>): (r: (HttpResponse, Effect))
    requires RouteOf(request).Proxy? ==> ProxyDefined(request, decode)
    ensures RouteOf(request) == RejectContentType ==>
      r == (InvalidRequest(request.headers, "unexpected content-type", allowed), NoEffect)
    ensures r.1.Deliver? <==> RouteOf(request) == DeliverArgs
    ensures r.1.Deliver? ==> r == (HttpResponse(200, [], "TrguiNG OK"), Deliver(request.body))
    ensures RouteOf(request) == Preflight ==> r == (HttpResponse(200, Cors(request.headers, [], allowed), ""), NoEffect)
    ensures RouteOf(request) == NoRoute ==> r == (NotFound(), NoEffect)
    ensures r.1.Proxied? ==> r.1.proxied.inspection.Some? ==> request.path == "/torrentget"
    ensures r.1.Proxied? <==> RouteOf(request).Proxy?
    ensures RouteOf(request).Proxy? ==>
      var outcome := ProxyFetch(request, RouteOf(request).inspect, allowed, decode, send);
      r == (outcome.response, Proxied(outcome))
    ensures r.1.Looked? <==> RouteOf(request) == IpLookup
    ensures RouteOf(request) == IpLookup ==>
      var outcome := GeoipLookup(request, allowed, parseJson, parseIp, lookup);
      r == (outcome.response, Looked(outcome))
  {
    match RouteOf(request)
    case RejectContentType => (InvalidRequest(request.headers, "unexpected content-type", allowed), NoEffect)
    case DeliverArgs => (HttpResponse(200, [], "TrguiNG OK"), Deliver(request.body))
    case Preflight => (HttpResponse(200, Cors(request.headers, [], allowed), ""), NoEffect)
    case Proxy(inspect) =>
      var outcome := ProxyFetch(request, inspect, allowed, decode, send);
      (outcome.response, Proxied(outcome))
    case IpLookup =>
      var outcome := GeoipLookup(request, allowed, parseJson, parseIp, lookup);
      (outcome.response, Looked(outcome))
    case NoRoute => (NotFound(), NoEffect)
  }

  // ---------------------------------------------------------------------------
  // The argument gate

  /** The server's lifecycle and the single permit that holds back the
      delivery of arguments until the front end is ready. The semaphore is
      a permit count; whoever does not hold the permit waits for it. */
  class Ipc {
    var listening: bool
    var hasListener: bool
    var hasStopSignal: bool
    /** Ipc itself holds the permit. */
    var permitHeld: bool
    /** Permits left in the semaphore. */
    var available: nat
    /** Stop signals fired so far. */
    ghost var stopsSent: nat

    ghost predicate Valid()
      reads this
    {
      && available + (if permitHeld then 1 else 0) == 1
      && (hasListener ==> listening)
    }

    constructor ()
      ensures Valid()
      ensures !listening && !hasListener && !hasStopSignal && !permitHeld && stopsSent == 0
    {
      listening, hasListener, hasStopSignal := false, false, false;
      permitHeld, available := false, 1;
      stopsSent := 0;
    }

    /** Takes the permit, then tries to bind the address; `bound` says
        whether binding succeeded. */
    method Init(bound: bool)
      requires Valid() && !permitHeld
      modifies this
      ensures Valid() && permitHeld
      ensures listening == (old(listening) || bound) && hasListener == (old(hasListener) || bound)
      ensures hasStopSignal == old(hasStopSignal) && stopsSent == old(stopsSent)
    {
      available, permitHeld := available - 1, true;
      if bound {
        hasListener, listening := true, true;
      }
    }

    /** Starts serving on the bound listener. */
    method Listen() returns (r: Result<(), string>)
      requires Valid() && (listening ==> hasListener)
      modifies this
      ensures Valid()
      ensures !old(listening) ==> r == Err("No TCP listener") && !hasListener && hasStopSignal == old(hasStopSignal)
      ensures old(listening) ==> r == Ok(()) && listening && !hasListener && hasStopSignal
      ensures permitHeld == old(permitHeld) && stopsSent == old(stopsSent)
    {
      if !listening {
        return Err("No TCP listener");
      }
      hasListener := false;
      hasStopSignal := true;
      r := Ok(());
    }

    /** Releases the permit, if held, so that arguments flow. */
    method Start()
      requires Valid()
      modifies this
      ensures Valid() && !permitHeld
      ensures listening == old(listening) && hasListener == old(hasListener)
      ensures hasStopSignal == old(hasStopSignal) && stopsSent == old(stopsSent)
    {
      if permitHeld {
        permitHeld, available := false, available + 1;
      }
    }

    /** Takes the permit back unless it is already held. */
    method Pause()
      requires Valid()
      modifies this
      ensures Valid() && permitHeld
      ensures listening == old(listening) && hasListener == old(hasListener)
      ensures hasStopSignal == old(hasStopSignal) && stopsSent == old(stopsSent)
    {
      if !permitHeld {
        permitHeld, available := true, available - 1;
      }
    }

    /** Fires the stop signal if there is one and forgets the listener. */
    method Stop()
      requires Valid()
      modifies this
      ensures Valid()
      ensures !listening && !hasListener && !hasStopSignal
      ensures stopsSent == old(stopsSent) + (if old(hasStopSignal) then 1 else 0)
      ensures permitHeld == old(permitHeld)
    {
      if hasStopSignal {
        stopsSent := stopsSent + 1;
      }
      hasStopSignal := false;
      hasListener, listening := false, false;
    }

    /** Sends arguments to the instance that owns the address; the process
        exits afterwards exactly when this instance is not listening. */
    method Send(args: seq<string>) returns (exitAfterwards: bool)
      requires Valid()
      ensures exitAfterwards == !listening
    {
      exitAfterwards := !listening;
    }

    /** The /args handler: takes the permit, delivers the payload and
        releases the permit. While Ipc holds the permit the handler waits
        and nothing is delivered yet. */
    method HandleArgs(payload: string) returns (delivered: Option<string>)
      requires Valid()
      modifies this
      ensures Valid()
      ensures delivered == (if old(permitHeld) then None else Some(payload))
      ensures permitHeld == old(permitHeld) && available == old(available)
      ensures listening == old(listening) && hasListener == old(hasListener)
      ensures hasStopSignal == old(hasStopSignal) && stopsSent == old(stopsSent)
    {
      if available == 0 {
        return None;
      }
      available := available - 1;
      delivered := Some(payload);
      available := available + 1;
    }
  }
}

=== FILE: pieces_canvas.dfy ===
/** The pieces canvas of the details panel: which pieces hold a wanted
    file (a walk over files and pieces with two cursors), which pieces the
    daemon has (its bitfield, most significant bit first), the colour of
    each cell, and the cells drawn row by row up to the piece count. */
module PiecesCanvas {

  // ---------------------------------------------------------------------------
  // Files laid out over the pieces

  /** Total length of the files. */
  function Sum(lengths: seq<nat>): nat {
    if lengths == [] then 0 else Sum(lengths[..|lengths| - 1]) + lengths[|lengths| - 1]
  }

  /** Byte offset at which file `f` starts. */
  function Start(lengths: seq<nat>, f: nat): nat
    requires f <= |lengths|
  {
    Sum(lengths[..f])
  }

  lemma StartStep(lengths: seq<nat>, f: nat)
    requires f < |lengths|
    ensures Start(lengths, f + 1) == Start(lengths, f) + lengths[f]
  {
    assert lengths[..f + 1][..f] == lengths[..f];
  }

  /** Later files start no earlier. */
  lemma {:induction false} StartMonotone(lengths: seq<nat>, f: nat, g: nat)
    requires f <= g <= |lengths|
    ensures Start(lengths, f) <= Start(lengths, g)
    decreases g - f
  {
    if f < g {
      StartStep(lengths, g - 1);
      StartMonotone(lengths, f, g - 1);
    }
  }

  /** The pieces the walk marks for a file spanning bytes [s, e): from the
      piece holding byte s up to the last piece starting before e, and at
      least the piece holding s. */
  predicate Touches(s: nat, e: nat, pieceSize: nat, p: nat) {
    s < (p + 1) * pieceSize && (p * pieceSize < e || p * pieceSize <= s)
  }

  /** File `f` marks piece `p`: it is wanted, the walk reaches it (it starts
      before the end of the torrent) and it touches the piece. */
  predicate FileMarks(lengths: seq<nat>, wanted: seq<bool>, totalSize: nat, pieceSize: nat, f: nat, p: nat)
    requires |wanted| == |lengths| && f < |lengths|
  {
    wanted[f] && Start(lengths, f) < totalSize &&
    Touches(Start(lengths, f), Start(lengths, f) + lengths[f], pieceSize, p)
  }

  predicate Marked(lengths: seq<nat>, wanted: seq<bool>, totalSize: nat, pieceSize: nat, k: nat, p: nat)
    requires |wanted| == |lengths| && k <= |lengths|
  {
    exists f :: 0 <= f < k && FileMarks(lengths, wanted, totalSize, pieceSize, f, p)
  }

  /** The specification of the wanted pieces: some file marks the piece. */
  predicate WantedPiece(lengths: seq<nat>, wanted: seq<bool>, totalSize: nat, pieceSize: nat, p: nat)
    requires |wanted| == |lengths|
  {
    Marked(lengths, wanted, totalSize, pieceSize, |lengths|, p)
  }

  lemma MulMonotone(a: int, b: int, k: nat)
    ensures a <= b ==> a * k <= b * k
  {
  }

  lemma MulCancel(a: nat, b: nat, k: nat)
    requires a * k < b * k
    ensures a < b
  {
    if a >= b {
      MulMonotone(b, a, k);
    }
  }

  /** The pieces written while walking one file are exactly the ones it
      touches. `c` is the cursor when the file begins, `q` where it
      stops. */
  lemma TouchRange(s: nat, e: nat, pieceSize: nat, c: nat, q: nat, p: nat)
    requires pieceSize > 0 && s <= e
    requires c * pieceSize <= s < (c + 1) * pieceSize
    requires c <= q && (q == c || q * pieceSize < e) && e <= (q + 1) * pieceSize
    ensures c <= p <= q <==> Touches(s, e, pieceSize, p)
  {
    if p < c {
      MulMonotone(p + 1, c, pieceSize);
    } else {
      MulMonotone(c + 1, p + 1, pieceSize);
    }
    if p > q {
      MulMonotone(q + 1, p, pieceSize);
      if q == c {
        MulMonotone(c + 1, p, pieceSize);
      }
    } else if p > c {
      MulMonotone(p, q, pieceSize);
    }
  }

  /** One more file walked adds the pieces it marks. */
  lemma MarkedStep(lengths: seq<nat>, wanted: seq<bool>, totalSize: nat, pieceSize: nat, k: nat, p: nat)
    requires |wanted| == |lengths| && k < |lengths|
    ensures Marked(lengths, wanted, totalSize, pieceSize, k + 1, p) <==>
      Marked(lengths, wanted, totalSize, pieceSize, k, p) || FileMarks(lengths, wanted, totalSize, pieceSize, k, p)
  {
  }

  /** Files starting at or after the end of the torrent mark nothing. */
  lemma MarkedRest(lengths: seq<nat>, wanted: seq<bool>, totalSize: nat, pieceSize: nat, k: nat, p: nat)
    requires |wanted| == |lengths| && k <= |lengths| && Start(lengths, k) >= totalSize
    ensures Marked(lengths, wanted, totalSize, pieceSize, k, p) == WantedPiece(lengths, wanted, totalSize, pieceSize, p)
  {
    if WantedPiece(lengths, wanted, totalSize, pieceSize, p) {
      var f :| 0 <= f < |lengths| && FileMarks(lengths, wanted, totalSize, pieceSize, f, p);
      if f >= k {
        StartMonotone(lengths, k, f);
      }
    }
  }

  /** The wanted pieces: a walk over the files with a running byte total
      and a piece cursor, each file marking the pieces it spans. The piece
      count covers the torrent and the file lengths add up to its size, as
      the daemon reports them. */
  method WantedPieces(pieceCount: nat, pieceSize: nat, lengths: seq<nat>, wanted: seq<bool>, totalSize: nat)
    returns (result: array<bool>)
    requires pieceSize > 0 && |wanted| == |lengths|
    requires Sum(lengths) == totalSize && totalSize <= pieceCount * pieceSize
    ensures fresh(result) && result.Length == pieceCount
    ensures forall p :: 0 <= p < pieceCount ==> result[p] == WantedPiece(lengths, wanted, totalSize, pieceSize, p)
  {
    result := new bool[pieceCount](_ => false);
    var fileIndex := 0;
    var pieceIndex := 0;
    var totalLength := 0;
    assert lengths[..|lengths|] == lengths;
    while totalLength < totalSize
      invariant 0 <= fileIndex <= |lengths|
      invariant totalLength == Start(lengths, fileIndex) <= totalSize
      invariant pieceIndex * pieceSize <= totalLength < (pieceIndex + 1) * pieceSize
      invariant forall p :: 0 <= p < pieceCount ==> result[p] == Marked(lengths, wanted, totalSize, pieceSize, fileIndex, p)
      decreases |lengths| - fileIndex
    {
      ghost var s := totalLength;
      ghost var c := pieceIndex;
      ghost var before := result[..];
      StartStep(lengths, fileIndex);
      StartMonotone(lengths, fileIndex + 1, |lengths|);
      totalLength := totalLength + lengths[fileIndex];
      ghost var e := totalLength;
      MulCancel(c, pieceCount, pieceSize);
      while (pieceIndex + 1) * pieceSize < totalLength
        invariant c <= pieceIndex < pieceCount
        invariant pieceIndex == c || pieceIndex * pieceSize < totalLength
        invariant forall p :: 0 <= p < pieceCount ==> result[p] == (before[p] || (wanted[fileIndex] && c <= p < pieceIndex))
        decreases totalLength - pieceIndex * pieceSize
      {
        result[pieceIndex] := result[pieceIndex] || wanted[fileIndex];
        pieceIndex := pieceIndex + 1;
        MulCancel(pieceIndex, pieceCount, pieceSize);
      }
      ghost var q := pieceIndex;
      result[pieceIndex] := result[pieceIndex] || wanted[fileIndex];
      if (pieceIndex + 1) * pieceSize == totalLength {
        pieceIndex := pieceIndex + 1;
      }
      forall p | 0 <= p < pieceCount
        ensures result[p] == Marked(lengths, wanted, totalSize, pieceSize, fileIndex + 1, p)
      {
        TouchRange(s, e, pieceSize, c, q, p);
        MarkedStep(lengths, wanted, totalSize, pieceSize, fileIndex, p);
      }
      fileIndex := fileIndex + 1;
    }
    forall p | 0 <= p < pieceCount
      ensures result[p] == WantedPiece(lengths, wanted, totalSize, pieceSize, p)
    {
      MarkedRest(lengths, wanted, totalSize, pieceSize, fileIndex, p);
    }
  }

  /** For a file with bytes, the pieces it marks are those sharing a byte
      with it. */
  lemma TouchesOverlap(s: nat, e: nat, pieceSize: nat, p: nat)
    requires s < e
    ensures Touches(s, e, pieceSize, p) <==> p * pieceSize < e && s < (p + 1) * pieceSize
  {
  }

  /** When every wanted file has bytes, a piece is wanted exactly when a
      wanted file shares a byte with it. */
  lemma WantedMeansOverlap(lengths: seq<nat>, wanted: seq<bool>, totalSize: nat, pieceSize: nat, p: nat)
    requires |wanted| == |lengths| && Sum(lengths) == totalSize
    requires forall f :: 0 <= f < |lengths| && wanted[f] ==> lengths[f] > 0
    ensures WantedPiece(lengths, wanted, totalSize, pieceSize, p) <==>
      exists f :: 0 <= f < |lengths| && wanted[f] &&
        p * pieceSize < Start(lengths, f) + lengths[f] && Start(lengths, f) < (p + 1) * pieceSize
  {
    assert lengths[..|lengths|] == lengths;
    forall f | 0 <= f < |lengths| && wanted[f]
      ensures FileMarks(lengths, wanted, totalSize, pieceSize, f, p) <==>
        p * pieceSize < Start(lengths, f) + lengths[f] && Start(lengths, f) < (p + 1) * pieceSize
    {
      StartStep(lengths, f);
      StartMonotone(lengths, f + 1, |lengths|);
      TouchesOverlap(Start(lengths, f), Start(lengths, f) + lengths[f], pieceSize, p);
    }
  }

  /** A wanted file without bytes still marks the piece holding its start
      offset when it starts inside the torrent. */
  lemma EmptyFileMarksItsPiece(lengths: seq<nat>, wanted: seq<bool>, totalSize: nat, pieceSize: nat, f: nat, p: nat)
    requires |wanted| == |lengths| && f < |lengths| && wanted[f] && lengths[f] == 0
    requires Start(lengths, f) < totalSize
    requires p * pieceSize <= Start(lengths, f) < (p + 1) * pieceSize
    ensures WantedPiece(lengths, wanted, totalSize, pieceSize, p)
  {
    assert FileMarks(lengths, wanted, totalSize, pieceSize, f, p);
  }

  // ---------------------------------------------------------------------------
  // Pieces the daemon has

  /** Piece `i` is had when its bit is set in the bitfield: byte i / 8, bit
      i % 8 counted from the most significant end. A byte past the end of
      the field reads as nothing had. */
  predicate Have(bytes: seq<bv8>, i: nat) {
    i / 8 < |bytes| && bytes[i / 8] & (0x80 >> (i % 8)) != 0
  }

  /** Bit `j` of a byte, counted from the most significant one. */
  predicate BitFromTop(b: bv8, j: nat)
    requires j < 8
  {
    (b >> (7 - j)) & 1 == 1
  }

  /** The bitfield is read most significant bit first: piece 8k + j is bit j
      from the top of byte k. */
  lemma HaveMsbFirst(bytes: seq<bv8>, k: nat, j: nat)
    requires k < |bytes| && j < 8
    ensures Have(bytes, 8 * k + j) == BitFromTop(bytes[k], j)
  {
    assert (8 * k + j) / 8 == k && (8 * k + j) % 8 == j;
    var b := bytes[k];
    if j == 0 { assert (b & 0x80 != 0) == ((b >> 7) & 1 == 1); }
    else if j == 1 { assert (b & 0x40 != 0) == ((b >> 6) & 1 == 1); }
    else if j == 2 { assert (b & 0x20 != 0) == ((b >> 5) & 1 == 1); }
    else if j == 3 { assert (b & 0x10 != 0) == ((b >> 4) & 1 == 1); }
    else if j == 4 { assert (b & 0x08 != 0) == ((b >> 3) & 1 == 1); }
    else if j == 5 { assert (b & 0x04 != 0) == ((b >> 2) & 1 == 1); }
    else if j == 6 { assert (b & 0x02 != 0) == ((b >> 1) & 1 == 1); }
    else { assert (b & 0x01 != 0) == (b & 1 == 1); }
  }

  // ---------------------------------------------------------------------------
  // Drawing

  datatype Colour = SteelBlue | PaleTurquoise | Silver

  /** A had piece is steel blue, a wanted one pale turquoise, any other
      silver. */
  function PieceColour(have: bool, wanted: bool): (c: Colour)
    ensures c == SteelBlue <==> have
    ensures c == PaleTurquoise <==> !have && wanted
    ensures c == Silver <==> !have && !wanted
  {
    if have then SteelBlue else if wanted then PaleTurquoise else Silver
  }

  /** A filled cell: its row, its column and its colour. */
  datatype Cell = Cell(row: nat, col: nat, colour: Colour)

  function CellOf(bytes: seq<bv8>, wanted: seq<bool>, cols: nat, i: nat): Cell
    requires cols > 0 && i < |wanted|
  {
    Cell(i / cols, i % cols, PieceColour(Have(bytes, i), wanted[i]))
  }

  function Min(a: nat, b: nat): nat {
    if a <= b then a else b
  }

  /** The cells drawn: row by row, one per piece, stopping at the piece
      count or when the grid is full. */
  method Draw(rows: nat, cols: nat, bytes: seq<bv8>, wanted: seq<bool>) returns (cells: seq<Cell>)
    ensures |cells| == Min(rows * cols, |wanted|)
    ensures forall i :: 0 <= i < |cells| ==> cols > 0 && cells[i] == CellOf(bytes, wanted, cols, i)
  {
    var pieceCount := |wanted|;
    cells := [];
    var r := 0;
    ghost var base := 0;
    while r < rows
      invariant 0 <= r <= rows && base == r * cols
      invariant |cells| == Min(base, pieceCount)
      invariant forall i :: 0 <= i < |cells| ==> cols > 0 && cells[i] == CellOf(bytes, wanted, cols, i)
    {
      var index := 0;
      var c := 0;
      while c < cols
        invariant 0 <= c <= cols
        invariant |cells| == Min(base + c, pieceCount)
        invariant forall i :: 0 <= i < |cells| ==> cols > 0 && cells[i] == CellOf(bytes, wanted, cols, i)
        invariant index == if c > 0 then base + c - 1 else 0
        invariant c > 0 && index >= pieceCount ==> |cells| == pieceCount
      {
        index := r * cols + c;
        assert index == base + c;
        if index >= pieceCount {
          break;
        }
        CellPosition(r, cols, c);
        cells := cells + [CellOf(bytes, wanted, cols, index)];
        c := c + 1;
      }
      if index >= pieceCount {
        MinStays(r, rows, cols, base, pieceCount, |cells|);
        break;
      }
      NextRow(r, cols);
      r := r + 1;
      base := base + cols;
    }
  }

  lemma CellPosition(r: nat, cols: nat, c: nat)
    requires c < cols
    ensures (r * cols + c) / cols == r && (r * cols + c) % cols == c
  {
    var x := r * cols + c;
    var q := x / cols;
    MulMonotone(r + 1, q, cols);
    MulMonotone(q + 1, r, cols);
    NextRow(r, cols);
    NextRow(q, cols);
  }

  lemma NextRow(r: int, cols: int)
    ensures (r + 1) * cols == r * cols + cols
  {
  }

  lemma MinStays(r: nat, rows: nat, cols: nat, base: nat, pieceCount: nat, n: nat)
    requires r < rows && base == r * cols && n == pieceCount && n <= base + cols
    ensures n == Min(rows * cols, pieceCount)
  {
    MulMonotone(r + 1, rows, cols);
  }
}

=== FILE: poller.dfy ===
/** The background poller of the backend: for every open server tab except
    the current one a task periodically sends `torrent-get` to Transmission
    and feeds the reply to the completion inspector. Transmission's CSRF
    rule (a 409 reply carrying a fresh X-Transmission-Session-Id, section
    15.5.10 of RFC 9110) is handled by one retry with the fresh token. The
    network, the timers and the tasks themselves are abstract: a task is a
    number, a send is its reply. */
module Poller {
  import opened Common

  datatype Connection = Connection(url: string, username: string, password: string)

  datatype PollerConfig = PollerConfig(name: string, connection: Connection, interval: nat)

  /** A registered config, the session token its task last stored and the
      task that polls it. */
  datatype ConfigData = ConfigData(config: PollerConfig, session: Option<string>, task: nat)

  /** The registry keyed by name; for a repeated name the later config wins. */
  function Registry(configs: seq<PollerConfig>): map<string, PollerConfig> {
    if configs == [] then map[]
    else
      var c := configs[|configs| - 1];
      Registry(configs[..|configs| - 1])[c.name := c]
  }

  /** A name is registered iff some config carries it, and then under the
      last config carrying it. */
  lemma {:induction false} RegistryKeys(configs: seq<PollerConfig>, name: string)
    ensures name in Registry(configs) <==> exists i :: 0 <= i < |configs| && configs[i].name == name
  {
    if configs != [] {
      var prefix := configs[..|configs| - 1];
      RegistryKeys(prefix, name);
      if name in Registry(prefix) {
        var i :| 0 <= i < |prefix| && prefix[i].name == name;
        assert configs[i].name == name;
      }
      if exists i :: 0 <= i < |configs| && configs[i].name == name {
        var i :| 0 <= i < |configs| && configs[i].name == name;
        if i < |prefix| { assert prefix[i].name == name; }
      }
    }
  }

  lemma {:induction false} RegistryLastWins(configs: seq<PollerConfig>, i: nat)
    requires i < |configs|
    requires forall j :: i < j < |configs| ==> configs[j].name != configs[i].name
    ensures configs[i].name in Registry(configs) && Registry(configs)[configs[i].name] == configs[i]
  {
    if i < |configs| - 1 {
      RegistryLastWins(configs[..|configs| - 1], i);
    }
  }

  /** The configs a registry holds, without tokens and tasks. */
  function ConfigView(configs: map<string, ConfigData>): map<string, PollerConfig> {
    map name | name in configs :: configs[name].config
  }

  lemma ViewUpdate(configs: map<string, ConfigData>, name: string, d: ConfigData)
    ensures ConfigView(configs[name := d]) == ConfigView(configs)[name := d.config]
  {
  }

  lemma RegistryExtend(configs: seq<PollerConfig>, i: nat)
    requires i < |configs|
    ensures Registry(configs[..i + 1]) == Registry(configs[..i])[configs[i].name := configs[i]]
  {
    assert configs[..i + 1][..i] == configs[..i];
  }

  function Tasks(configs: map<string, ConfigData>): set<nat> {
    set name | name in configs :: configs[name].task
  }

  class Poller {
    var configs: map<string, ConfigData>
    var toast: bool
    var sound: bool
    /** Whether the app handle was set; without it no task can be spawned. */
    var hasApp: bool
    /** The number the next spawned task gets. */
    var nextTask: nat
    /** The tasks aborted so far. */
    var aborted: set<nat>

    /** Every task number handed out is below `nextTask`, and no registered
        task has been aborted. */
    ghost predicate Valid()
      reads this
    {
      && (forall name :: name in configs ==> configs[name].task < nextTask && configs[name].task !in aborted)
      && (forall t :: t in aborted ==> t < nextTask)
    }

    constructor ()
      ensures Valid()
      ensures configs == map[] && !toast && !sound && !hasApp && nextTask == 0 && aborted == {}
    {
      configs, toast, sound, hasApp := map[], false, false, false;
      nextTask, aborted := 0, {};
    }

    method SetAppHandle()
      requires Valid()
      modifies this
      ensures Valid() && hasApp
      ensures configs == old(configs) && toast == old(toast) && sound == old(sound)
      ensures nextTask == old(nextTask) && aborted == old(aborted)
    {
      hasApp := true;
    }

    /** Registers one config with a freshly spawned task and no token,
        replacing an entry of the same name (whose task is not aborted).
        Without an app handle the config is dropped. */
    method AddConfig(config: PollerConfig)
      requires Valid()
      modifies this
      ensures Valid()
      ensures hasApp ==>
        (configs == old(configs)[config.name := ConfigData(config, None, old(nextTask))] && nextTask == old(nextTask) + 1)
      ensures !hasApp ==> configs == old(configs) && nextTask == old(nextTask)
      ensures toast == old(toast) && sound == old(sound) && hasApp == old(hasApp) && aborted == old(aborted)
    {
      if hasApp {
        configs := configs[config.name := ConfigData(config, None, nextTask)];
        nextTask := nextTask + 1;
      }
    }

    /** Stores the notification flags, aborts every registered task and
        registers the new configs in order. */
    method SetConfigs(newConfigs: seq<PollerConfig>, toast: bool, sound: bool)
      requires Valid()
      modifies this
      ensures Valid()
      ensures this.toast == toast && this.sound == sound && hasApp == old(hasApp)
      ensures aborted == old(aborted) + Tasks(old(configs))
      ensures ConfigView(configs) == (if hasApp then Registry(newConfigs) else map[])
      ensures forall name :: name in configs ==> configs[name].session.None? && configs[name].task >= old(nextTask)
      ensures nextTask == old(nextTask) + (if hasApp then |newConfigs| else 0)
    {
      this.toast := toast;
      this.sound := sound;
      aborted := aborted + Tasks(configs);
      configs := map[];
      ghost var start := nextTask;
      var i := 0;
      while i < |newConfigs|
        invariant 0 <= i <= |newConfigs|
        invariant Valid()
        invariant this.toast == toast && this.sound == sound && hasApp == old(hasApp)
        invariant aborted == old(aborted) + Tasks(old(configs))
        invariant ConfigView(configs) == (if hasApp then Registry(newConfigs[..i]) else map[])
        invariant forall name :: name in configs ==> configs[name].session.None? && configs[name].task >= start
        invariant nextTask == start + (if hasApp then i else 0)
      {
        ghost var before := configs;
        AddConfig(newConfigs[i]);
        if hasApp {
          ViewUpdate(before, newConfigs[i].name, configs[newConfigs[i].name]);
          RegistryExtend(newConfigs, i);
        }
        i := i + 1;
      }
      assert newConfigs[..|newConfigs|] == newConfigs;
    }

    /** The poll cycle of the task for `name`: the first reply is to a
        request carrying the stored token; the second is used only for the
        retry. `attempts` lists the token each request carried. */
    method Cycle(name: string, first: Reply, second: Reply) returns (attempts: seq<Option<string>>)
      requires Valid() && name in configs
      modifies this
      ensures Valid()
      ensures attempts == [old(configs[name].session)] + (match Classify(first).result
                                                          case Err(Some(t)) => [Some(t)]
                                                          case _ => [])
      ensures configs == (match CycleToken(first, second)
                          case Some(t) => old(configs)[name := old(configs[name]).(session := Some(t))]
                          case None => old(configs))
      ensures toast == old(toast) && sound == old(sound) && hasApp == old(hasApp)
      ensures nextTask == old(nextTask) && aborted == old(aborted)
    {
      var session := configs[name].session;
      attempts := [session];
      var newSession: Option<string> := None;
      match Classify(first).result {
        case Ok(t) =>
          newSession := Some(t);
        case Err(Some(t)) =>
          attempts := attempts + [Some(t)];
          match Classify(second).result {
            case Ok(t2) => newSession := Some(t2);
            case Err(_) =>
          }
        case Err(None) =>
      }
      if newSession.Some? {
        configs := configs[name := configs[name].(session := newSession)];
      }
    }
  }

  // ---------------------------------------------------------------------------
  // One poll

  /** A reply to the `torrent-get` request: a status and the raw
      X-Transmission-Session-Id value, or a transport error. */
  datatype Reply = Replied(status: int, sessionHeader: Option<string>) | TransportError

  /** A header value reads as text only when every character is visible
      ASCII or a tab; otherwise it reads as "". */
  function HeaderText(value: string): (r: string)
    ensures r == value || r == ""
    ensures r == value <==> forall i :: 0 <= i < |value| ==> value[i] == '\t' || ' ' <= value[i] <= '~'
  {
    if forall i :: 0 <= i < |value| ==> value[i] == '\t' || ' ' <= value[i] <= '~' then value else ""
  }

  function SessionText(header: Option<string>): string {
    match header
    case Some(v) => HeaderText(v)
    case None => ""
  }

  /** The outcome of a poll and whether the reply went to the inspector. */
  datatype PollOutcome = PollOutcome(result: Result<string, Option<string>>, inspected: bool)

  /** 2xx: inspected, the token read (or ""); 409: the token read (or "")
      as a retry hint, not inspected; anything else: a failure. */
  function Classify(reply: Reply): (r: PollOutcome)
    ensures r.inspected <==> reply.Replied? && 200 <= reply.status < 300
    ensures r.result.Ok? <==> r.inspected
    ensures r.result.Ok? ==> r.result.value == SessionText(reply.sessionHeader)
    ensures (r.result.Err? && r.result.error.Some?) <==> reply.Replied? && reply.status == 409
    ensures r.result.Err? && r.result.error.Some? ==> r.result.error.value == SessionText(reply.sessionHeader)
  {
    match reply
    case TransportError => PollOutcome(Err(None), false)
    case Replied(status, header) =>
      if 200 <= status < 300 then PollOutcome(Ok(SessionText(header)), true)
      else if status == 409 then PollOutcome(Err(Some(SessionText(header))), false)
      else PollOutcome(Err(None), false)
  }

  /** The token a cycle stores: the first reply's on success, else the
      retry's on success after a 409, else none. */
  function CycleToken(first: Reply, second: Reply): Option<string> {
    match Classify(first).result
    case Ok(t) => Some(t)
    case Err(Some(_)) => (match Classify(second).result case Ok(t) => Some(t) case Err(_) => None)
    case Err(None) => None
  }

  /** A token is stored only when a request of the cycle succeeded, and it
      is that reply's token; a failed first attempt without a 409 stores
      nothing whatever the second reply. */
  lemma CycleTokenOnSuccess(first: Reply, second: Reply)
    ensures CycleToken(first, second).Some? <==>
      (Classify(first).inspected || (first.Replied? && first.status == 409 && Classify(second).inspected))
    ensures CycleToken(first, second).Some? ==>
      CycleToken(first, second).value ==
        (if Classify(first).inspected then SessionText(first.sessionHeader) else SessionText(second.sessionHeader))
  {
  }

  const AcceptEncoding := "accept-encoding"
  const SessionHeader := "x-transmission-session-id"
  const Authorization := "authorization"

  /** The headers of a poll request; `base64` is the standard base64
      encoding of section 4 of RFC 4648. */
  function RequestHeaders(connection: Connection, session: Option<string>, base64: string -> string): (r: Headers)
    ensures HeaderValues(r, AcceptEncoding) == ["gzip, deflate"]
    ensures HeaderValues(r, SessionHeader) == (match session case Some(s) => [s] case None => [])
    ensures HeaderValues(r, Authorization) ==
      (if connection.username != "" || connection.password != ""
       then ["Basic " + base64(connection.username + ":" + connection.password)] else [])
  {
    var sessionPart := match session case Some(s) => [(SessionHeader, s)] case None => [];
    var authPart :=
      if connection.username != "" || connection.password != ""
      then [(Authorization, "Basic " + base64(connection.username + ":" + connection.password))] else [];
    RequestHeadersValues(sessionPart, authPart, session, connection, base64);
    [(AcceptEncoding, "gzip, deflate")] + sessionPart + authPart
  }

  lemma RequestHeadersValues(sessionPart: Headers, authPart: Headers, session: Option<string>,
                             connection: Connection, base64: string -> string)
    requires sessionPart == match session case Some(s) => [(SessionHeader, s)] case None => []
    requires authPart ==
      if connection.username != "" || connection.password != ""
      then [(Authorization, "Basic " + base64(connection.username + ":" + connection.password))] else []
    ensures var r := [(AcceptEncoding, "gzip, deflate")] + sessionPart + authPart;
      && HeaderValues(r, AcceptEncoding) == ["gzip, deflate"]
      && HeaderValues(r, SessionHeader) == (match session case Some(s) => [s] case None => [])
      && HeaderValues(r, Authorization) ==
        (if connection.username != "" || connection.password != ""
         then ["Basic " + base64(connection.username + ":" + connection.password)] else [])
  {
    assert AcceptEncoding[0] != SessionHeader[0] && AcceptEncoding[0] != Authorization[1];
    assert |SessionHeader| != |Authorization|;
    var head: Headers := [(AcceptEncoding, "gzip, deflate")];
    HeaderValuesAppend(head, sessionPart, AcceptEncoding);
    HeaderValuesAppend(head + sessionPart, authPart, AcceptEncoding);
    HeaderValuesAppend(head, sessionPart, SessionHeader);
    HeaderValuesAppend(head + sessionPart, authPart, SessionHeader);
    HeaderValuesAppend(head, sessionPart, Authorization);
    HeaderValuesAppend(head + sessionPart, authPart, Authorization);
  }

  /** The reply headers the inspector sees: the reply's headers with the
      polled URL attached as X-Original-URL. */
  function InspectedHeaders(replyHeaders: Headers, connection: Connection): (r: Headers)
    ensures HeaderValues(r, "x-original-url") == HeaderValues(replyHeaders, "x-original-url") + [connection.url]
    ensures HeaderGet(r, "x-original-url").Some?
  {
    HeaderValuesAppend(replyHeaders, [("x-original-url", connection.url)], "x-original-url");
    assert [("x-original-url", connection.url)][1..] == [];
    var r := replyHeaders + [("x-original-url", connection.url)];
    assert r[|replyHeaders|].0 == "x-original-url";
    r
  }
}

=== FILE: server_tabs.dfy ===
/** The row of server tabs: opening, closing and cycling tabs, following
    the current tab when the configured servers change, and the polling
    set up for the servers open in the background. */
module ServerTabs {
  import opened Common
  import Config
  import Poller

  /** The open tabs, by server name, and the index of the current one. */
  datatype Tabs = Tabs(openTabs: seq<string>, currentTab: int)

  /** The states the tab operations produce: with tabs open the current
      index is one of them; with none it is -1 (after closing the last tab)
      or 0 (after the servers changed). */
  predicate ValidTabs(t: Tabs) {
    if t.openTabs == [] then t.currentTab == -1 || t.currentTab == 0
    else 0 <= t.currentTab < |t.openTabs|
  }

  /** The server name of the current tab, if it indexes one. */
  function CurrentName(t: Tabs): (r: Option<string>)
    ensures r.Some? <==> 0 <= t.currentTab < |t.openTabs|
    ensures r.Some? ==> r.value in t.openTabs
  {
    if 0 <= t.currentTab < |t.openTabs| then Some(t.openTabs[t.currentTab]) else None
  }

  // ---------------------------------------------------------------------------
  // Opening and closing

  /** Opening a server already open changes nothing; otherwise its tab is
      added at the end and becomes current. */
  function OpenTab(t: Tabs, name: string): (r: Tabs)
    ensures name in t.openTabs ==> r == t
    ensures name !in t.openTabs ==> r.openTabs == t.openTabs + [name] && CurrentName(r) == Some(name)
  {
    if name in t.openTabs then t
    else Tabs(t.openTabs + [name], |t.openTabs|)
  }

  /** Closing an index past the end changes nothing. Otherwise the tab is
      removed, and the current index moves down one when the closed tab
      was before it, or was the current and the last one. */
  function CloseTab(t: Tabs, tab: nat): (r: Tabs)
    ensures tab >= |t.openTabs| ==> r == t
    ensures tab < |t.openTabs| ==> r.openTabs == RemoveAt(t.openTabs, tab)
    ensures tab < |t.openTabs| ==>
      r.currentTab == (if t.currentTab > tab || (t.currentTab == tab && tab == |t.openTabs| - 1)
                       then t.currentTab - 1 else t.currentTab)
  {
    if tab >= |t.openTabs| then t
    else
      var current := if t.currentTab > tab || (t.currentTab == tab && t.currentTab == |t.openTabs| - 1)
                     then t.currentTab - 1 else t.currentTab;
      Tabs(t.openTabs[..tab] + t.openTabs[tab + 1..], current)
  }

  /** Opening and closing keep the tab state valid, and opening keeps the
      tabs free of repeats. */
  lemma OpenKeepsValid(t: Tabs, name: string)
    requires ValidTabs(t)
    ensures ValidTabs(OpenTab(t, name))
    ensures Distinct(t.openTabs) ==> Distinct(OpenTab(t, name).openTabs)
  {
  }

  lemma CloseKeepsValid(t: Tabs, tab: nat)
    requires ValidTabs(t)
    ensures ValidTabs(CloseTab(t, tab))
  {
  }

  /** Closing a tab other than the current one keeps the same server
      current; closing the current one moves to the tab after it, or to the
      one before when it was the last. */
  lemma CloseFollowsCurrent(t: Tabs, tab: nat)
    requires ValidTabs(t) && tab < |t.openTabs|
    ensures var r := CloseTab(t, tab);
      && (t.currentTab != tab ==> CurrentName(r) == CurrentName(t))
      && (t.currentTab == tab && tab < |t.openTabs| - 1 ==> CurrentName(r) == Some(t.openTabs[tab + 1]))
      && (t.currentTab == tab && tab == |t.openTabs| - 1 && tab > 0 ==> CurrentName(r) == Some(t.openTabs[tab - 1]))
      && (|t.openTabs| == 1 ==> r == Tabs([], -1))
  {
  }

  /** Opening a new server and closing its tab gives back the tabs. */
  lemma CloseUndoesOpen(t: Tabs, name: string)
    requires name !in t.openTabs && t.openTabs != [] && 0 <= t.currentTab < |t.openTabs|
    ensures CloseTab(OpenTab(t, name), |t.openTabs|).openTabs == t.openTabs
    ensures CloseTab(OpenTab(t, name), |t.openTabs|).currentTab == |t.openTabs| - 1
  {
    assert (t.openTabs + [name])[..|t.openTabs|] == t.openTabs;
  }

  // ---------------------------------------------------------------------------
  // Cycling

  /** The next tab; with no tabs open the index is not a number. */
  function NextTab(t: Tabs): (r: Option<int>)
    ensures r.None? <==> t.openTabs == []
    ensures r.Some? && ValidTabs(t) ==> 0 <= r.value < |t.openTabs|
  {
    if t.openTabs == [] then None else Some(JsRem(t.currentTab + 1, |t.openTabs|))
  }

  /** The previous tab; with no tabs open the index is not a number. */
  function PreviousTab(t: Tabs): (r: Option<int>)
    ensures r.None? <==> t.openTabs == []
    ensures r.Some? && ValidTabs(t) ==> 0 <= r.value < |t.openTabs|
  {
    if t.openTabs == [] then None else Some(JsRem(t.currentTab + |t.openTabs| - 1, |t.openTabs|))
  }

  /** Going forward then back, or back then forward, returns to the
      current tab. */
  lemma NextPreviousRoundTrip(t: Tabs)
    requires ValidTabs(t) && t.openTabs != []
    ensures PreviousTab(t.(currentTab := NextTab(t).value)) == Some(t.currentTab)
    ensures NextTab(t.(currentTab := PreviousTab(t).value)) == Some(t.currentTab)
  {
    var n := |t.openTabs|;
    var c := t.currentTab;
    var next := NextTab(t).value;
    var previous := PreviousTab(t).value;
    ModOnce(c + 1, n);
    ModOnce(c + n - 1, n);
    ModOnce(next + n - 1, n);
    ModOnce(previous + 1, n);
  }

  /** The remainder of a number below twice the divisor. */
  lemma ModOnce(x: int, n: int)
    requires 0 <= x < 2 * n
    ensures x % n == if x < n then x else x - n
  {
    if x >= n {
      assert x == 1 * n + (x - n);
    }
  }

  /** Going forward wraps from the last tab to the first. */
  lemma NextWraps(t: Tabs)
    requires t.openTabs != [] && t.currentTab == |t.openTabs| - 1
    ensures NextTab(t) == Some(0)
  {
  }

  // ---------------------------------------------------------------------------
  // Following the configured servers

  /** The tab the current one becomes after walking `s`: the position
      among the kept tabs of the last kept tab naming the current server,
      else 0. */
  function Followed(s: seq<string>, current: Option<string>, servers: seq<Config.ServerConfig>): (r: nat)
    ensures r == 0 || r < |Config.KnownTabs(s, servers)|
  {
    if s == [] then 0
    else
      var last := s[|s| - 1];
      assert s == s[..|s| - 1] + [last];
      KnownAppend(s[..|s| - 1], last, servers);
      if Config.HasServer(servers, last) && Some(last) == current
      then |Config.KnownTabs(s, servers)| - 1
      else Followed(s[..|s| - 1], current, servers)
  }

  lemma KnownAppend(s: seq<string>, last: string, servers: seq<Config.ServerConfig>)
    ensures Config.KnownTabs(s + [last], servers) ==
      Config.KnownTabs(s, servers) + (if Config.HasServer(servers, last) then [last] else [])
  {
    Config.KnownTabsInOrder(s, [last], servers);
  }

  /** Walking one more tab: it joins the kept tabs exactly when its server
      is configured, and the followed index moves to it exactly when it is
      also the current server. */
  lemma FollowedStep(s: seq<string>, i: nat, current: Option<string>, servers: seq<Config.ServerConfig>)
    requires i < |s|
    ensures Config.KnownTabs(s[..i + 1], servers) ==
      Config.KnownTabs(s[..i], servers) + (if Config.HasServer(servers, s[i]) then [s[i]] else [])
    ensures Followed(s[..i + 1], current, servers) ==
      if Config.HasServer(servers, s[i]) && Some(s[i]) == current
      then |Config.KnownTabs(s[..i], servers)|
      else Followed(s[..i], current, servers)
  {
    assert s[..i + 1] == s[..i] + [s[i]];
    assert s[..i + 1][..i] == s[..i];
    KnownAppend(s[..i], s[i], servers);
  }

  /** When the servers change every tab is closed and the tabs whose server
      still exists are reopened, in their order, the current one following
      its server. */
  method OnServersChange(t: Tabs, servers: seq<Config.ServerConfig>) returns (r: Tabs)
    ensures r.openTabs == Config.KnownTabs(t.openTabs, servers)
    ensures r.currentTab == Followed(t.openTabs, CurrentName(t), servers)
  {
    var newOpenTabs: seq<string> := [];
    var newCurrentTab := 0;
    var i := 0;
    while i < |t.openTabs|
      invariant 0 <= i <= |t.openTabs|
      invariant newOpenTabs == Config.KnownTabs(t.openTabs[..i], servers)
      invariant newCurrentTab == Followed(t.openTabs[..i], CurrentName(t), servers)
    {
      var serverName := t.openTabs[i];
      FollowedStep(t.openTabs, i, CurrentName(t), servers);
      if Config.ServerIndex(servers, serverName).Some? {
        newOpenTabs := newOpenTabs + [serverName];
        if Some(serverName) == CurrentName(t) {
          newCurrentTab := |newOpenTabs| - 1;
        }
      }
      i := i + 1;
    }
    assert t.openTabs[..|t.openTabs|] == t.openTabs;
    r := Tabs(newOpenTabs, newCurrentTab);
  }

  /** The current index after a change is 0 or one of the kept tabs. */
  lemma FollowedValid(t: Tabs, servers: seq<Config.ServerConfig>)
    ensures ValidTabs(Tabs(Config.KnownTabs(t.openTabs, servers), Followed(t.openTabs, CurrentName(t), servers)))
  {
  }

  /** When the current server is kept, the current tab still shows it. */
  lemma {:induction false} FollowedKeepsCurrent(s: seq<string>, name: string, servers: seq<Config.ServerConfig>)
    requires name in s && Config.HasServer(servers, name)
    ensures var k := Config.KnownTabs(s, servers);
      Followed(s, Some(name), servers) < |k| && k[Followed(s, Some(name), servers)] == name
  {
    var last := s[|s| - 1];
    KnownAppend(s[..|s| - 1], last, servers);
    assert s == s[..|s| - 1] + [last];
    if last != name {
      assert name in s[..|s| - 1];
      FollowedKeepsCurrent(s[..|s| - 1], name, servers);
    }
  }

  /** When the current server is gone, the first tab becomes current. */
  lemma {:induction false} FollowedDropsCurrent(s: seq<string>, current: Option<string>, servers: seq<Config.ServerConfig>)
    requires current.None? || !Config.HasServer(servers, current.value)
    ensures Followed(s, current, servers) == 0
  {
    if s != [] {
      FollowedDropsCurrent(s[..|s| - 1], current, servers);
    }
  }

  // ---------------------------------------------------------------------------
  // Background polling

  /** The polling set up for a background tab's server, checked at the
      minimised interval; an unknown server gets none. */
  function PollerConfigOf(servers: seq<Config.ServerConfig>, name: string): (r: Option<Poller.PollerConfig>)
    ensures r.None? <==> !Config.HasServer(servers, name)
    ensures r.Some? ==> r.value.name == name
  {
    match Config.ServerNamed(servers, name)
      case None => None
      case Some(s) => Some(Poller.PollerConfig(s.name, s.connection, s.intervals.torrentsMinimized))
  }

  /** The background tabs' polling, in tab order: every open tab but the
      current one, skipping unknown servers. */
  function PollerConfigs(t: Tabs, servers: seq<Config.ServerConfig>): (r: seq<Poller.PollerConfig>)
    ensures |r| <= |t.openTabs|
    ensures forall i :: 0 <= i < |r| ==> Config.HasServer(servers, r[i].name)
    decreases |t.openTabs|
  {
    if t.openTabs == [] then []
    else
      var n := |t.openTabs| - 1;
      var rest := PollerConfigs(Tabs(t.openTabs[..n], t.currentTab), servers);
      if n == t.currentTab then rest
      else match PollerConfigOf(servers, t.openTabs[n])
        case None => rest
        case Some(c) => rest + [c]
  }

  /** A server is polled in the background exactly when it has an open tab
      other than the current one and is configured; each is polled at its
      minimised interval. */
  lemma {:induction false} PolledInBackground(t: Tabs, servers: seq<Config.ServerConfig>, name: string)
    ensures (exists c :: c in PollerConfigs(t, servers) && c.name == name) <==>
      (exists i :: 0 <= i < |t.openTabs| && i != t.currentTab && t.openTabs[i] == name) && Config.HasServer(servers, name)
    ensures forall c :: c in PollerConfigs(t, servers) ==> PollerConfigOf(servers, c.name) == Some(c)
    decreases |t.openTabs|
  {
    if t.openTabs != [] {
      var n := |t.openTabs| - 1;
      var p := Tabs(t.openTabs[..n], t.currentTab);
      PolledInBackground(p, servers, name);
      forall i | 0 <= i < n
        ensures p.openTabs[i] == t.openTabs[i]
      {
      }
      if (exists i :: 0 <= i < |t.openTabs| && i != t.currentTab && t.openTabs[i] == name) && Config.HasServer(servers, name) {
        var i :| 0 <= i < |t.openTabs| && i != t.currentTab && t.openTabs[i] == name;
        if i == n {
          assert PollerConfigOf(servers, name).Some?;
        }
      }
    }
  }

  /** No server is polled in the background twice when its tab is open
      once, and the current tab's server is not polled in the background. */
  lemma CurrentNotPolled(t: Tabs, servers: seq<Config.ServerConfig>)
    requires Distinct(t.openTabs) && 0 <= t.currentTab < |t.openTabs|
    ensures forall c :: c in PollerConfigs(t, servers) ==> c.name != t.openTabs[t.currentTab]
  {
    forall c | c in PollerConfigs(t, servers)
      ensures c.name != t.openTabs[t.currentTab]
    {
      PolledInBackground(t, servers, c.name);
    }
  }
}

=== FILE: server_view.dfy ===
/** The torrent list of one server tab: the reducer of the selected
    torrents, the reducer of the filters chosen in the side panel, the
    search box, and the effect that recomputes the listed torrents. */
module ServerView {
  import opened Common
  import Filters

  // ---------------------------------------------------------------------------
  // Selected torrents

  /** The reducer's verbs; `Keep` is the source's "filter". */
  datatype SelectVerb = Add | SetTo | Toggle | Keep

  function Elems(ids: seq<int>): set<int> {
    set x | x in ids
  }

  /** `id` added when absent, removed when present. */
  function Flip(s: set<int>, id: int): set<int> {
    if id in s then s - {id} else s + {id}
  }

  /** Each id of the list flipped in turn: an id ends up flipped exactly when
      it occurs an odd number of times. */
  function ToggleAll(s: set<int>, ids: seq<int>): (r: set<int>)
    ensures forall x :: x in r <==> ((x in s) != (multiset(ids)[x] % 2 == 1))
  {
    if ids == [] then s
    else
      var n := |ids| - 1;
      assert ids == ids[..n] + [ids[n]];
      Flip(ToggleAll(s, ids[..n]), ids[n])
  }

  /** The new selection: "set" yields exactly the ids, "add" the union,
      "filter" keeps only selected torrents that are listed (and never adds
      one), and "toggle" flips the membership of each id in turn. */
  function Reduced(selected: set<int>, verb: SelectVerb, ids: seq<int>): (r: set<int>)
    ensures verb == SetTo ==> (forall x :: x in r <==> x in ids)
    ensures verb == Add ==> selected <= r && (forall x :: x in r <==> x in selected || x in ids)
    ensures verb == Keep ==> r <= selected && (forall x :: x in r <==> x in selected && x in ids)
    ensures verb == Toggle ==> (forall x :: x in r <==> ((x in selected) != (multiset(ids)[x] % 2 == 1)))
  {
    match verb
    case SetTo => Elems(ids)
    case Add => selected + Elems(ids)
    case Keep => set x | x in selected && x in ids
    case Toggle => ToggleAll(selected, ids)
  }

  /** Toggling the same ids twice restores the selection. */
  lemma ToggleTwice(selected: set<int>, ids: seq<int>)
    ensures Reduced(Reduced(selected, Toggle, ids), Toggle, ids) == selected
  {
  }

  lemma ElemsExtend(ids: seq<int>, i: nat)
    requires i < |ids|
    ensures Elems(ids[..i + 1]) == Elems(ids[..i]) + {ids[i]}
  {
    assert ids[..i + 1] == ids[..i] + [ids[i]];
  }

  lemma ToggleExtend(s: set<int>, ids: seq<int>, i: nat)
    requires i < |ids|
    ensures ToggleAll(s, ids[..i + 1]) == Flip(ToggleAll(s, ids[..i]), ids[i])
  {
    assert ids[..i + 1][..i] == ids[..i];
  }

  method SelectedTorrentsReducer(selected: set<int>, verb: SelectVerb, ids: seq<int>) returns (result: set<int>)
    ensures result == Reduced(selected, verb, ids)
  {
    result := selected;
    if verb == SetTo {
      result := {};
      for i := 0 to |ids|
        invariant result == Elems(ids[..i])
      {
        ElemsExtend(ids, i);
        result := result + {ids[i]};
      }
      assert ids[..|ids|] == ids;
    } else if verb == Add {
      for i := 0 to |ids|
        invariant result == selected + Elems(ids[..i])
      {
        ElemsExtend(ids, i);
        result := result + {ids[i]};
      }
      assert ids[..|ids|] == ids;
    } else if verb == Keep {
      result := set x | x in result && x in ids;
    } else {
      for i := 0 to |ids|
        invariant result == ToggleAll(selected, ids[..i])
      {
        ToggleExtend(selected, ids, i);
        if ids[i] in result {
          result := result - {ids[i]};
        } else {
          result := result + {ids[i]};
        }
      }
      assert ids[..|ids|] == ids;
    }
  }

  // ---------------------------------------------------------------------------
  // Current filters

  /** A torrent as the list shows it: its id, its name and the fields the
      side panel's filters read. */
  datatype Torrent = Torrent(id: int, name: string, fields: Filters.Torrent)

  /** What a row of the side panel filters on; `Everything` is the default
      filter with the empty id. */
  datatype Criterion =
    | Everything
    | Status(name: Filters.StatusFilterName)
    | Unlabelled
    | Label(labelName: string)
    | Tracker(tracker: string)
    | Dir(path: string)

  predicate Accepts(c: Criterion, t: Torrent) {
    match c
    case Everything => true
    case Status(name) => Filters.StatusFilter(name, t.fields)
    case Unlabelled => Filters.NoLabels(t.fields)
    case Label(name) => Filters.LabelFilter(name, t.fields)
    case Tracker(tracker) => Filters.TrackerFilter(tracker, t.fields)
    case Dir(path) => Filters.DirFilter(path, t.fields)
  }

  datatype TorrentFilter = TorrentFilter(id: string, criterion: Criterion)

  datatype FilterVerb = SetFilter | ToggleFilter

  predicate HasId(filters: seq<TorrentFilter>, id: string) {
    exists f :: f in filters && f.id == id
  }

  /** The filters whose id differs from `id`, in order. */
  function WithoutId(filters: seq<TorrentFilter>, id: string): (r: seq<TorrentFilter>)
    ensures |r| <= |filters|
    ensures forall f :: f in r <==> f in filters && f.id != id
  {
    if filters == [] then []
    else if filters[0].id == id then WithoutId(filters[1..], id)
    else [filters[0]] + WithoutId(filters[1..], id)
  }

  lemma {:induction false} WithoutIdNone(filters: seq<TorrentFilter>, id: string)
    requires !HasId(filters, id)
    ensures WithoutId(filters, id) == filters
  {
    if filters != [] {
      assert filters[0] in filters;
      WithoutIdNone(filters[1..], id);
    }
  }

  lemma {:induction false} WithoutIdShorter(filters: seq<TorrentFilter>, id: string)
    requires HasId(filters, id)
    ensures |WithoutId(filters, id)| < |filters|
  {
    if filters[0].id != id {
      var f :| f in filters && f.id == id;
      assert f in filters[1..];
      WithoutIdShorter(filters[1..], id);
    }
  }

  /** "set" makes `filter` the only filter. "toggle" removes every filter
      with the same id when there is one, and otherwise appends `filter`. */
  function CurrentFiltersReduce(filters: seq<TorrentFilter>, verb: FilterVerb, filter: TorrentFilter): (r: seq<TorrentFilter>)
    ensures verb == SetFilter ==> r == [filter]
    ensures verb == ToggleFilter && HasId(filters, filter.id) ==>
      |r| < |filters| && !HasId(r, filter.id) && forall f :: f in r <==> f in filters && f.id != filter.id
    ensures verb == ToggleFilter && !HasId(filters, filter.id) ==> r == filters + [filter]
  {
    if verb == SetFilter then [filter]
    else
      var kept := WithoutId(filters, filter.id);
      if |kept| == |filters| then
        assert !HasId(filters, filter.id) by {
          if HasId(filters, filter.id) { WithoutIdShorter(filters, filter.id); }
        }
        WithoutIdNone(filters, filter.id);
        kept + [filter]
      else
        assert HasId(filters, filter.id) by {
          if !HasId(filters, filter.id) { WithoutIdNone(filters, filter.id); }
        }
        kept
  }

  /** Toggling the same filter twice restores a list that did not hold its
      id. */
  lemma ToggleFilterTwice(filters: seq<TorrentFilter>, filter: TorrentFilter)
    requires !HasId(filters, filter.id)
    ensures CurrentFiltersReduce(CurrentFiltersReduce(filters, ToggleFilter, filter), ToggleFilter, filter) == filters
  {
    assert filter in filters + [filter];
    WithoutIdAppend(filters, filter);
  }

  lemma {:induction false} WithoutIdAppend(filters: seq<TorrentFilter>, filter: TorrentFilter)
    requires !HasId(filters, filter.id)
    ensures WithoutId(filters + [filter], filter.id) == filters
  {
    if filters == [] {
      assert [filter][1..] == [];
    } else {
      assert filters[0] in filters;
      assert (filters + [filter])[1..] == filters[1..] + [filter];
      WithoutIdAppend(filters[1..], filter);
    }
  }

  // ---------------------------------------------------------------------------
  // Search and the listed torrents

  /** Every search term occurs in the lower-cased name. */
  function SearchFilter(terms: seq<string>, t: Torrent): (r: bool)
    ensures r <==> forall i :: 0 <= i < |terms| ==> Contains(Lower(t.name), terms[i])
  {
    if terms == [] then true
    else Contains(Lower(t.name), terms[0]) && SearchFilter(terms[1..], t)
  }

  predicate AllAccept(filters: seq<TorrentFilter>, t: Torrent) {
    forall i :: 0 <= i < |filters| ==> Accepts(filters[i].criterion, t)
  }

  predicate Listed(filters: seq<TorrentFilter>, terms: seq<string>, t: Torrent) {
    AllAccept(filters, t) && SearchFilter(terms, t)
  }

  /** The listed torrents, in the order of the full list. */
  function Visible(torrents: seq<Torrent>, filters: seq<TorrentFilter>, terms: seq<string>): (r: seq<Torrent>)
    ensures |r| <= |torrents|
    ensures forall t :: t in r <==> t in torrents && Listed(filters, terms, t)
    ensures r == Filter(torrents, t => Listed(filters, terms, t))
  {
    if torrents == [] then []
    else (if Listed(filters, terms, torrents[0]) then [torrents[0]] else []) + Visible(torrents[1..], filters, terms)
  }

  /** The listed torrents of two lists one after the other are those of the
      first followed by those of the second: listing keeps the order and the
      repeats of the full list. */
  lemma VisibleInOrder(a: seq<Torrent>, b: seq<Torrent>, filters: seq<TorrentFilter>, terms: seq<string>)
    ensures Visible(a + b, filters, terms) == Visible(a, filters, terms) + Visible(b, filters, terms)
  {
    FilterConcat(a, b, t => Listed(filters, terms, t));
  }

  function Ids(torrents: seq<Torrent>): (r: seq<int>)
    ensures |r| == |torrents| && forall i :: 0 <= i < |r| ==> r[i] == torrents[i].id
  {
    if torrents == [] then [] else [torrents[0].id] + Ids(torrents[1..])
  }

  /** An id is among the ids of a list exactly when some torrent of the
      list has it. */
  lemma IdsOf(torrents: seq<Torrent>)
    ensures forall id :: id in Ids(torrents) <==> exists t :: t in torrents && t.id == id
  {
    var ids := Ids(torrents);
    forall id | exists t :: t in torrents && t.id == id ensures id in ids {
      var t :| t in torrents && t.id == id;
      var i :| 0 <= i < |torrents| && torrents[i] == t;
      assert ids[i] == id;
    }
  }

  /** The search by the current id finds something exactly when some
      torrent has it. */
  lemma IdFound(torrents: seq<Torrent>, current: Option<int>)
    ensures current.Some? ==>
      (FindIndex(torrents, (t: Torrent) => t.id == current.value) != -1 <==> exists t :: t in torrents && t.id == current.value)
  {
    if current.Some? && exists t :: t in torrents && t.id == current.value {
      var t :| t in torrents && t.id == current.value;
      var i :| 0 <= i < |torrents| && torrents[i] == t;
      assert FindIndex(torrents, (t: Torrent) => t.id == current.value) != -1;
    }
  }

  datatype View = View(listed: seq<Torrent>, selected: set<int>, current: Option<int>)

  /** What the list effect recomputes when the torrents, the filters or the
      search change: the listed torrents, the selection narrowed to them,
      and the current torrent, cleared when no torrent has its id. */
  function Refresh(torrents: seq<Torrent>, filters: seq<TorrentFilter>, terms: seq<string>,
                   selected: set<int>, current: Option<int>): (v: View)
    ensures forall t :: t in v.listed <==> t in torrents && Listed(filters, terms, t)
    ensures v.listed == Visible(torrents, filters, terms)
    ensures v.selected <= selected
    ensures forall id :: id in v.selected <==> id in selected && exists t :: t in v.listed && t.id == id
    ensures v.current.Some? <==> current.Some? && exists t :: t in torrents && t.id == current.value
    ensures v.current.Some? ==> v.current == current
  {
    var listed := Visible(torrents, filters, terms);
    var ids := Ids(listed);
    IdsOf(listed);
    var found := current.Some? && FindIndex(torrents, (t: Torrent) => t.id == current.value) != -1;
    IdFound(torrents, current);
    View(listed, Reduced(selected, Keep, ids), if found then current else None)
  }
}

=== FILE: settings.dfy ===
/** The application settings dialog: the list of configured servers with
    its current entry, the path mappings typed one per line, the checks on
    server names and URLs, and the rule that nothing is saved while a check
    fails. */
module Settings {
  import opened Common
  import TrUtil

  /** A configured server, as far as the dialog edits it. */
  datatype Server = Server(name: string, url: string, pathMappings: seq<TrUtil.PathMapping>)

  /** The entry the plus button appends. */
  const NewServer := Server("new", "", [])

  // ---------------------------------------------------------------------------
  // The server list and its current entry

  /** The form's server list and the index of the entry shown, -1 when the
      list is empty. */
  datatype ListState = ListState(servers: seq<Server>, current: int)

  predicate ValidList(st: ListState) {
    -1 <= st.current < |st.servers| && (st.current == -1 <==> st.servers == [])
  }

  /** Removing a list item keeps every other item; an index outside the
      list removes nothing. */
  function RemoveItem<T>(list: seq<T>, index: int): (r: seq<T>)
    ensures 0 <= index < |list| ==> r == list[..index] + list[index + 1..]
    ensures !(0 <= index < |list|) ==> r == list
  {
    if 0 <= index < |list| then list[..index] + list[index + 1..] else list
  }

  /** Moving an item: it is taken out at `from` and put back at `to`. */
  function ReorderItem<T>(list: seq<T>, from: nat, to: nat): (r: seq<T>)
    requires from < |list| && to < |list|
    ensures |r| == |list| && r[to] == list[from]
    ensures multiset(r) == multiset(list)
  {
    var rest := list[..from] + list[from + 1..];
    assert list == list[..from] + [list[from]] + list[from + 1..];
    assert multiset(list) == multiset(rest) + multiset{list[from]};
    assert rest == rest[..to] + rest[to..];
    rest[..to] + [list[from]] + rest[to..]
  }

  /** Moving an item one place swaps it with its neighbour. */
  lemma ReorderAdjacent<T>(list: seq<T>, i: nat)
    requires i + 1 < |list|
    ensures ReorderItem(list, i + 1, i) == list[..i] + [list[i + 1], list[i]] + list[i + 2..]
    ensures ReorderItem(list, i, i + 1) == list[..i] + [list[i + 1], list[i]] + list[i + 2..]
  {
    var r1 := ReorderItem(list, i + 1, i);
    var r2 := ReorderItem(list, i, i + 1);
    assert r1 == list[..i] + [list[i + 1], list[i]] + list[i + 2..];
    assert r2 == list[..i] + [list[i + 1], list[i]] + list[i + 2..];
  }

  /** The plus button: a new entry is appended and becomes current. */
  function AddServer(st: ListState): (r: ListState)
    ensures r.servers == st.servers + [NewServer]
    ensures r.current == |st.servers| && r.servers[r.current] == NewServer
  {
    ListState(st.servers + [NewServer], |st.servers|)
  }

  /** The minus button as written: the current entry is removed; when it
      was the last one, the index moves to length - 2. */
  function RemoveServerAsWritten(st: ListState): (r: ListState)
    ensures r.servers == RemoveItem(st.servers, st.current)
    ensures r.current == if st.current >= |st.servers| - 1 then |st.servers| - 2 else st.current
  {
    ListState(RemoveItem(st.servers, st.current),
              if st.current >= |st.servers| - 1 then |st.servers| - 2 else st.current)
  }

  /** On an empty list the minus button moves the index to -2: neither -1
      (which shows the empty placeholder) nor an entry of the list, so the
      server panel is asked to show an entry that does not exist. */
  lemma RemoveOnEmptyList()
    ensures ValidList(ListState([], -1))
    ensures RemoveServerAsWritten(ListState([], -1)) == ListState([], -2)
    ensures !ValidList(RemoveServerAsWritten(ListState([], -1)))
  {
  }

  /** The minus button as evidently intended: with no entry there is
      nothing to remove and the list stays as it is. */
  function RemoveServer(st: ListState): (r: ListState)
    ensures st.servers == [] ==> r == st
    ensures st.servers != [] ==> r == RemoveServerAsWritten(st)
  {
    if |st.servers| == 0 then st else RemoveServerAsWritten(st)
  }

  /** The up arrow: the current entry trades places with the one above it
      and stays current; at the top nothing happens. */
  function MoveUp(st: ListState): (r: ListState)
    requires ValidList(st)
    ensures st.current <= 0 ==> r == st
    ensures st.current > 0 ==>
      && r.current == st.current - 1
      && r.servers == st.servers[..st.current - 1] + [st.servers[st.current], st.servers[st.current - 1]] + st.servers[st.current + 1..]
  {
    if st.current > 0 then
      ReorderAdjacent(st.servers, st.current - 1);
      ListState(ReorderItem(st.servers, st.current, st.current - 1), st.current - 1)
    else st
  }

  /** The down arrow: the current entry trades places with the one below it
      and stays current; at the bottom nothing happens. */
  function MoveDown(st: ListState): (r: ListState)
    requires ValidList(st)
    ensures st.current >= |st.servers| - 1 ==> r == st
    ensures st.current < |st.servers| - 1 ==>
      && r.current == st.current + 1
      && r.servers == st.servers[..st.current] + [st.servers[st.current + 1], st.servers[st.current]] + st.servers[st.current + 2..]
  {
    if st.current < |st.servers| - 1 then
      ReorderAdjacent(st.servers, st.current);
      ListState(ReorderItem(st.servers, st.current, st.current + 1), st.current + 1)
    else st
  }

  /** Every button keeps the current index on an entry of the list, or at
      -1 for an empty list. */
  lemma ButtonsKeepValid(st: ListState)
    requires ValidList(st)
    ensures ValidList(AddServer(st))
    ensures ValidList(RemoveServer(st))
    ensures ValidList(MoveUp(st)) && ValidList(MoveDown(st))
  {
    RemoveKeepsValid(st);
  }

  lemma RemoveKeepsValid(st: ListState)
    requires ValidList(st)
    ensures ValidList(RemoveServer(st))
  {
    var r := RemoveServer(st);
    if st.servers != [] {
      assert |r.servers| == |st.servers| - 1;
      assert r.servers == [] <==> |st.servers| == 1;
    }
  }

  /** Removing drops exactly the current entry. */
  lemma RemoveDropsCurrent(st: ListState)
    requires ValidList(st) && st.servers != []
    ensures |RemoveServer(st).servers| == |st.servers| - 1
    ensures multiset(RemoveServer(st).servers) + multiset{st.servers[st.current]} == multiset(st.servers)
  {
    var c := st.current;
    assert st.servers == st.servers[..c] + [st.servers[c]] + st.servers[c + 1..];
  }

  /** Moving keeps the entries and the entry shown. */
  lemma MoveKeepsEntries(st: ListState)
    requires ValidList(st) && st.servers != []
    ensures multiset(MoveUp(st).servers) == multiset(st.servers)
    ensures multiset(MoveDown(st).servers) == multiset(st.servers)
    ensures MoveUp(st).servers[MoveUp(st).current] == st.servers[st.current]
    ensures MoveDown(st).servers[MoveDown(st).current] == st.servers[st.current]
  {
  }

  /** Moving up and then down restores the list. */
  lemma MoveUpDown(st: ListState)
    requires ValidList(st) && st.current > 0
    ensures MoveDown(MoveUp(st)) == st
  {
    var c := st.current;
    var s := st.servers;
    var up := MoveUp(st);
    assert up.servers == s[..c - 1] + [s[c], s[c - 1]] + s[c + 1..];
    assert up.servers[..c - 1] == s[..c - 1];
    assert up.servers[c + 1..] == s[c + 1..];
    assert up.servers[c - 1] == s[c] && up.servers[c] == s[c - 1];
    assert s == s[..c - 1] + [s[c - 1], s[c]] + s[c + 1..];
  }

  /** The server list of the open dialog. */
  class ServerListForm {
    var servers: seq<Server>
    var current: int

    function State(): ListState
      reads this
    {
      ListState(servers, current)
    }

    /** Opening the dialog shows the configured servers with the first one
        current, or none when there is none. */
    constructor (configured: seq<Server>)
      ensures servers == configured
      ensures current == if configured != [] then 0 else -1
      ensures ValidList(State())
    {
      servers := configured;
      current := if |configured| > 0 then 0 else -1;
    }

    method Add()
      modifies this
      ensures State() == AddServer(old(State()))
    {
      var n := |servers|;
      servers := servers + [NewServer];
      current := n;
    }

    /** The minus button, with the empty list left alone. */
    method Remove()
      modifies this
      ensures State() == RemoveServer(old(State()))
    {
      if |servers| == 0 {
        return;
      }
      var index := current;
      if current >= |servers| - 1 {
        current := |servers| - 2;
      }
      servers := RemoveItem(servers, index);
    }

    method Up()
      requires ValidList(State())
      modifies this
      ensures State() == MoveUp(old(State()))
    {
      if current > 0 {
        servers := ReorderItem(servers, current, current - 1);
        current := current - 1;
      }
    }

    method Down()
      requires ValidList(State())
      modifies this
      ensures State() == MoveDown(old(State()))
    {
      if current < |servers| - 1 {
        servers := ReorderItem(servers, current, current + 1);
        current := current + 1;
      }
    }
  }

  // ---------------------------------------------------------------------------
  // Path mappings, one "remote=local" per line

  /** A line splits at its first '='; a line without one maps from "" to
      the whole line. */
  function ParseMapping(line: string): (m: TrUtil.PathMapping)
    ensures '=' !in line ==> m == TrUtil.PathMapping("", line)
    ensures '=' in line ==> '=' !in m.from && line == m.from + "=" + m.to
  {
    var equalsPos := IndexOf(line, '=') + 1;
    var m := TrUtil.PathMapping(JsSubstring(line, 0, equalsPos - 1), JsSubstringFrom(line, equalsPos));
    assert '=' in line ==> line == m.from + "=" + m.to && '=' !in m.from by {
      if '=' in line {
        var k := IndexOf(line, '=');
        assert line == line[..k] + "=" + line[k + 1..];
        assert forall j :: 0 <= j < k ==> line[j] != '=';
      }
    }
    m
  }

  /** How a mapping is shown in the text box. */
  function FormatMapping(m: TrUtil.PathMapping): (line: string)
    ensures StartsWith(line, m.from) && EndsWith(line, m.to) && |line| == |m.from| + 1 + |m.to|
    ensures line[|m.from|] == '='
  {
    var line := m.from + "=" + m.to;
    assert line[..|m.from|] == m.from && line[|line| - |m.to|..] == m.to;
    line
  }

  /** A mapping whose remote path has no '=' reads back from its line. */
  lemma MappingRoundTrip(m: TrUtil.PathMapping)
    requires '=' !in m.from
    ensures ParseMapping(FormatMapping(m)) == m
  {
    var line := FormatMapping(m);
    assert line[|m.from|] == '=';
    var p := ParseMapping(line);
    assert '=' in line;
    MappingSplitUnique(m.from, m.to, p.from, p.to);
  }

  /** The first '=' fixes the split. */
  lemma MappingSplitUnique(a: string, b: string, c: string, d: string)
    requires '=' !in a && '=' !in c
    requires a + "=" + b == c + "=" + d
    ensures a == c && b == d
  {
    var s := a + "=" + b;
    assert |a| == |c| by {
      assert s[|a|] == '=' && s[|c|] == '=';
    }
    assert a == s[..|a|] == c;
    assert b == s[|a| + 1..] == d;
  }

  /** The text box read as mappings, one per line. */
  function ParseMappings(text: string): (ms: seq<TrUtil.PathMapping>)
    ensures |ms| == |Split(text, '\n')|
    ensures forall i :: 0 <= i < |ms| ==> ms[i] == ParseMapping(Split(text, '\n')[i])
  {
    var lines := Split(text, '\n');
    seq(|lines|, i requires 0 <= i < |lines| => ParseMapping(lines[i]))
  }

  function FormatMappings(ms: seq<TrUtil.PathMapping>): string {
    Join(seq(|ms|, i requires 0 <= i < |ms| => FormatMapping(ms[i])), "\n")
  }

  /** The mappings shown in the text box read back unchanged, as long as
      no remote path holds '=' and no path holds a line break. */
  lemma MappingsRoundTrip(ms: seq<TrUtil.PathMapping>)
    requires ms != []
    requires forall i :: 0 <= i < |ms| ==> '=' !in ms[i].from && '\n' !in ms[i].from && '\n' !in ms[i].to
    ensures ParseMappings(FormatMappings(ms)) == ms
  {
    var lines := seq(|ms|, i requires 0 <= i < |ms| => FormatMapping(ms[i]));
    forall i | 0 <= i < |lines| ensures '\n' !in lines[i] {
      assert lines[i] == ms[i].from + "=" + ms[i].to;
    }
    TrUtil.SplitJoin(lines, '\n');
    forall i | 0 <= i < |ms| ensures ParseMapping(lines[i]) == ms[i] {
      MappingRoundTrip(ms[i]);
    }
  }

  // ---------------------------------------------------------------------------
  // Validation and saving

  const DuplicateNameError := "Server names must be unique"
  const InvalidUrlError := "Invalid URL"
  const ProtocolError := "Only http/https URLs are supported"

  /** Another entry than `index` has the name `value`. */
  predicate Duplicate(servers: seq<Server>, index: nat, value: string) {
    exists i :: 0 <= i < |servers| && i != index && servers[i].name == value
  }

  /** The name check of entry `index`: it walks the list and fails when
      another entry has the same name. */
  method NameError(servers: seq<Server>, index: nat, value: string) returns (e: Option<string>)
    ensures e.Some? <==> Duplicate(servers, index, value)
    ensures e.Some? ==> e.value == DuplicateNameError
  {
    var found := false;
    for i := 0 to |servers|
      invariant found <==> exists k :: 0 <= k < i && k != index && servers[k].name == value
    {
      if i != index && value == servers[i].name {
        found := true;
      }
    }
    e := if found then Some(DuplicateNameError) else None;
  }

  /** The URL check. The protocol of the parsed URL is an input
      (`None` when the URL does not parse): only "http:" and "https:" pass. */
  function UrlError(protocol: Option<string>): (e: Option<string>)
    ensures e.None? <==> protocol == Some("http:") || protocol == Some("https:")
    ensures protocol.None? ==> e == Some(InvalidUrlError)
    ensures protocol.Some? && protocol.value != "http:" && protocol.value != "https:" ==> e == Some(ProtocolError)
  {
    match protocol
    case None => Some(InvalidUrlError)
    case Some(p) => if p in ["http:", "https:"] then None else Some(ProtocolError)
  }

  /** The form passes when every entry passes both checks; `protocols[i]`
      is the parsed protocol of entry i's URL. */
  predicate FormValid(servers: seq<Server>, protocols: seq<Option<string>>)
    requires |protocols| == |servers|
  {
    forall i :: 0 <= i < |servers| ==> !Duplicate(servers, i, servers[i].name) && UrlError(protocols[i]).None?
  }

  /** The save button: the servers are handed to the configuration only
      when the form passes. */
  method OnSave(servers: seq<Server>, protocols: seq<Option<string>>) returns (saved: Option<seq<Server>>)
    requires |protocols| == |servers|
    ensures saved.Some? <==> FormValid(servers, protocols)
    ensures saved.Some? ==> saved.value == servers
  {
    saved := Some(servers);
    for i := 0 to |servers|
      invariant saved.Some? <==> forall k :: 0 <= k < i ==> !Duplicate(servers, k, servers[k].name) && UrlError(protocols[k]).None?
      invariant saved.Some? ==> saved.value == servers
    {
      var nameError := NameError(servers, i, servers[i].name);
      if nameError.Some? || UrlError(protocols[i]).Some? {
        saved := None;
      }
    }
  }

  /** Two entries with the same name both fail, so such a list is never
      saved; with distinct names every entry passes the name check. */
  lemma DuplicateNamesNotSaved(servers: seq<Server>, protocols: seq<Option<string>>, i: nat, j: nat)
    requires |protocols| == |servers|
    requires i < j < |servers| && servers[i].name == servers[j].name
    ensures Duplicate(servers, i, servers[i].name) && Duplicate(servers, j, servers[j].name)
    ensures !FormValid(servers, protocols)
  {
  }

  lemma DistinctNamesPass(servers: seq<Server>)
    requires forall i, j :: 0 <= i < j < |servers| ==> servers[i].name != servers[j].name
    ensures forall i :: 0 <= i < |servers| ==> !Duplicate(servers, i, servers[i].name)
  {
  }
}

=== FILE: table_common.dfy ===
/** What every table shares: the standard selection reducer over row ids
    (kept in the insertion order of a JavaScript `Set`), the row-click rule
    with its shift-click range and anchor, the column order repaired before
    a drag is applied, and the column visibility toggle. */
module TableCommon {
  import opened Common
  import TrUtil

  // ---------------------------------------------------------------------------
  // Ordered sets of row ids

  /** A JavaScript `Set` add: appended when absent. */
  function Insert(s: seq<string>, x: string): (r: seq<string>)
    ensures x in r && forall y :: y in r <==> y in s || y == x
    ensures Distinct(s) ==> Distinct(r)
    ensures x in s ==> r == s
  {
    if x in s then s else s + [x]
  }

  /** A JavaScript `Set` delete: the other elements keep their order. */
  function Delete(s: seq<string>, x: string): (r: seq<string>)
    ensures Distinct(s) ==> Distinct(r) && forall y :: y in r <==> y in s && y != x
    ensures |r| <= |s|
  {
    if s == [] then []
    else if s[0] == x then s[1..]
    else
      var rest := Delete(s[1..], x);
      assert Distinct(s) ==> s[0] !in s[1..];
      [s[0]] + rest
  }

  /** `Array.from(new Set(s))`: the first occurrence of each id, in order. */
  function Dedup(s: seq<string>): (r: seq<string>)
    ensures Distinct(r) && forall y :: y in r <==> y in s
    ensures |r| <= |s|
  {
    if s == [] then []
    else Insert(Dedup(s[..|s| - 1]), s[|s| - 1])
  }

  lemma {:induction false} DedupDistinct(s: seq<string>)
    requires Distinct(s)
    ensures Dedup(s) == s
  {
    if s != [] {
      var n := |s| - 1;
      DedupDistinct(s[..n]);
      assert s[n] !in s[..n];
      assert s[..n] + [s[n]] == s;
    }
  }

  /** Each id flipped in turn: an id is in the result exactly when it was in
      `s` and occurs an even number of times, or was not and occurs an odd
      number of times. */
  function ToggleIds(s: seq<string>, ids: seq<string>): (r: seq<string>)
    requires Distinct(s)
    ensures Distinct(r)
    ensures forall x :: x in r <==> ((x in s) != (multiset(ids)[x] % 2 == 1))
  {
    if ids == [] then s
    else
      var n := |ids| - 1;
      var p := ToggleIds(s, ids[..n]);
      var r := if ids[n] in p then Delete(p, ids[n]) else p + [ids[n]];
      ToggleStep(s, ids, p, r);
      r
  }

  /** Flipping the last id flips its membership and keeps the others. */
  lemma ToggleStep(s: seq<string>, ids: seq<string>, p: seq<string>, r: seq<string>)
    requires ids != [] && Distinct(p)
    requires forall x :: x in p <==> ((x in s) != (multiset(ids[..|ids| - 1])[x] % 2 == 1))
    requires r == if ids[|ids| - 1] in p then Delete(p, ids[|ids| - 1]) else p + [ids[|ids| - 1]]
    ensures Distinct(r)
    ensures forall x :: x in r <==> ((x in s) != (multiset(ids)[x] % 2 == 1))
  {
    var last := ids[|ids| - 1];
    FlipMembers(p, last, r);
    forall x ensures x in r <==> ((x in s) != (multiset(ids)[x] % 2 == 1)) {
      LastCount(ids, x);
      var m := multiset(ids[..|ids| - 1])[x];
      assert (x in p) == ((x in s) != (m % 2 == 1));
      if x == last {
        OddAfterOne(m);
      }
    }
  }

  lemma OddAfterOne(m: nat)
    ensures ((m + 1) % 2 == 1) == (m % 2 != 1)
  {
  }

  /** Deleting a present id or appending an absent one flips its membership
      alone and keeps the sequence free of repeats. */
  lemma FlipMembers(p: seq<string>, last: string, r: seq<string>)
    requires Distinct(p)
    requires r == if last in p then Delete(p, last) else p + [last]
    ensures Distinct(r)
    ensures forall x :: x in r <==> (x in p) != (x == last)
  {
    if last !in p {
      AppendDistinct(p, last);
    }
  }

  /** Appending an absent element keeps a sequence free of repeats. */
  lemma AppendDistinct(p: seq<string>, x: string)
    requires Distinct(p) && x !in p
    ensures Distinct(p + [x])
  {
    var r := p + [x];
    forall i, j | 0 <= i < j < |r| ensures r[i] != r[j] {
      assert r[i] == p[i];
    }
  }

  /** The count of `x` among `ids` grows by one exactly when the last id is `x`. */
  lemma LastCount(ids: seq<string>, x: string)
    requires ids != []
    ensures multiset(ids)[x] == multiset(ids[..|ids| - 1])[x] + (if ids[|ids| - 1] == x then 1 else 0)
  {
    var n := |ids| - 1;
    assert ids == ids[..n] + [ids[n]];
  }

  /** Each id added in turn: the ids already present keep their places. */
  function AddIds(s: seq<string>, ids: seq<string>): (r: seq<string>)
    ensures Distinct(s) ==> Distinct(r)
    ensures forall x :: x in r <==> x in s || x in ids
    ensures |s| <= |r| && r[..|s|] == s
  {
    if ids == [] then s
    else
      var n := |ids| - 1;
      assert ids == ids[..n] + [ids[n]];
      Insert(AddIds(s, ids[..n]), ids[n])
  }

  // ---------------------------------------------------------------------------
  // The standard selection reducer

  datatype Verb = Add | SetTo | Toggle

  datatype SelectAction = SelectAction(verb: Verb, ids: seq<string>)

  /** The new selection: "set" yields the ids as given; "add" and "toggle"
      start from the distinct ids of the old selection. */
  function StandardSelect(selected: seq<string>, action: SelectAction): (r: seq<string>)
    ensures action.verb == SetTo ==> r == action.ids
    ensures action.verb != SetTo ==> Distinct(r)
    ensures action.verb == Add ==> (forall x :: x in r <==> x in selected || x in action.ids)
    ensures action.verb == Add ==> |Dedup(selected)| <= |r| && r[..|Dedup(selected)|] == Dedup(selected)
    ensures action.verb == Toggle ==>
      (forall x :: x in r <==> ((x in selected) != (multiset(action.ids)[x] % 2 == 1)))
  {
    match action.verb
    case SetTo => action.ids
    case Add => AddIds(Dedup(selected), action.ids)
    case Toggle => ToggleIds(Dedup(selected), action.ids)
  }

  method StandardSelectReducer(selected: seq<string>, action: SelectAction) returns (r: seq<string>)
    ensures r == StandardSelect(selected, action)
  {
    if action.verb == SetTo {
      return action.ids;
    }
    var newset: seq<string> := [];
    for i := 0 to |selected|
      invariant newset == Dedup(selected[..i])
    {
      DedupExtend(selected, i);
      if selected[i] !in newset {
        newset := newset + [selected[i]];
      }
    }
    assert selected[..|selected|] == selected;
    var start := newset;
    var ids := action.ids;
    for i := 0 to |ids|
      invariant action.verb == Add ==> newset == AddIds(start, ids[..i])
      invariant action.verb == Toggle ==> newset == ToggleIds(start, ids[..i])
    {
      AddIdsExtend(start, ids, i);
      if action.verb == Toggle {
        ToggleIdsExtend(start, ids, i);
      }
      if action.verb == Toggle && ids[i] in newset {
        newset := Delete(newset, ids[i]);
      } else if ids[i] !in newset {
        newset := newset + [ids[i]];
      }
    }
    assert ids[..|ids|] == ids;
    r := newset;
  }

  lemma DedupExtend(s: seq<string>, i: nat)
    requires i < |s|
    ensures Dedup(s[..i + 1]) == Insert(Dedup(s[..i]), s[i])
  {
    assert s[..i + 1][..i] == s[..i];
  }

  lemma AddIdsExtend(start: seq<string>, ids: seq<string>, i: nat)
    requires i < |ids|
    ensures AddIds(start, ids[..i + 1]) == Insert(AddIds(start, ids[..i]), ids[i])
  {
    assert ids[..i + 1][..i] == ids[..i];
  }

  lemma ToggleIdsExtend(start: seq<string>, ids: seq<string>, i: nat)
    requires Distinct(start) && i < |ids|
    ensures var p := ToggleIds(start, ids[..i]);
      ToggleIds(start, ids[..i + 1]) == if ids[i] in p then Delete(p, ids[i]) else p + [ids[i]]
  {
    assert ids[..i + 1][..i] == ids[..i];
  }

  // ---------------------------------------------------------------------------
  // Row clicks

  function Min(a: int, b: int): int { if a <= b then a else b }
  function Max(a: int, b: int): int { if a <= b then b else a }

  /** The ids of the rows between the clicked row and the anchor, both
      included, in row order. */
  function RowRange(rows: seq<string>, index: nat, lastIndex: nat): (ids: seq<string>)
    requires index < |rows| && lastIndex < |rows|
    ensures |ids| == Max(index, lastIndex) - Min(index, lastIndex) + 1
    ensures forall k :: 0 <= k < |ids| ==> ids[k] == rows[Min(index, lastIndex) + k]
  {
    rows[Min(index, lastIndex)..Max(index, lastIndex) + 1]
  }

  /** The range does not depend on which end was clicked first, and holds
      both ends. */
  lemma RowRangeSymmetric(rows: seq<string>, index: nat, lastIndex: nat)
    requires index < |rows| && lastIndex < |rows|
    ensures RowRange(rows, index, lastIndex) == RowRange(rows, lastIndex, index)
    ensures rows[index] in RowRange(rows, index, lastIndex) && rows[lastIndex] in RowRange(rows, index, lastIndex)
  {
    var ids := RowRange(rows, index, lastIndex);
    assert rows[index] == ids[index - Min(index, lastIndex)];
    assert rows[lastIndex] == ids[lastIndex - Min(index, lastIndex)];
  }

  method GenIds(rows: seq<string>, index: nat, lastIndex: nat) returns (ids: seq<string>)
    requires index < |rows| && lastIndex < |rows|
    ensures ids == RowRange(rows, index, lastIndex)
  {
    var minIndex := Min(index, lastIndex);
    var maxIndex := Max(index, lastIndex);
    ids := [];
    var i := minIndex;
    while i <= maxIndex
      invariant minIndex <= i <= maxIndex + 1
      invariant ids == rows[minIndex..i]
    {
      ids := ids + [rows[i]];
      i := i + 1;
    }
  }

  datatype Click = Click(shift: bool, modKey: bool, button: int)

  /** What a click on row `index` does: the selection action it dispatches
      (if any), the new anchor, and the row that becomes current. */
  datatype ClickOutcome = ClickOutcome(action: Option<SelectAction>, lastIndex: int, current: string)

  /** A shift-click with an anchor selects the range (adding to the selection
      when a modifier key is held too); a modifier click toggles the row; any
      other click selects just the row, except a right click on a row that is
      already selected. Only a click without shift moves the anchor. */
  function OnRowClick(rows: seq<string>, selected: seq<string>, click: Click, index: nat, lastIndex: int): (o: ClickOutcome)
    requires index < |rows| && -1 <= lastIndex && (click.shift && lastIndex != -1 ==> lastIndex < |rows|)
    ensures o.lastIndex == (if click.shift then lastIndex else index)
    ensures o.current == rows[index]
    ensures o.action.None? <==>
      !(click.shift && lastIndex != -1) && !click.modKey && click.button == 2 && rows[index] in selected
  {
    var action :=
      if click.shift && click.modKey && lastIndex != -1 then Some(SelectAction(Add, RowRange(rows, index, lastIndex)))
      else if click.shift && lastIndex != -1 then Some(SelectAction(SetTo, RowRange(rows, index, lastIndex)))
      else if click.modKey then Some(SelectAction(Toggle, [rows[index]]))
      else if click.button != 2 || rows[index] !in selected then Some(SelectAction(SetTo, [rows[index]]))
      else None;
    ClickOutcome(action, if click.shift then lastIndex else index, rows[index])
  }

  function Apply(selected: seq<string>, action: Option<SelectAction>): seq<string> {
    if action.Some? then StandardSelect(selected, action.value) else selected
  }

  /** The selection each kind of click leaves behind. */
  lemma ClickSelection(rows: seq<string>, selected: seq<string>, click: Click, index: nat, lastIndex: int)
    requires index < |rows| && -1 <= lastIndex && (click.shift && lastIndex != -1 ==> lastIndex < |rows|)
    ensures var after := Apply(selected, OnRowClick(rows, selected, click, index, lastIndex).action);
      && (click.shift && lastIndex != -1 && !click.modKey ==>
            after == RowRange(rows, index, lastIndex))
      && (click.shift && lastIndex != -1 && click.modKey ==>
            forall x :: x in after <==> x in selected || x in RowRange(rows, index, lastIndex))
      && (!(click.shift && lastIndex != -1) && click.modKey ==>
            (rows[index] in after <==> rows[index] !in selected) &&
            forall x :: x != rows[index] ==> (x in after <==> x in selected))
      && (!(click.shift && lastIndex != -1) && !click.modKey && (click.button != 2 || rows[index] !in selected) ==>
            after == [rows[index]])
      && (!(click.shift && lastIndex != -1) && !click.modKey && click.button == 2 && rows[index] in selected ==>
            after == selected)
  {
    if !(click.shift && lastIndex != -1) && click.modKey {
      assert forall x :: x != rows[index] ==> multiset([rows[index]])[x] == 0;
    }
  }

  // ---------------------------------------------------------------------------
  // Column order

  /** The first missing id of `ids`, in turn, appended to `order`. */
  function AppendMissing(order: seq<string>, ids: seq<string>): (r: seq<string>)
    ensures |order| <= |r| && r[..|order|] == order
    ensures forall x :: x in r <==> x in order || x in ids
    ensures forall k :: |order| <= k < |r| ==> r[k] in ids && r[k] !in order
    ensures Distinct(order) && Distinct(ids) ==> Distinct(r)
  {
    if ids == [] then order
    else
      var n := |ids| - 1;
      assert ids == ids[..n] + [ids[n]];
      var p := AppendMissing(order, ids[..n]);
      assert Distinct(ids) ==> ids[n] !in ids[..n];
      Insert(p, ids[n])
  }

  /** The stored order with unknown columns dropped, followed by the known
      columns it lacks. */
  function Sanitized(columnOrder: seq<string>, columnIds: seq<string>): seq<string> {
    AppendMissing(Filter(columnOrder, (f: string) => f in columnIds), columnIds)
  }

  /** The repaired order holds exactly the current columns, keeps the stored
      order of the known ones, and, when neither list repeats an id, is a
      permutation of the current columns. */
  lemma SanitizedColumns(columnOrder: seq<string>, columnIds: seq<string>)
    ensures var r := Sanitized(columnOrder, columnIds);
      && (forall x :: x in r <==> x in columnIds)
      && r[..|Filter(columnOrder, (f: string) => f in columnIds)|] == Filter(columnOrder, (f: string) => f in columnIds)
      && (Distinct(columnOrder) && Distinct(columnIds) ==> multiset(r) == multiset(columnIds))
  {
    var kept := Filter(columnOrder, (f: string) => f in columnIds);
    var r := Sanitized(columnOrder, columnIds);
    if Distinct(columnOrder) && Distinct(columnIds) {
      FilterDistinct(columnOrder, (f: string) => f in columnIds);
      DistinctSameElements(r, columnIds);
    }
  }

  lemma {:induction false} FilterDistinct(s: seq<string>, keep: string -> bool)
    requires Distinct(s)
    ensures Distinct(Filter(s, keep))
  {
    if s != [] {
      FilterDistinct(s[1..], keep);
      assert s[0] !in s[1..];
    }
  }

  /** A duplicate-free list holds each of its elements once. */
  lemma {:induction false} DistinctCount(s: seq<string>)
    requires Distinct(s)
    ensures forall x :: multiset(s)[x] == if x in s then 1 else 0
  {
    if s != [] {
      var n := |s| - 1;
      DistinctCount(s[..n]);
      assert s[n] !in s[..n];
      assert s == s[..n] + [s[n]];
    }
  }

  /** Two duplicate-free lists with the same elements are permutations of
      each other. */
  lemma DistinctSameElements(a: seq<string>, b: seq<string>)
    requires Distinct(a) && Distinct(b)
    requires forall x :: x in a <==> x in b
    ensures multiset(a) == multiset(b)
  {
    DistinctCount(a);
    DistinctCount(b);
    assert forall x :: multiset(a)[x] == multiset(b)[x];
  }

  /** The dragged column's index lies within the repaired order. */
  predicate SanitizedCovers(columnOrder: seq<string>, columnIds: seq<string>, source: nat) {
    source < |Sanitized(columnOrder, columnIds)|
  }

  lemma SanitizedLength(columnOrder: seq<string>, columnIds: seq<string>)
    requires Distinct(columnIds)
    ensures |Sanitized(columnOrder, columnIds)| >= |columnIds|
  {
    var r := Sanitized(columnOrder, columnIds);
    DistinctCount(columnIds);
    assert multiset(columnIds) <= multiset(r);
    assert multiset(r) == multiset(columnIds) + (multiset(r) - multiset(columnIds));
  }

  method SanitizeOrder(columnOrder: seq<string>, columnIds: seq<string>) returns (newOrder: seq<string>)
    ensures newOrder == Sanitized(columnOrder, columnIds)
  {
    newOrder := Filter(columnOrder, (f: string) => f in columnIds);
    ghost var kept := newOrder;
    for i := 0 to |columnIds|
      invariant newOrder == AppendMissing(kept, columnIds[..i])
    {
      assert columnIds[..i + 1][..i] == columnIds[..i];
      if columnIds[i] !in newOrder {
        newOrder := newOrder + [columnIds[i]];
      }
    }
    assert columnIds[..|columnIds|] == columnIds;
  }

  /** A finished drag: nothing when dropped outside the list, otherwise the
      repaired order with the dragged column moved to its drop position. */
  method OnDragEnd(columnOrder: seq<string>, columnIds: seq<string>, source: nat, destination: Option<int>)
    returns (newOrder: Option<seq<string>>)
    requires Distinct(columnIds) && source < |columnIds|
    ensures destination.None? ==> newOrder.None?
    ensures destination.Some? ==>
      && newOrder.Some?
      && SanitizedCovers(columnOrder, columnIds, source)
      && multiset(newOrder.value) == multiset(Sanitized(columnOrder, columnIds))
      && newOrder.value == TrUtil.ReorderElements(Sanitized(columnOrder, columnIds), source, destination.value)
  {
    if destination.None? {
      return None;
    }
    var order := SanitizeOrder(columnOrder, columnIds);
    SanitizedLength(columnOrder, columnIds);
    newOrder := Some(TrUtil.ReorderElements(order, source, destination.value));
  }

  // ---------------------------------------------------------------------------
  // Column visibility

  /** A column is shown unless the visibility map hides it. */
  predicate ColumnVisible(visibility: map<string, bool>, id: string) {
    id !in visibility || visibility[id]
  }

  /** A click on a column's menu item flips its visibility; the "name"
      column cannot be hidden this way. */
  function ToggleColumn(visibility: map<string, bool>, id: string): (r: map<string, bool>)
    ensures id != "name" ==> (ColumnVisible(r, id) <==> !ColumnVisible(visibility, id))
    ensures id == "name" ==> r == visibility
    ensures forall c :: c != id ==> (c in r <==> c in visibility) && (c in r ==> r[c] == visibility[c])
  {
    if id != "name" then visibility[id := !ColumnVisible(visibility, id)] else visibility
  }

  /** Flipping a column twice restores whether it is shown, and the menu
      never changes whether "name" is shown. */
  lemma ToggleColumnTwice(visibility: map<string, bool>, id: string)
    ensures ColumnVisible(ToggleColumn(ToggleColumn(visibility, id), id), id) == ColumnVisible(visibility, id)
    ensures ColumnVisible(ToggleColumn(visibility, id), "name") == ColumnVisible(visibility, "name")
  {
  }
}

=== FILE: torrent_cache.dfy ===
/** The torrent-completion inspector of the backend: every `torrent-get`
    reply that passes through the proxy is compared with the last snapshot
    stored for the same origin, and a torrent that moved from "downloading"
    to a seeding state raises a notification. */
module TorrentCache {
  import opened Common

  /** One torrent of a `torrent-get` payload. */
  datatype Torrent = Torrent(id: int, name: string, status: int)

  /** What a snapshot remembers about one torrent. */
  datatype Cached = Cached(name: string, status: int)

  type Snapshot = map<int, Cached>

  /** The payload keyed by id; for a repeated id the later entry wins. */
  function PayloadMap(torrents: seq<Torrent>): Snapshot {
    if torrents == [] then map[]
    else
      var t := torrents[|torrents| - 1];
      PayloadMap(torrents[..|torrents| - 1])[t.id := Cached(t.name, t.status)]
  }

  /** An id is in the payload map iff some entry carries it, and it maps to
      the last entry carrying it. */
  lemma {:induction false} PayloadMapLastWins(torrents: seq<Torrent>, i: nat)
    requires i < |torrents|
    requires forall j :: i < j < |torrents| ==> torrents[j].id != torrents[i].id
    ensures torrents[i].id in PayloadMap(torrents)
    ensures PayloadMap(torrents)[torrents[i].id] == Cached(torrents[i].name, torrents[i].status)
  {
    if i < |torrents| - 1 {
      var prefix := torrents[..|torrents| - 1];
      PayloadMapLastWins(prefix, i);
    }
  }

  lemma {:induction false} PayloadMapKeys(torrents: seq<Torrent>, id: int)
    ensures id in PayloadMap(torrents) <==> exists i :: 0 <= i < |torrents| && torrents[i].id == id
  {
    if torrents != [] {
      var prefix := torrents[..|torrents| - 1];
      PayloadMapKeys(prefix, id);
      if id in PayloadMap(prefix) {
        var i :| 0 <= i < |prefix| && prefix[i].id == id;
        assert torrents[i].id == id;
      }
      if exists i :: 0 <= i < |torrents| && torrents[i].id == id {
        var i :| 0 <= i < |torrents| && torrents[i].id == id;
        if i < |prefix| { assert prefix[i].id == id; }
      }
    }
  }

  /** A stored torrent that was downloading and now, under the same name,
      has a status above "downloading" (queued to seed or seeding). The name
      test guards against ids that the daemon reassigned after a restart. */
  predicate Completes(before: Cached, after: Cached) {
    after.name == before.name && after.status > StatusDownloading && before.status == StatusDownloading
  }

  /** Ids whose transition from `stored` to `incoming` is a completion. */
  function Completions(stored: Snapshot, incoming: Snapshot): set<int> {
    set id | id in stored && id in incoming && Completes(stored[id], incoming[id])
  }

  /** The snapshot stored after a payload. A payload of at most one torrent is
      taken as a partial update: torrents of the stored snapshot that it does
      not mention are carried forward unchanged. A larger payload replaces the
      snapshot outright. */
  function NextSnapshot(stored: Option<Snapshot>, torrents: seq<Torrent>): (r: Snapshot)
    ensures forall id :: id in PayloadMap(torrents) ==> id in r && r[id] == PayloadMap(torrents)[id]
    ensures |torrents| <= 1 && stored.Some? ==>
      forall id :: id in stored.value && id !in PayloadMap(torrents) ==> id in r && r[id] == stored.value[id]
    ensures forall id :: id in r ==>
      id in PayloadMap(torrents) || (|torrents| <= 1 && stored.Some? && id in stored.value)
  {
    var incoming := PayloadMap(torrents);
    if stored.Some? && |torrents| <= 1 then
      incoming + map id | id in stored.value && id !in incoming :: stored.value[id]
    else incoming
  }

  /** A payload without torrents leaves a stored snapshot as it was. */
  lemma EmptyPayloadKeepsSnapshot(stored: Snapshot)
    ensures NextSnapshot(Some(stored), []) == stored
  {
  }

  // ---------------------------------------------------------------------------
  // The response pass-through around the inspector.

  datatype Encoding = Deflate | Gzip | Identity

  /** The Content-Encoding header, compared after lower-casing. */
  function ContentEncoding(header: Option<string>): (e: Encoding)
    ensures e == Deflate <==> header.Some? && Lower(header.value) == "deflate"
    ensures e == Gzip <==> header.Some? && Lower(header.value) == "gzip"
  {
    match header
    case None => Identity
    case Some(v) =>
      var l := Lower(v);
      if l == "deflate" then Deflate else if l == "gzip" then Gzip else Identity
  }

  /** The JSON body as far as the inspector reads it: `result` and the
      torrents of `arguments` (an `arguments` object without `torrents` reads
      as an empty list). */
  datatype Payload = Payload(result: string, arguments: Option<seq<Torrent>>)

  datatype Response = Response(status: int, version: int, headers: Headers, body: seq<bv8>)

  /** The body the JSON parser is given. */
  function DecodedBody(response: Response, inflate: seq<bv8> -> seq<bv8>, gunzip: seq<bv8> -> seq<bv8>): seq<bv8> {
    match ContentEncoding(HeaderGet(response.headers, "content-encoding"))
    case Deflate => inflate(response.body)
    case Gzip => gunzip(response.body)
    case Identity => response.body
  }

  /** What a diff against the stored snapshot reports: nothing for an
      origin seen for the first time; otherwise the sound exactly when some
      torrent completed, and, with toasts on, each completed id once. */
  predicate Notified(before: Option<Snapshot>, torrents: seq<Torrent>, toast: bool, sound: bool,
                     notified: seq<int>, playSound: bool) {
    if before.None? then notified == [] && !playSound
    else
      var done := Completions(before.value, PayloadMap(torrents));
      && playSound == (sound && done != {})
      && (toast ==> Distinct(notified) && (set id | id in notified) == done)
      && (!toast ==> notified == [])
  }

  class Cache {
    /** Snapshot per origin URL. */
    var serverData: map<string, Snapshot>

    constructor ()
      ensures serverData == map[]
    {
      serverData := map[];
    }

    function Stored(origin: string): Option<Snapshot>
      reads this
    {
      if origin in serverData then Some(serverData[origin]) else None
    }

    /** Diffs the payload against the stored snapshot of `origin` and
        replaces that snapshot. `notified` lists the ids whose "download
        complete" notification is shown; `playSound` asks for the sound. */
    method ProcessTorrents(torrents: seq<Torrent>, origin: string, toast: bool, sound: bool)
      returns (notified: seq<int>, playSound: bool)
      modifies this
      ensures serverData == old(serverData)[origin := NextSnapshot(old(Stored(origin)), torrents)]
      ensures Notified(old(Stored(origin)), torrents, toast, sound, notified, playSound)
    {
      var data := serverData;
      ghost var before := Stored(origin);
      var partialUpdate := |torrents| <= 1;
      var incoming: Snapshot := map[];
      var i := 0;
      while i < |torrents|
        invariant 0 <= i <= |torrents|
        invariant incoming == PayloadMap(torrents[..i])
      {
        assert torrents[..i + 1][..i] == torrents[..i];
        incoming := incoming[torrents[i].id := Cached(torrents[i].name, torrents[i].status)];
        i := i + 1;
      }
      assert torrents[..|torrents|] == torrents;
      notified, playSound := [], false;
      var next := incoming;
      if origin !in data {
        assert next == NextSnapshot(before, torrents);
      } else {
        var stored := data[origin];
        var pending := stored.Keys;
        while pending != {}
          invariant pending <= stored.Keys
          invariant forall id :: id in incoming ==> id in next && next[id] == incoming[id]
          invariant forall id :: id in next && id !in incoming ==> partialUpdate && id in stored && id !in pending && next[id] == stored[id]
          invariant partialUpdate ==> forall id :: id in stored && id !in pending && id !in incoming ==> id in next
          invariant playSound == (sound && Completions(stored, incoming) - pending != {})
          invariant toast ==> Distinct(notified)
          invariant toast ==> forall id :: id in notified <==> id in Completions(stored, incoming) && id !in pending
          invariant !toast ==> notified == []
          decreases pending
        {
          NonEmptyHasElement(pending);
          var id :| id in pending;
          ghost var done := Completions(stored, incoming);
          if id in next {
            assert id in incoming && next[id] == incoming[id];
            if Completes(stored[id], next[id]) {
              playSound := sound;
              if toast {
                assert id !in notified;
                notified := notified + [id];
              }
            }
          } else if partialUpdate {
            next := next[id := stored[id]];
          }
          pending := pending - {id};
        }
        ghost var expected := NextSnapshot(before, torrents);
        forall id
          ensures id in next <==> id in expected
          ensures id in next ==> next[id] == expected[id]
        {
        }
        assert next == expected;
        if toast {
          forall id ensures id in (set x | x in notified) <==> id in Completions(stored, incoming) {
          }
        }
      }
      assert next == NextSnapshot(before, torrents);
      serverData := data[origin := next];
    }

    /** The pass-through of a `torrent-get` reply. The body is decoded
        according to Content-Encoding and parsed; a parsed body with
        `arguments` is inspected, whatever its `result` says. The reply is
        rebuilt from the original status, version, headers and undecoded
        body. The origin comes from the X-Original-URL header the poller or
        the proxy attached. */
    method ProcessResponse(response: Response, inflate: seq<bv8> -> seq<bv8>, gunzip: seq<bv8> -> seq<bv8>,
                           parse: seq<bv8> -> Option<Payload>, toast: bool, sound: bool)
      returns (rebuilt: Response, notified: seq<int>, playSound: bool)
      requires HeaderGet(response.headers, "x-original-url").Some?
      modifies this
      ensures rebuilt == Response(response.status, response.version, RebuildHeaders(response.headers), response.body)
      ensures var origin := HeaderGet(response.headers, "x-original-url").value;
        match parse(DecodedBody(response, inflate, gunzip))
        case Some(Payload(_, Some(torrents))) =>
          && serverData == old(serverData)[origin := NextSnapshot(old(Stored(origin)), torrents)]
          && Notified(old(Stored(origin)), torrents, toast, sound, notified, playSound)
        case _ => serverData == old(serverData) && notified == [] && !playSound
    {
      var origin := HeaderGet(response.headers, "x-original-url").value;
      var data := DecodedBody(response, inflate, gunzip);
      notified, playSound := [], false;
      match parse(data) {
        case Some(Payload(_, Some(torrents))) =>
          notified, playSound := ProcessTorrents(torrents, origin, toast, sound);
        case _ =>
      }
      rebuilt := Response(response.status, response.version, RebuildHeaders(response.headers), response.body);
    }
  }
}

=== FILE: torrent_rpc.dfy ===
/** The fields the client derives from each torrent the daemon reports: the
    error shown for it, its tracker status and main tracker, the seed and
    peer totals over its trackers, and the decoded flag string of each of
    its peers. */
module TorrentRpc {
  import opened Common
  import TrUtil

  /** The tracker fields these derivations read. */
  datatype TrackerStats = TrackerStats(
    announceState: int,
    hasAnnounced: bool,
    lastAnnounceSucceeded: bool,
    lastAnnounceResult: string,
    host: string,
    seederCount: int,
    leecherCount: int)

  datatype TorrentBase = TorrentBase(status: int, errorString: string, trackerStats: seq<TrackerStats>)

  // ---------------------------------------------------------------------------
  // Torrent error

  /** The error a tracker reports: the last announce result when it announced
      and that announce failed, otherwise nothing. */
  function TrackerError(t: TrackerStats): string {
    if t.hasAnnounced && !t.lastAnnounceSucceeded then t.lastAnnounceResult else ""
  }

  predicate Healthy(t: TrackerStats) {
    TrackerError(t) == "" || TrackerError(t) == "Success"
  }

  /** The error of the first tracker that is not healthy, if any. */
  function FirstError(ts: seq<TrackerStats>): (r: Option<string>)
    ensures r.None? <==> forall i :: 0 <= i < |ts| ==> Healthy(ts[i])
    ensures r.Some? ==>
      exists i :: && 0 <= i < |ts| && !Healthy(ts[i]) && TrackerError(ts[i]) == r.value
                  && forall j :: 0 <= j < i ==> Healthy(ts[j])
  {
    if ts == [] then None
    else
      var n := |ts| - 1;
      var p := FirstError(ts[..n]);
      assert forall j :: 0 <= j < n ==> ts[..n][j] == ts[j];
      if p.Some? then p
      else if !Healthy(ts[n]) then Some(TrackerError(ts[n]))
      else None
  }

  predicate SomeHealthy(ts: seq<TrackerStats>) {
    exists i :: 0 <= i < |ts| && Healthy(ts[i])
  }

  /** The error shown for a torrent. When some tracker is healthy, or the
      torrent is stopped, it is the daemon's error string, blanked when it
      repeats the first tracker error; otherwise it is that first tracker
      error behind "Tracker: ", or nothing when there are no trackers. */
  method TorrentError(t: TorrentBase) returns (err: string)
    ensures (SomeHealthy(t.trackerStats) || t.status == StatusStopped) ==>
      err == (if FirstError(t.trackerStats) == Some(t.errorString) then "" else t.errorString)
    ensures !(SomeHealthy(t.trackerStats) || t.status == StatusStopped) ==>
      err == (if FirstError(t.trackerStats).Some? then "Tracker: " + FirstError(t.trackerStats).value else "")
  {
    var torrentError := t.errorString;
    var trackerError := "";
    var noTrackerError := false;
    var ts := t.trackerStats;
    for i := 0 to |ts|
      invariant noTrackerError <==> SomeHealthy(ts[..i])
      invariant trackerError == (if FirstError(ts[..i]).Some? then "Tracker: " + FirstError(ts[..i]).value else "")
      invariant torrentError == (if FirstError(ts[..i]) == Some(t.errorString) then "" else t.errorString)
    {
      ErrorStep(ts, i);
      var e := TrackerError(ts[i]);
      if e == "" || e == "Success" {
        noTrackerError := true;
      } else if trackerError == "" {
        if e == torrentError {
          torrentError := "";
        }
        trackerError := "Tracker: " + e;
      }
    }
    assert ts[..|ts|] == ts;
    if noTrackerError || t.status == StatusStopped {
      err := torrentError;
    } else {
      err := trackerError;
    }
  }

  /** One more tracker: it becomes the first error when none was found
      yet and it is not healthy. */
  lemma ErrorStep(ts: seq<TrackerStats>, i: nat)
    requires i < |ts|
    ensures SomeHealthy(ts[..i + 1]) <==> SomeHealthy(ts[..i]) || Healthy(ts[i])
    ensures FirstError(ts[..i + 1]) ==
      if FirstError(ts[..i]).Some? then FirstError(ts[..i])
      else if !Healthy(ts[i]) then Some(TrackerError(ts[i]))
      else None
  {
    var p := ts[..i + 1];
    assert p[..i] == ts[..i] && p[i] == ts[i];
    if SomeHealthy(ts[..i]) {
      var k :| 0 <= k < i && Healthy(ts[..i][k]);
      assert p[k] == ts[..i][k];
    }
    if Healthy(ts[i]) {
      assert Healthy(p[i]);
    }
    if SomeHealthy(p) {
      var k :| 0 <= k < i + 1 && Healthy(p[k]);
      if k < i {
        assert ts[..i][k] == p[k];
      }
    }
  }

  /** A running torrent without trackers shows no error, whatever the
      daemon's error string. */
  lemma NoTrackersNoError(t: TorrentBase)
    requires t.trackerStats == [] && t.status != StatusStopped
    ensures !(SomeHealthy(t.trackerStats) || t.status == StatusStopped) && FirstError(t.trackerStats).None?
  {
  }

  // ---------------------------------------------------------------------------
  // Tracker status

  /** "Updating" while announcing; after an announce, "Working" when it
      succeeded (or reported "Success"), otherwise its result; "" before any
      announce. */
  function AnnounceState(t: TrackerStats): (r: string)
    ensures t.announceState == 3 ==> r == "Updating"
    ensures t.announceState != 3 && !t.hasAnnounced ==> r == ""
    ensures t.announceState != 3 && t.hasAnnounced && (t.lastAnnounceSucceeded || t.lastAnnounceResult == "Success") ==> r == "Working"
    ensures t.announceState != 3 && t.hasAnnounced && !(t.lastAnnounceSucceeded || t.lastAnnounceResult == "Success") ==> r == t.lastAnnounceResult
  {
    if t.announceState == 3 then "Updating"
    else if t.hasAnnounced then
      if t.lastAnnounceSucceeded then "Working"
      else if t.lastAnnounceResult == "Success" then "Working"
      else t.lastAnnounceResult
    else ""
  }

  /** The announce state agrees with the tracker error: outside an announce,
      a healthy tracker shows "" or "Working" and any other tracker shows
      its error. */
  lemma AnnounceStateShowsError(t: TrackerStats)
    requires t.announceState != 3
    ensures Healthy(t) ==> AnnounceState(t) == "" || AnnounceState(t) == "Working"
    ensures !Healthy(t) ==> AnnounceState(t) == TrackerError(t)
  {
  }

  /** The tracker status column: nothing for a stopped torrent or one
      without trackers, else the announce state of the first tracker. */
  function TrackerStatus(t: TorrentBase): (r: string)
    ensures t.status == StatusStopped || t.trackerStats == [] ==> r == ""
    ensures t.status != StatusStopped && t.trackerStats != [] ==> r == AnnounceState(t.trackerStats[0])
  {
    if t.status == StatusStopped || |t.trackerStats| == 0 then "" else AnnounceState(t.trackerStats[0])
  }

  // ---------------------------------------------------------------------------
  // Main tracker

  /** Index of the last occurrence of `c`, or -1. */
  function LastIndexOf(s: string, c: char): (r: int)
    ensures -1 <= r < |s|
    ensures r >= 0 ==> s[r] == c
    ensures forall i :: r < i < |s| ==> s[i] != c
  {
    if s == [] then -1
    else if s[|s| - 1] == c then |s| - 1
    else LastIndexOf(s[..|s| - 1], c)
  }

  /** The host without a trailing ":" and digits (the port). */
  function StripPort(host: string): (r: string)
    ensures r == host || (exists d :: d != [] && AllDigits(d) && host == r + ":" + d)
  {
    var k := LastIndexOf(host, ':');
    if k >= 0 && k + 1 < |host| && AllDigits(host[k + 1..]) then
      assert host == host[..k] + ":" + host[k + 1..];
      host[..k]
    else
      host
  }

  /** Whenever the host ends in ":" and digits, exactly that port goes. */
  lemma StripPortOf(host: string, a: string, d: string)
    requires d != [] && AllDigits(d) && host == a + ":" + d
    ensures StripPort(host) == a
  {
    PortSplit(host, a, d);
  }

  /** The colon before a run of digits that ends the host is its last
      colon. */
  lemma PortSplit(host: string, a: string, d: string)
    requires d != [] && AllDigits(d) && host == a + ":" + d
    ensures LastIndexOf(host, ':') == |a| && host[|a| + 1..] == d && host[..|a|] == a
  {
    var k := LastIndexOf(host, ':');
    assert host[|a|] == ':';
    assert forall i :: |a| < i < |host| ==> host[i] == d[i - |a| - 1];
    assert host[|a| + 1..] == d;
  }

  /** "tracker" or "bt" followed by digits. */
  predicate TrackerLabel(s: string) {
    (StartsWith(s, "tracker") && AllDigits(s[7..])) || (StartsWith(s, "bt") && AllDigits(s[2..]))
  }

  predicate NoDot(s: string) {
    s != [] && '.' !in s
  }

  /** A host of exactly three labels whose first is a tracker label loses
      that label. */
  function StripTrackerLabel(host: string): (r: string)
    ensures r == host || exists a :: TrackerLabel(a) && NoDot(a) && host == a + "." + r
    ensures forall a, b, c :: TrackerLabel(a) && NoDot(a) && NoDot(b) && NoDot(c) && host == a + "." + b + "." + c ==>
      r == b + "." + c
    ensures r != host ==> var parts := Split(host, '.');
      |parts| == 3 && TrackerLabel(parts[0]) && r == parts[1] + "." + parts[2]
  {
    var parts := Split(host, '.');
    if |parts| == 3 && NoDot(parts[0]) && NoDot(parts[1]) && NoDot(parts[2]) && TrackerLabel(parts[0]) then
      JoinSplit(host, '.');
      assert Join(parts, ".") == parts[0] + "." + (parts[1] + "." + parts[2]) by {
        assert parts[1..][1..] == [parts[2]];
        assert Join(parts[1..][1..], ".") == parts[2];
        assert Join(parts[1..], ".") == parts[1] + "." + parts[2];
      }
      forall a, b, c | TrackerLabel(a) && NoDot(a) && NoDot(b) && NoDot(c) && host == a + "." + b + "." + c
        ensures parts[1] + "." + parts[2] == b + "." + c
      {
        ThreeLabels(host, a, b, c);
      }
      parts[1] + "." + parts[2]
    else
      forall a, b, c | TrackerLabel(a) && NoDot(a) && NoDot(b) && NoDot(c) && host == a + "." + b + "." + c
        ensures false
      {
        ThreeLabels(host, a, b, c);
      }
      host
  }

  /** Splitting three dot-free labels joined by dots gives the labels. */
  lemma ThreeLabels(host: string, a: string, b: string, c: string)
    requires NoDot(a) && NoDot(b) && NoDot(c) && host == a + "." + b + "." + c
    ensures Split(host, '.') == [a, b, c]
  {
    var parts := [a, b, c];
    assert parts[1..] == [b, c] && parts[1..][1..] == [c];
    assert Join(parts[1..], ".") == b + "." + c;
    assert Join(parts, ".") == a + "." + (b + "." + c);
    assert Join(parts, ".") == host;
    TrUtil.SplitJoin(parts, '.');
  }

  /** The tracker a torrent is grouped under: the host of its first tracker
      without port, and without a leading "trackerN"/"btN" label when the
      host has exactly three labels. */
  function MainTracker(t: TorrentBase): (r: string)
    ensures t.trackerStats == [] ==> r == "<No trackers>"
    ensures t.trackerStats != [] ==> r == StripTrackerLabel(StripPort(t.trackerStats[0].host))
    ensures t.trackerStats != [] && r != StripPort(t.trackerStats[0].host) ==>
      |Split(StripPort(t.trackerStats[0].host), '.')| == 3
  {
    if |t.trackerStats| == 0 then "<No trackers>"
    else StripTrackerLabel(StripPort(t.trackerStats[0].host))
  }

  /** The port and the tracker label both go: a first tracker at
      "tracker2.example.org:6969" groups the torrent under "example.org". */
  lemma MainTrackerStrips(t: TorrentBase, first: string, b: string, c: string, port: string)
    requires t.trackerStats != []
    requires t.trackerStats[0].host == first + "." + b + "." + c + ":" + port
    requires TrackerLabel(first) && NoDot(first) && NoDot(b) && NoDot(c)
    requires port != [] && AllDigits(port)
    ensures MainTracker(t) == b + "." + c
  {
    StripPortOf(t.trackerStats[0].host, first + "." + b + "." + c, port);
  }

  // ---------------------------------------------------------------------------
  // Seed and peer totals

  /** The largest count, but at least 0; -1 when there are no trackers. */
  method MaxCount(counts: seq<int>) returns (total: int)
    ensures counts == [] ==> total == -1
    ensures counts != [] ==>
      && total >= 0
      && (forall i :: 0 <= i < |counts| ==> counts[i] <= total)
      && (total == 0 || exists i :: 0 <= i < |counts| && counts[i] == total)
  {
    total := if |counts| > 0 then 0 else -1;
    for i := 0 to |counts|
      invariant counts == [] ==> total == -1
      invariant counts != [] ==> total >= 0
      invariant forall j :: 0 <= j < i ==> counts[j] <= total
      invariant counts != [] ==> total == 0 || exists j :: 0 <= j < i && counts[j] == total
    {
      total := Max(total, counts[i]);
    }
  }

  function Max(a: int, b: int): int { if a >= b then a else b }

  method SeedsTotal(t: TorrentBase) returns (seeds: int)
    ensures t.trackerStats == [] ==> seeds == -1
    ensures t.trackerStats != [] ==>
      && seeds >= 0
      && (forall i :: 0 <= i < |t.trackerStats| ==> t.trackerStats[i].seederCount <= seeds)
      && (seeds == 0 || exists i :: 0 <= i < |t.trackerStats| && t.trackerStats[i].seederCount == seeds)
  {
    var ts := t.trackerStats;
    var counts := seq(|ts|, i requires 0 <= i < |ts| => ts[i].seederCount);
    assert forall i :: 0 <= i < |ts| ==> counts[i] == ts[i].seederCount;
    seeds := MaxCount(counts);
  }

  method PeersTotal(t: TorrentBase) returns (peers: int)
    ensures t.trackerStats == [] ==> peers == -1
    ensures t.trackerStats != [] ==>
      && peers >= 0
      && (forall i :: 0 <= i < |t.trackerStats| ==> t.trackerStats[i].leecherCount <= peers)
      && (peers == 0 || exists i :: 0 <= i < |t.trackerStats| && t.trackerStats[i].leecherCount == peers)
  {
    var ts := t.trackerStats;
    var counts := seq(|ts|, i requires 0 <= i < |ts| => ts[i].leecherCount);
    assert forall i :: 0 <= i < |ts| ==> counts[i] == ts[i].leecherCount;
    peers := MaxCount(counts);
  }

  // ---------------------------------------------------------------------------
  // Peer flags (the Transmission peer status text)

  predicate IsStatusFlag(c: char) {
    c in "ODdUuK?"
  }

  function FlagMeaning(c: char): string
    requires IsStatusFlag(c)
  {
    match c
    case 'O' => "optimistic"
    case 'D' => "downloading"
    case 'd' => "can download from"
    case 'U' => "uploading"
    case 'u' => "can upload to"
    case 'K' => "not interested"
    case _ => "peer not interested"
  }

  /** Different flags have different meanings, so the status text names
      the flags it came from. */
  lemma FlagMeaningInjective(a: char, b: char)
    requires IsStatusFlag(a) && IsStatusFlag(b) && a != b
    ensures FlagMeaning(a) != FlagMeaning(b)
  {
  }

  /** The status flags of a flag string, in order. */
  function StatusFlags(flags: string): (r: string)
    ensures |r| <= |flags|
    ensures forall i :: 0 <= i < |r| ==> IsStatusFlag(r[i]) && r[i] in flags
    ensures forall i :: 0 <= i < |flags| && IsStatusFlag(flags[i]) ==> flags[i] in r
  {
    Filter(flags, IsStatusFlag)
  }

  /** The flags of two strings written one after the other are the flags of
      the first followed by the flags of the second: the matches keep their
      order and their repeats. */
  lemma StatusFlagsInOrder(a: string, b: string)
    ensures StatusFlags(a + b) == StatusFlags(a) + StatusFlags(b)
  {
    FilterConcat(a, b, IsStatusFlag);
  }

  /** One character is a match exactly when it is a status flag. */
  lemma StatusFlagsSingle(c: char)
    ensures StatusFlags([c]) == if IsStatusFlag(c) then [c] else []
  {
    assert [c][1..] == [];
  }

  /** The meanings of the status flags, in flag order. */
  function StatusMeanings(flags: string): (r: seq<string>)
    ensures |r| == |StatusFlags(flags)|
    ensures forall i :: 0 <= i < |r| ==> r[i] == FlagMeaning(StatusFlags(flags)[i])
  {
    if flags == [] then []
    else
      var rest := StatusMeanings(flags[1..]);
      assert StatusFlags(flags) == (if IsStatusFlag(flags[0]) then [flags[0]] else []) + StatusFlags(flags[1..]);
      if IsStatusFlag(flags[0]) then [FlagMeaning(flags[0])] + rest else rest
  }

  datatype PeerInfo = PeerInfo(encrypted: string, from: string, connection: string, protocol: string, status: string)

  /** The label of the micro transport protocol as the source writes it:
      the UTF-8 bytes of "µ" read back as Latin-1, giving "Âµ". */
  const MicroTpAsWritten: string := "\U{00C2}\U{00B5}TP"

  const MicroTp: string := "\U{00B5}TP"

  /** The label as written is not the protocol's name. */
  lemma MicroTpMojibake()
    ensures MicroTpAsWritten != MicroTp && |MicroTpAsWritten| == |MicroTp| + 1
  {
    assert MicroTpAsWritten[0] != MicroTp[0];
  }

  function ProtocolAsWritten(flags: string): string {
    if 'T' in flags then MicroTpAsWritten else "TCP"
  }

  function Protocol(flags: string): (r: string)
    ensures r == MicroTp <==> 'T' in flags
    ensures r != MicroTp ==> r == "TCP"
  {
    if 'T' in flags then MicroTp else "TCP"
  }

  /** The peer flags decoded: X marks a peer from peer exchange, else H one
      from the DHT, else it came from a tracker; E, I and T mark an
      encrypted, incoming and µTP connection; the status lists the meaning
      of each status flag in order. */
  function DecodePeerFlags(flags: string): (p: PeerInfo)
    ensures p.from == (if 'X' in flags then "PEX" else if 'H' in flags then "DHT" else "Tracker")
    ensures p.encrypted == (if 'E' in flags then "yes" else "no")
    ensures p.connection == (if 'I' in flags then "incoming" else "outgoing")
    ensures p.protocol == Protocol(flags)
    ensures p.status == Join(StatusMeanings(flags), ", ")
  {
    PeerInfo(
      if 'E' in flags then "yes" else "no",
      if 'X' in flags then "PEX" else if 'H' in flags then "DHT" else "Tracker",
      if 'I' in flags then "incoming" else "outgoing",
      Protocol(flags),
      Join(StatusMeanings(flags), ", "))
  }
}

=== FILE: torrent_table.dfy ===
/** The torrent table: the fields it asks the daemon for (derived from its
    columns and their visibility), and the decisions behind the ETA, status
    and tracker status cells. */
module TorrentTable {
  import opened Common
  import TrUtil
  import TableCommon
  import TorrentRpc

  // ---------------------------------------------------------------------------
  // Ordering of field names (JavaScript's default sort, on ASCII names)

  /** `a` sorts strictly before `b`, character by character. */
  predicate Less(a: string, b: string) {
    if a == [] then b != []
    else if b == [] then false
    else if a[0] != b[0] then a[0] < b[0]
    else Less(a[1..], b[1..])
  }

  lemma {:induction false} LessIrreflexive(a: string)
    ensures !Less(a, a)
  {
    if a != [] {
      LessIrreflexive(a[1..]);
    }
  }

  lemma {:induction false} LessTotal(a: string, b: string)
    requires a != b
    ensures Less(a, b) || Less(b, a)
  {
    if a != [] && b != [] && a[0] == b[0] {
      assert a == [a[0]] + a[1..] && b == [b[0]] + b[1..];
      LessTotal(a[1..], b[1..]);
    }
  }

  lemma {:induction false} LessTransitive(a: string, b: string, c: string)
    requires Less(a, b) && Less(b, c)
    ensures Less(a, c)
  {
    if a != [] && b != [] && c != [] && a[0] == b[0] && b[0] == c[0] {
      LessTransitive(a[1..], b[1..], c[1..]);
    }
  }

  predicate Sorted(s: seq<string>) {
    forall i, j :: 0 <= i < j < |s| ==> Less(s[i], s[j])
  }

  /** `x` added to a sorted list, once. */
  function InsertSorted(s: seq<string>, x: string): (r: seq<string>)
    requires Sorted(s)
    ensures Sorted(r)
    ensures forall y :: y in r <==> y in s || y == x
  {
    if s == [] then [x]
    else if x == s[0] then s
    else if Less(x, s[0]) then
      forall j | 0 < j < |s| ensures Less(x, s[j]) {
        LessTransitive(x, s[0], s[j]);
      }
      [x] + s
    else
      LessTotal(x, s[0]);
      var rest := InsertSorted(s[1..], x);
      assert forall y :: y in rest ==> Less(s[0], y);
      [s[0]] + rest
  }

  /** A sorted list holds no element twice. */
  lemma SortedDistinct(s: seq<string>)
    requires Sorted(s)
    ensures Distinct(s)
  {
    forall i, j | 0 <= i < j < |s| ensures s[i] != s[j] {
      if s[i] == s[j] {
        LessIrreflexive(s[i]);
      }
    }
  }

  /** Sorting is determined by the elements: two sorted lists with the same
      elements are equal. */
  lemma {:induction false} SortedUnique(a: seq<string>, b: seq<string>)
    requires Sorted(a) && Sorted(b)
    requires forall y :: y in a <==> y in b
    ensures a == b
  {
    assert a != [] ==> a[0] in b;
    assert b != [] ==> b[0] in a;
    if a != [] && b != [] {
      assert a[0] in b && b[0] in a;
      if a[0] != b[0] {
        var i :| 0 <= i < |b| && b[i] == a[0];
        var j :| 0 <= j < |a| && a[j] == b[0];
        assert Less(b[0], a[0]) && Less(a[0], b[0]);
        LessTransitive(a[0], b[0], a[0]);
        LessIrreflexive(a[0]);
        assert false;
      }
      SortedDistinct(a);
      SortedDistinct(b);
      assert a == [a[0]] + a[1..] && b == [b[0]] + b[1..];
      forall y ensures y in a[1..] <==> y in b[1..] {
        if y in a[1..] {
          var k :| 0 <= k < |a| - 1 && a[1..][k] == y;
          assert a[k + 1] == y && a[0] != a[k + 1];
          assert y in b;
        }
        if y in b[1..] {
          var k :| 0 <= k < |b| - 1 && b[1..][k] == y;
          assert b[k + 1] == y && b[0] != b[k + 1];
          assert y in a;
        }
      }
      SortedUnique(a[1..], b[1..]);
      assert a == [a[0]] + a[1..] && b == [b[0]] + b[1..];
    }
  }

  // ---------------------------------------------------------------------------
  // Columns and the fields they need

  /** A column of the table: the field it shows, the column id when it
      differs from the field name, and the fields it needs when they are
      more than its own. */
  datatype TableField = TableField(name: string, columnId: Option<string>, requiredFields: Option<seq<string>>)

  const AllFields: seq<TableField> := [
    TableField("name", None, Some(["name", "error", "trackerStats"])),
    TableField("totalSize", None, None),
    TableField("sizeWhenDone", None, None),
    TableField("leftUntilDone", None, None),
    TableField("haveValid", None, None),
    TableField("downloadedEver", None, None),
    TableField("uploadedEver", None, None),
    TableField("percentDone", None, Some(["percentDone", "rateDownload", "rateUpload"])),
    TableField("rateDownload", None, None),
    TableField("rateUpload", None, None),
    TableField("status", None, None),
    TableField("addedDate", None, None),
    TableField("peersSendingToUs", None, None),
    TableField("peersGettingFromUs", None, None),
    TableField("eta", None, None),
    TableField("uploadRatio", None, None),
    TableField("trackerStats", None, None),
    TableField("trackerStats", Some("trackerStatus"), None),
    TableField("doneDate", None, None),
    TableField("activityDate", None, None),
    TableField("downloadDir", None, None),
    TableField("bandwidthPriority", None, None),
    TableField("id", None, None),
    TableField("queuePosition", None, None),
    TableField("secondsSeeding", None, None),
    TableField("isPrivate", None, None),
    TableField("labels", None, None),
    TableField("group", None, None)
  ]

  /** The fields every torrent list request carries: those the filters,
      the error status, the magnet link menu and the status bar read. */
  const TorrentMinimumFields: seq<string> := [
    "id", "name", "status", "pieceCount", "downloadDir", "labels", "error", "errorString",
    "trackerStats", "magnetLink", "rateDownload", "rateUpload", "sizeWhenDone", "haveValid"
  ]

  datatype ColumnRequirement = ColumnRequirement(id: string, needs: seq<string>)

  /** A column's id is its column id if it has one, else its field name;
      it needs its listed fields, or else just its own field. */
  function Requirement(f: TableField): (c: ColumnRequirement)
    ensures c.id == (if f.columnId.Some? then f.columnId.value else f.name)
    ensures f.requiredFields.None? ==> c.needs == [f.name]
    ensures f.requiredFields.Some? ==> c.needs == f.requiredFields.value
  {
    ColumnRequirement(
      match f.columnId case Some(id) => id case None => f.name,
      match f.requiredFields case Some(fs) => fs case None => [f.name])
  }

  function ColumnRequiredFields(): seq<ColumnRequirement> {
    seq(|AllFields|, i requires 0 <= i < |AllFields| => Requirement(AllFields[i]))
  }

  /** A field is required when the minimum set holds it or a shown column
      needs it. */
  predicate Required(visibility: map<string, bool>, field: string) {
    || field in TorrentMinimumFields
    || exists i :: 0 <= i < |AllFields| &&
         TableCommon.ColumnVisible(visibility, Requirement(AllFields[i]).id) &&
         field in Requirement(AllFields[i]).needs
  }

  /** Some shown column among `columns` needs `field`. */
  predicate ShownNeeds(visibility: map<string, bool>, columns: seq<ColumnRequirement>, field: string) {
    exists k :: 0 <= k < |columns| && TableCommon.ColumnVisible(visibility, columns[k].id) && field in columns[k].needs
  }

  /** The fields the shown columns need, gathered column by column. */
  method CollectShown(visibility: map<string, bool>, columns: seq<ColumnRequirement>) returns (fields: set<string>)
    ensures forall f :: f in fields <==> ShownNeeds(visibility, columns, f)
  {
    fields := {};
    for i := 0 to |columns|
      invariant forall f :: f in fields <==> ShownNeeds(visibility, columns[..i], f)
    {
      assert forall k :: 0 <= k <= i ==> columns[..i + 1][k] == columns[k];
      if TableCommon.ColumnVisible(visibility, columns[i].id) {
        fields := fields + set r | r in columns[i].needs;
      }
    }
    assert columns[..|columns|] == columns;
  }

  lemma ShownNeedsRequired(visibility: map<string, bool>, field: string)
    ensures Required(visibility, field) <==>
      field in TorrentMinimumFields || ShownNeeds(visibility, ColumnRequiredFields(), field)
  {
    var columns := ColumnRequiredFields();
    assert forall k :: 0 <= k < |columns| ==> columns[k] == Requirement(AllFields[k]);
  }

  /** The set of fields the shown columns need, plus the minimum fields. */
  method CollectRequired(visibility: map<string, bool>) returns (fields: set<string>)
    ensures forall f :: f in fields <==> Required(visibility, f)
  {
    var shown := CollectShown(visibility, ColumnRequiredFields());
    fields := shown + set f | f in TorrentMinimumFields;
    forall f ensures f in fields <==> Required(visibility, f) {
      ShownNeedsRequired(visibility, f);
    }
  }

  /** `Array.from(set).sort()`. */
  method SortSet(fields: set<string>) returns (sorted: seq<string>)
    ensures Sorted(sorted) && forall f :: f in sorted <==> f in fields
  {
    sorted := [];
    var rest := fields;
    while rest != {}
      invariant Sorted(sorted)
      invariant forall f :: f in fields <==> f in sorted || f in rest
      decreases |rest|
    {
      var x :| x in rest;
      sorted := InsertSorted(sorted, x);
      rest := rest - {x};
    }
  }

  /** The fields requested for the torrent list: sorted, each once, and
      exactly the minimum fields plus what the shown columns need. */
  method GetRequiredFields(visibility: map<string, bool>) returns (fields: seq<string>)
    ensures Sorted(fields) && Distinct(fields)
    ensures forall f :: f in fields <==> Required(visibility, f)
  {
    var set_ := CollectRequired(visibility);
    fields := SortSet(set_);
    SortedDistinct(fields);
  }

  /** With every column hidden, only the minimum fields are requested. */
  lemma AllHiddenMinimum(visibility: map<string, bool>)
    requires forall i :: 0 <= i < |AllFields| ==>
      Requirement(AllFields[i]).id in visibility && !visibility[Requirement(AllFields[i]).id]
    ensures forall f :: Required(visibility, f) <==> f in TorrentMinimumFields
  {
  }

  /** Hiding the tracker column alone does not drop the tracker statistics:
      the name column and the tracker status column need them too, and so
      does the minimum set. */
  lemma TrackerStatsAlwaysRequired(visibility: map<string, bool>)
    ensures Required(visibility, "trackerStats")
  {
  }

  /** Whatever the visibility, two requests for it are the same list. */
  lemma RequiredFieldsDetermined(visibility: map<string, bool>, a: seq<string>, b: seq<string>)
    requires Sorted(a) && forall f :: f in a <==> Required(visibility, f)
    requires Sorted(b) && forall f :: f in b <==> Required(visibility, f)
    ensures a == b
  {
    SortedUnique(a, b);
  }

  // ---------------------------------------------------------------------------
  // Cells

  /** The ETA cell: a duration for a known time, nothing for -1, and
      "Unknown" for any other negative value. */
  function EtaText(seconds: int): (r: string)
    ensures seconds >= 0 ==> r == TrUtil.SecondsToHumanReadableStr(seconds)
    ensures seconds == -1 ==> r == ""
    ensures seconds < -1 ==> r == "Unknown"
  {
    if seconds >= 0 then TrUtil.SecondsToHumanReadableStr(seconds)
    else if seconds == -1 then ""
    else "Unknown"
  }

  /** The status cell: the status name, followed by " sequentially" only
      for a torrent downloading in sequential order. A status outside the
      table reads "undefined", as JavaScript renders a missing entry. */
  function StatusText(status: int, sequentialDownload: bool): (r: string)
    ensures 0 <= status < |StatusStrings| ==> StartsWith(r, StatusStrings[status])
    ensures EndsWith(r, " sequentially") <==> status == StatusDownloading && sequentialDownload
    ensures status == StatusDownloading && sequentialDownload ==> r == StatusStrings[StatusDownloading] + " sequentially"
    ensures 0 <= status < |StatusStrings| && !(status == StatusDownloading && sequentialDownload) ==> r == StatusStrings[status]
    ensures !(0 <= status < |StatusStrings|) ==> r == "undefined"
  {
    var name := if 0 <= status < |StatusStrings| then StatusStrings[status] else "undefined";
    var suffix := if status == StatusDownloading && sequentialDownload then " sequentially" else "";
    assert (name + suffix)[..|name|] == name;
    assert suffix == "" ==> name + suffix == name;
    name + suffix
  }

  /** The tracker status column shows what the torrent's cached tracker
      status holds. */
  function TrackerStatusColumn(t: TorrentRpc.TorrentBase): (r: string)
    ensures r == TorrentRpc.TrackerStatus(t)
    ensures r == "" <== t.status == StatusStopped || t.trackerStats == []
  {
    if t.status == StatusStopped || |t.trackerStats| == 0 then ""
    else TorrentRpc.AnnounceState(t.trackerStats[0])
  }
}

=== FILE: trutil.dfy ===
/** String, path and list utilities of the frontend: path delimiters and
    path mapping between the server's and the client's file systems, list
    reordering, magnet-link decoding (BEP 9), announce-tier merging (BEP 12),
    file-system-safe names, the coarse duration string and the progress-bar
    style. */
module TrUtil {
  import opened Common

  // ---------------------------------------------------------------------------
  // Path delimiters

  /** The delimiter a path uses: a backslash as soon as it holds one. */
  function Delimiter(path: string): char {
    if '\\' in path then '\\' else '/'
  }

  /** The path with its delimiter at the end; the empty path stays empty. */
  function EnsurePathDelimiter(path: string): (r: string)
    ensures path == "" ==> r == ""
    ensures path != "" ==> r != [] && r[|r| - 1] == Delimiter(path)
    ensures path != "" ==> r == path || (r == path + [Delimiter(path)] && path[|path| - 1] != Delimiter(path))
  {
    if |path| == 0 then ""
    else if path[|path| - 1] != Delimiter(path) then path + [Delimiter(path)]
    else path
  }

  /** Adding the delimiter twice is adding it once. */
  lemma EnsurePathDelimiterIdempotent(path: string)
    ensures EnsurePathDelimiter(EnsurePathDelimiter(path)) == EnsurePathDelimiter(path)
  {
    var r := EnsurePathDelimiter(path);
    if path != "" && r != path {
      assert r == path + [Delimiter(path)];
    }
  }

  // ---------------------------------------------------------------------------
  // List reordering

  /** Swaps two elements when both indexes are in range and distinct;
      otherwise leaves the array alone. */
  method SwapElements<T>(a: array<T>, i: int, j: int)
    modifies a
    ensures 0 <= i < a.Length && 0 <= j < a.Length && i != j ==>
      a[..] == old(a[..])[i := old(a[j])][j := old(a[i])]
    ensures !(0 <= i < a.Length && 0 <= j < a.Length && i != j) ==> a[..] == old(a[..])
    ensures multiset(a[..]) == multiset(old(a[..]))
  {
    if 0 <= i < a.Length && 0 <= j < a.Length && i != j {
      a[i], a[j] := a[j], a[i];
    }
  }

  /** The position JavaScript `splice` uses for index `i` of a list of
      length `len`: a negative index counts from the end; both ends clamp. */
  function SpliceIndex(i: int, len: nat): (r: nat)
    ensures r <= len
    ensures 0 <= i <= len ==> r == i
    ensures -(len as int) <= i < 0 ==> r == len + i
  {
    if i < 0 then (if len + i < 0 then 0 else len + i) else if i > len then len else i
  }

  /** A copy of `list` with the element at `start` moved to `end`. */
  function ReorderElements<T>(list: seq<T>, start: int, end: int): (r: seq<T>)
    requires -|list| <= start < |list|
    ensures |r| == |list| && multiset(r) == multiset(list)
    ensures r[SpliceIndex(end, |list| - 1)] == list[SpliceIndex(start, |list|)]
    ensures RemoveAt(r, SpliceIndex(end, |list| - 1)) == RemoveAt(list, SpliceIndex(start, |list|))
  {
    var s := SpliceIndex(start, |list|);
    var rest := RemoveAt(list, s);
    var e := SpliceIndex(end, |rest|);
    InsertAt(rest, e, list[s]);
    rest[..e] + [list[s]] + rest[e..]
  }

  /** Inserting `x` at `e` and removing it again gives the list back. */
  lemma InsertAt<T>(rest: seq<T>, e: nat, x: T)
    requires e <= |rest|
    ensures var r := rest[..e] + [x] + rest[e..];
      && |r| == |rest| + 1 && r[e] == x && RemoveAt(r, e) == rest
      && multiset(r) == multiset(rest) + multiset{x}
  {
    var r := rest[..e] + [x] + rest[e..];
    assert rest == rest[..e] + rest[e..];
    assert r[..e] + r[e + 1..] == rest;
  }

  // ---------------------------------------------------------------------------
  // Path mapping

  /** A mapping between a directory on the server (`from`) and the same
      directory as this client sees it (`to`). */
  datatype PathMapping = PathMapping(from: string, to: string)

  /** The prefix a mapping matches in the given direction. */
  function MappingKey(m: PathMapping, toServer: bool): string {
    if toServer then m.to else m.from
  }

  /** What replaces the matched prefix. */
  function MappingTarget(m: PathMapping, toServer: bool): string {
    if toServer then m.from else m.to
  }

  /** A mapping applies when its key is non-empty and, normalised, prefixes
      the normalised path. */
  predicate Applies(m: PathMapping, normalizedPath: string, normalize: string -> string, toServer: bool) {
    |MappingKey(m, toServer)| > 0 && StartsWith(normalizedPath, normalize(MappingKey(m, toServer)))
  }

  /** The path after the first applicable mapping: its target followed by
      the path without as many leading characters as the key has; the path
      itself when no mapping applies. */
  function MappedPath(path: string, mappings: seq<PathMapping>, normalize: string -> string, toServer: bool): string {
    var k := FindIndex(mappings, (m: PathMapping) => Applies(m, normalize(path), normalize, toServer));
    if k < 0 then path
    else MappingTarget(mappings[k], toServer) + JsSubstringFrom(path, |MappingKey(mappings[k], toServer)|)
  }

  /** Tries the mappings in order and stops at the first that applies. */
  method MapPath(path: string, mappings: seq<PathMapping>, normalize: string -> string, toServer: bool)
    returns (mapped: string)
    ensures mapped == MappedPath(path, mappings, normalize, toServer)
  {
    mapped := path;
    var normalized := normalize(path);
    var i := 0;
    while i < |mappings|
      invariant 0 <= i <= |mappings|
      invariant forall j :: 0 <= j < i ==> !Applies(mappings[j], normalized, normalize, toServer)
    {
      var key := MappingKey(mappings[i], toServer);
      if |key| > 0 && StartsWith(normalized, normalize(key)) {
        mapped := MappingTarget(mappings[i], toServer) + JsSubstringFrom(mapped, |key|);
        return;
      }
      i := i + 1;
    }
  }

  /** Backslashes become slashes. */
  function NormalizePath(path: string): (r: string)
    ensures |r| == |path| && '\\' !in r
    ensures forall i :: 0 <= i < |path| ==> r[i] == (if path[i] == '\\' then '/' else path[i])
  {
    ReplaceAll(path, '\\', '/')
  }

  method PathMapFromServer(path: string, mappings: seq<PathMapping>) returns (mapped: string)
    ensures mapped == MappedPath(path, mappings, NormalizePath, false)
  {
    mapped := MapPath(path, mappings, NormalizePath, false);
  }

  method PathMapToServer(path: string, mappings: seq<PathMapping>) returns (mapped: string)
    ensures mapped == MappedPath(path, mappings, NormalizePath, true)
  {
    mapped := MapPath(path, mappings, NormalizePath, true);
  }

  lemma ReplaceAllAppend(a: string, b: string, c: char, d: char)
    ensures ReplaceAll(a + b, c, d) == ReplaceAll(a, c, d) + ReplaceAll(b, c, d)
  {
  }

  /** With a single mapping, a server path under `from` mapped to the client
      and back is the path it started from. */
  lemma PathMapRoundTrip(path: string, m: PathMapping)
    requires m.from != "" && m.to != "" && StartsWith(path, m.from)
    ensures MappedPath(MappedPath(path, [m], NormalizePath, false), [m], NormalizePath, true) == path
  {
    ReplaceAllAppend(m.from, path[|m.from|..], '\\', '/');
    assert path == m.from + path[|m.from|..];
    assert Applies(m, NormalizePath(path), NormalizePath, false);
    var client := MappedPath(path, [m], NormalizePath, false);
    assert client == m.to + path[|m.from|..];
    ReplaceAllAppend(m.to, path[|m.from|..], '\\', '/');
    assert Applies(m, NormalizePath(client), NormalizePath, true);
    assert JsSubstringFrom(client, |m.to|) == path[|m.from|..];
  }

  // ---------------------------------------------------------------------------
  // Magnet links (BEP 9)

  /** One `key=value` parameter of a magnet link. */
  datatype Param = Param(key: string, value: string)

  /** A parameter is cut at its first '='; without one, the key is empty
      and the value is the whole text. */
  function ParseParam(p: string): (r: Param)
    ensures '=' !in p ==> r == Param("", p)
    ensures '=' in p ==> '=' !in r.key && r.key + "=" + r.value == p
  {
    var eq := IndexOf(p, '=');
    if eq < 0 then Param("", p)
    else
      assert p == p[..eq] + "=" + p[eq + 1..];
      Param(p[..eq], p[eq + 1..])
  }

  /** The parameters after the "magnet:?" prefix, split on '&'. */
  function MagnetParams(magnet: string): (r: seq<Param>)
    ensures |r| >= 1
  {
    ParamsOf(Split(JsSubstringFrom(magnet, 8), '&'))
  }

  function ParamsOf(parts: seq<string>): (r: seq<Param>)
    ensures |r| == |parts| && forall i :: 0 <= i < |parts| ==> r[i] == ParseParam(parts[i])
  {
    seq(|parts|, i requires 0 <= i < |parts| => ParseParam(parts[i]))
  }

  const BtihPrefix := "urn:btih:"

  predicate IsTrackerParam(p: Param) {
    p.key == "tr" && p.value != ""
  }

  datatype Magnet = Magnet(hash: string, trackers: seq<string>)

  /** The hash of the first `xt` parameter, lower-cased, when it is a
      BitTorrent info-hash URN; the non-empty `tr` values, decoded, in
      order. `decode` is percent-decoding. */
  function DecodeMagnetLink(magnet: string, decode: string -> string): (r: Magnet)
    ensures var params := MagnetParams(magnet);
      var k := FindIndex(params, (p: Param) => p.key == "xt");
      && (k < 0 ==> r.hash == "")
      && (k >= 0 && !StartsWith(params[k].value, BtihPrefix) ==> r.hash == "")
      && (k >= 0 && StartsWith(params[k].value, BtihPrefix) ==> r.hash == Lower(params[k].value[|BtihPrefix|..]))
    ensures var kept := Filter(MagnetParams(magnet), IsTrackerParam);
      |r.trackers| == |kept| && forall i :: 0 <= i < |kept| ==> r.trackers[i] == decode(kept[i].value)
  {
    DecodeParams(MagnetParams(magnet), decode)
  }

  function DecodeParams(params: seq<Param>, decode: string -> string): Magnet {
    var k := FindIndex(params, (p: Param) => p.key == "xt");
    var xt := if k < 0 then "" else params[k].value;
    var hash := if StartsWith(xt, BtihPrefix) then Lower(xt[|BtihPrefix|..]) else "";
    var kept := Filter(params, IsTrackerParam);
    Magnet(hash, DecodeValues(kept, decode))
  }

  function DecodeValues(params: seq<Param>, decode: string -> string): (r: seq<string>)
    ensures |r| == |params| && forall i :: 0 <= i < |params| ==> r[i] == decode(params[i].value)
  {
    seq(|params|, i requires 0 <= i < |params| => decode(params[i].value))
  }

  /** Splitting on a separator that no part holds gives the parts back. */
  lemma {:induction false} SplitJoin(parts: seq<string>, c: char)
    requires |parts| >= 1 && forall i :: 0 <= i < |parts| ==> c !in parts[i]
    ensures Split(Join(parts, [c]), c) == parts
  {
    if |parts| == 1 {
      SplitWithout(parts[0], c);
    } else {
      SplitJoin(parts[1..], c);
      var rest := Join(parts[1..], [c]);
      SplitPrefix(parts[0], rest, c);
      assert [parts[0]] + parts[1..] == parts;
    }
  }

  /** A separator-free prefix becomes the first piece. */
  lemma {:induction false} SplitPrefix(a: string, b: string, c: char)
    requires c !in a
    ensures Split(a + [c] + b, c) == [a] + Split(b, c)
  {
    if a == [] {
      assert a + [c] + b == [c] + b;
      SplitCons(c, b, c);
    } else {
      var t := a[1..] + [c] + b;
      SplitPrefix(a[1..], b, c);
      assert a + [c] + b == [a[0]] + t;
      SplitCons(a[0], t, c);
      assert [a[0]] + a[1..] == a;
    }
  }

  /** The magnet link of a lower-case info hash and its trackers. */
  function MagnetLink(hash: string, trackers: seq<string>, encode: string -> string): string {
    "magnet:?" + Join([BtihParam(hash)] + TrackerParams(trackers, encode), "&")
  }

  function BtihParam(hash: string): string {
    "xt" + "=" + (BtihPrefix + hash)
  }

  function TrackerParams(trackers: seq<string>, encode: string -> string): seq<string> {
    seq(|trackers|, i requires 0 <= i < |trackers| => "tr" + "=" + encode(trackers[i]))
  }

  /** A parameter whose key has no '=' parses to that key and value. */
  lemma ParseKeyed(key: string, value: string)
    requires '=' !in key
    ensures ParseParam(key + "=" + value) == Param(key, value)
  {
    var text := key + "=" + value;
    assert text[|key|] == '=';
    assert text[..|key|] == key && text[|key| + 1..] == value;
  }

  /** The '&'-separated pieces of a built magnet link. */
  lemma MagnetLinkParts(hash: string, trackers: seq<string>, encode: string -> string)
    requires '&' !in hash
    requires forall i :: 0 <= i < |trackers| ==> '&' !in encode(trackers[i])
    ensures Split(JsSubstringFrom(MagnetLink(hash, trackers, encode), 8), '&') ==
      [BtihParam(hash)] + TrackerParams(trackers, encode)
  {
    var parts := [BtihParam(hash)] + TrackerParams(trackers, encode);
    assert '&' !in BtihParam(hash);
    forall i | 0 <= i < |parts| ensures '&' !in parts[i] {
      if i > 0 { assert parts[i] == "tr" + "=" + encode(trackers[i - 1]); }
    }
    SplitJoin(parts, '&');
    var link := MagnetLink(hash, trackers, encode);
    assert link == "magnet:?" + Join(parts, "&");
    assert link[8..] == Join(parts, "&");
  }

  /** The tracker parameters of a built link parse back to their keys and
      encoded values. */
  lemma ParsedTrackerParams(trackers: seq<string>, encode: string -> string)
    ensures var ps := ParamsOf(TrackerParams(trackers, encode));
      |ps| == |trackers| && forall i :: 0 <= i < |ps| ==> ps[i] == Param("tr", encode(trackers[i]))
  {
    forall i | 0 <= i < |trackers| ensures ParseParam(TrackerParams(trackers, encode)[i]) == Param("tr", encode(trackers[i])) {
      ParseKeyed("tr", encode(trackers[i]));
    }
  }

  /** The parameters of a built magnet link are those of its pieces. */
  lemma MagnetLinkParams(hash: string, trackers: seq<string>, encode: string -> string)
    requires '&' !in hash
    requires forall i :: 0 <= i < |trackers| ==> '&' !in encode(trackers[i])
    ensures MagnetParams(MagnetLink(hash, trackers, encode)) == ParamsOf([BtihParam(hash)] + TrackerParams(trackers, encode))
  {
    MagnetLinkParts(hash, trackers, encode);
  }

  /** Those parameters are the hash and the encoded trackers. */
  lemma BuiltParams(hash: string, trackers: seq<string>, encode: string -> string)
    ensures var params := ParamsOf([BtihParam(hash)] + TrackerParams(trackers, encode));
      && |params| == |trackers| + 1
      && params[0] == Param("xt", BtihPrefix + hash)
      && forall i :: 0 <= i < |params[1..]| ==> params[1..][i] == Param("tr", encode(trackers[i]))
  {
    var tr := TrackerParams(trackers, encode);
    BtihParsed(hash);
    ParamsOfCons(BtihParam(hash), tr);
    ParsedTrackerParams(trackers, encode);
  }

  lemma BtihParsed(hash: string)
    ensures ParseParam(BtihParam(hash)) == Param("xt", BtihPrefix + hash)
  {
    ParseKeyed("xt", BtihPrefix + hash);
  }

  lemma ParamsOfCons(x: string, rest: seq<string>)
    ensures ParamsOf([x] + rest) == [ParseParam(x)] + ParamsOf(rest)
  {
    var l, r := ParamsOf([x] + rest), [ParseParam(x)] + ParamsOf(rest);
    forall i | 0 <= i < |l| ensures l[i] == r[i] {
      if i > 0 { assert ([x] + rest)[i] == rest[i - 1]; }
    }
  }

  /** Decoding a magnet link built from a lower-case hash and trackers whose
      encodings are non-empty, free of '&' and decode back gives the hash
      and the trackers. */
  lemma MagnetRoundTrip(hash: string, trackers: seq<string>, encode: string -> string, decode: string -> string)
    requires '&' !in hash && Lower(hash) == hash
    requires forall i :: 0 <= i < |trackers| ==>
      encode(trackers[i]) != "" && '&' !in encode(trackers[i]) && decode(encode(trackers[i])) == trackers[i]
    ensures DecodeMagnetLink(MagnetLink(hash, trackers, encode), decode) == Magnet(hash, trackers)
  {
    MagnetLinkParams(hash, trackers, encode);
    BuiltParams(hash, trackers, encode);
    DecodeBuiltParams(ParamsOf([BtihParam(hash)] + TrackerParams(trackers, encode)), hash, trackers, encode, decode);
  }

  lemma DecodeBuiltParams(params: seq<Param>, hash: string, trackers: seq<string>, encode: string -> string, decode: string -> string)
    requires Lower(hash) == hash
    requires forall i :: 0 <= i < |trackers| ==> encode(trackers[i]) != "" && decode(encode(trackers[i])) == trackers[i]
    requires |params| == |trackers| + 1 && params[0] == Param("xt", BtihPrefix + hash)
    requires forall i :: 0 <= i < |params[1..]| ==> params[1..][i] == Param("tr", encode(trackers[i]))
    ensures DecodeParams(params, decode) == Magnet(hash, trackers)
  {
    DecodedHash(params, hash, decode);
    DecodedTrackers(params, trackers, encode, decode);
  }

  lemma DecodedHash(params: seq<Param>, hash: string, decode: string -> string)
    requires Lower(hash) == hash
    requires params != [] && params[0] == Param("xt", BtihPrefix + hash)
    ensures DecodeParams(params, decode).hash == hash
  {
    assert FindIndex(params, (p: Param) => p.key == "xt") == 0;
    var xt := BtihPrefix + hash;
    assert xt[..|BtihPrefix|] == BtihPrefix && xt[|BtihPrefix|..] == hash;
  }

  lemma DecodedTrackers(params: seq<Param>, trackers: seq<string>, encode: string -> string, decode: string -> string)
    requires forall i :: 0 <= i < |trackers| ==> encode(trackers[i]) != "" && decode(encode(trackers[i])) == trackers[i]
    requires |params| == |trackers| + 1 && params[0].key == "xt"
    requires forall i :: 0 <= i < |params[1..]| ==> params[1..][i] == Param("tr", encode(trackers[i]))
    ensures DecodeParams(params, decode).trackers == trackers
  {
    var rest := params[1..];
    assert Filter(params, IsTrackerParam) == rest by {
      FilterAll(rest, IsTrackerParam);
      assert params == [params[0]] + rest;
    }
  }

  // ---------------------------------------------------------------------------
  // Announce tiers (BEP 12)

  /** Every tracker of a tier list. */
  function TrackerSet(tiers: seq<seq<string>>): set<string> {
    set k, j | 0 <= k < |tiers| && 0 <= j < |tiers[k]| :: tiers[k][j]
  }

  function Elements(tier: seq<string>): set<string> {
    set x | x in tier
  }

  lemma TrackerSetPush(tiers: seq<seq<string>>, tier: seq<string>)
    ensures TrackerSet(tiers + [tier]) == TrackerSet(tiers) + Elements(tier)
  {
    var all := tiers + [tier];
    forall x | x in Elements(tier) ensures x in TrackerSet(all) {
      var j :| 0 <= j < |tier| && tier[j] == x;
      assert all[|tiers|][j] == x;
    }
    forall x | x in TrackerSet(tiers) ensures x in TrackerSet(all) {
      var k, j :| 0 <= k < |tiers| && 0 <= j < |tiers[k]| && tiers[k][j] == x;
      assert all[k][j] == x;
    }
  }

  lemma TrackerSetExtend(tiers: seq<seq<string>>, k: nat, x: string)
    requires k < |tiers|
    ensures TrackerSet(tiers[k := tiers[k] + [x]]) == TrackerSet(tiers) + {x}
  {
    var all := tiers[k := tiers[k] + [x]];
    assert all[k][|tiers[k]|] == x;
    forall y | y in TrackerSet(tiers) ensures y in TrackerSet(all) {
      var a, b :| 0 <= a < |tiers| && 0 <= b < |tiers[a]| && tiers[a][b] == y;
      assert all[a][b] == y;
    }
  }

  /** Merges `newTrackers` into `current`: new tier i extends existing tier
      i with the trackers not yet present, and past the existing tiers it
      becomes a tier of its own when some of its trackers are not yet
      present. */
  method MergeTrackerLists(current: seq<seq<string>>, newTrackers: seq<seq<string>>)
    returns (merged: seq<seq<string>>)
    ensures |merged| >= |current|
    ensures forall k :: 0 <= k < |current| ==> current[k] <= merged[k]
    ensures forall k :: 0 <= k < |current| && k >= |newTrackers| ==> merged[k] == current[k]
    ensures forall k :: |current| <= k < |merged| ==> merged[k] != []
    ensures TrackerSet(merged) == TrackerSet(current) + TrackerSet(newTrackers)
    ensures forall k, j :: 0 <= k < |merged| && 0 <= j < |merged[k]| && (k >= |current| || j >= |current[k]|) ==>
      merged[k][j] !in TrackerSet(current)
    ensures forall k, j :: 0 <= k < |current| && |current[k]| <= j < |merged[k]| ==>
      k < |newTrackers| && merged[k][j] in newTrackers[k]
  {
    merged := current;
    var unique := TrackerSet(current);
    var i := 0;
    while i < |newTrackers|
      invariant 0 <= i <= |newTrackers|
      invariant unique == TrackerSet(merged)
      invariant MergedSoFar(current, newTrackers, i, merged)
    {
      merged, unique := MergeTier(current, newTrackers, i, merged, unique);
      i := i + 1;
    }
    assert newTrackers[..i] == newTrackers;
  }

  /** What the merge guarantees once the first `i` new tiers are merged. */
  ghost predicate MergedSoFar(current: seq<seq<string>>, newTrackers: seq<seq<string>>, i: nat, merged: seq<seq<string>>)
    requires i <= |newTrackers|
  {
    && TrackerSet(merged) == TrackerSet(current) + TrackerSet(newTrackers[..i])
    && |merged| >= |current| && (|merged| == |current| || |merged| <= i)
    && (forall k :: 0 <= k < |current| ==> current[k] <= merged[k])
    && (forall k :: 0 <= k < |current| && k >= i ==> merged[k] == current[k])
    && (forall k :: |current| <= k < |merged| ==> merged[k] != [])
    && (forall k, j :: 0 <= k < |merged| && 0 <= j < |merged[k]| && (k >= |current| || j >= |current[k]|) ==>
         merged[k][j] !in TrackerSet(current))
    && (forall k, j :: 0 <= k < |current| && |current[k]| <= j < |merged[k]| ==>
         k < i && merged[k][j] in newTrackers[k])
  }

  /** One turn of the outer loop: the new tier `i` merged in. */
  method MergeTier(current: seq<seq<string>>, newTrackers: seq<seq<string>>, i: nat,
                   merged0: seq<seq<string>>, unique0: set<string>)
    returns (merged: seq<seq<string>>, unique: set<string>)
    requires i < |newTrackers| && unique0 == TrackerSet(merged0)
    requires MergedSoFar(current, newTrackers, i, merged0)
    ensures unique == TrackerSet(merged)
    ensures MergedSoFar(current, newTrackers, i + 1, merged)
  {
    var tier := newTrackers[i];
    assert newTrackers[..i + 1] == newTrackers[..i] + [tier];
    TrackerSetPush(newTrackers[..i], tier);
    if i >= |merged0| {
      merged, unique := AddTier(merged0, unique0, tier);
      AddTierMerged(current, newTrackers, i, merged0, merged);
    } else {
      merged, unique := ExtendTier(merged0, unique0, i, tier, current);
      ExtendTierMerged(current, newTrackers, i, merged0, merged);
    }
  }

  lemma AddTierMerged(current: seq<seq<string>>, newTrackers: seq<seq<string>>, i: nat,
                      merged0: seq<seq<string>>, merged: seq<seq<string>>)
    requires |merged0| <= i < |newTrackers|
    requires MergedSoFar(current, newTrackers, i, merged0)
    requires TrackerSet(newTrackers[..i + 1]) == TrackerSet(newTrackers[..i]) + Elements(newTrackers[i])
    requires merged == merged0 || (|merged| == |merged0| + 1 && merged[..|merged0|] == merged0)
    requires |merged| == |merged0| + 1 ==> (
      && merged[|merged0|] != []
      && forall j :: 0 <= j < |merged[|merged0|]| ==> merged[|merged0|][j] in newTrackers[i] && merged[|merged0|][j] !in TrackerSet(merged0))
    requires TrackerSet(merged) == TrackerSet(merged0) + Elements(newTrackers[i])
    ensures MergedSoFar(current, newTrackers, i + 1, merged)
  {
    if merged != merged0 {
      forall k | 0 <= k < |merged0| ensures merged[k] == merged0[k] {
        assert merged[..|merged0|][k] == merged0[k];
      }
    }
  }

  lemma ExtendTierMerged(current: seq<seq<string>>, newTrackers: seq<seq<string>>, i: nat,
                         merged0: seq<seq<string>>, merged: seq<seq<string>>)
    requires i < |merged0| && i < |newTrackers|
    requires MergedSoFar(current, newTrackers, i, merged0)
    requires TrackerSet(newTrackers[..i + 1]) == TrackerSet(newTrackers[..i]) + Elements(newTrackers[i])
    requires |merged| == |merged0| && merged0[i] <= merged[i]
    requires forall k :: 0 <= k < |merged| && k != i ==> merged[k] == merged0[k]
    requires TrackerSet(merged) == TrackerSet(merged0) + Elements(newTrackers[i])
    requires forall j :: |merged0[i]| <= j < |merged[i]| ==> merged[i][j] in newTrackers[i] && merged[i][j] !in TrackerSet(merged0)
    ensures MergedSoFar(current, newTrackers, i + 1, merged)
  {
  }

  /** A new tier past the existing ones: its trackers not yet present, kept
      only when there are some. */
  method AddTier(merged0: seq<seq<string>>, unique0: set<string>, tier: seq<string>)
    returns (merged: seq<seq<string>>, unique: set<string>)
    requires unique0 == TrackerSet(merged0)
    ensures merged == merged0 || (|merged| == |merged0| + 1 && merged[..|merged0|] == merged0)
    ensures |merged| == |merged0| + 1 ==> (
      && merged[|merged0|] != []
      && forall j :: 0 <= j < |merged[|merged0|]| ==> merged[|merged0|][j] in tier && merged[|merged0|][j] !in unique0)
    ensures unique == TrackerSet(merged) == unique0 + Elements(tier)
  {
    var filtered := Filter(tier, (t: string) => t !in unique0);
    assert Elements(tier) <= unique0 + Elements(filtered);
    merged, unique := merged0, unique0;
    if |filtered| > 0 {
      TrackerSetPush(merged0, filtered);
      merged := merged0 + [filtered];
      assert merged[..|merged0|] == merged0;
      unique := unique0 + Elements(filtered);
    }
  }

  /** The inner step of the merge: appends to tier `i` every tracker of
      `tier` not yet present. */
  method ExtendTier(merged0: seq<seq<string>>, unique0: set<string>, i: nat, tier: seq<string>, current: seq<seq<string>>)
    returns (merged: seq<seq<string>>, unique: set<string>)
    requires i < |merged0| && unique0 == TrackerSet(merged0) && TrackerSet(current) <= unique0
    ensures |merged| == |merged0| && merged0[i] <= merged[i]
    ensures forall k :: 0 <= k < |merged| && k != i ==> merged[k] == merged0[k]
    ensures unique == TrackerSet(merged) == unique0 + Elements(tier)
    ensures forall j :: |merged0[i]| <= j < |merged[i]| ==> merged[i][j] in tier && merged[i][j] !in unique0
  {
    merged, unique := merged0, unique0;
    var j := 0;
    while j < |tier|
      invariant 0 <= j <= |tier|
      invariant |merged| == |merged0| && merged0[i] <= merged[i]
      invariant forall k :: 0 <= k < |merged| && k != i ==> merged[k] == merged0[k]
      invariant unique == TrackerSet(merged) == unique0 + Elements(tier[..j])
      invariant forall jj :: |merged0[i]| <= jj < |merged[i]| ==> merged[i][jj] in tier && merged[i][jj] !in unique0
    {
      var t := tier[j];
      assert Elements(tier[..j + 1]) == Elements(tier[..j]) + {t} by {
        assert tier[..j + 1] == tier[..j] + [t];
      }
      if t !in unique {
        TrackerSetExtend(merged, i, t);
        merged := merged[i := merged[i] + [t]];
        unique := unique + {t};
      }
      j := j + 1;
    }
    assert tier[..j] == tier;
  }

  // ---------------------------------------------------------------------------
  // File-system-safe names

  /** Characters that are not allowed in a file name on some system. */
  predicate BadChar(c: char) {
    c in "<>:\"\\/|?*"
  }

  /** Every bad character replaced by '_'. */
  function FileSystemSafeName(name: string): (r: string)
    ensures |r| == |name|
    ensures forall i :: 0 <= i < |name| ==> r[i] == (if BadChar(name[i]) then '_' else name[i])
    ensures forall i :: 0 <= i < |r| ==> !BadChar(r[i])
  {
    if name == [] then [] else [if BadChar(name[0]) then '_' else name[0]] + FileSystemSafeName(name[1..])
  }

  lemma FileSystemSafeNameIdempotent(name: string)
    ensures FileSystemSafeName(FileSystemSafeName(name)) == FileSystemSafeName(name)
  {
  }

  // ---------------------------------------------------------------------------
  // Coarse duration

  datatype Duration = Duration(days: int, hours: int, minutes: int, seconds: int)

  /** The parts of a whole number of seconds, with JavaScript's floor and
      remainder. */
  function Parts(value: int): Duration {
    Duration(value / 86400, JsRem(value / 3600, 24), JsRem(value / 60, 60), JsRem(value, 60))
  }

  /** Ten days or more keep only the days; some days keep days and hours;
      some hours drop the seconds. */
  function Coarse(d: Duration): Duration {
    if d.days >= 10 then Duration(d.days, 0, 0, 0)
    else if d.days > 0 then Duration(d.days, d.hours, 0, 0)
    else if d.hours > 0 then d.(seconds := 0)
    else d
  }

  function Unit(n: int, unit: string): string {
    if n > 0 then IntToString(n) + unit else ""
  }

  function Spaced(s: string, t: string): string {
    if s == "" then t else if t == "" then s else s + " " + t
  }

  function Render(d: Duration): string {
    Spaced(Spaced(Spaced(Unit(d.days, "d"), Unit(d.hours, "hr")), Unit(d.minutes, "min")), Unit(d.seconds, "s"))
  }

  function SecondsToHumanReadableStr(value: int): string {
    Render(Coarse(Parts(value)))
  }

  /** Ten days or more: only the days. */
  lemma DurationTenDays(value: int)
    requires value >= 864000
    ensures SecondsToHumanReadableStr(value) == IntToString(value / 86400) + "d"
  {
    var p := Parts(value);
    assert p.days >= 10;
    assert Coarse(p) == Duration(p.days, 0, 0, 0);
    assert Unit(0, "hr") == "" && Unit(0, "min") == "" && Unit(0, "s") == "";
    assert Unit(p.days, "d") == IntToString(value / 86400) + "d";
  }

  /** One to nine days: the days and the hours, nothing finer. */
  lemma DurationDays(value: int)
    requires 86400 <= value < 864000
    ensures SecondsToHumanReadableStr(value) ==
      IntToString(value / 86400) + "d" + (if value / 3600 % 24 > 0 then " " + IntToString(value / 3600 % 24) + "hr" else "")
  {
  }

  /** Under a day but at least an hour: hours and minutes, no seconds. */
  lemma DurationHours(value: int)
    requires 3600 <= value < 86400
    ensures SecondsToHumanReadableStr(value) ==
      IntToString(value / 3600) + "hr" + (if value / 60 % 60 > 0 then " " + IntToString(value / 60 % 60) + "min" else "")
  {
    var h, m := value / 3600, value / 60 % 60;
    assert value / 86400 == 0 && 1 <= h < 24;
    assert Coarse(Parts(value)) == Duration(0, h, m, 0);
  }

  /** Under an hour: minutes and seconds; nothing at all for zero. */
  lemma DurationMinutes(value: int)
    requires 0 <= value < 3600
    ensures SecondsToHumanReadableStr(value) == Spaced(Unit(value / 60, "min"), Unit(value % 60, "s"))
    ensures value == 0 ==> SecondsToHumanReadableStr(value) == ""
  {
    assert value / 86400 == 0 && value / 3600 == 0 && value / 60 < 60;
    assert Coarse(Parts(value)) == Duration(0, 0, value / 60, value % 60);
  }

  // ---------------------------------------------------------------------------
  // Progress-bar style

  /** What the style reads of a torrent; `error` is absent when the torrent
      has no such field. */
  datatype TorrentState = TorrentState(
    rateDownload: int, rateUpload: int, error: Option<int>, cachedError: string,
    status: int, sizeWhenDone: int, leftUntilDone: int)

  datatype Variant = Default | Red | DarkGreen | Yellow | Green | Grey

  datatype ProgressbarStyle = ProgressbarStyle(animate: bool, variant: Variant)

  predicate HasError(t: TorrentState) {
    (t.error.Some? && t.error.value > 0) || t.cachedError != ""
  }

  predicate IsQueued(status: int) {
    status == StatusQueuedToVerify || status == StatusQueuedToDownload || status == StatusQueuedToSeed
  }

  function TorrentProgressbarStyle(t: TorrentState, animated: bool, colorful: bool): (s: ProgressbarStyle)
    ensures s.animate <==> animated && (t.rateDownload > 0 || t.rateUpload > 0)
    ensures s.variant == Red <==> colorful && HasError(t)
    ensures s.variant in {DarkGreen, Yellow} <==>
      colorful && !HasError(t) && t.status == StatusStopped && t.sizeWhenDone > 0
    ensures s.variant == DarkGreen ==> t.leftUntilDone == 0
    ensures s.variant == Yellow ==> t.leftUntilDone != 0
    ensures s.variant == Green <==> colorful && !HasError(t) && t.status == StatusSeeding
    ensures s.variant == Grey <==> colorful && !HasError(t) && IsQueued(t.status)
    ensures s.variant == Default <==>
      !colorful || (!HasError(t) && !(t.status == StatusStopped && t.sizeWhenDone > 0) &&
                    t.status != StatusSeeding && !IsQueued(t.status))
  {
    var animate := animated && (t.rateDownload > 0 || t.rateUpload > 0);
    var variant :=
      if !colorful then Default
      else if HasError(t) then Red
      else if t.status == StatusStopped && t.sizeWhenDone > 0 then (if t.leftUntilDone == 0 then DarkGreen else Yellow)
      else if t.status == StatusSeeding then Green
      else if IsQueued(t.status) then Grey
      else Default;
    ProgressbarStyle(animate, variant)
  }
}

=== FILE: util.dfy ===
/** The older copy of the path helpers, whose normalisation also ignores
    letter case on Windows drive paths. Its delimiter, swap and reorder
    helpers are the same as in `TrUtil` and are not repeated here. */
module Util {
  import opened Common
  import TrUtil

  predicate IsAsciiLetter(c: char) {
    'a' <= c <= 'z' || 'A' <= c <= 'Z'
  }

  /** A path beginning with a drive letter, a colon and a slash. */
  predicate HasDrivePrefix(p: string) {
    |p| >= 3 && IsAsciiLetter(p[0]) && p[1] == ':' && p[2] == '/'
  }

  /** Backslashes become slashes; a drive path is then lower-cased as a
      whole. */
  function NormalizePath(path: string): (r: string)
    ensures |r| == |path| && '\\' !in r
    ensures HasDrivePrefix(r) <==> HasDrivePrefix(TrUtil.NormalizePath(path))
    ensures HasDrivePrefix(r) ==> Lower(r) == r && Lower(TrUtil.NormalizePath(path)) == r
    ensures !HasDrivePrefix(r) ==> r == TrUtil.NormalizePath(path)
  {
    var p := TrUtil.NormalizePath(path);
    if HasDrivePrefix(p) then LowerIdempotent(p); Lower(p) else p
  }

  lemma NormalizePathIdempotent(path: string)
    ensures NormalizePath(NormalizePath(path)) == NormalizePath(path)
  {
    var r := NormalizePath(path);
    assert TrUtil.NormalizePath(r) == r;
  }

  /** Two drive paths that differ only in letter case normalise alike. */
  lemma NormalizeDriveIgnoresCase(a: string, b: string)
    requires HasDrivePrefix(TrUtil.NormalizePath(a)) && HasDrivePrefix(TrUtil.NormalizePath(b))
    requires Lower(a) == Lower(b)
    ensures NormalizePath(a) == NormalizePath(b)
  {
    var na, nb := TrUtil.NormalizePath(a), TrUtil.NormalizePath(b);
    assert |a| == |b| by {
      assert |Lower(a)| == |a| && |Lower(b)| == |b|;
    }
    forall i | 0 <= i < |a| ensures LowerChar(na[i]) == LowerChar(nb[i]) {
      assert LowerChar(a[i]) == Lower(a)[i] == Lower(b)[i] == LowerChar(b[i]);
    }
    assert Lower(na) == Lower(nb);
  }

  /** On a drive path, a mapping whose drive prefix matches up to letter
      case applies. */
  lemma DriveMappingIgnoresCase(path: string, m: TrUtil.PathMapping, toServer: bool)
    requires HasDrivePrefix(TrUtil.NormalizePath(path))
    requires HasDrivePrefix(TrUtil.NormalizePath(TrUtil.MappingKey(m, toServer)))
    requires StartsWith(Lower(TrUtil.NormalizePath(path)), Lower(TrUtil.NormalizePath(TrUtil.MappingKey(m, toServer))))
    ensures TrUtil.Applies(m, NormalizePath(path), NormalizePath, toServer)
  {
  }

  method PathMapFromServer(path: string, mappings: seq<TrUtil.PathMapping>) returns (mapped: string)
    ensures mapped == TrUtil.MappedPath(path, mappings, NormalizePath, false)
  {
    mapped := TrUtil.MapPath(path, mappings, NormalizePath, false);
  }

  method PathMapToServer(path: string, mappings: seq<TrUtil.PathMapping>) returns (mapped: string)
    ensures mapped == TrUtil.MappedPath(path, mappings, NormalizePath, true)
  {
    mapped := TrUtil.MapPath(path, mappings, NormalizePath, true);
  }

  /** With a single mapping between two drive paths, a server path under
      `from` (as typed, or differing only in letter case) maps to the
      client and back to `from` followed by the rest of the path. */
  lemma DrivePathMapRoundTrip(path: string, m: TrUtil.PathMapping)
    requires HasDrivePrefix(m.from) && HasDrivePrefix(m.to) && StartsWith(path, m.from)
    ensures var client := TrUtil.MappedPath(path, [m], NormalizePath, false);
      TrUtil.MappedPath(client, [m], NormalizePath, true) == path
  {
    var rest := path[|m.from|..];
    assert path == m.from + rest;
    DriveKeyMaps(m, rest, false);
    DriveKeyMaps(m, rest, true);
  }

  /** A path made of a drive-path key and a rest maps to the key's target
      followed by the same rest. */
  lemma DriveKeyMaps(m: TrUtil.PathMapping, rest: string, toServer: bool)
    requires HasDrivePrefix(TrUtil.MappingKey(m, toServer))
    ensures var key := TrUtil.MappingKey(m, toServer);
      TrUtil.MappedPath(key + rest, [m], NormalizePath, toServer) == TrUtil.MappingTarget(m, toServer) + rest
  {
    var key := TrUtil.MappingKey(m, toServer);
    TrUtil.ReplaceAllAppend(key, rest, '\\', '/');
    LowerAppend(TrUtil.NormalizePath(key), TrUtil.NormalizePath(rest));
    assert TrUtil.NormalizePath(key)[..3] == key[..3];
    assert TrUtil.Applies(m, NormalizePath(key + rest), NormalizePath, toServer);
    assert JsSubstringFrom(key + rest, |key|) == rest;
  }
}
